=== FILE: README.md ===
# axesscleaner core in Dafny

axesscleaner rewrites a LaTeX source so that a screen reader can read it. It
has three steps:

1. Comments are stripped.
2. The macros defined in the preamble are expanded inside the document body.
3. The `$`/`$$` delimiters of formulas are replaced by `\(`/`\)` and `\[`/`\]`.

This project models the string logic of those steps as pure functions over
`seq<char>`, and proves what the source code promises about them. It covers
two generations of the code.

**The converged implementation, `src/Py/modules.py`:**
- `strip_comments`, a lexer with six states: module `CommentStripper`.
- The definition-line regexes, as hand-written backtracking recognisers that
  are proved equal to `re.search`: module `Definitions`.
- The `Macro` class, `parse_macro_structure`, `gather_macro` and the `Text`
  helpers: module `Macros`.
- The balanced-separator argument scanner of `multi_substitution_regexp`:
  module `Arguments`.
- `multi_substitution_regexp`, `recursive_expansion`, `do_inline_sub` and
  `remove_multiline_macros`: module `Expansion`.
- The `Dollars` frame stack, `env_management`, `search_for_environments`,
  `replace_dls_with_symbol`, `count_symbols_in_string` and `remove_dls_new`:
  module `DollarScan`.
- `remove_inline_dls`, `remove_dollars_from_text_env` and `remove_dls`:
  module `InlineDollars`.
- The string path of `remove_macro`: module `Document`.

**The older static classes in `src/Py/Axesscleaner/` (the command line uses
these):**
- `Macro.py`: module `LegacyMacro`. It covers `parse_macro_structure`,
  `gather_macro`, `enrich_regexp`, `get_expanded_macro`,
  `recursive_expansion`, `multi_substitution_regexp` and the string path of
  `remove_macro`. Its `strip_comments` is the same lexer as in `modules.py`,
  so `CommentStripper` models both.
- `Text.py`: module `LegacyText`. It covers the per-line parity rewriter
  (`find_open_dls`, `search_for_environments`, `remove_sparse_dl`,
  `remove_sparse_ddl`, `remove_dollars_from_text_env` and `remove_dls`).
  Its `count_symbols_in_string` and `remove_inline_dls` are the same code as
  in `modules.py`, and are modelled once in `DollarScan` and `InlineDollars`.

**Shared modules:**
- `Wrappers`: `Option` and `Result`.
- `Strings`: character classes, `split`/`join`, `str.replace`, `str.find`,
  subsequences and backslash escaping.

**How the source's conventions are modelled:**
- Python exceptions become `Result` errors. Examples are an unsupported
  symbol, a frame popped from an empty stack, or an expansion that never
  ends.
- Python's negative list indexing is modelled (`DollarScan.PyIndex`).
- The interpreter's recursion limit is a `fuel` parameter.
- Mutable instance state (the macro registry and the dollar frame stack) is
  a value that is passed in and returned.

## Model

| member | source | states |
|---|---|---|
| CommentStripper.StripIsSubsequence | src/Py/modules.py:184-303 | From any lexer state, every rule either emits the text it matched unchanged or drops it, so the output is a subsequence of the input |
| CommentStripper.StripCommentsShrinks | src/Py/modules.py:150-307 | `strip_comments` never adds or reorders characters: its result is a subsequence of the source, and no longer |
| CommentStripper.StripComments | src/Py/modules.py:150-307 | The lexer run from its initial state over the whole source. `StripIsSubsequence` and `StripCommentsShrinks` carry its contract: it only deletes characters. The rows below state what each rule keeps or drops |
| CommentStripper.EscapesPassThrough | src/Py/modules.py:184-203 | `\\` and `\%` are emitted unchanged and leave the lexer in its initial state |
| CommentStripper.PlainTextPassesThrough | src/Py/modules.py:216-223 | Text without backslash or percent sign passes through the initial state unchanged |
| CommentStripper.LoneBackslash | src/Py/modules.py:216-218 | A backslash that starts no escape and no marker is emitted by itself |
| CommentStripper.PercentDropsRestOfLine | src/Py/Axesscleaner/Macro.py:56-60 | A bare `%` drops itself and the rest of its line, keeps the newline, and returns to the initial state |
| CommentStripper.LineCommentRest | src/Py/modules.py:255-265 | In the line-comment state everything before the newline is dropped and the newline is kept |
| CommentStripper.LineCommentToEnd | src/Py/modules.py:263-265 | A line comment that no newline ends swallows the rest of the input |
| CommentStripper.TextThenComment | src/Py/modules.py:195-223 | Plain text, a `%` comment and more plain text: only the comment's text vanishes |
| CommentStripper.BeginCommentToken | src/Py/modules.py:205-208 | `\begin{comment}` is one dropped token that enters the comment-environment state |
| CommentStripper.CommentEnvironmentVanishes | src/Py/modules.py:225-265 | `\begin{comment}` up to `\end{comment}`, and the rest of the closing line, are dropped; the newline that ends the closing line is kept |
| CommentStripper.CommentMarkerAcrossLines | src/Py/modules.py:205-208 | The blanks between `\begin` and `{comment}` may include newlines and still open a comment environment |
| CommentStripper.VerbatimEnds | src/Py/modules.py:240-244 | The verbatim state stops at `\end{verbatim}`, emits the marker and hands the rest to the initial state |
| CommentStripper.VerbatimPassesThrough | src/Py/modules.py:210-253 | Verbatim contents are emitted unchanged up to and including the first `\end{verbatim}` |
| CommentStripper.MakeatPercentKept | src/Py/Axesscleaner/Macro.py:143-153 | Inside `\makeatletter` a `%` is kept, the rest of its line dropped, and the newline kept |
| CommentStripper.MakeatLineRest | src/Py/modules.py:287-303 | The `makeatlinecomment` state has only a newline rule: the other characters go through the error rule that skips them, and the newline is kept |
| CommentStripper.NotIdempotent | src/Py/modules.py:205-208 | Stripping twice can differ from stripping once: `\begin %x⏎{comment}` strips to `\begin ⏎{comment}`, which a second pass removes |
| Definitions.SearchIsRegexSearch | src/Py/modules.py:478-479 | The recogniser is `re.search` for both definition patterns. Any match it returns satisfies every group. It finds a match whenever one exists, at the leftmost start. Its body runs to the last closer of the line (greedy `.*` before the lookahead) |
| Definitions.RenderSearch | src/Py/Axesscleaner/Macro.py:307-308 | A definition in the usual `\cmd{\name}[d]{body}` shape is matched at its start, group by group as written |
| Definitions.CleanBodyDeletes | src/Py/modules.py:481-488 | The backslash cleanup of a body only deletes characters |
| Definitions.CleanBodyKeepsOnlyGuarded | src/Py/Axesscleaner/Macro.py:310-317 | Every backslash the cleanup keeps is followed by a character of the negative lookahead |
| Definitions.CleanBodyPlain | src/Py/modules.py:481-488 | A body without backslashes is left as it is |
| Definitions.Search | src/Py/modules.py:478-479 | `re.search` of a dialect's definition pattern. `SearchIsRegexSearch` proves it finds the leftmost match whenever one exists, and `RenderSearch` that it reads a rendered definition back group by group |
| Definitions.CleanBody | src/Py/modules.py:481-488 | The backslash cleanup of a body. It only deletes characters (`CleanBodyDeletes`), keeps a backslash only before a lookahead character (`CleanBodyKeepsOnlyGuarded`), and leaves a body without backslashes as it is (`CleanBodyPlain`) |
| Macros.Enhance | src/Py/modules.py:117-122 | Only a `DeclareMathOperator` body changes, and it becomes exactly `\operatorname{` + body + `}` |
| Macros.ParseMacro | src/Py/modules.py:470-492 | A macro is returned exactly when the definition pattern matches somewhere in the line. It is well formed (a name of a backslash and letters, an arity digit), and its name occurs in the line |
| Macros.ParseFound | src/Py/modules.py:479-490 | The macro returned is the one read off the match the search finds |
| Macros.ParseRendered | src/Py/modules.py:478-489 | A rendered definition parses back to its command, name, separators and arity, with the cleaned (and, for operators, wrapped) body |
| Macros.ParseWeird | src/Py/modules.py:482-489 | `\newcommand{\weird}[3]{#1 and #2 and #3}` gives type `newcommand`, name `\weird`, separators `{`/`}`, arity `3` and the body as written |
| Macros.ParseOperator | src/Py/modules.py:85-122 | A `\DeclareMathOperator` body comes back wrapped in `\operatorname{...}` |
| Macros.AddThenFind | src/Py/modules.py:998-1017 | After `add_axessibility`, a line that opens the document is recognised by `find_axessibility` |
| Macros.AddAxessibilityAbsent | src/Py/modules.py:1011-1017 | A line without `\begin{document}` is left unchanged |
| Macros.PreambleLength | src/Py/modules.py:321-330 | The scan stops at the first line holding `egin{document}`: no earlier line holds it, and that line does |
| Macros.AnySnoc | src/Py/modules.py:338-340 | Scanning one more line sets the package flag iff that line or an earlier one loads the package |
| Macros.Gather | src/Py/modules.py:309-345 | The registry gains the well-formed macros parsed from the preamble lines, in line order, after the existing ones. The flag is set iff it was set before or a preamble line loads the package |
| Macros.FindAxessibility | src/Py/modules.py:998-1009 | `re.search('sepackage( |){axessibility}')`: the package is loaded with or without the blank. `AddThenFind` connects it to `AddAxessibility` |
| Macros.AddAxessibility | src/Py/modules.py:1011-1017 | Every `\begin{document}` gets the package line before it, by `AddThenFind` and `AddAxessibilityAbsent` |
| Macros.ParsedAllWellFormed | src/Py/modules.py:333-337 | Every macro the gathering appends is well formed |
| Arguments.Step | src/Py/modules.py:554-615 | Each turn of the scanner loop moves the cursor forward and finishes at most one argument |
| Arguments.Run | src/Py/modules.py:554 | The scan never collects more arguments than asked for. It stops at the end of the text or with all of them, and only appends to what was collected |
| Arguments.OpenAtParity | src/Py/modules.py:558-562 | An opening separator read outside every group opens one and is not copied |
| Arguments.OpenNested | src/Py/modules.py:577-581 | An opening separator read inside a group is copied and counted |
| Arguments.CloseFinishes | src/Py/modules.py:584-589 | A closing separator that balances the counters finishes the argument without being copied |
| Arguments.EscapeIsUnit | src/Py/modules.py:594-606 | A backslash is copied with its maximal letter run (or the one character after it) and never counts as a separator |
| Arguments.PlainInside | src/Py/modules.py:607-614 | An ordinary character inside a group is copied |
| Arguments.SingleToken | src/Py/modules.py:607-614 | An ordinary character outside every group is an argument by itself |
| Arguments.ScanRoundTrip | src/Py/modules.py:554-615 | Scanning separator-wrapped balanced arguments (nested groups and backslash units allowed) followed by any text gives back exactly those arguments and stops right after them. This covers equal separators (`#`/`#`) as well as `{`/`}` |
| Arguments.SameSeparators | src/Py/modules.py:558-591 | With one character as both separators, every separator outside a group opens one, so an argument is balanced iff it holds no separator outside its backslash units |
| Arguments.SameSeparatorGroups | src/Py/modules.py:558-606 | With `#` as both separators, `#a##\#b# x` yields the arguments `a` and `\#b` and leaves ` x` |
| Arguments.BalancedExamples | src/Py/modules.py:577-606 | A nested group `{y}` and an escaped closer `a\}b` are balanced arguments |
| Arguments.BalancedCommand | src/Py/modules.py:594-606 | `\frac{1}{2}` is a balanced argument: the backslash takes the whole command name |
| Arguments.UnbalancedExamples | src/Py/modules.py:584-606 | A stray closer `a}` and a trailing backslash (which would swallow the closing separator) are not balanced |
| Arguments.BlankBetweenGroups | src/Py/modules.py:610-614 | `{a} {b}` with two inputs reads `a` and the blank between the groups as the arguments |
| Arguments.NestedGroup | src/Py/modules.py:577-591 | `{{y}}` yields the argument `{y}` |
| Arguments.EscapedSeparator | src/Py/modules.py:594-606 | `{a\}b} x` yields the argument `a\}b` and leaves ` x`: the escaped brace does not close the group |
| Arguments.TokenArguments | src/Py/Axesscleaner/Macro.py:463-470 | Without braces each character is an argument, as in `\frac12` |
| Arguments.FillNoMarks | src/Py/modules.py:624-625 | A replacement without `#` is left as it is by the placeholder filling |
| Expansion.Unresolved | src/Py/modules.py:635 | The failure text starts with the sentinel `\@@$$@@!!` |
| Expansion.MultiSub | src/Py/modules.py:528-635 | The argument scan and placeholder filling of `multi_substitution_regexp`. `MultiSubRoundTrip` proves that balanced arguments are found and the body filled; `MultiSubAtEnd` and `MultiSubNoArguments` state the edge cases |
| Expansion.MultiSubRoundTrip | src/Py/modules.py:617-633 | Balanced arguments (nested groups and backslash units allowed) written between the macro's separators, `{`/`}` or `#`/`#`, are found: the result is the body with `#j` filled by argument j, followed by the rest of the text |
| Expansion.MultiSubAtEnd | src/Py/modules.py:621-635 | With no text left to read, a macro that needs arguments stays unresolved (sentinel name) |
| Expansion.MultiSubNoArguments | src/Py/modules.py:554-633 | A macro declared with zero arguments gives its body followed by the whole text |
| Expansion.GuardedReplace | src/Py/modules.py:113-114 | `re.sub` of the pattern `\name(?![a-zA-Z])`, by `GuardedReplaceNone`, `GuardedReplaceOnce` and `GuardedReplaceClean` below |
| Expansion.GuardedReplaceNone | src/Py/modules.py:113-114 | Without a use of the name that no letter follows, the replacement changes nothing |
| Expansion.GuardedReplaceOnce | src/Py/modules.py:113-114 | A single use, with no backslash around it and no letter after it, is replaced in place and the text around it kept |
| Expansion.GuardedReplaceClean | src/Py/modules.py:113-114 | A replacement that holds no guarded use and starts with no letter leaves no guarded use behind, neither an old one nor one formed at a seam |
| Expansion.Apply | src/Py/modules.py:506-517 | One macro applied to a line, by `ApplyAbsent`, `ApplyMulti`, `ApplyWithArguments` and `EarlierEntryWins` |
| Expansion.ApplyAbsent | src/Py/modules.py:507-509 | A macro whose name does not occur leaves the line alone |
| Expansion.ApplyMulti | src/Py/modules.py:511-513 | For a macro with arguments, the blanks after the name are skipped and the rest of the line goes to the argument scan; the text before the name is kept |
| Expansion.Pass | src/Py/modules.py:506-517 | One turn over the registry in order, by `PassUnmentioned`, `PassSingle` and `EarlierEntryPass` |
| Expansion.PassUnmentioned | src/Py/modules.py:506-509 | A line in which no registered name occurs comes back from a pass unchanged |
| Expansion.PassSingle | src/Py/modules.py:506-517 | A pass over a registry of one macro is that macro's application |
| Expansion.Fix | src/Py/modules.py:520-525 | Whatever the pass, a result of the loop satisfies the stopping test |
| Expansion.Expand | src/Py/modules.py:494-525 | When the expansion returns, no registered name occurs in the result |
| Expansion.ExpandUnmentioned | src/Py/modules.py:506-509 | A line in which no registered name occurs comes back unchanged |
| Expansion.ExpandMoreFuel | src/Py/modules.py:520-522 | A result found within some recursion depth is the result at any larger depth |
| Expansion.ExpandStuck | src/Py/modules.py:520-522 | A line that a pass leaves unchanged while a name still occurs never converges |
| Expansion.FourierNeverConverges | src/Py/modules.py:507-522 | With `\F` registered, `\Fourier` never converges: the name occurs, but the guarded regex never matches it |
| Expansion.EarlierEntryWins | src/Py/modules.py:506-517 | For two entries without arguments under one name, applying the later entry after the earlier one changes nothing, on every line, when the earlier replacement neither holds the guarded name nor starts with a letter |
| Expansion.EarlierEntryPass | src/Py/modules.py:506-517 | For two entries without arguments under one name, under the same conditions, a pass over both entries equals a pass over the earlier one alone |
| Expansion.LetterFrontCompletesName | src/Py/modules.py:506-517 | A replacement that starts with a letter can complete a new use of the name (`x\\F ` with `\F` to `F`), which the later entry then rewrites |
| Expansion.LaterEntryTakesSecondUse | src/Py/modules.py:506-517 | For two entries with one argument under one name, a pass over the earlier entry alone rewrites only the first use in `\F{x} \F{y}`, while a pass over both lets the later entry expand the second use with its own body |
| Expansion.LaterEntryExample | src/Py/modules.py:506-517 | With bodies `a#1` and `b#1` under `\F`, both registered, one pass turns `\F{x} \F{y}` into `ax by` |
| Expansion.DuplicateExpandsOnce | src/Py/modules.py:494-525 | One use of a duplicated name in a line without backslashes expands to the earlier entry's backslash-free replacement |
| Expansion.ExpandWithArguments | src/Py/modules.py:511-517 | A line using one macro with balanced braced arguments expands to the filled body followed by the rest of the line |
| Expansion.InlineSub | src/Py/modules.py:428-436 | A result exists iff the expansion ends. It is the expansion with the control characters deleted, and holds none of them |
| Expansion.InlineSubPlain | src/Py/modules.py:428-433 | A line with no registered name and no control character is returned unchanged |
| Expansion.Collapse | src/Py/modules.py:464 | `(?<!\\)\\ ` replaced by a space: the text never grows. `CollapseExamples` shows both sides of the lookbehind |
| Expansion.CollapseExamples | src/Py/modules.py:464 | `\ ` collapses to a space; a `\\ ` (escaped backslash) does not |
| Expansion.JoinOnSplitOn | src/Py/modules.py:465 | Joining the pieces of a split at a separator restores the text |
| Expansion.MultiLine | src/Py/modules.py:438-467 | `remove_multiline_macros`, by `MultiLineIdentity`, `UnresolvedDropped` and `ParsingNeverResets` below |
| Expansion.MultiLineIdentity | src/Py/modules.py:438-467 | Without the sentinel anywhere, `remove_multiline_macros` returns its input |
| Expansion.UnresolvedDropped | src/Py/modules.py:457-467 | A last line whose expansion still holds the sentinel is never emitted |
| Expansion.ParsingNeverResets | src/Py/modules.py:440-456 | The parsing flag is never reset: the same line is emitted as it is before any sentinel, and with its escaped space collapsed after one |
| Strings.DropControl | src/Py/modules.py:430-433 | The result holds no control character and is a subsequence of the input. A text without control characters is unchanged |
| DollarScan.Open | src/Py/modules.py:801-804 | Opening a frame keeps both stacks of length `newEnv+1` and every counter in {0,1} |
| DollarScan.Close | src/Py/modules.py:805-808 | Closing succeeds iff there is a current frame. It drops exactly that frame from both stacks and keeps their lengths at `newEnv+1` |
| DollarScan.CloseOpen | src/Py/modules.py:794-808 | Closing an environment just opened restores the state |
| DollarScan.SearchEnv | src/Py/modules.py:768-792 | When no environment token is found, the state is unchanged; the token never reaches past the text |
| DollarScan.SearchEnvKeeps | src/Py/modules.py:768-808 | Opening or closing environments keeps the stacks of length `newEnv+1` and the counters in {0,1} |
| DollarScan.CloseOutermost | src/Py/modules.py:788-790 | `\end{tabular}` with only the outermost frame drops it |
| DollarScan.CloseTwice | src/Py/modules.py:801-808 | A further closing token with no frame left is an error |
| DollarScan.ReplaceSingle | src/Py/modules.py:917-926 | A single `$` becomes `\(` when its counter is 0 and `\)` otherwise. Only that counter flips |
| DollarScan.ReplaceDouble | src/Py/modules.py:905-916 | `$$` becomes `\[` when its counter is 0 and `\]` otherwise. Only that counter flips |
| DollarScan.ReplaceKeeps | src/Py/modules.py:905-926 | A rewrite keeps the stacks valid and the counters in {0,1} |
| DollarScan.CountSymbols | src/Py/Axesscleaner/Text.py:109-124 | `$` counts the runs of `$` and `$$` the non-overlapping pairs; any other symbol is an error |
| DollarScan.DollarRuns | src/Py/modules.py:745-746 | The `$` not preceded by a `$` are at most all `$`, and there are none exactly when the text has no `$` |
| DollarScan.DoublePairs | src/Py/modules.py:748-749 | Each pair takes two `$`, and there are none exactly when no two `$` are adjacent |
| DollarScan.RemoveDlsNew | src/Py/modules.py:882-903 | `remove_dls_new` on the whole string, by `RemoveDlsNewRewrites`, `ScanKeeps`, `ScanNewlines` and `ClosingDollarMissed` |
| DollarScan.ScanFrom | src/Py/modules.py:888-902 | The loop from a cursor, with the length fixed before it starts, by `ScanKeeps`, `ScanNewlines` and `ScanRewrites` |
| DollarScan.ReplaceSymbol | src/Py/modules.py:905-926 | `replace_dls_with_symbol`: a success lengthens the text by one for a single `$` and keeps its length for `$$`. `ReplaceSingle`, `ReplaceDouble` and `ReplaceKeeps` give the brackets, the counters and validity |
| DollarScan.ScanKeeps | src/Py/modules.py:882-903 | However `remove_dls_new` ends, every frame holds counters in {0,1} and the stacks stay valid |
| DollarScan.ScanNewlines | src/Py/modules.py:888-902 | The scan neither inserts nor removes a newline |
| DollarScan.ScanRewrites | src/Py/modules.py:888-902 | The scan of a stretch, followed by an inert tail long enough to absorb the growth, equals the reference rewrite `Rewrite` |
| DollarScan.RemoveDlsNewRewrites | src/Py/modules.py:882-903 | On such a text, `remove_dls_new` is the reference rewrite, and the current frame's counters end where the rewrite leaves them |
| DollarScan.Rewrite | src/Py/modules.py:905-926 | The reference rewrite: each `$$` and `$`, left to right, becomes the bracket its counter selects, and the text never shrinks. `RewriteNoDollar`, `RewriteLength`, `RewriteDoubleCounter` and `RewriteSingleCounter` state the rest |
| DollarScan.RewriteNoDollar | src/Py/modules.py:905-926 | The reference rewrite leaves no `$` |
| DollarScan.RewriteLength | src/Py/modules.py:917-926 | The text grows by one per single `$` and keeps its length at every `$$` |
| DollarScan.RewriteDoubleCounter | src/Py/modules.py:905-916 | The `$$` counter flips once per pair: successive pairs alternate `\[`, `\]` from the opener |
| DollarScan.RewriteSingleCounter | src/Py/modules.py:917-926 | The `$` counter flips once per single `$`: successive ones alternate `\(`, `\)` from the opener |
| DollarScan.InlinePair | src/Py/modules.py:882-903 | `$a$ b` from a fresh state becomes `\(a\) b`, and the counter is back to 0 |
| DollarScan.ClosingDollarMissed | src/Py/modules.py:888-890 | `$a$` becomes `\(a$`: the fixed length and the loop bound skip the closing `$`, which leaves the frame open |
| InlineDollars.FirstMatch | src/Py/modules.py:705-711 | `re.search` for the two formula patterns: what it returns occurs in the text and has the pattern's shape. It finds nothing iff no position matches |
| InlineDollars.NoDollarNoMatch | src/Py/modules.py:706-711 | A text without `$` has no formula |
| InlineDollars.Inline | src/Py/modules.py:717-734 | The rewrite keeps every newline and never adds a `$`; with a match and an even count it removes at least one. It stops with no match left or an odd count. A text with no match or an odd count is returned as it is |
| InlineDollars.InlineUndo | src/Py/modules.py:717-734 | Reading `\(`, `\)`, `\[`, `\]` back as dollars, the rewrite of any line reads back as the line itself |
| InlineDollars.InlineRoundTrip | src/Py/modules.py:717-734 | For a line holding no `\(`/`\)` (or `\[`/`\]`), reading the rewrite back gives exactly the line: only formula delimiters were replaced |
| InlineDollars.Undo | src/Py/modules.py:717-734 | The reading back of the rewrite, an independent left-to-right scan: `\(`/`\)` (or `\[`/`\]`) become `$` (or `$$`). `InlineUndo`, `InlineRoundTrip`, `TextEnvReadsBack` and `TextEnvRoundTrip` are stated with it |
| InlineDollars.RemoveInlineDls | src/Py/Axesscleaner/Text.py:57-107 | Only `$` and `$$` are accepted; any other symbol is an error |
| InlineDollars.RemoveInlineDlsRoundTrip | src/Py/modules.py:683-734 | With `$` or `$$`, the rewrite of a line without that symbol's brackets reads back as the line, and removes a `$` when a formula matches and the count is even |
| InlineDollars.InlineFormula | src/Py/modules.py:721-730 | `$x$` becomes `\(x\)` |
| InlineDollars.InlineOddUnchanged | src/Py/modules.py:718-734 | An odd count of `$` leaves the line unchanged even when a formula matches |
| InlineDollars.FindAll | src/Py/modules.py:669-670 | The groups found never span a newline |
| InlineDollars.SubstituteAll | src/Py/modules.py:672-676 | The loop over the groups: every copy of each group's text in the line is replaced by its rewrite. Newlines are kept, no `$` is gained, and one is lost when the first group occurs, has an even count and holds a formula |
| InlineDollars.TextEnv | src/Py/modules.py:647-682 | A line without `\mbox`, `\textrm` or `\mathrm` groups is returned as it is. Otherwise the result holds no control character, keeps newlines, never gains a `$` and loses one when the first group has an even count and a formula. Every copy of a group's text is rewritten, also outside the groups (`CopiesRewritten`) |
| InlineDollars.TextEnvReadsBack | src/Py/modules.py:669-682 | For a printable line, the result reads back as the line: the only changes are `$` delimiters turned into brackets, in the groups and in every copy of a group's text elsewhere in the line |
| InlineDollars.TextEnvLocal | src/Py/modules.py:669-682 | For a line with one group whose text occurs only once, the result is the text before the group, the group's rewrite and the text after it, with control characters dropped |
| InlineDollars.TextEnvRoundTrip | src/Py/modules.py:669-682 | For a printable line without `\(`/`\)`, reading the result back gives exactly the line |
| InlineDollars.TextEnvUnchanged | src/Py/modules.py:669-682 | When the line has a group and the rewrite leaves every group as it is, the result is the line with control characters dropped |
| InlineDollars.TextEnvGroups | src/Py/modules.py:669-681 | Every group's rewrite reads back to the group and has no formula left or an odd count of `$` |
| InlineDollars.MboxExample | src/Py/modules.py:655-667 | `\mbox{ $f$ }` becomes `\mbox{ \(f\) }` |
| InlineDollars.TextEnvPlain | src/Py/modules.py:669-682 | A line without a backslash is untouched |
| InlineDollars.RemoveDls | src/Py/modules.py:850-855 | A successful run keeps the frame stacks valid and the counters in {0,1} |
| InlineDollars.RemoveDlsKeepsLines | src/Py/modules.py:850-855 | Given one or more lines without newlines, `remove_dls` returns exactly as many lines |
| InlineDollars.RemoveDlsEmpty | src/Py/modules.py:850-855 | An empty body yields one empty line and leaves the state alone |
| InlineDollars.RemoveDlsPlain | src/Py/modules.py:850-855 | Lines without `$` and backslash come back unchanged, and so does the state |
| Document.DefinesIsRegex | src/Py/modules.py:394-397 | The definition test of `remove_macro` is `re.search` of its pattern |
| Document.Keep | src/Py/modules.py:396-397 | A preamble line is dropped iff it is a definition, and otherwise kept as it is |
| Document.KeptMembers | src/Py/modules.py:386-397 | Every preamble line that is not a definition is kept, and only those |
| Document.KeptAll | src/Py/modules.py:386-397 | A preamble without definitions is kept whole |
| Document.Opening | src/Py/modules.py:387-391 | The package goes in only when requested and not found. Once inserted into a line that opens the document, it is found. Other lines are untouched |
| Document.BodyScan | src/Py/modules.py:377-384 | The body loop keeps the preamble and the flag, and collects at most one closing line |
| Document.BodyClosed | src/Py/modules.py:378-380 | The body ends at its first closing line; nothing after it is read |
| Document.BodyUnclosed | src/Py/modules.py:377-384 | A body that is never closed is collected whole |
| Document.PreambleScan | src/Py/modules.py:386-397 | The flag ends up set iff it was set before, or the package is requested and some line opens the document. Without such a line there is no body and no closing line |
| Document.PreambleOnly | src/Py/modules.py:386-397 | Without an opening line every non-definition line is preamble |
| Document.PreambleOpened | src/Py/modules.py:369-397 | The preamble lines, then the opening line, then the body loop on what follows |
| Document.SeparateWithoutBody | src/Py/modules.py:369-397 | A text that never opens the document is all preamble |
| Document.SeparateUnclosed | src/Py/modules.py:369-397 | A text that opens the document and never closes it: everything after the opening line is body |
| Document.SeparateClosed | src/Py/modules.py:369-397 | A closed document splits into preamble, opening line, body and closing line; the lines after the closing one are dropped |
| Document.InlineAll | src/Py/modules.py:402 | Either every line expands (one output per input, each the line's `do_inline_sub`), or some line's expansion fails |
| Document.ProcessBody | src/Py/modules.py:402-404 | An expansion failure in the body is the error of the whole body, and a success keeps the dollar state valid |
| Document.CleanLines | src/Py/modules.py:364-426 | The registry's macros are unchanged. The package flag is set iff it was or the package was added. The dollar state stays valid |
| Document.RemoveMacro | src/Py/modules.py:347-426 | The same guarantees for `remove_macro` on the whole text, with its own definition pattern |
| Document.RemoveMacroWith | src/Py/modules.py:347-426 | `remove_macro` with the definition test as a parameter: on success the registry keeps its macros, the package flag is set iff it was or the package was added, and a valid dollar state stays valid |
| Document.CleanWithoutBody | src/Py/modules.py:400-426 | A text that never opens the document keeps its non-definition lines, and the empty body adds one empty line at the end |
| Document.CleanPlainBody | src/Py/modules.py:364-426 | For a closed document with a plain body, the output is the non-definition preamble lines, the opening line (with the package when due), the unchanged body and the closing line. Lines after it are gone and the dollar state is untouched |
| Document.RemoveMacroPlainBody | src/Py/modules.py:347-426 | The same for a whole text |
| LegacyMacro.Parse | src/Py/Axesscleaner/Macro.py:300-321 | An entry exists iff the older pattern matches somewhere in the line. It is well formed and its name occurs in the line |
| LegacyMacro.ParseRenderedEntry | src/Py/Axesscleaner/Macro.py:307-319 | The separators are the optional braces around the name: braces give `{`/`}`, no braces give empty separators |
| LegacyMacro.ParseBracedName | src/Py/Axesscleaner/Macro.py:311-318 | `\newcommand{\F}{x}` gives separators `{` and `}` |
| LegacyMacro.ParseDef | src/Py/Axesscleaner/Macro.py:311-318 | `\def\F{x}` gives empty separators |
| LegacyMacro.ParsedEntriesWellFormed | src/Py/Axesscleaner/Macro.py:198-202 | Every gathered entry has a name and a replacement, as parsed |
| LegacyMacro.GatherEntries | src/Py/Axesscleaner/Macro.py:171-210 | The result is the parsed entries of the lines before the first line opening the document, in line order |
| LegacyMacro.Enrich | src/Py/Axesscleaner/Macro.py:324-344 | The record of a well-formed entry is valid: its text is the body, and it takes arguments iff an argument count was written |
| LegacyMacro.GetExpanded | src/Py/Axesscleaner/Macro.py:213-227 | The records come from the entries, are at most as many, and none has a command type with lower-case `declare` |
| LegacyMacro.GetExpandedKeeps | src/Py/Axesscleaner/Macro.py:222-227 | An entry without `declare` in its command type gets its record |
| LegacyMacro.GetExpandedAppend | src/Py/Axesscleaner/Macro.py:223-226 | The records of two lists are each list's records, in order |
| LegacyMacro.GetExpandedValid | src/Py/Axesscleaner/Macro.py:213-227 | Every record of well-formed entries is valid |
| LegacyMacro.OperatorKept | src/Py/Axesscleaner/Macro.py:333-344 | `DeclareMathOperator` survives, since only lower-case `declare` is dropped, and its body is inserted unwrapped |
| LegacyMacro.DeclareDropped | src/Py/Axesscleaner/Macro.py:333-335 | A command type containing `declare` gets no record |
| LegacyMacro.Quote | src/Py/Axesscleaner/Macro.py:371 | Reading the escaped template back as `re.sub` does gives the text with a backslash kept before space, `'` and `"`, and nothing lost |
| LegacyMacro.Substitute | src/Py/Axesscleaner/Macro.py:382-478 | There is no failure branch. Only the record's text changes, and it is overwritten with the result. The answer is that text followed by a suffix of the input |
| LegacyMacro.SubstituteRoundTrip | src/Py/Axesscleaner/Macro.py:473-477 | Balanced braced arguments (nested groups and backslash units allowed) are found and each `#j` is replaced by escaped argument j, followed by the rest of the text |
| LegacyMacro.SubstituteFilledIgnoresArguments | src/Py/Axesscleaner/Macro.py:367 | A record whose text holds no `#` is not changed by a further use: the placeholders are not refilled from the new arguments |
| LegacyMacro.SubstituteUnbraced | src/Py/Axesscleaner/Macro.py:410-478 | Without separators each character is an argument: `#2#1` applied to `ab!` gives `ba!` |
| LegacyMacro.ApplyEntry | src/Py/Axesscleaner/Macro.py:359-373 | Only the record's text may change, and a record whose name does not occur leaves the line and itself alone |
| LegacyMacro.Sweep | src/Py/Axesscleaner/Macro.py:359-373 | One sweep keeps the records' entries and their validity |
| LegacyMacro.ExpandLine | src/Py/Axesscleaner/Macro.py:347-379 | When the expansion returns, no record's name occurs in the line; the records keep their entries and validity |
| LegacyMacro.SweepUnmentioned | src/Py/Axesscleaner/Macro.py:359-362 | A sweep over a line in which no name occurs changes nothing |
| LegacyMacro.ExpandLineUnmentioned | src/Py/Axesscleaner/Macro.py:359-379 | A line in which no name occurs comes back unchanged, and so do the records |
| LegacyMacro.KeepLine | src/Py/Axesscleaner/Macro.py:283-284 | A line is dropped iff it consists of whitespace only |
| LegacyMacro.NonBlank | src/Py/Axesscleaner/Macro.py:283-284 | The lines with the blank-only ones removed: no line of the result is blank. It is what `FinalDocWithoutBody` equates the loop with |
| LegacyMacro.Body | src/Py/Axesscleaner/Macro.py:260-276 | The body lines emitted are never blank and at most as many as read |
| LegacyMacro.Contentful | src/Py/Axesscleaner/Macro.py:294-296 | Every kept line has a non-whitespace character |
| LegacyMacro.Emit | src/Py/Axesscleaner/Macro.py:293-297 | The output is empty or ends with a newline |
| LegacyMacro.RemoveMacroLegacy | src/Py/Axesscleaner/Macro.py:230-297 | The string `remove_macro` returns is empty or ends with a newline |
| LegacyMacro.EmitJoin | src/Py/Axesscleaner/Macro.py:293-297 | The output is the lines with content joined by newlines, with a final newline |
| LegacyMacro.EmitLines | src/Py/Axesscleaner/Macro.py:293-297 | Splitting the output at newlines gives back exactly the lines with content, then one empty piece |
| LegacyMacro.FinalDocWithoutBody | src/Py/Axesscleaner/Macro.py:253-284 | Without an opening line, every line passes unless blank |
| LegacyMacro.FinalDocPreamble | src/Py/Axesscleaner/Macro.py:278-284 | Lines up to and including the opening one pass unless blank, unchanged; then comes the body |
| LegacyMacro.BodyClosed | src/Py/Axesscleaner/Macro.py:260-263 | Nothing after the closing line is emitted: the body ends with that line unless it broke off before it |
| LegacyMacro.BodyPlain | src/Py/Axesscleaner/Macro.py:266-284 | Body lines naming no macro and holding no control character pass unless blank |
| LegacyMacro.FinalDoc | src/Py/Axesscleaner/Macro.py:253-284 | The main loop of `remove_macro`: no blank-only line is added. `FinalDocWithoutBody`, `FinalDocPreamble`, `BodyClosed` and `BodyPlain` state what passes |
| LegacyText.PipeQuote | src/Py/Axesscleaner/Text.py:49 | Reading the escaped rewrite back as `re.sub` does gives the text with a backslash kept before `|` and `"`, and nothing lost; newlines are kept |
| LegacyText.TextEnvFirst | src/Py/Axesscleaner/Text.py:23-55 | A line without a text group is returned as it is. Otherwise the result holds no control character, keeps newlines, never gains a `$` and loses one when the first group has an even count and a formula. Every copy of the first group's text is rewritten (`CopiesRewritten`) |
| LegacyText.TextEnvFirstReadsBack | src/Py/Axesscleaner/Text.py:45-55 | For a printable line whose first group holds no `|` or `"`, the result reads back as the line |
| LegacyText.TextEnvFirstLocal | src/Py/Axesscleaner/Text.py:45-55 | When the first group's text occurs only once in the line, the result is the text before it, its escaped rewrite and the text after it, with control characters dropped |
| LegacyText.CopiesRewritten | src/Py/Axesscleaner/Text.py:45-55 | `$a$\mbox{$a$}` becomes `\(a\)\mbox{\(a\)}` in both versions of the pass: the copy outside the group is rewritten too |
| LegacyText.TextEnvFirstUnchanged | src/Py/Axesscleaner/Text.py:45-55 | When the rewrite leaves the first group as it is, the result is the line with control characters dropped |
| LegacyText.FirstGroupOnly | src/Py/Axesscleaner/Text.py:46-49 | `\mbox{$a$}\mbox{$b$}` becomes `\mbox{\(a\)}\mbox{$b$}`: the second group keeps its dollars |
| LegacyText.TextEnvFirstAgrees | src/Py/Axesscleaner/Text.py:45-53 | With one group whose rewrite holds no `|` or `"`, the older pass agrees with the one in `modules.py` |
| LegacyText.TextEnvFirstPlain | src/Py/Axesscleaner/Text.py:45-55 | A line without a backslash is untouched |
| LegacyText.PipeEscaped | src/Py/Axesscleaner/Text.py:49 | A `|` in the rewritten group comes out with a backslash before it |
| LegacyText.FindOpenDls | src/Py/Axesscleaner/Text.py:126-139 | An answer exists iff the symbol is `$` or `$$` and the current frame exists; any other symbol gives the unsupported-symbol error, and for a supported symbol the error is the missing frame |
| LegacyText.FindOpenValid | src/Py/Axesscleaner/Text.py:128-137 | In a valid state with a frame, the answer is whether the last frame's counter is even and positive |
| LegacyText.FreshNotOpen | src/Py/Axesscleaner/Text.py:126-139 | A fresh frame is not open |
| LegacyText.SearchForEnvironments | src/Py/Axesscleaner/Text.py:141-157 | In a valid state, the call fails iff a closing token meets no frame. A success keeps both stacks of length `newEnv+1`. A line with no token leaves the state alone |
| LegacyText.CloseThenOpen | src/Py/Axesscleaner/Text.py:145-155 | A line that closes and opens an environment pops before it pushes, replacing the current frame by a fresh one |
| LegacyText.OpenKeeps | src/Py/Axesscleaner/Text.py:152-155 | An opening line keeps every counter and adds a zero one on top |
| LegacyText.EnvOnOneLine | src/Py/Axesscleaner/Text.py:143-145 | A token on the text's last line always matches |
| LegacyText.EnvNotLastLine | src/Py/Axesscleaner/Text.py:143-145 | A token followed by a newline and more text does not match at that position |
| LegacyText.EndArray | src/Py/Axesscleaner/Text.py:144-145 | `\end{array}` matches the closing pattern |
| LegacyText.SparsePlain | src/Py/Axesscleaner/Text.py:166-176 | A text without dollars is copied |
| LegacyText.SparseNext | src/Py/Axesscleaner/Text.py:166-175 | The bracket for the next dollar is chosen by the parity of the base plus the dollars before it; the rest continues from the next parity |
| LegacyText.SparseCount | src/Py/Axesscleaner/Text.py:162-176 | Exactly `left` dollars disappear when the text has that many |
| LegacyText.SparseAlternates | src/Py/Axesscleaner/Text.py:163-171 | A formula across two lines: opened with `\(` in a closed frame, closed with `\)` on the next line |
| LegacyText.SparseDl | src/Py/Axesscleaner/Text.py:159-177 | The rewrite is defined iff the current frame exists |
| LegacyText.RemoveSparseDl | src/Py/Axesscleaner/Text.py:159-177 | The loop computes `SparseDl`: the first runs-of-`$` many dollars are rewritten by parity, from the frame's count before the line |
| LegacyText.PairsCount | src/Py/Axesscleaner/Text.py:186-197 | Every pair found left to right is replaced and takes two dollars with it |
| LegacyText.PairsSame | src/Py/Axesscleaner/Text.py:186-193 | Every pair on a line gets the same bracket: `$$a$$` becomes `\[a\[` |
| LegacyText.SparseDdl | src/Py/Axesscleaner/Text.py:179-198 | The rewrite is defined iff the current frame exists |
| LegacyText.RemoveSparseDdl | src/Py/Axesscleaner/Text.py:179-198 | The loop computes `SparseDdl`: each pair gets the one bracket chosen by the parity of the frame's count before the line |
| LegacyText.LineStep | src/Py/Axesscleaner/Text.py:204-227 | One line's step keeps both stacks of length `newEnv+1` |
| LegacyText.AddCounts | src/Py/Axesscleaner/Text.py:214-215 | In a valid state, adding succeeds iff a frame exists. Only the current frame's counters grow, by the line's counts, and validity is kept |
| LegacyText.Rewrite | src/Py/Axesscleaner/Text.py:216-223 | In a valid state, the rewrites succeed iff a frame exists |
| LegacyText.RemoveDlsLegacy | src/Py/Axesscleaner/Text.py:200-228 | `remove_dls` returns exactly one line per input line and keeps the stacks valid |
| LegacyText.LineStepPlain | src/Py/Axesscleaner/Text.py:204-227 | A line without backslash or dollar comes back unchanged, and so does the state |
| LegacyText.RemoveDlsLegacyPlain | src/Py/Axesscleaner/Text.py:200-228 | Lines without backslashes and dollars come back unchanged, with the state unchanged |
| LegacyText.RemoveDlsAppend | src/Py/Axesscleaner/Text.py:200-228 | The lines are processed in order with the state threaded through: `a + b` gives the outputs of `a`, then those of `b` from the state `a` left; an error in `a` stops everything |

## Left out

- File inclusion (`Flatex`) and the command line: filesystem and process work, not string logic.
- The Perl subprocess layer (`PerlLauncher`): it starts an external process.
- The output-file branch of both `remove_macro`s: file I/O. Only the string-returning branch is modelled.
- `print` logging, including the debugging print of `remove_dls` in `Text.py`: it has no effect on results.
- The `ply` lexer generator and Python's `re` engine in general. Each regex is a dedicated recogniser: the definition patterns are proved equal to `re.search`; the others are stated directly.
- Template escaping in `modules.py` (lines 517, 619-625 and 676): the escaped text is inserted literally. The escaping of the older `Macro.py` (line 371) and `Text.py` (line 49) is modelled with its net effect.
- Expansion.MultiSub: the argument quoting of `modules.py` line 619 and the clean-up at lines 630-632 are not modelled; the arguments are inserted literally, and `MultiSubRoundTrip`, `ApplyWithArguments` and `ExpandWithArguments` are stated for that literal insertion. The source's behaviour differs in three ways that are dropped here:
  - Line 619 puts a backslash before every `"`, `'`, `|` and `\` of an argument, and the template substitution keeps it for `"` and `|`.
  - Line 630 deletes every `\\` (a LaTeX line break) that is not followed by a letter, a blank, `+`, the end of the text, a quote and a letter, or `@@newl@@`. It works on the filled body and on the whole rest of the line, so `\\[2pt]` and `\\}` lose their `\\` even outside the macro.
  - Line 631 turns `\'` into `'` (line 632 changes nothing).
- Expansion.MultiLine: the `replace('\|', '|')` of `modules.py` line 465 is not modelled. The source turns every `\|` of a line that ends a multi-line macro into `|`, so a norm `\|x\|` loses its backslashes; the model keeps them.
- InlineDollars.TextEnvReadsBack: stated for lines without control characters (`Printable`). Dropping a control character can join a backslash to a following `(` or `)`, which `Undo` then reads as a bracket.
- LegacyText.TextEnvFirstReadsBack: stated for printable lines whose first group holds no `|` or `"`. The backslash that `Text.py` line 49 adds before those characters stays in the result.
- InlineDollars.TextEnv: the model rewrites every copy of a group's text in the line, also outside the groups, as `re.sub` at `modules.py` line 676 does; the docstring at lines 652-664 speaks only of the groups. That the rewrite stays in the group is proved (`TextEnvLocal`) only for a line with a single group whose text occurs once.
- LegacyText.TextEnvFirst: the same for `Text.py` line 49 against its docstring at lines 28-40. `TextEnvFirstLocal` proves the rewrite stays in the first group only when that group's text occurs once in the line.
- `add_axessibility` passes `\u` in an `re.sub` template, which newer Python versions reject. The model inserts the package line, as older versions do.
- `Expansion.Expand`: the interpreter's recursion limit is a `fuel` bound. Running out of fuel is `None`, the error `do_inline_sub` reports.
- `LegacyMacro.ExpandLine`: the same fuel bound. Running out of fuel ends the body loop of `remove_macro`, as the exception does.
- The `.` of the expansion regexes (`\s*(.*$)`) is taken to end at the end of the line. The lines given to it come from `split('\n')` and hold no newline.
- `remove_inline_dls` returns `None` when an exception is caught inside it (modules.py lines 723-732, Text.py lines 96-105). With the string operations modelled here the one exception that can arise is a `RecursionError`: the method calls itself once per distinct formula (modules.py line 728, Text.py line 101), so a line with about a thousand distinct formulas exceeds the interpreter's recursion limit. The model's `Inline` recurses without bound and drops that failure; in the source the error is printed, `None` is returned and the callers then fail on it.
- Expansion.EarlierEntryWins: proved only for entries without arguments. For entries with arguments the source breaks it: such an entry rewrites only the first use of its name (modules.py lines 511-517), so a later entry under the same name expands a second use in the same pass (`LaterEntryTakesSecondUse`, `LaterEntryExample`). `EarlierEntryPass` is limited in the same way.
- State changed before an exception (a frame popped, then an error) is not kept: an error discards the whole state.
- `Document.CleanLines` and `Document.RemoveMacroWith` take the definition test as a parameter. `Document.RemoveMacro` fixes it to the pattern of `modules.py` line 395.
- `LegacyText.Sparse` and `LegacyText.Pairs` carry no contract of their own. What they mean is stated by `SparsePlain`, `SparseNext`, `SparseCount`, `PairsCount` and `PairsSame`.
- The dead duplicates in `modules.py` (`find_open_dls`, `remove_sparse_dl`, `remove_sparse_ddl`, the commented-out per-line `remove_dls`). The same code is modelled once, from `Text.py`.
- `find_axessibility` and `add_axessibility` of `Text.py`: the same code as the `Text` class of `modules.py`, which is modelled.
- `src/Py/testing.py` and `src/Py/test.py`, the unit tests of the Python code: they are not part of this model.

=== FILE: arguments.dfy ===
/**
 * The argument scanner of multi_substitution_regexp, common to both
 * generations (src/Py/modules.py:554-615, src/Py/Axesscleaner/Macro.py:410-470),
 * and the `#j` placeholder filling that follows it.
 *
 * The scanner walks the text after a macro name with two counters, one for
 * opening and one for closing separators. A group is an argument once the
 * counters are equal again; a single character (or a backslash escape) read
 * while they are equal is an argument on its own.
 */
module Arguments {
  import opened Wrappers
  import opened Strings

  /** The separators of a macro; an absent one (an empty string in the older code) never matches. */
  datatype Seps = Seps(open: Option<char>, close: Option<char>)

  predicate IsOpen(seps: Seps, c: char) {
    seps.open == Some(c)
  }

  predicate IsClose(seps: Seps, c: char) {
    seps.close == Some(c)
  }

  /**
   * The scanner's variables: the text cursor, both counters, the arguments
   * collected so far and the argument being read.
   */
  datatype Scan = Scan(cursor: nat, openCount: nat, closeCount: nat, args: seq<string>, pending: string)

  const Start := Scan(0, 0, 0, [], [])

  /** The counters are equal: the cursor is outside every group. */
  predicate AtParity(st: Scan) {
    st.openCount == st.closeCount
  }

  /**
   * Where an escape starting at `i` ends: the backslash and its maximal run of
   * letters, or the backslash and one character when no letter follows. The
   * end may lie one past the text when the backslash is its last character.
   */
  function EscapeEnd(t: string, i: nat): (e: nat)
    requires i < |t|
    ensures i + 2 <= e <= |t| + 1
  {
    var run := LetterRun(t[i + 1..]);
    i + (if run > 1 then run else 1) + 1
  }

  /** A closing separator: count it, and finish the argument when the counters meet. */
  function CloseGroup(st: Scan, c: char): Scan {
    if st.closeCount + 1 == st.openCount then
      st.(closeCount := st.closeCount + 1, args := st.args + [st.pending], pending := [])
    else
      st.(closeCount := st.closeCount + 1, pending := st.pending + [c])
  }

  /** One turn of the scanning loop. */
  function Step(seps: Seps, t: string, st: Scan): (r: Scan)
    requires st.cursor < |t|
    ensures r.cursor > st.cursor
    ensures |st.args| <= |r.args| <= |st.args| + 1
  {
    var c := t[st.cursor];
    var next := st.(cursor := st.cursor + 1);
    if IsOpen(seps, c) then
      if AtParity(st) then next.(openCount := st.openCount + 1)
      else if IsClose(seps, c) then CloseGroup(next, c)
      else next.(openCount := st.openCount + 1, pending := st.pending + [c])
    else if IsClose(seps, c) then CloseGroup(next, c)
    else
      var e := if c == '\\' then EscapeEnd(t, st.cursor) else st.cursor + 1;
      var piece := if e <= |t| then t[st.cursor..e] else t[st.cursor..];
      var read := st.(cursor := e, pending := st.pending + piece);
      if AtParity(read) then read.(args := read.args + [read.pending], pending := []) else read
  }

  /** The loop: scan while text remains and fewer than `n` arguments are collected. */
  function Run(seps: Seps, n: nat, t: string, st: Scan): (r: Scan)
    requires |st.args| <= n
    ensures |r.args| <= n
    ensures r.cursor >= |t| || |r.args| == n
    ensures st.args <= r.args
    decreases |t| + 1 - st.cursor
  {
    if st.cursor < |t| && |st.args| < n then
      var s := Step(seps, t, st);
      assert st.args <= s.args by { StepKeepsArgs(seps, t, st); }
      Run(seps, n, t, s)
    else st
  }

  lemma StepKeepsArgs(seps: Seps, t: string, st: Scan)
    requires st.cursor < |t|
    ensures st.args <= Step(seps, t, st).args
  {
  }

  /** The scan of the text after a macro name. */
  function ScanArgs(seps: Seps, n: nat, t: string): Scan {
    Run(seps, n, t, Start)
  }

  /** The arguments were all found and every group was closeCount. */
  predicate Complete(n: nat, st: Scan) {
    AtParity(st) && |st.args| == n
  }

  /** The text left after the scan (`textafter[text_cursor:]`). */
  function Rest(t: string, st: Scan): string {
    if st.cursor <= |t| then t[st.cursor..] else []
  }

  // ---------------------------------------------------------------------
  // The scanning rules, one step at a time
  // ---------------------------------------------------------------------

  /** An opening separator read outside every group opens one and is not copied. */
  lemma OpenAtParity(seps: Seps, t: string, st: Scan)
    requires st.cursor < |t| && IsOpen(seps, t[st.cursor]) && AtParity(st)
    ensures Step(seps, t, st) == st.(cursor := st.cursor + 1, openCount := st.openCount + 1)
  {
  }

  /** A distinct opening separator read inside a group is copied and counted. */
  lemma OpenNested(seps: Seps, t: string, st: Scan)
    requires st.cursor < |t| && IsOpen(seps, t[st.cursor]) && !IsClose(seps, t[st.cursor]) && !AtParity(st)
    ensures Step(seps, t, st) ==
            st.(cursor := st.cursor + 1, openCount := st.openCount + 1, pending := st.pending + [t[st.cursor]])
  {
  }

  /**
   * A backslash is copied together with its letters (or the one character
   * after it) and moves the cursor past them; it never changes a counter.
   */
  lemma EscapeIsUnit(seps: Seps, t: string, st: Scan)
    requires st.cursor < |t| && t[st.cursor] == '\\'
    requires !IsOpen(seps, '\\') && !IsClose(seps, '\\')
    ensures var r := Step(seps, t, st);
      var e := EscapeEnd(t, st.cursor);
      r.openCount == st.openCount && r.closeCount == st.closeCount && r.cursor == e &&
      var piece := t[st.cursor..Min(e, |t|)];
      (if AtParity(st) then r.args == st.args + [st.pending + piece] && r.pending == []
       else r.args == st.args && r.pending == st.pending + piece)
  {
    var e := EscapeEnd(t, st.cursor);
    if e <= |t| {
      assert t[st.cursor..Min(e, |t|)] == t[st.cursor..e];
    } else {
      assert t[st.cursor..Min(e, |t|)] == t[st.cursor..];
    }
  }

  function Min(a: nat, b: nat): nat {
    if a <= b then a else b
  }

  /** An ordinary character read inside a group is copied. */
  lemma PlainInside(seps: Seps, t: string, st: Scan)
    requires st.cursor < |t| && !AtParity(st)
    requires var c := t[st.cursor]; !IsOpen(seps, c) && !IsClose(seps, c) && c != '\\'
    ensures Step(seps, t, st) == st.(cursor := st.cursor + 1, pending := st.pending + [t[st.cursor]])
  {
    assert t[st.cursor..st.cursor + 1] == [t[st.cursor]];
  }

  /** An ordinary character read outside every group is an argument by itself. */
  lemma SingleToken(seps: Seps, t: string, st: Scan)
    requires st.cursor < |t| && AtParity(st)
    requires var c := t[st.cursor]; !IsOpen(seps, c) && !IsClose(seps, c) && c != '\\'
    ensures Step(seps, t, st) ==
            st.(cursor := st.cursor + 1, args := st.args + [st.pending + [t[st.cursor]]], pending := [])
  {
    assert t[st.cursor..st.cursor + 1] == [t[st.cursor]];
  }

  /** A closing separator that balances the counters finishes the argument. */
  lemma CloseFinishes(seps: Seps, t: string, st: Scan)
    requires st.cursor < |t| && IsClose(seps, t[st.cursor]) && st.closeCount + 1 == st.openCount
    ensures Step(seps, t, st) ==
            st.(cursor := st.cursor + 1, closeCount := st.openCount, args := st.args + [st.pending], pending := [])
  {
  }

  // ---------------------------------------------------------------------
  // Scanning braced arguments gives them back
  // ---------------------------------------------------------------------

  /**
   * How the scanner reads `a` from `i` on inside a group `depth` levels
   * deeper than the one that encloses the argument: every closer meets an
   * opener read before it, the walk ends back at that level, and every
   * backslash is followed, inside `a`, by the unit it is read with.
   */
  predicate BalancedFrom(o: char, c: char, a: string, i: nat, depth: nat)
    decreases |a| - i
  {
    if i >= |a| then i == |a| && depth == 0
    else if a[i] == o then BalancedFrom(o, c, a, i + 1, depth + 1)
    else if a[i] == c then depth > 0 && BalancedFrom(o, c, a, i + 1, depth - 1)
    else if a[i] == '\\' then EscapeEnd(a, i) <= |a| && BalancedFrom(o, c, a, EscapeEnd(a, i), depth)
    else BalancedFrom(o, c, a, i + 1, depth)
  }

  /** An argument the scanner reads back whole between the separators `o` and `c`. */
  predicate Balanced(o: char, c: char, a: string) {
    BalancedFrom(o, c, a, 0, 0)
  }

  predicate AllBalanced(o: char, c: char, args: seq<string>) {
    forall k :: 0 <= k < |args| ==> Balanced(o, c, args[k])
  }

  /**
   * From `i` on, `a` holds no separator `o` outside its backslash units, and
   * every unit ends inside `a`.
   */
  predicate Flat(o: char, a: string, i: nat)
    decreases |a| - i
  {
    if i >= |a| then i == |a|
    else a[i] != o && if a[i] == '\\' then EscapeEnd(a, i) <= |a| && Flat(o, a, EscapeEnd(a, i)) else Flat(o, a, i + 1)
  }

  /**
   * When both separators are the same character (`#`), a separator always
   * counts as an opener, so a balanced argument is one that holds no
   * separator at all outside its backslash units.
   */
  lemma {:induction false} SameSeparators(o: char, a: string, i: nat, depth: nat)
    ensures BalancedFrom(o, o, a, i, depth) <==> depth == 0 && Flat(o, a, i)
    decreases |a| - i
  {
    if i < |a| {
      if a[i] == o {
        SameSeparators(o, a, i + 1, depth + 1);
      } else if a[i] == '\\' {
        if EscapeEnd(a, i) <= |a| {
          SameSeparators(o, a, EscapeEnd(a, i), depth);
        }
      } else {
        SameSeparators(o, a, i + 1, depth);
      }
    }
  }

  /** The opening separators the walk of `BalancedFrom` reads from `i` on. */
  function OpensFrom(o: char, c: char, a: string, i: nat): nat
    decreases |a| - i
  {
    if i >= |a| then 0
    else if a[i] == o then 1 + OpensFrom(o, c, a, i + 1)
    else if a[i] == c then OpensFrom(o, c, a, i + 1)
    else if a[i] == '\\' then (if EscapeEnd(a, i) <= |a| then OpensFrom(o, c, a, EscapeEnd(a, i)) else 0)
    else OpensFrom(o, c, a, i + 1)
  }

  /** The arguments written one after another, each between the separators. */
  function Encode(o: char, c: char, args: seq<string>): string {
    if args == [] then [] else [o] + args[0] + [c] + Encode(o, c, args[1..])
  }

  /** Letters followed by a text that does not start with one: the run ends with them. */
  lemma {:induction false} LetterRunConcat(x: string, y: string)
    requires y == [] || !IsLetter(y[0])
    ensures LetterRun(x + y) == LetterRun(x)
    decreases |x|
  {
    if x == [] {
      assert x + y == y;
    } else {
      assert (x + y)[0] == x[0] && (x + y)[1..] == x[1..] + y;
      LetterRunConcat(x[1..], y);
    }
  }

  /**
   * A backslash inside an argument that a non-letter follows in the text is
   * read with the same unit in the text as in the argument.
   */
  lemma EscapeEndInside(t: string, b: nat, a: string, i: nat)
    requires b + |a| < |t| && t[b..b + |a|] == a && !IsLetter(t[b + |a|]) && i < |a|
    ensures EscapeEnd(t, b + i) == b + EscapeEnd(a, i)
  {
    assert t[b + i + 1..] == a[i + 1..] + t[b + |a|..] by {
      assert t[b + i + 1..b + |a|] == a[i + 1..];
    }
    LetterRunConcat(a[i + 1..], t[b + |a|..]);
  }

  /** The shared assumptions of the steps below: `st` reads `a` from `i` on, `depth` levels deep. */
  predicate Reading(o: char, c: char, t: string, b: nat, a: string, i: nat, depth: nat, pre: string, st: Scan) {
    o != '\\' && c != '\\' && !IsLetter(c) &&
    i < |a| && b + |a| < |t| && t[b..b + |a|] == a && t[b + |a|] == c &&
    st.cursor == b + i && st.openCount == st.closeCount + depth + 1 && st.pending == pre + a[..i]
  }

  /** What one step leaves after reading `a` up to `j`, `d` levels deep. */
  predicate ReadTo(o: char, c: char, b: nat, a: string, i: nat, j: nat, d: nat, pre: string, st: Scan, s: Scan) {
    i < j <= |a| && s.args == st.args && s.cursor == b + j && s.openCount == s.closeCount + d + 1 &&
    s.pending == pre + a[..j] && s.openCount + OpensFrom(o, c, a, j) == st.openCount + OpensFrom(o, c, a, i)
  }

  /** A backslash inside the argument is read as the same unit in the text. */
  lemma ReadEscape(o: char, c: char, t: string, b: nat, a: string, i: nat, depth: nat, pre: string, st: Scan)
    requires Reading(o, c, t, b, a, i, depth, pre, st) && a[i] == '\\' && EscapeEnd(a, i) <= |a|
    ensures ReadTo(o, c, b, a, i, EscapeEnd(a, i), depth, pre, st, Step(Seps(Some(o), Some(c)), t, st))
  {
    EscapeStepInside(o, c, t, b, a, i, st);
    EscapeRead(o, c, t, b, a, i, depth, pre, st);
  }

  /** Copying the escape unit moves the reading to the end of the unit. */
  lemma EscapeRead(o: char, c: char, t: string, b: nat, a: string, i: nat, depth: nat, pre: string, st: Scan)
    requires Reading(o, c, t, b, a, i, depth, pre, st) && a[i] == '\\' && EscapeEnd(a, i) <= |a|
    ensures var j := EscapeEnd(a, i);
      ReadTo(o, c, b, a, i, j, depth, pre, st, st.(cursor := b + j, pending := st.pending + a[i..j]))
  {
    var j := EscapeEnd(a, i);
    var r := st.(cursor := b + j, pending := st.pending + a[i..j]);
    assert r.pending == pre + a[..j] by {
      assert a[..j] == a[..i] + a[i..j];
    }
    assert OpensFrom(o, c, a, i) == OpensFrom(o, c, a, j) by {
      assert a[i] != o && a[i] != c;
    }
  }

  /** The step at a backslash of the argument copies the argument's escape unit. */
  lemma EscapeStepInside(o: char, c: char, t: string, b: nat, a: string, i: nat, st: Scan)
    requires o != '\\' && c != '\\' && i < |a| && a[i] == '\\' && EscapeEnd(a, i) <= |a|
    requires b + |a| < |t| && t[b..b + |a|] == a && !IsLetter(t[b + |a|])
    requires st.cursor == b + i && !AtParity(st)
    ensures Step(Seps(Some(o), Some(c)), t, st) ==
            st.(cursor := b + EscapeEnd(a, i), pending := st.pending + a[i..EscapeEnd(a, i)])
  {
    var seps := Seps(Some(o), Some(c));
    var j := EscapeEnd(a, i);
    SliceInside(t, b, a, i, i + 1);
    assert t[b + i] == a[i] by { assert a[i..i + 1][0] == a[i]; }
    EscapeEndInside(t, b, a, i);
    EscapeIsUnit(seps, t, st);
    SliceInside(t, b, a, i, j);
    assert Min(b + j, |t|) == b + j;
  }

  /** A slice of the text inside the argument is the same slice of the argument. */
  lemma SliceInside(t: string, b: nat, a: string, i: nat, j: nat)
    requires b + |a| <= |t| && t[b..b + |a|] == a && i <= j <= |a|
    ensures t[b + i..b + j] == a[i..j]
  {
    forall k | 0 <= k < j - i ensures t[b + i..b + j][k] == a[i..j][k] {
      assert t[b + i..b + j][k] == t[b + i + k] == t[b..b + |a|][i + k];
    }
  }

  /** Any other unit is one character, and only a separator moves the depth. */
  lemma ReadChar(o: char, c: char, t: string, b: nat, a: string, i: nat, depth: nat, pre: string, st: Scan)
    requires Reading(o, c, t, b, a, i, depth, pre, st) && a[i] != '\\' && (a[i] == c ==> depth > 0)
    requires o == c ==> a[i] != o
    ensures var d := if a[i] == o then depth + 1 else if a[i] == c then depth - 1 else depth;
      ReadTo(o, c, b, a, i, i + 1, d, pre, st, Step(Seps(Some(o), Some(c)), t, st))
  {
    var seps := Seps(Some(o), Some(c));
    var x := a[i];
    assert t[b + i] == x by { assert t[b..b + |a|][i] == t[b + i]; }
    assert a[..i + 1] == a[..i] + [x];
    if x == o {
      OpenNested(seps, t, st);
    } else if x == c {
      assert Step(seps, t, st) == st.(cursor := st.cursor + 1, closeCount := st.closeCount + 1, pending := st.pending + [x]);
    } else {
      PlainInside(seps, t, st);
    }
  }

  /** One unit of the argument, read inside its group. */
  lemma ReadUnit(o: char, c: char, t: string, b: nat, a: string, i: nat, depth: nat, pre: string, st: Scan)
    returns (j: nat, d: nat)
    requires Reading(o, c, t, b, a, i, depth, pre, st) && BalancedFrom(o, c, a, i, depth)
    ensures BalancedFrom(o, c, a, j, d) && ReadTo(o, c, b, a, i, j, d, pre, st, Step(Seps(Some(o), Some(c)), t, st))
  {
    if a[i] == '\\' {
      j, d := EscapeEnd(a, i), depth;
      ReadEscape(o, c, t, b, a, i, depth, pre, st);
    } else {
      if o == c {
        SameSeparators(o, a, i, depth);
      }
      j := i + 1;
      d := if a[i] == o then depth + 1 else if a[i] == c then depth - 1 else depth;
      ReadChar(o, c, t, b, a, i, depth, pre, st);
    }
  }

  /**
   * The state after the closing separator of an argument `a` that starts at
   * `b`: the argument `pre + a` is collected and the counters agree again.
   */
  predicate ReadAll(o: char, c: char, b: nat, a: string, i: nat, pre: string, st: Scan, r: Scan) {
    r.cursor == b + |a| + 1 && AtParity(r) && r.openCount == st.openCount + OpensFrom(o, c, a, i) &&
    r.args == st.args + [pre + a] && r.pending == []
  }

  /**
   * Inside the group of an argument `a` that starts at `b` in the text, the
   * rest of `a` from `i` on is copied unit by unit, the separators in it are
   * counted, and the closer after it finishes the argument.
   */
  lemma {:induction false} ReadBalanced(o: char, c: char, n: nat, t: string, b: nat, a: string, i: nat,
                                        depth: nat, pre: string, st: Scan) returns (r: Scan)
    requires o != '\\' && c != '\\' && !IsLetter(c)
    requires i <= |a| && BalancedFrom(o, c, a, i, depth)
    requires b + |a| < |t| && t[b..b + |a|] == a && t[b + |a|] == c
    requires |st.args| < n && st.cursor == b + i && st.openCount == st.closeCount + depth + 1
    requires st.pending == pre + a[..i]
    ensures ReadAll(o, c, b, a, i, pre, st, r)
    ensures Run(Seps(Some(o), Some(c)), n, t, st) == Run(Seps(Some(o), Some(c)), n, t, r)
    decreases |a| - i, 1
  {
    if i == |a| {
      r := ReadEnd(o, c, n, t, b, a, depth, pre, st);
    } else {
      r := ReadMore(o, c, n, t, b, a, i, depth, pre, st);
    }
  }

  /** Inside the argument: one unit, then the rest. */
  lemma {:induction false} ReadMore(o: char, c: char, n: nat, t: string, b: nat, a: string, i: nat,
                                    depth: nat, pre: string, st: Scan) returns (r: Scan)
    requires o != '\\' && c != '\\' && !IsLetter(c)
    requires i < |a| && BalancedFrom(o, c, a, i, depth)
    requires b + |a| < |t| && t[b..b + |a|] == a && t[b + |a|] == c
    requires |st.args| < n && st.cursor == b + i && st.openCount == st.closeCount + depth + 1
    requires st.pending == pre + a[..i]
    ensures ReadAll(o, c, b, a, i, pre, st, r)
    ensures Run(Seps(Some(o), Some(c)), n, t, st) == Run(Seps(Some(o), Some(c)), n, t, r)
    decreases |a| - i, 0
  {
    var j, d, s := ReadUnitRun(o, c, n, t, b, a, i, depth, pre, st);
    r := ReadBalanced(o, c, n, t, b, a, j, d, pre, s);
  }

  /** The loop reads one unit of the argument and goes on from the state after it. */
  lemma ReadUnitRun(o: char, c: char, n: nat, t: string, b: nat, a: string, i: nat, depth: nat, pre: string, st: Scan)
    returns (j: nat, d: nat, s: Scan)
    requires Reading(o, c, t, b, a, i, depth, pre, st) && BalancedFrom(o, c, a, i, depth) && |st.args| < n
    ensures BalancedFrom(o, c, a, j, d) && ReadTo(o, c, b, a, i, j, d, pre, st, s)
    ensures Run(Seps(Some(o), Some(c)), n, t, st) == Run(Seps(Some(o), Some(c)), n, t, s)
  {
    j, d := ReadUnit(o, c, t, b, a, i, depth, pre, st);
    RunStep(Seps(Some(o), Some(c)), n, t, st);
    s := Step(Seps(Some(o), Some(c)), t, st);
  }

  /** At the end of the argument the closing separator finishes it. */
  lemma ReadEnd(o: char, c: char, n: nat, t: string, b: nat, a: string, depth: nat, pre: string, st: Scan)
    returns (r: Scan)
    requires BalancedFrom(o, c, a, |a|, depth)
    requires b + |a| < |t| && t[b + |a|] == c
    requires |st.args| < n && st.cursor == b + |a| && st.openCount == st.closeCount + depth + 1
    requires st.pending == pre + a[..|a|]
    ensures ReadAll(o, c, b, a, |a|, pre, st, r)
    ensures Run(Seps(Some(o), Some(c)), n, t, st) == Run(Seps(Some(o), Some(c)), n, t, r)
  {
    var seps := Seps(Some(o), Some(c));
    RunStep(seps, n, t, st);
    CloseFinishes(seps, t, st);
    assert a[..|a|] == a;
    r := Step(seps, t, st);
  }

  /** One braced argument at the cursor, ending before `e`, read from outside every group. */
  lemma OneGroup(o: char, c: char, n: nat, t: string, st: Scan, a: string, e: nat) returns (r: Scan)
    requires o != '\\' && c != '\\' && !IsLetter(c) && Balanced(o, c, a)
    requires |st.args| < n && AtParity(st) && st.pending == []
    requires e == st.cursor + |a| + 2 && e <= |t| && t[st.cursor..e] == [o] + a + [c]
    ensures r.cursor == e && AtParity(r) && r.args == st.args + [a] && r.pending == []
    ensures Run(Seps(Some(o), Some(c)), n, t, st) == Run(Seps(Some(o), Some(c)), n, t, r)
  {
    var seps := Seps(Some(o), Some(c));
    var b := st.cursor + 1;
    GroupParts(t, st.cursor, e, o, a, c);
    OpenAtParity(seps, t, st);
    RunStep(seps, n, t, st);
    var s := st.(cursor := b, openCount := st.openCount + 1);
    assert s.pending == [] + a[..0];
    r := ReadBalanced(o, c, n, t, b, a, 0, 0, [], s);
    assert [] + a == a;
  }

  /** The parts of a group written in the text from `i` to `e`. */
  lemma GroupParts(t: string, i: nat, e: nat, o: char, a: string, c: char)
    requires e == i + |a| + 2 && e <= |t| && t[i..e] == [o] + a + [c]
    ensures t[i] == o && t[i + 1..i + 1 + |a|] == a && t[i + 1 + |a|] == c && i + 1 + |a| + 1 == e
  {
    var g := [o] + a + [c];
    assert t[i] == t[i..e][0] == g[0];
    assert t[i + 1 + |a|] == t[i..e][1 + |a|] == g[1 + |a|];
    forall k | 0 <= k < |a| ensures t[i + 1..i + 1 + |a|][k] == a[k] {
      assert t[i + 1..i + 1 + |a|][k] == t[i..e][1 + k] == g[1 + k];
    }
  }

  /** A slice holding `x + y` holds `x` and then `y`; `lx` and `ly` are their lengths. */
  lemma SliceSplit(t: string, i: nat, x: string, y: string, lx: nat, ly: nat)
    requires lx == |x| && ly == |y|
    requires i + lx + ly <= |t| && t[i..i + lx + ly] == x + y
    ensures t[i..i + lx] == x && t[i + lx..i + lx + ly] == y
  {
    var w := t[i..i + lx + ly];
    forall k | 0 <= k < lx ensures t[i..i + lx][k] == x[k] {
      assert t[i..i + lx][k] == w[k] == (x + y)[k];
    }
    forall k | 0 <= k < ly ensures t[i + lx..i + lx + ly][k] == y[k] {
      assert t[i + lx..i + lx + ly][k] == w[lx + k] == (x + y)[lx + k];
    }
  }

  lemma EncodeLength(o: char, c: char, args: seq<string>)
    ensures |Encode(o, c, args)| >= 2 * |args|
  {
  }

  /** Scanning `{a1}{a2}...` followed by any text, for exactly that many arguments. */
  lemma {:induction false} ScanEncoded(o: char, c: char, n: nat, args: seq<string>, done: seq<string>, t: string, st: Scan)
    requires n == |done| + |args| && o != '\\' && c != '\\' && !IsLetter(c) && AllBalanced(o, c, args)
    requires AtParity(st) && st.pending == [] && st.args == done
    requires st.cursor + |Encode(o, c, args)| <= |t|
    requires t[st.cursor..st.cursor + |Encode(o, c, args)|] == Encode(o, c, args)
    ensures var r := Run(Seps(Some(o), Some(c)), n, t, st);
      r.cursor == st.cursor + |Encode(o, c, args)| && AtParity(r) && r.args == done + args && r.pending == []
    decreases |args|
  {
    var seps := Seps(Some(o), Some(c));
    if args == [] {
      RunFull(seps, n, t, st);
      assert done + args == done;
    } else {
      var s := EncodedHead(o, c, n, args, done, t, st);
      ScanEncoded(o, c, n, args[1..], done + [args[0]], t, s);
      AppendHead(done, args);
    }
  }

  /** The first group of the encoding is read, and the scan goes on at the next one. */
  lemma EncodedHead(o: char, c: char, n: nat, args: seq<string>, done: seq<string>, t: string, st: Scan)
    returns (s: Scan)
    requires n == |done| + |args| && o != '\\' && c != '\\' && !IsLetter(c) && AllBalanced(o, c, args)
    requires AtParity(st) && st.pending == [] && st.args == done && args != []
    requires st.cursor + |Encode(o, c, args)| <= |t|
    requires t[st.cursor..st.cursor + |Encode(o, c, args)|] == Encode(o, c, args)
    ensures AtParity(s) && s.pending == [] && s.args == done + [args[0]] && AllBalanced(o, c, args[1..])
    ensures s.cursor + |Encode(o, c, args[1..])| == st.cursor + |Encode(o, c, args)|
    ensures t[s.cursor..s.cursor + |Encode(o, c, args[1..])|] == Encode(o, c, args[1..])
    ensures Run(Seps(Some(o), Some(c)), n, t, st) == Run(Seps(Some(o), Some(c)), n, t, s)
  {
    var j := EncodeAt(o, c, args, t, st.cursor);
    AllBalancedTail(o, c, args);
    s := OneGroup(o, c, n, t, st, args[0], j);
  }

  /** Where the encoding of `args` sits in the text from `i`, its first group ends at `j` and the rest follows. */
  lemma EncodeAt(o: char, c: char, args: seq<string>, t: string, i: nat) returns (j: nat)
    requires args != [] && i + |Encode(o, c, args)| <= |t|
    requires t[i..i + |Encode(o, c, args)|] == Encode(o, c, args)
    ensures j == i + |args[0]| + 2 && j + |Encode(o, c, args[1..])| == i + |Encode(o, c, args)|
    ensures t[i..j] == [o] + args[0] + [c] && t[j..j + |Encode(o, c, args[1..])|] == Encode(o, c, args[1..])
  {
    var g, tail := [o] + args[0] + [c], Encode(o, c, args[1..]);
    EncodeCons(o, c, args);
    SliceSplit(t, i, g, tail, |g|, |tail|);
    j := i + |g|;
  }

  lemma AllBalancedTail(o: char, c: char, args: seq<string>)
    requires args != [] && AllBalanced(o, c, args)
    ensures Balanced(o, c, args[0]) && AllBalanced(o, c, args[1..])
  {
    forall k | 0 <= k < |args[1..]| ensures Balanced(o, c, args[1..][k]) {
      assert args[1..][k] == args[k + 1];
    }
  }

  lemma EncodeCons(o: char, c: char, args: seq<string>)
    requires args != []
    ensures Encode(o, c, args) == ([o] + args[0] + [c]) + Encode(o, c, args[1..])
    ensures |Encode(o, c, args)| == |args[0]| + 2 + |Encode(o, c, args[1..])|
  {
  }

  lemma AppendHead<T>(done: seq<T>, xs: seq<T>)
    requires xs != []
    ensures done + [xs[0]] + xs[1..] == done + xs
  {
  }

  /**
   * The scanner gives back exactly the arguments it is shown between the
   * separators, nested separators and backslash units included, and stops
   * after them. The separators may be the same character (`SameSeparators`
   * says which arguments are balanced then).
   */
  lemma ScanRoundTrip(o: char, c: char, args: seq<string>, rest: string)
    requires o != '\\' && c != '\\' && !IsLetter(c) && AllBalanced(o, c, args)
    ensures var t := Encode(o, c, args) + rest;
      var r := ScanArgs(Seps(Some(o), Some(c)), |args|, t);
      r.args == args && Complete(|args|, r) && Rest(t, r) == rest
  {
    var t := Encode(o, c, args) + rest;
    assert t[0..|Encode(o, c, args)|] == Encode(o, c, args);
    ScanEncoded(o, c, |args|, args, [], t, Start);
    assert [] + args == args;
  }

  /** A nested group and an escaped closer are balanced. */
  lemma BalancedExamples()
    ensures Balanced('{', '}', "{y}") && Balanced('{', '}', "a\\}b")
  {
    assert EscapeEnd("a\\}b", 1) == 3 by { assert "a\\}b"[2..] == "}b"; }
  }

  /** A command with braced arguments is balanced: the backslash takes the whole name. */
  lemma BalancedCommand()
    ensures Balanced('{', '}', "\\frac{1}{2}")
  {
    var t := "\\frac{1}{2}";
    assert BalancedFrom('{', '}', t, 5, 0) by {
      assert BalancedFrom('{', '}', t, 11, 0);
      assert BalancedFrom('{', '}', t, 8, 0);
    }
    FracEscape();
  }

  /** `\frac` is one escape unit: the backslash and its four letters. */
  lemma FracEscape()
    ensures EscapeEnd("\\frac{1}{2}", 0) == 5
  {
    var t := "\\frac{1}{2}";
    assert t[1..] == "frac" + t[5..];
    LetterRunConcat("frac", t[5..]);
    assert LetterRun("frac") == 4 by {
      assert "frac"[1..] == "rac" && "rac"[1..] == "ac" && "ac"[1..] == "c" && "c"[1..] == [];
    }
  }

  /** A stray closer, and a trailing backslash that would swallow the closing separator, are not balanced. */
  lemma UnbalancedExamples()
    ensures !Balanced('{', '}', "a}") && !Balanced('{', '}', "a\\")
  {
    assert EscapeEnd("a\\", 1) == 3;
  }

  /** While text and argument slots remain, the loop is one step followed by the loop. */
  lemma RunStep(seps: Seps, n: nat, t: string, st: Scan)
    requires st.cursor < |t| && |st.args| < n
    ensures Run(seps, n, t, st) == Run(seps, n, t, Step(seps, t, st))
  {
  }

  /** Once `n` arguments are collected the loop stops where it is. */
  lemma RunFull(seps: Seps, n: nat, t: string, st: Scan)
    requires |st.args| == n
    ensures Run(seps, n, t, st) == st
  {
  }

  const Braces := Seps(Some('{'), Some('}'))

  /** A blank between two groups is read as an argument of its own. */
  lemma BlankBetweenGroups()
    ensures ScanArgs(Braces, 2, "{a} {b}").args == ["a", " "]
  {
    var t := "{a} {b}";
    RunStep(Braces, 2, t, Start);
    assert Step(Braces, t, Start) == Scan(1, 1, 0, [], "");
    RunStep(Braces, 2, t, Scan(1, 1, 0, [], ""));
    PlainInside(Braces, t, Scan(1, 1, 0, [], ""));
    assert Step(Braces, t, Scan(1, 1, 0, [], "")) == Scan(2, 1, 0, [], "a");
    RunStep(Braces, 2, t, Scan(2, 1, 0, [], "a"));
    assert Step(Braces, t, Scan(2, 1, 0, [], "a")) == Scan(3, 1, 1, ["a"], "");
    RunStep(Braces, 2, t, Scan(3, 1, 1, ["a"], ""));
    SingleToken(Braces, t, Scan(3, 1, 1, ["a"], ""));
    assert "" + [t[3]] == " " && ["a"] + [" "] == ["a", " "];
    assert Step(Braces, t, Scan(3, 1, 1, ["a"], "")) == Scan(4, 1, 1, ["a", " "], "");
  }

  /** Separators nested inside a group are part of the argument. */
  lemma NestedGroup()
    ensures ScanArgs(Braces, 1, "{{y}}").args == ["{y}"]
  {
    BalancedExamples();
    assert Encode('{', '}', ["{y}"]) + "" == "{{y}}";
    ScanRoundTrip('{', '}', ["{y}"], "");
  }

  /** An escaped separator does not count: the group closes at the later brace. */
  lemma EscapedSeparator()
    ensures var t := "{a\\}b} x";
      ScanArgs(Braces, 1, t).args == ["a\\}b"] && Rest(t, ScanArgs(Braces, 1, t)) == " x"
  {
    assert Balanced('{', '}', "a\\}b") by { BalancedExamples(); }
    assert Encode('{', '}', ["a\\}b"]) + " x" == "{a\\}b} x";
    ScanRoundTrip('{', '}', ["a\\}b"], " x");
  }

  /** With `#` as both separators, each `#...#` group is one argument. */
  lemma SameSeparatorGroups()
    ensures var t := "#a##\\#b# x";
      var r := ScanArgs(Seps(Some('#'), Some('#')), 2, t);
      r.args == ["a", "\\#b"] && Rest(t, r) == " x"
  {
    assert Flat('#', "a", 0) && Flat('#', "\\#b", 0) by {
      assert EscapeEnd("\\#b", 0) == 2 by { assert "\\#b"[1..] == "#b"; }
    }
    SameSeparators('#', "a", 0, 0);
    SameSeparators('#', "\\#b", 0, 0);
    assert Encode('#', '#', ["a", "\\#b"]) + " x" == "#a##\\#b# x";
    ScanRoundTrip('#', '#', ["a", "\\#b"], " x");
  }

  /** Without braces, each character is an argument (TeX's `\frac12`). */
  lemma TokenArguments()
    ensures ScanArgs(Braces, 2, "12 rest").args == ["1", "2"]
  {
    var t := "12 rest";
    RunStep(Braces, 2, t, Start);
    SingleToken(Braces, t, Start);
    assert "" + [t[0]] == "1" && [] + ["1"] == ["1"];
    assert Step(Braces, t, Start) == Scan(1, 0, 0, ["1"], "");
    RunStep(Braces, 2, t, Scan(1, 0, 0, ["1"], ""));
    SingleToken(Braces, t, Scan(1, 0, 0, ["1"], ""));
    assert "" + [t[1]] == "2" && ["1"] + ["2"] == ["1", "2"];
    assert Step(Braces, t, Scan(1, 0, 0, ["1"], "")) == Scan(2, 0, 0, ["1", "2"], "");
  }

  // ---------------------------------------------------------------------
  // Placeholders
  // ---------------------------------------------------------------------

  /** `#j` for an argument number from 1 to 9. */
  function Mark(j: nat): string
    requires 1 <= j <= 9
  {
    ['#', (('0' as int) + j) as char]
  }

  /**
   * Replace `#j` by the j-th argument, for j from `j` on, one placeholder at a
   * time: text an earlier argument brings in is seen by later replacements.
   * `quote` is applied to each argument first.
   */
  function FillFrom(body: string, args: seq<string>, j: nat, quote: string -> string): string
    requires 1 <= j && |args| <= 9
    decreases |args| + 1 - j
  {
    if j > |args| then body
    else FillFrom(ReplaceAll(body, Mark(j), quote(args[j - 1])), args, j + 1, quote)
  }

  function Fill(body: string, args: seq<string>, quote: string -> string): string
    requires |args| <= 9
  {
    FillFrom(body, args, 1, quote)
  }

  /** A body with no `#` is left as it is. */
  lemma {:induction false} FillNoMarks(body: string, args: seq<string>, j: nat, quote: string -> string)
    requires 1 <= j && |args| <= 9 && '#' !in body
    ensures FillFrom(body, args, j, quote) == body
    decreases |args| + 1 - j
  {
    if j <= |args| {
      NoHashNoMark(body, j);
      ReplaceAllAbsent(body, Mark(j), quote(args[j - 1]));
      FillNoMarks(body, args, j + 1, quote);
    }
  }

  lemma NoHashNoMark(s: string, j: nat)
    requires 1 <= j <= 9 && '#' !in s
    ensures !Contains(s, Mark(j))
  {
    forall i | 0 <= i <= |s| ensures !OccursAt(s, Mark(j), i) {
      if i < |s| {
        assert s[i] in s;
        assert s[i..][0] != Mark(j)[0];
      }
    }
  }
}

=== FILE: comment_stripper.dfy ===
/**
 * The comment stripper `strip_comments` (modules.py:149-307, identical in
 * Axesscleaner/Macro.py:10-168): a lexer with six exclusive states. At each
 * position the rules of the current state are tried in the order they are
 * declared; the first that matches decides the token, which is either emitted
 * verbatim or dropped. A character no rule of the state accepts is skipped.
 */
module CommentStripper {
  import opened Wrappers
  import opened Strings

  /** The lexer states: INITIAL and the five exclusive ones. */
  datatype LexState = Initial | LineComment | CommentEnv | Verbatim | MakeatBlock | MakeatLineComment

  /** One token: the state after it, the characters it consumed, and whether they are emitted. */
  datatype Token = Token(next: LexState, len: nat, emit: bool)

  const EscapedBackslash: string := "\\\\"
  const EscapedPercent: string := "\\%"
  const MakeatLetter: string := "\\makeatletter"
  const MakeatOther: string := "\\makeatother"

  /** Length of a match of `<kw>\s*{\s*<name>\s*}` at the start of `s`. */
  function EnvMarker(s: string, kw: string, name: string): (r: Option<nat>)
    ensures r.Some? ==> 0 < r.value <= |s| && kw <= s
  {
    if !(kw <= s) then None
    else
      var a := |kw| + SpaceRun(s[|kw|..]);
      if !(a < |s| && s[a] == '{') then None
      else
        var b := a + 1 + SpaceRun(s[a + 1..]);
        if !(name <= s[b..]) then None
        else
          var c := b + |name| + SpaceRun(s[b + |name|..]);
          if c < |s| && s[c] == '}' then Some(c + 1) else None
  }

  function BeginComment(s: string): Option<nat> { EnvMarker(s, "\\begin", "comment") }
  function EndComment(s: string): Option<nat> { EnvMarker(s, "\\end", "comment") }
  function BeginVerbatim(s: string): Option<nat> { EnvMarker(s, "\\begin", "verbatim") }
  function EndVerbatim(s: string): Option<nat> { EnvMarker(s, "\\end", "verbatim") }

  /** The token the lexer reads at the start of the non-empty `s` in state `st`. */
  function Step(st: LexState, s: string): (t: Token)
    requires s != []
    ensures 0 < t.len <= |s|
  {
    match st
    case Initial => StepInitial(s)
    case LineComment =>
      if s[0] == '\n' then Token(Initial, 1, true) else Token(LineComment, 1, false)
    case CommentEnv =>
      if EndComment(s).Some? then Token(LineComment, EndComment(s).value, false)
      else Token(CommentEnv, 1, false)
    case Verbatim =>
      if EndVerbatim(s).Some? then Token(Initial, EndVerbatim(s).value, true)
      else Token(Verbatim, 1, true)
    case MakeatBlock => StepMakeat(s)
    case MakeatLineComment =>
      // only a newline rule exists here; anything else goes to the skip-one error rule
      if s[0] == '\n' then Token(MakeatBlock, 1, true) else Token(MakeatLineComment, 1, false)
  }

  /** INITIAL: `\\`, `\makeatletter`, `%`, `\%`, `\begin{comment}`, `\begin{verbatim}`, `.`, `\n`. */
  function StepInitial(s: string): (t: Token)
    requires s != []
    ensures 0 < t.len <= |s|
  {
    if EscapedBackslash <= s then Token(Initial, 2, true)
    else if MakeatLetter <= s then Token(MakeatBlock, |MakeatLetter|, true)
    else if s[0] == '%' then Token(LineComment, 1, false)
    else if EscapedPercent <= s then Token(Initial, 2, true)
    else if BeginComment(s).Some? then Token(CommentEnv, BeginComment(s).value, false)
    else if BeginVerbatim(s).Some? then Token(Verbatim, BeginVerbatim(s).value, true)
    else Token(Initial, 1, true)
  }

  /** makeatblock: `\makeatother`, `\\`, `\%`, `%`, `.`, `\n`. */
  function StepMakeat(s: string): (t: Token)
    requires s != []
    ensures 0 < t.len <= |s|
  {
    if MakeatOther <= s then Token(Initial, |MakeatOther|, true)
    else if EscapedBackslash <= s then Token(MakeatBlock, 2, true)
    else if EscapedPercent <= s then Token(MakeatBlock, 2, true)
    else if s[0] == '%' then Token(MakeatLineComment, 1, true)
    else Token(MakeatBlock, 1, true)
  }

  /** A text not starting with a backslash starts no marker. */
  lemma NoMarkerWithoutBackslash(s: string)
    requires s != [] && s[0] != '\\'
    ensures StepInitial(s) == (if s[0] == '%' then Token(LineComment, 1, false) else Token(Initial, 1, true))
    ensures StepMakeat(s) == (if s[0] == '%' then Token(MakeatLineComment, 1, true) else Token(MakeatBlock, 1, true))
  {
    assert EscapedBackslash[0] == '\\' && MakeatLetter[0] == '\\' && EscapedPercent[0] == '\\';
    assert MakeatOther[0] == '\\';
    assert !(EscapedBackslash <= s) && !(MakeatLetter <= s) && !(EscapedPercent <= s) && !(MakeatOther <= s);
    assert "\\begin"[0] == '\\';
    assert BeginComment(s).None? && BeginVerbatim(s).None?;
  }

  /** The concatenation of the emitted tokens of `s`, read from state `st`. */
  function Strip(st: LexState, s: string): string
    decreases |s|
  {
    if s == [] then []
    else
      var t := Step(st, s);
      (if t.emit then s[..t.len] else []) + Strip(t.next, s[t.len..])
  }

  /** `strip_comments(source)`. */
  function StripComments(source: string): string {
    Strip(Initial, source)
  }

  /** The stripper only deletes: its output is a subsequence of its input, from any state. */
  lemma {:induction false} StripIsSubsequence(st: LexState, s: string)
    ensures IsSubsequence(Strip(st, s), s)
    decreases |s|
  {
    if s != [] {
      var t := Step(st, s);
      StripIsSubsequence(t.next, s[t.len..]);
      SubsequenceStep(s, t.len, t.emit, Strip(t.next, s[t.len..]));
    }
  }

  /** `strip_comments` never adds a character. */
  lemma StripCommentsShrinks(source: string)
    ensures |StripComments(source)| <= |source|
    ensures IsSubsequence(StripComments(source), source)
  {
    StripIsSubsequence(Initial, source);
    SubsequenceLength(StripComments(source), source);
  }

  /** `\\` and `\%` pass through unchanged and keep the lexer in INITIAL. */
  lemma EscapesPassThrough(rest: string)
    ensures Strip(Initial, EscapedBackslash + rest) == EscapedBackslash + Strip(Initial, rest)
    ensures Strip(Initial, EscapedPercent + rest) == EscapedPercent + Strip(Initial, rest)
  {
    var s1 := EscapedBackslash + rest;
    assert EscapedBackslash <= s1;
    assert s1[..2] == EscapedBackslash && s1[2..] == rest;
    var s2 := EscapedPercent + rest;
    assert s2[1] == '%';
    assert EscapedPercent <= s2;
    assert !(EscapedBackslash <= s2) && !(MakeatLetter <= s2);
    assert s2[..2] == EscapedPercent && s2[2..] == rest;
  }

  /** Ordinary text, free of backslashes and percent signs, passes through INITIAL unchanged. */
  lemma {:induction false} PlainTextPassesThrough(t: string, rest: string)
    requires '\\' !in t && '%' !in t
    ensures Strip(Initial, t + rest) == t + Strip(Initial, rest)
    decreases |t|
  {
    if t != [] {
      PlainCharPassesThrough(t, rest);
      assert '\\' !in t[1..] && '%' !in t[1..];
      PlainTextPassesThrough(t[1..], rest);
      assert [t[0]] + t[1..] == t;
      AppendAssoc([t[0]], t[1..], Strip(Initial, rest));
    } else {
      assert t + rest == rest;
    }
  }

  /** One ordinary character is emitted and INITIAL continues after it. */
  lemma PlainCharPassesThrough(t: string, rest: string)
    requires t != [] && t[0] != '\\' && t[0] != '%'
    ensures Strip(Initial, t + rest) == [t[0]] + Strip(Initial, t[1..] + rest)
  {
    var s := t + rest;
    assert s[0] == t[0];
    NoMarkerWithoutBackslash(s);
    assert s[..1] == [t[0]];
    assert s[1..] == t[1..] + rest;
  }

  /** In the line-comment state everything up to the newline is dropped; the newline is kept. */
  lemma {:induction false} LineCommentRest(t: string, rest: string)
    requires '\n' !in t
    ensures Strip(LineComment, t + "\n" + rest) == "\n" + Strip(Initial, rest)
    decreases |t|
  {
    var s := t + "\n" + rest;
    if t == [] {
      assert s[..1] == "\n" && s[1..] == rest;
    } else {
      assert s[0] == t[0] && s[0] != '\n';
      assert s[1..] == t[1..] + "\n" + rest;
      LineCommentRest(t[1..], rest);
    }
  }

  /** A line comment with no newline after it swallows the rest of the input. */
  lemma {:induction false} LineCommentToEnd(t: string)
    requires '\n' !in t
    ensures Strip(LineComment, t) == []
    decreases |t|
  {
    if t != [] {
      assert t[0] != '\n';
      LineCommentToEnd(t[1..]);
    }
  }

  /** A bare `%` drops itself and the rest of its line but keeps the newline. */
  lemma PercentDropsRestOfLine(t: string, rest: string)
    requires '\n' !in t
    ensures Strip(Initial, "%" + t + "\n" + rest) == "\n" + Strip(Initial, rest)
  {
    var s := "%" + t + "\n" + rest;
    assert s[0] == '%';
    NoMarkerWithoutBackslash(s);
    assert s[1..] == t + "\n" + rest;
    LineCommentRest(t, rest);
  }

  /** The closing marker `\end{<name>}` read at position `i` of `s`. */
  function EndAt(s: string, name: string, i: nat): Option<nat>
    requires i <= |s|
  {
    EnvMarker(s[i..], "\\end", name)
  }

  /** Dropping a prefix shifts a marker-free stretch accordingly. */
  lemma ShiftNoEnd(s: string, name: string, d: nat, k: nat)
    requires d <= k <= |s|
    requires forall i :: d <= i < k ==> EndAt(s, name, i).None?
    ensures forall i :: 0 <= i < k - d ==> EndAt(s[d..], name, i).None?
  {
    forall i | 0 <= i < k - d
      ensures EndAt(s[d..], name, i).None?
    {
      assert s[d..][i..] == s[d + i..];
      assert EndAt(s, name, d + i).None?;
    }
  }

  /** The comment state stays silent over a stretch with no closing marker. */
  lemma {:induction false} CommentEnvSilent(s: string, k: nat)
    requires k <= |s|
    requires forall i :: 0 <= i < k ==> EndAt(s, "comment", i).None?
    ensures Strip(CommentEnv, s) == Strip(CommentEnv, s[k..])
    decreases k
  {
    if k > 0 {
      assert EndAt(s, "comment", 0).None?;
      assert s[0..] == s;
      assert Step(CommentEnv, s) == Token(CommentEnv, 1, false);
      ShiftNoEnd(s, "comment", 1, k);
      CommentEnvSilent(s[1..], k - 1);
      assert s[1..][k - 1..] == s[k..];
    }
  }

  /**
   * `\begin{comment} ... \end{comment}` and the rest of the closing line vanish;
   * the newline that ends the closing line is kept.
   */
  lemma CommentEnvironmentVanishes(s: string, b: nat, k: nat, e: nat, j: nat)
    requires BeginComment(s) == Some(b)
    requires b <= k <= |s|
    requires forall i :: b <= i < k ==> EndAt(s, "comment", i).None?
    requires EndAt(s, "comment", k) == Some(e)
    requires k + e <= j < |s| && s[j] == '\n'
    requires '\n' !in s[k + e..j]
    ensures Strip(Initial, s) == "\n" + Strip(Initial, s[j + 1..])
  {
    CommentStart(s, b);
    CommentBodySilent(s, b, k);
    CommentEnvClose(s, k, e, j);
  }

  /** A suffix of `s` cut at the newline at `j`. */
  lemma LineBreakAt(s: string, lo: nat, j: nat)
    requires lo <= j < |s| && s[j] == '\n'
    ensures s[lo..] == s[lo..j] + "\n" + s[j + 1..]
  {
    assert s[lo..] == s[lo..j] + s[j..];
    assert s[j..] == [s[j]] + s[j + 1..];
  }

  /** From the end of `\begin{comment}` up to the closing marker nothing is emitted. */
  lemma CommentBodySilent(s: string, b: nat, k: nat)
    requires b <= k <= |s|
    requires forall i :: b <= i < k ==> EndAt(s, "comment", i).None?
    ensures Strip(CommentEnv, s[b..]) == Strip(CommentEnv, s[k..])
  {
    ShiftNoEnd(s, "comment", b, k);
    CommentEnvSilent(s[b..], k - b);
    assert s[b..][k - b..] == s[k..];
  }

  /** `\begin{comment}` hands the rest of the text to the comment state, dropping the marker. */
  lemma CommentStart(s: string, b: nat)
    requires BeginComment(s) == Some(b)
    ensures Strip(Initial, s) == Strip(CommentEnv, s[b..])
  {
    BeginCommentToken(s);
  }

  /** The closing marker switches to a line comment, which ends at the next newline. */
  lemma CommentEnvClose(s: string, k: nat, e: nat, j: nat)
    requires k <= |s| && EndAt(s, "comment", k) == Some(e)
    requires k + e <= j < |s| && s[j] == '\n'
    requires '\n' !in s[k + e..j]
    ensures Strip(CommentEnv, s[k..]) == "\n" + Strip(Initial, s[j + 1..])
  {
    var v := s[k..];
    var t, rest := s[k + e..j], s[j + 1..];
    assert Step(CommentEnv, v) == Token(LineComment, e, false);
    assert v[e..] == s[k + e..];
    LineBreakAt(s, k + e, j);
    assert Strip(CommentEnv, v) == Strip(LineComment, t + "\n" + rest);
    LineCommentRest(t, rest);
  }

  /** `\begin{comment}` is read as one dropped token that enters the comment environment. */
  lemma BeginCommentToken(s: string)
    requires BeginComment(s).Some?
    ensures StepInitial(s) == Token(CommentEnv, BeginComment(s).value, false)
  {
    assert "\\begin" <= s;
    assert s[1] == 'b';
    assert !(EscapedBackslash <= s) && !(MakeatLetter <= s) && !(EscapedPercent <= s);
  }

  /** Before any closing marker the verbatim state copies its input character by character. */
  lemma {:induction false} VerbatimCopies(s: string, k: nat)
    requires k <= |s|
    requires forall i :: 0 <= i < k ==> EndAt(s, "verbatim", i).None?
    ensures Strip(Verbatim, s) == s[..k] + Strip(Verbatim, s[k..])
    decreases k
  {
    if k == 0 {
      assert s[..0] + Strip(Verbatim, s) == Strip(Verbatim, s);
    } else {
      VerbatimCopiesOne(s);
      ShiftNoEnd(s, "verbatim", 1, k);
      VerbatimCopies(s[1..], k - 1);
      PrefixCons(s, k);
      AppendAssoc(s[..1], s[1..][..k - 1], Strip(Verbatim, s[k..]));
    }
  }

  /** Without a closing marker at its start the verbatim state copies one character. */
  lemma VerbatimCopiesOne(s: string)
    requires s != [] && EndAt(s, "verbatim", 0).None?
    ensures Strip(Verbatim, s) == s[..1] + Strip(Verbatim, s[1..])
  {
    assert s[0..] == s;
    assert Step(Verbatim, s) == Token(Verbatim, 1, true);
  }

  /** The verbatim state ends at the closing marker and the lexer is back in its initial state. */
  lemma VerbatimEnds(s: string, m: nat)
    requires EndVerbatim(s) == Some(m)
    ensures Strip(Verbatim, s) == s[..m] + Strip(Initial, s[m..])
  {
    assert Step(Verbatim, s) == Token(Initial, m, true);
  }

  /** Verbatim contents are emitted unchanged up to and including the first `\end{verbatim}`. */
  lemma VerbatimPassesThrough(s: string, k: nat, m: nat)
    requires k <= |s|
    requires forall i :: 0 <= i < k ==> EndAt(s, "verbatim", i).None?
    requires EndAt(s, "verbatim", k) == Some(m)
    ensures Strip(Verbatim, s) == s[..k + m] + Strip(Initial, s[k + m..])
  {
    var t := s[k..];
    VerbatimCopies(s, k);
    VerbatimEnds(t, m);
    TakeSplit(s, k, m);
    AppendAssoc(s[..k], t[..m], Strip(Initial, t[m..]));
  }

  /** Peeling the first character off a prefix and a suffix of `s`. */
  lemma PrefixCons(s: string, n: nat)
    requires 1 <= n <= |s|
    ensures s[..1] + s[1..][..n - 1] == s[..n]
    ensures s[1..][n - 1..] == s[n..]
  {
  }

  /** Inside `\makeatletter` a `%` is kept, the rest of its line dropped, and the newline kept. */
  lemma MakeatPercentKept(t: string, rest: string)
    requires '\n' !in t
    ensures Strip(MakeatBlock, "%" + t + "\n" + rest) == "%\n" + Strip(MakeatBlock, rest)
  {
    var s := "%" + t + "\n" + rest;
    assert s[0] == '%';
    NoMarkerWithoutBackslash(s);
    assert s[..1] == "%" && s[1..] == t + "\n" + rest;
    MakeatLineRest(t, rest);
  }

  lemma {:induction false} MakeatLineRest(t: string, rest: string)
    requires '\n' !in t
    ensures Strip(MakeatLineComment, t + "\n" + rest) == "\n" + Strip(MakeatBlock, rest)
    decreases |t|
  {
    var s := t + "\n" + rest;
    if t == [] {
      assert s[..1] == "\n" && s[1..] == rest;
    } else {
      assert s[0] == t[0] && s[0] != '\n';
      assert s[1..] == t[1..] + "\n" + rest;
      MakeatLineRest(t[1..], rest);
    }
  }

  /**
   * Stripping twice can differ from stripping once: `\s*` in the environment
   * markers spans newlines, so removing a comment can join `\begin` and
   * `{comment}` into a marker the second pass honours.
   */
  lemma NotIdempotent(x: string)
    requires '\n' !in x
    ensures StripComments("\\begin " + "%" + x + "\n" + "{comment}") == "\\begin \n{comment}"
    ensures StripComments("\\begin \n{comment}") == []
  {
    FirstPass(x);
    var sp, none := " \n", [];
    assert IsSpace(sp[0]) && IsSpace(sp[1]);
    CommentMarkerAcrossLines(sp, none);
    SecondPassPieces();
  }

  /** First pass: the backslash and `begin ` are kept, the `%` comment is dropped. */
  lemma FirstPass(x: string)
    requires '\n' !in x
    ensures Strip(Initial, "\\begin " + "%" + x + "\n" + "{comment}") == "\\begin \n{comment}"
  {
    FirstPassPieces();
    FirstPassHead(x);
    TextThenComment("begin ", x, "{comment}");
  }

  lemma FirstPassHead(x: string)
    ensures Strip(Initial, "\\begin " + "%" + x + "\n" + "{comment}")
         == "\\" + Strip(Initial, "begin " + "%" + x + "\n" + "{comment}")
  {
    var s := "\\begin " + "%" + x + "\n" + "{comment}";
    FirstPassShape(x);
    NoMarkerInFirstPass(s);
    LoneBackslash(s);
  }

  lemma FirstPassShape(x: string)
    ensures var s := "\\begin " + "%" + x + "\n" + "{comment}";
      |s| > 7 && "\\begin" <= s && s[1] == 'b' && s[6] == ' ' && s[7] == '%'
      && s[1..] == "begin " + "%" + x + "\n" + "{comment}"
  {
  }

  /** The space after `\begin` is followed by `%`, not `{`: no marker starts here. */
  lemma NoMarkerInFirstPass(s: string)
    requires |s| > 7 && "\\begin" <= s && s[6] == ' ' && s[7] == '%'
    ensures BeginComment(s).None? && BeginVerbatim(s).None?
  {
    assert s[6..][0] == ' ' && s[6..][1] == '%';
    assert SpaceRun(s[6..]) == 1;
  }

  /** Plain text, a `%` comment and more plain text: only the comment and its text vanish. */
  lemma TextThenComment(p: string, x: string, w: string)
    requires '\\' !in p && '%' !in p && '\\' !in w && '%' !in w && '\n' !in x
    ensures Strip(Initial, p + "%" + x + "\n" + w) == p + "\n" + w
  {
    var tail := "%" + x + "\n" + w;
    CommentLineShape(p, x, w);
    PlainTextPassesThrough(p, tail);
    PercentDropsRestOfLine(x, w);
    PlainTextAlone(w);
    assert Strip(Initial, p + tail) == p + ("\n" + w);
  }

  /** Text without escapes or comments is its own stripped form. */
  lemma PlainTextAlone(w: string)
    requires '\\' !in w && '%' !in w
    ensures Strip(Initial, w) == w
  {
    PlainTextPassesThrough(w, []);
    assert w + [] == w;
  }

  lemma CommentLineShape(p: string, x: string, w: string)
    ensures p + "%" + x + "\n" + w == p + ("%" + x + "\n" + w)
    ensures p + ("\n" + w) == p + "\n" + w
  {
  }

  lemma FirstPassPieces()
    ensures '\\' !in "begin " && '%' !in "begin " && '\\' !in "{comment}" && '%' !in "{comment}"
    ensures "\\" + ("begin " + "\n" + "{comment}") == "\\begin \n{comment}"
  {
  }

  lemma SecondPassPieces()
    ensures "\\begin" + " \n" + "{comment}" + [] == "\\begin \n{comment}"
  {
  }

  /** A backslash that starts no escape and no marker is emitted on its own. */
  lemma LoneBackslash(s: string)
    requires |s| >= 2 && s[0] == '\\' && s[1] != '\\' && s[1] != '%' && s[1] != 'm'
    requires BeginComment(s).None? && BeginVerbatim(s).None?
    ensures Strip(Initial, s) == "\\" + Strip(Initial, s[1..])
  {
    assert EscapedBackslash[1] == '\\' && EscapedPercent[1] == '%' && MakeatLetter[1] == 'm';
    assert !(EscapedBackslash <= s) && !(MakeatLetter <= s) && !(EscapedPercent <= s);
    assert StepInitial(s) == Token(Initial, 1, true);
    assert s[..1] == "\\";
  }

  /** Whitespace after `\begin` may be split over lines and still opens a comment environment. */
  lemma CommentMarkerAcrossLines(sp: string, rest: string)
    requires forall i :: 0 <= i < |sp| ==> IsSpace(sp[i])
    ensures Strip(Initial, "\\begin" + sp + "{comment}" + rest) == Strip(CommentEnv, rest)
  {
    var s := "\\begin" + sp + "{comment}" + rest;
    var a := 6 + |sp|;
    assert "\\begin" <= s;
    assert s[6..] == sp + ("{comment}" + rest);
    SpaceRunPrefix(sp, "{comment}" + rest);
    assert s[a] == '{' && s[a + 1] == 'c' && s[a + 8] == '}';
    assert s[a + 1..][0] == 'c';
    assert SpaceRun(s[a + 1..]) == 0;
    assert "comment" <= s[a + 1..];
    assert s[a + 8..][0] == '}';
    assert SpaceRun(s[a + 8..]) == 0;
    assert BeginComment(s) == Some(a + 9);
    CommentStart(s, a + 9);
    assert s[a + 9..] == rest;
  }
}

=== FILE: definitions.dfy ===
/**
 * The regular expression that recognises a macro definition line, written out
 * as the backtracking search Python's `re.search` performs.
 *
 * Current dialect (src/Py/modules.py:478):
 *   \\(.*command|DeclareMathOperator|def|edef|xdef|gdef)({|)(\\[a-zA-Z]+)(}|)
 *   (\[([0-9])\]|| +)({|#)(.*(?=(\}|\#)))(\#|\}).*$
 * Legacy dialect (src/Py/Axesscleaner/Macro.py:307, also src/Py/modules.py:395):
 *   the same up to the argument count, then {(.*(?=\}))\}.*$
 *
 * A match is described by a `Cut`: the positions where each group ends.
 * `ValidCut` is the language of the pattern stated declaratively; `Search`
 * is the engine, trying start positions left to right and, at each start,
 * the alternatives of every group in the order the pattern lists them.
 */
module Definitions {
  import opened Wrappers
  import opened Strings

  datatype Dialect = Current | Legacy

  /**
   * Group boundaries of one match: the backslash is at `p`; group 1 (the
   * command) is s[p+1..e1], group 2 (optional brace) s[e1..e2], group 3 (the
   * name) s[e2..e3], group 4 s[e3..e4], group 5 (argument count or blanks)
   * s[e4..e5], the opener is s[e5], the body s[e5+1..m] and the closer s[m].
   */
  datatype Cut = Cut(p: nat, e1: nat, e2: nat, e3: nat, e4: nat, e5: nat, m: nat)

  /** The literal alternatives of group 1 after `.*command`, in pattern order. */
  const Keywords: seq<string> := ["DeclareMathOperator", "def", "edef", "xdef", "gdef"]

  predicate IsOpener(d: Dialect, c: char) {
    c == '{' || (d == Current && c == '#')
  }

  predicate IsCloser(d: Dialect, c: char) {
    c == '}' || (d == Current && c == '#')
  }

  predicate NoNewline(s: string, lo: nat, hi: nat)
    requires hi <= |s|
  {
    forall k :: lo <= k < hi ==> s[k] != '\n'
  }

  /** Index of the first newline at or after `i`, or |s|: where `.*` from `i` stops. */
  function LineEnd(s: string, i: nat): (e: nat)
    requires i <= |s|
    ensures i <= e <= |s|
    ensures NoNewline(s, i, e)
    ensures e < |s| ==> s[e] == '\n'
    decreases |s| - i
  {
    if i == |s| || s[i] == '\n' then i else LineEnd(s, i + 1)
  }

  /** `.*$` matches at `i`: the line that starts there is the last one (a final newline is allowed). */
  predicate TrailOk(s: string, i: nat)
    requires i <= |s|
  {
    LineEnd(s, i) + 1 >= |s|
  }

  predicate AllLetters(s: string, lo: nat, hi: nat)
    requires hi <= |s|
  {
    forall k :: lo <= k < hi ==> IsLetter(s[k])
  }

  predicate AllBlanks(s: string, lo: nat, hi: nat)
    requires hi <= |s|
  {
    forall k :: lo <= k < hi ==> s[k] == ' '
  }

  // ---------------------------------------------------------------------
  // The language of the pattern, group by group
  // ---------------------------------------------------------------------

  /** Group 1: `.*command` (no newline before "command") or one of the keywords. */
  predicate CommandOk(s: string, p: nat, e1: nat) {
    p < e1 <= |s| &&
    ((e1 >= p + 8 && s[e1 - 7..e1] == "command" && NoNewline(s, p + 1, e1)) ||
     s[p + 1..e1] in Keywords)
  }

  /** Groups 2 and 4: an optional literal character. */
  predicate OptionalOk(s: string, i: nat, j: nat, c: char) {
    j == i || (j == i + 1 && i < |s| && s[i] == c)
  }

  /** Group 3: a backslash followed by one or more ASCII letters. */
  predicate NameOk(s: string, e2: nat, e3: nat) {
    e2 + 2 <= e3 <= |s| && s[e2] == '\\' && AllLetters(s, e2 + 1, e3)
  }

  /** Group 5: `[d]` with one digit, or nothing, or one or more blanks. */
  predicate SpecOk(s: string, e4: nat, e5: nat) {
    e4 <= e5 <= |s| &&
    ((e5 == e4 + 3 && s[e4] == '[' && IsDigit(s[e4 + 1]) && s[e4 + 2] == ']') ||
     AllBlanks(s, e4, e5))
  }

  /** Opener, body without newline, closer, and `.*$` after the closer. */
  predicate TailOk(s: string, d: Dialect, e5: nat, m: nat) {
    e5 < m < |s| && IsOpener(d, s[e5]) && NoNewline(s, e5 + 1, m) &&
    IsCloser(d, s[m]) && TrailOk(s, m + 1)
  }

  predicate ValidCut(s: string, d: Dialect, c: Cut) {
    c.p < |s| && s[c.p] == '\\' &&
    CommandOk(s, c.p, c.e1) && OptionalOk(s, c.e1, c.e2, '{') &&
    NameOk(s, c.e2, c.e3) && OptionalOk(s, c.e3, c.e4, '}') &&
    SpecOk(s, c.e4, c.e5) && TailOk(s, d, c.e5, c.m)
  }

  /** The body the engine picks runs to the last closer of its line. */
  predicate Greedy(s: string, d: Dialect, c: Cut) {
    c.e5 < |s| && forall k :: c.m < k < LineEnd(s, c.e5 + 1) ==> !IsCloser(d, s[k])
  }

  // ---------------------------------------------------------------------
  // The engine: alternatives of each group in the order `re` tries them
  // ---------------------------------------------------------------------

  /** [hi, hi-1, ..., lo]: the lengths a greedy quantifier tries. */
  function Descending(hi: nat, lo: nat): (r: seq<nat>)
    ensures forall x :: x in r <==> lo <= x <= hi
    decreases hi
  {
    if hi < lo then [] else if hi == 0 then [0] else [hi] + Descending(hi - 1, lo)
  }

  /** Ends of "command" occurrences that start in [lo, hi), rightmost first. */
  function CommandWordEnds(s: string, lo: nat, hi: nat): seq<nat>
    decreases hi
  {
    if hi <= lo then []
    else (if hi - 1 + 7 <= |s| && s[hi - 1..hi - 1 + 7] == "command" then [hi - 1 + 7] else [])
         + CommandWordEnds(s, lo, hi - 1)
  }

  function KeywordEnds(s: string, i: nat, kws: seq<string>): seq<nat>
    decreases |kws|
  {
    if kws == [] then []
    else (if i + |kws[0]| <= |s| && s[i..i + |kws[0]|] == kws[0] then [i + |kws[0]|] else [])
         + KeywordEnds(s, i, kws[1..])
  }

  /** Group 1: greedy `.*command`, longest first, then the keywords. */
  function CommandEnds(s: string, p: nat): seq<nat>
    requires p < |s|
  {
    CommandWordEnds(s, p + 1, LineEnd(s, p + 1)) + KeywordEnds(s, p + 1, Keywords)
  }

  /** `(c|)`: the character first, then nothing. */
  function OptionalEnds(s: string, i: nat, c: char): seq<nat> {
    if i < |s| && s[i] == c then [i + 1, i] else [i]
  }

  /** `\\[a-zA-Z]+`: the longest letter run first. */
  function NameEnds(s: string, e2: nat): seq<nat> {
    if e2 < |s| && s[e2] == '\\' then Descending(e2 + 1 + LetterRun(s[e2 + 1..]), e2 + 2) else []
  }

  /** Number of literal blanks at the start of `s`. */
  function BlankRun(s: string): (n: nat)
    ensures n <= |s|
  {
    if s != [] && s[0] == ' ' then 1 + BlankRun(s[1..]) else 0
  }

  /** `\[([0-9])\]`, then the empty alternative, then ` +` longest first. */
  function SpecEnds(s: string, e4: nat): seq<nat> {
    if e4 > |s| then [] else
    (if e4 + 3 <= |s| && s[e4] == '[' && IsDigit(s[e4 + 1]) && s[e4 + 2] == ']' then [e4 + 3] else [])
    + [e4]
    + Descending(e4 + BlankRun(s[e4..]), e4 + 1)
  }

  /** The last closer in s[lo..hi). */
  function LastCloser(s: string, d: Dialect, lo: nat, hi: nat): (r: Option<nat>)
    requires hi <= |s|
    ensures r.Some? ==> lo <= r.value < hi && IsCloser(d, s[r.value])
    ensures r.Some? ==> forall k :: r.value < k < hi ==> !IsCloser(d, s[k])
    ensures r.None? ==> forall k :: lo <= k < hi ==> !IsCloser(d, s[k])
    decreases hi
  {
    if hi <= lo then None
    else if IsCloser(d, s[hi - 1]) then Some(hi - 1)
    else LastCloser(s, d, lo, hi - 1)
  }

  /** First alternative for which the rest of the pattern succeeds. */
  function FirstSome(xs: seq<nat>, f: nat -> Option<Cut>): Option<Cut>
    decreases |xs|
  {
    if xs == [] then None
    else if f(xs[0]).Some? then f(xs[0])
    else FirstSome(xs[1..], f)
  }

  /** Opener, greedy body up to the last closer of the line, closer, `.*$`. */
  function Finish(s: string, d: Dialect, p: nat, e1: nat, e2: nat, e3: nat, e4: nat, e5: nat): Option<Cut> {
    if e5 < |s| && IsOpener(d, s[e5]) then
      match LastCloser(s, d, e5 + 1, LineEnd(s, e5 + 1))
      case None => None
      case Some(m) => if TrailOk(s, m + 1) then Some(Cut(p, e1, e2, e3, e4, e5, m)) else None
    else None
  }

  function AfterBraceClose(s: string, d: Dialect, p: nat, e1: nat, e2: nat, e3: nat, e4: nat): Option<Cut> {
    FirstSome(SpecEnds(s, e4), (e5: nat) => Finish(s, d, p, e1, e2, e3, e4, e5))
  }

  function AfterName(s: string, d: Dialect, p: nat, e1: nat, e2: nat, e3: nat): Option<Cut> {
    FirstSome(OptionalEnds(s, e3, '}'), (e4: nat) => AfterBraceClose(s, d, p, e1, e2, e3, e4))
  }

  function AfterBraceOpen(s: string, d: Dialect, p: nat, e1: nat, e2: nat): Option<Cut> {
    FirstSome(NameEnds(s, e2), (e3: nat) => AfterName(s, d, p, e1, e2, e3))
  }

  function AfterCommand(s: string, d: Dialect, p: nat, e1: nat): Option<Cut> {
    FirstSome(OptionalEnds(s, e1, '{'), (e2: nat) => AfterBraceOpen(s, d, p, e1, e2))
  }

  /** The pattern anchored at position `p`. */
  function MatchAt(s: string, d: Dialect, p: nat): Option<Cut> {
    if p < |s| && s[p] == '\\' then FirstSome(CommandEnds(s, p), (e1: nat) => AfterCommand(s, d, p, e1))
    else None
  }

  /** `re.search`: the first start position, from `p` on, where the pattern matches. */
  function SearchFrom(s: string, d: Dialect, p: nat): Option<Cut>
    decreases |s| - p
  {
    if p >= |s| then None
    else match MatchAt(s, d, p)
      case Some(c) => Some(c)
      case None => SearchFrom(s, d, p + 1)
  }

  function Search(s: string, d: Dialect): Option<Cut> {
    SearchFrom(s, d, 0)
  }

  // ---------------------------------------------------------------------
  // The candidate lists hold exactly the alternatives the pattern allows
  // ---------------------------------------------------------------------

  lemma {:induction false} CommandWordEndsExact(s: string, lo: nat, hi: nat, x: nat)
    ensures x in CommandWordEnds(s, lo, hi) <==>
      (lo + 7 <= x < hi + 7 && x <= |s| && s[x - 7..x] == "command")
    decreases hi
  {
    if hi > lo {
      CommandWordEndsExact(s, lo, hi - 1, x);
    }
  }

  lemma {:induction false} KeywordEndsExact(s: string, i: nat, kws: seq<string>, x: nat)
    ensures x in KeywordEnds(s, i, kws) <==> (i <= x <= |s| && s[i..x] in kws)
    decreases |kws|
  {
    if kws != [] {
      KeywordEndsExact(s, i, kws[1..], x);
      if i <= x <= |s| && s[i..x] in kws {
        assert s[i..x] == kws[0] || s[i..x] in kws[1..];
      }
    }
  }

  /** "command" carries no newline, so a word end before the line end bounds the `.*`. */
  lemma CommandWordOnLine(s: string, p: nat, x: nat)
    requires p < |s|
    requires p + 8 <= x <= |s| && s[x - 7..x] == "command"
    ensures NoNewline(s, p + 1, x) <==> x - 7 < LineEnd(s, p + 1)
  {
    var le := LineEnd(s, p + 1);
    if x - 7 < le {
      forall k | p + 1 <= k < x ensures s[k] != '\n' {
        if k >= x - 7 {
          assert s[k] == "command"[k - (x - 7)];
        }
      }
    }
  }

  lemma CommandEndsExact(s: string, p: nat, x: nat)
    requires p < |s|
    ensures x in CommandEnds(s, p) <==> CommandOk(s, p, x)
  {
    var le := LineEnd(s, p + 1);
    CommandWordEndsExact(s, p + 1, le, x);
    KeywordEndsExact(s, p + 1, Keywords, x);
    if p + 8 <= x <= |s| && s[x - 7..x] == "command" {
      CommandWordOnLine(s, p, x);
    }
  }

  lemma {:induction false} BlankRunMaximal(s: string)
    ensures forall k :: 0 <= k < BlankRun(s) ==> s[k] == ' '
    ensures BlankRun(s) < |s| ==> s[BlankRun(s)] != ' '
  {
    if s != [] && s[0] == ' ' {
      BlankRunMaximal(s[1..]);
      forall k | 0 <= k < BlankRun(s) ensures s[k] == ' ' {
        if k > 0 { assert s[k] == s[1..][k - 1]; }
      }
    }
  }

  lemma NameEndsExact(s: string, e2: nat, x: nat)
    ensures x in NameEnds(s, e2) <==> NameOk(s, e2, x)
  {
    if e2 < |s| && s[e2] == '\\' {
      var t := s[e2 + 1..];
      LetterRunMaximal(t);
      var n := LetterRun(t);
      if e2 + 2 <= x <= e2 + 1 + n {
        forall k | e2 + 1 <= k < x ensures IsLetter(s[k]) {
          assert s[k] == t[k - (e2 + 1)];
        }
      }
    }
  }

  lemma SpecEndsExact(s: string, e4: nat, x: nat)
    ensures x in SpecEnds(s, e4) <==> SpecOk(s, e4, x)
  {
    if e4 <= |s| {
      var t := s[e4..];
      BlankRunMaximal(t);
      var n := BlankRun(t);
      if e4 + 1 <= x <= e4 + n {
        forall k | e4 <= k < x ensures s[k] == ' ' {
          assert s[k] == t[k - e4];
        }
      }
    }
  }

  // ---------------------------------------------------------------------
  // Soundness: every cut the engine returns is in the language
  // ---------------------------------------------------------------------

  lemma {:induction false} FirstSomeFrom(xs: seq<nat>, f: nat -> Option<Cut>)
    ensures FirstSome(xs, f).Some? ==> exists i :: 0 <= i < |xs| && f(xs[i]) == FirstSome(xs, f)
    decreases |xs|
  {
    if xs != [] && f(xs[0]).None? {
      FirstSomeFrom(xs[1..], f);
      if FirstSome(xs, f).Some? {
        var i :| 0 <= i < |xs[1..]| && f(xs[1..][i]) == FirstSome(xs[1..], f);
        assert f(xs[i + 1]) == FirstSome(xs, f);
      }
    }
  }

  lemma {:induction false} FirstSomeFinds(xs: seq<nat>, f: nat -> Option<Cut>, x: nat)
    requires x in xs && f(x).Some?
    ensures FirstSome(xs, f).Some?
    decreases |xs|
  {
    if f(xs[0]).None? {
      assert x in xs[1..];
      FirstSomeFinds(xs[1..], f, x);
    }
  }

  lemma FinishSound(s: string, d: Dialect, p: nat, e1: nat, e2: nat, e3: nat, e4: nat, e5: nat)
    ensures Finish(s, d, p, e1, e2, e3, e4, e5).Some? ==>
      var c := Finish(s, d, p, e1, e2, e3, e4, e5).value;
      c == Cut(p, e1, e2, e3, e4, e5, c.m) && TailOk(s, d, e5, c.m) && Greedy(s, d, c)
  {
  }

  lemma AfterBraceCloseSound(s: string, d: Dialect, p: nat, e1: nat, e2: nat, e3: nat, e4: nat)
    ensures AfterBraceClose(s, d, p, e1, e2, e3, e4).Some? ==>
      var c := AfterBraceClose(s, d, p, e1, e2, e3, e4).value;
      c.p == p && c.e1 == e1 && c.e2 == e2 && c.e3 == e3 && c.e4 == e4 &&
      SpecOk(s, e4, c.e5) && TailOk(s, d, c.e5, c.m) && Greedy(s, d, c)
  {
    var f := (e5: nat) => Finish(s, d, p, e1, e2, e3, e4, e5);
    var xs := SpecEnds(s, e4);
    FirstSomeFrom(xs, f);
    if FirstSome(xs, f).Some? {
      var i :| 0 <= i < |xs| && f(xs[i]) == FirstSome(xs, f);
      SpecEndsExact(s, e4, xs[i]);
      FinishSound(s, d, p, e1, e2, e3, e4, xs[i]);
    }
  }

  lemma AfterNameSound(s: string, d: Dialect, p: nat, e1: nat, e2: nat, e3: nat)
    ensures AfterName(s, d, p, e1, e2, e3).Some? ==>
      var c := AfterName(s, d, p, e1, e2, e3).value;
      c.p == p && c.e1 == e1 && c.e2 == e2 && c.e3 == e3 && OptionalOk(s, e3, c.e4, '}') &&
      SpecOk(s, c.e4, c.e5) && TailOk(s, d, c.e5, c.m) && Greedy(s, d, c)
  {
    var f := (e4: nat) => AfterBraceClose(s, d, p, e1, e2, e3, e4);
    var xs := OptionalEnds(s, e3, '}');
    FirstSomeFrom(xs, f);
    if FirstSome(xs, f).Some? {
      var i :| 0 <= i < |xs| && f(xs[i]) == FirstSome(xs, f);
      AfterBraceCloseSound(s, d, p, e1, e2, e3, xs[i]);
    }
  }

  lemma AfterBraceOpenSound(s: string, d: Dialect, p: nat, e1: nat, e2: nat)
    ensures AfterBraceOpen(s, d, p, e1, e2).Some? ==>
      var c := AfterBraceOpen(s, d, p, e1, e2).value;
      c.p == p && c.e1 == e1 && c.e2 == e2 && NameOk(s, e2, c.e3) && OptionalOk(s, c.e3, c.e4, '}') &&
      SpecOk(s, c.e4, c.e5) && TailOk(s, d, c.e5, c.m) && Greedy(s, d, c)
  {
    var f := (e3: nat) => AfterName(s, d, p, e1, e2, e3);
    var xs := NameEnds(s, e2);
    FirstSomeFrom(xs, f);
    if FirstSome(xs, f).Some? {
      var i :| 0 <= i < |xs| && f(xs[i]) == FirstSome(xs, f);
      NameEndsExact(s, e2, xs[i]);
      AfterNameSound(s, d, p, e1, e2, xs[i]);
    }
  }

  lemma AfterCommandSound(s: string, d: Dialect, p: nat, e1: nat)
    ensures AfterCommand(s, d, p, e1).Some? ==>
      var c := AfterCommand(s, d, p, e1).value;
      c.p == p && c.e1 == e1 && OptionalOk(s, e1, c.e2, '{') && NameOk(s, c.e2, c.e3) &&
      OptionalOk(s, c.e3, c.e4, '}') && SpecOk(s, c.e4, c.e5) && TailOk(s, d, c.e5, c.m) && Greedy(s, d, c)
  {
    var f := (e2: nat) => AfterBraceOpen(s, d, p, e1, e2);
    var xs := OptionalEnds(s, e1, '{');
    FirstSomeFrom(xs, f);
    if FirstSome(xs, f).Some? {
      var i :| 0 <= i < |xs| && f(xs[i]) == FirstSome(xs, f);
      AfterBraceOpenSound(s, d, p, e1, xs[i]);
    }
  }

  lemma MatchAtSound(s: string, d: Dialect, p: nat)
    ensures MatchAt(s, d, p).Some? ==>
      (MatchAt(s, d, p).value.p == p && ValidCut(s, d, MatchAt(s, d, p).value) &&
       Greedy(s, d, MatchAt(s, d, p).value))
  {
    if p < |s| && s[p] == '\\' {
      var f := (e1: nat) => AfterCommand(s, d, p, e1);
      var xs := CommandEnds(s, p);
      FirstSomeFrom(xs, f);
      if FirstSome(xs, f).Some? {
        var i :| 0 <= i < |xs| && f(xs[i]) == FirstSome(xs, f);
        CommandEndsExact(s, p, xs[i]);
        AfterCommandSound(s, d, p, xs[i]);
      }
    }
  }

  // ---------------------------------------------------------------------
  // Completeness: whenever the language has a cut, the engine finds one
  // ---------------------------------------------------------------------

  lemma LineEndFrom(s: string, i: nat, j: nat)
    requires i <= |s|
    requires i <= j <= LineEnd(s, i)
    ensures LineEnd(s, j) == LineEnd(s, i)
    decreases LineEnd(s, i) - j
  {
    if j < LineEnd(s, i) {
      LineEndFrom(s, i, j + 1);
    }
  }

  lemma FinishComplete(s: string, d: Dialect, c: Cut)
    requires TailOk(s, d, c.e5, c.m)
    ensures Finish(s, d, c.p, c.e1, c.e2, c.e3, c.e4, c.e5).Some?
  {
    var le := LineEnd(s, c.e5 + 1);
    var r := LastCloser(s, d, c.e5 + 1, le);
    assert r.Some?;
    LineEndFrom(s, c.e5 + 1, c.m + 1);
    LineEndFrom(s, c.e5 + 1, r.value + 1);
  }

  lemma AfterBraceCloseComplete(s: string, d: Dialect, c: Cut)
    requires SpecOk(s, c.e4, c.e5) && TailOk(s, d, c.e5, c.m)
    ensures AfterBraceClose(s, d, c.p, c.e1, c.e2, c.e3, c.e4).Some?
  {
    SpecEndsExact(s, c.e4, c.e5);
    FinishComplete(s, d, c);
    FirstSomeFinds(SpecEnds(s, c.e4), (e5: nat) => Finish(s, d, c.p, c.e1, c.e2, c.e3, c.e4, e5), c.e5);
  }

  lemma AfterNameComplete(s: string, d: Dialect, c: Cut)
    requires OptionalOk(s, c.e3, c.e4, '}') && SpecOk(s, c.e4, c.e5) && TailOk(s, d, c.e5, c.m)
    ensures AfterName(s, d, c.p, c.e1, c.e2, c.e3).Some?
  {
    AfterBraceCloseComplete(s, d, c);
    FirstSomeFinds(OptionalEnds(s, c.e3, '}'), (e4: nat) => AfterBraceClose(s, d, c.p, c.e1, c.e2, c.e3, e4), c.e4);
  }

  lemma AfterBraceOpenComplete(s: string, d: Dialect, c: Cut)
    requires NameOk(s, c.e2, c.e3) && OptionalOk(s, c.e3, c.e4, '}') && SpecOk(s, c.e4, c.e5)
    requires TailOk(s, d, c.e5, c.m)
    ensures AfterBraceOpen(s, d, c.p, c.e1, c.e2).Some?
  {
    NameEndsExact(s, c.e2, c.e3);
    AfterNameComplete(s, d, c);
    FirstSomeFinds(NameEnds(s, c.e2), (e3: nat) => AfterName(s, d, c.p, c.e1, c.e2, e3), c.e3);
  }

  lemma AfterCommandComplete(s: string, d: Dialect, c: Cut)
    requires OptionalOk(s, c.e1, c.e2, '{') && NameOk(s, c.e2, c.e3) && OptionalOk(s, c.e3, c.e4, '}')
    requires SpecOk(s, c.e4, c.e5) && TailOk(s, d, c.e5, c.m)
    ensures AfterCommand(s, d, c.p, c.e1).Some?
  {
    var f := (e2: nat) => AfterBraceOpen(s, d, c.p, c.e1, e2);
    assert f(c.e2).Some? by { AfterBraceOpenComplete(s, d, c); }
    assert c.e2 in OptionalEnds(s, c.e1, '{');
    FirstSomeFinds(OptionalEnds(s, c.e1, '{'), f, c.e2);
  }

  lemma MatchAtComplete(s: string, d: Dialect, c: Cut)
    requires ValidCut(s, d, c)
    ensures MatchAt(s, d, c.p).Some?
  {
    CommandEndsExact(s, c.p, c.e1);
    AfterCommandComplete(s, d, c);
    FirstSomeFinds(CommandEnds(s, c.p), (e1: nat) => AfterCommand(s, d, c.p, e1), c.e1);
  }

  lemma {:induction false} SearchFromSound(s: string, d: Dialect, p: nat)
    ensures SearchFrom(s, d, p).Some? ==>
      p <= SearchFrom(s, d, p).value.p && ValidCut(s, d, SearchFrom(s, d, p).value) &&
      Greedy(s, d, SearchFrom(s, d, p).value)
    decreases |s| - p
  {
    if p < |s| {
      MatchAtSound(s, d, p);
      if MatchAt(s, d, p).None? {
        SearchFromSound(s, d, p + 1);
      }
    }
  }

  lemma MatchAtStart(s: string, d: Dialect, p: nat)
    ensures MatchAt(s, d, p).Some? ==> MatchAt(s, d, p).value.p == p
  {
    MatchAtSound(s, d, p);
  }

  lemma {:induction false} SearchFromComplete(s: string, d: Dialect, p: nat, c: Cut)
    requires ValidCut(s, d, c) && p <= c.p
    ensures SearchFrom(s, d, p).Some? && SearchFrom(s, d, p).value.p <= c.p
    decreases |s| - p
  {
    MatchAtStart(s, d, p);
    if p == c.p {
      MatchAtComplete(s, d, c);
    } else if MatchAt(s, d, p).None? {
      SearchFromComplete(s, d, p + 1, c);
    }
  }

  /**
   * `Search` is `re.search` for the definition pattern: what it returns is a
   * match, it finds one whenever the line has one, its match starts at the
   * leftmost position where any match starts, and the body runs to the last
   * closer of its line (the greedy `.*` before the lookahead).
   */
  lemma SearchIsRegexSearch(s: string, d: Dialect)
    ensures Search(s, d).Some? ==> ValidCut(s, d, Search(s, d).value) && Greedy(s, d, Search(s, d).value)
    ensures forall c :: ValidCut(s, d, c) ==> Search(s, d).Some? && Search(s, d).value.p <= c.p
  {
    SearchFromSound(s, d, 0);
    forall c | ValidCut(s, d, c) ensures Search(s, d).Some? && Search(s, d).value.p <= c.p {
      SearchFromComplete(s, d, 0, c);
    }
  }

  // ---------------------------------------------------------------------
  // Body cleanup: the backslash-removing `re.sub` applied to the body
  // (src/Py/modules.py:481-482, src/Py/Axesscleaner/Macro.py:310-318)
  // ---------------------------------------------------------------------

  /**
   * Characters in the negative lookahead: after one of these a backslash is
   * kept. The current pattern protects letters, whitespace and `;.,"'`; the
   * older one only letters.
   */
  predicate Protected(d: Dialect, c: char) {
    IsLetter(c) || (d == Current && (IsSpace(c) || c == ';' || c == '.' || c == ',' || c == '"' || c == '\''))
  }

  /**
   * Python reads `[[:blank:]]` as the set `[[:blank]` followed by a literal
   * `]`, so the optional group is one of these characters and then `]`.
   */
  predicate InBlankSet(c: char) {
    c == '[' || c == ':' || c == 'b' || c == 'l' || c == 'a' || c == 'n' || c == 'k'
  }

  /** The lookahead succeeds at `i`: end of text or an unprotected character. */
  predicate LookaheadPasses(d: Dialect, s: string, i: nat) {
    i >= |s| || !Protected(d, s[i])
  }

  /**
   * Left-to-right, non-overlapping removal: at a backslash the three-character
   * alternative is tried first, then the bare backslash; a backslash whose
   * lookahead fails is kept and scanning resumes at the next character.
   */
  function CleanBody(d: Dialect, s: string): string
    decreases |s|
  {
    if s == [] then []
    else if s[0] != '\\' then [s[0]] + CleanBody(d, s[1..])
    else if |s| >= 3 && InBlankSet(s[1]) && s[2] == ']' && LookaheadPasses(d, s, 3) then CleanBody(d, s[3..])
    else if LookaheadPasses(d, s, 1) then CleanBody(d, s[1..])
    else [s[0]] + CleanBody(d, s[1..])
  }

  /** Cleanup only deletes characters. */
  lemma {:induction false} CleanBodyDeletes(d: Dialect, s: string)
    ensures IsSubsequence(CleanBody(d, s), s)
    decreases |s|
  {
    if s != [] {
      var r := CleanBody(d, s);
      if s[0] != '\\' || (!(|s| >= 3 && InBlankSet(s[1]) && s[2] == ']' && LookaheadPasses(d, s, 3)) && !LookaheadPasses(d, s, 1)) {
        CleanBodyDeletes(d, s[1..]);
        assert r == [s[0]] + CleanBody(d, s[1..]);
        assert r[1..] == CleanBody(d, s[1..]);
      } else if |s| >= 3 && InBlankSet(s[1]) && s[2] == ']' && LookaheadPasses(d, s, 3) {
        CleanBodyDeletes(d, s[3..]);
        SubsequenceDropFront(r, s, 3);
      } else {
        CleanBodyDeletes(d, s[1..]);
        SubsequenceDropFront(r, s, 1);
      }
    }
  }

  /** A cleaned body keeps its first character when that is not a backslash. */
  lemma CleanBodyHead(d: Dialect, s: string)
    requires s != [] && s[0] != '\\'
    ensures CleanBody(d, s) != [] && CleanBody(d, s)[0] == s[0]
  {
  }

  /** Every backslash in `r` is followed by a protected character. */
  predicate BackslashesGuarded(d: Dialect, r: string) {
    forall i :: 0 <= i < |r| && r[i] == '\\' ==> i + 1 < |r| && Protected(d, r[i + 1])
  }

  /** Every backslash the cleanup keeps is followed by a protected character. */
  lemma {:induction false} CleanBodyKeepsOnlyGuarded(d: Dialect, s: string)
    ensures BackslashesGuarded(d, CleanBody(d, s))
    decreases |s|
  {
    if s != [] {
      var r := CleanBody(d, s);
      if s[0] != '\\' {
        CleanBodyKeepsOnlyGuarded(d, s[1..]);
        var t := CleanBody(d, s[1..]);
        assert r == [s[0]] + t;
        forall i | 1 <= i < |r| && r[i] == '\\' ensures i + 1 < |r| && Protected(d, r[i + 1]) {
          assert r[i] == t[i - 1];
        }
      } else if |s| >= 3 && InBlankSet(s[1]) && s[2] == ']' && LookaheadPasses(d, s, 3) {
        CleanBodyKeepsOnlyGuarded(d, s[3..]);
      } else if LookaheadPasses(d, s, 1) {
        CleanBodyKeepsOnlyGuarded(d, s[1..]);
        assert r == CleanBody(d, s[1..]);
      } else {
        CleanBodyKeepsOnlyGuarded(d, s[1..]);
        CleanBodyHead(d, s[1..]);
        assert r == [s[0]] + CleanBody(d, s[1..]);
      }
    }
  }

  /** A body without backslashes is left as it is. */
  lemma {:induction false} CleanBodyPlain(d: Dialect, s: string)
    requires '\\' !in s
    ensures CleanBody(d, s) == s
    decreases |s|
  {
    if s != [] {
      assert s[0] in s;
      assert forall c :: c in s[1..] ==> c in s;
      CleanBodyPlain(d, s[1..]);
      assert s == [s[0]] + s[1..];
    }
  }

  // ---------------------------------------------------------------------
  // A definition written in the usual shape is recognised as intended
  // ---------------------------------------------------------------------

  /** The argument-count text `[d]`, or nothing. */
  function SpecText(arity: Option<char>): string {
    if arity.Some? then "[" + [arity.value] + "]" else ""
  }

  /** `\cmd{\name}[d]{body}`, or `\cmd\name[d]{body}` when the name is not braced. */
  function Render(cmd: string, braced: bool, name: string, arity: Option<char>, body: string): string {
    "\\" + cmd + RenderRest(braced, name, arity, body)
  }

  /** Everything after the command word. */
  function RenderRest(braced: bool, name: string, arity: Option<char>, body: string): string {
    (if braced then "{" else "") + name + (if braced then "}" else "") + SpecText(arity) + "{" + body + "}"
  }

  /** The letters of "command". */
  predicate InCommandWord(c: char) {
    c == 'c' || c == 'o' || c == 'm' || c == 'a' || c == 'n' || c == 'd'
  }

  /**
   * The pieces of a rendered definition: a command word ending in "command"
   * (or a keyword) with no brace, backslash or newline, a name made of a
   * backslash and letters, a digit count, and a body on one line. Neither the
   * name nor the body may contain "command" (the greedy `.*command` would
   * otherwise reach into them).
   */
  predicate Renderable(cmd: string, name: string, arity: Option<char>, body: string) {
    (cmd in Keywords || (|cmd| >= 7 && cmd[|cmd| - 7..] == "command")) &&
    (forall k :: 0 <= k < |cmd| ==> cmd[k] != '{' && cmd[k] != '\\' && cmd[k] != '\n') &&
    |name| >= 2 && name[0] == '\\' && (forall k :: 1 <= k < |name| ==> IsLetter(name[k])) &&
    (arity.Some? ==> IsDigit(arity.value)) &&
    (forall k :: 0 <= k < |body| ==> body[k] != '\n') &&
    !Contains(name, "command") && !Contains(body, "command")
  }

  /** Where the groups of a rendered definition end. */
  function RenderCut(cmd: string, braced: bool, name: string, arity: Option<char>, body: string): Cut {
    var a := 1 + |cmd|;
    var nb := a + (if braced then 1 else 0);
    var ne := nb + |name|;
    var f := ne + (if braced then 1 else 0);
    var g := f + |SpecText(arity)|;
    Cut(0, a, nb, ne, f, g, g + 1 + |body|)
  }

  /** Index facts about a rendered definition. */
  predicate Laid(s: string, cmd: string, braced: bool, name: string, arity: Option<char>, body: string) {
    var c := RenderCut(cmd, braced, name, arity, body);
    |s| == c.m + 1 && s[0] == '\\' && s[1..c.e1] == cmd && s[c.e2..c.e3] == name &&
    s[c.e4..c.e5] == SpecText(arity) && s[c.e5] == '{' && s[c.e5 + 1..c.m] == body && s[c.m] == '}' &&
    (braced ==> s[c.e1] == '{' && s[c.e3] == '}')
  }

  /** Index facts about the text after the command word. */
  lemma RestLaid(braced: bool, name: string, arity: Option<char>, body: string)
    ensures var r := RenderRest(braced, name, arity, body);
      var ob := if braced then 1 else 0;
      var f := ob + |name| + ob;
      var g := f + |SpecText(arity)|;
      |r| == g + 2 + |body| && r[ob..ob + |name|] == name && r[f..g] == SpecText(arity) &&
      r[g] == '{' && r[g + 1..g + 1 + |body|] == body && r[g + 1 + |body|] == '}' &&
      (braced ==> r[0] == '{' && r[ob + |name|] == '}')
  {
    var ob: string := if braced then "{" else "";
    var cb: string := if braced then "}" else "";
    var p2 := ob + name;
    var p4 := p2 + cb + SpecText(arity);
    var p6 := p4 + "{" + body;
    var r := RenderRest(braced, name, arity, body);
    assert r == p6 + "}";
    assert r[..|p6|] == p6;
    assert r[..|p4|] == p4;
    assert r[..|p2|] == p2;
    assert r[|ob|..|p2|] == p2[|ob|..];
    assert r[|p2| + |cb|..|p4|] == p4[|p2| + |cb|..];
    assert r[|p4| + 1..|p6|] == p6[|p4| + 1..];
  }

  /** Where each piece of a rendered definition sits. */
  lemma RenderLaid(cmd: string, braced: bool, name: string, arity: Option<char>, body: string)
    ensures Laid(Render(cmd, braced, name, arity, body), cmd, braced, name, arity, body)
  {
    var s := Render(cmd, braced, name, arity, body);
    assert s[1..1 + |cmd|] == cmd;
    RenderNameAt(cmd, braced, name, arity, body);
    RenderSpecAt(cmd, braced, name, arity, body);
    RenderBodyAt(cmd, braced, name, arity, body);
  }

  /** The rendered text after the command word is the rest. */
  lemma RenderSplit(cmd: string, braced: bool, name: string, arity: Option<char>, body: string)
    ensures var s := Render(cmd, braced, name, arity, body);
      |s| == 1 + |cmd| + |RenderRest(braced, name, arity, body)| &&
      s[1 + |cmd|..] == RenderRest(braced, name, arity, body)
  {
  }

  /** The name of a rendered definition, with its braces when it has them. */
  lemma RenderNameAt(cmd: string, braced: bool, name: string, arity: Option<char>, body: string)
    ensures var s := Render(cmd, braced, name, arity, body);
      var c := RenderCut(cmd, braced, name, arity, body);
      c.e3 < |s| && s[c.e2..c.e3] == name && (braced ==> s[c.e1] == '{' && s[c.e3] == '}')
  {
    var s := Render(cmd, braced, name, arity, body);
    var r := RenderRest(braced, name, arity, body);
    var a := 1 + |cmd|;
    var ob := if braced then 1 else 0;
    RenderSplit(cmd, braced, name, arity, body);
    RestLaid(braced, name, arity, body);
    SliceShift(s, a, r, ob, ob + |name|);
    if braced {
      assert s[a] == r[0] && s[a + ob + |name|] == r[ob + |name|];
    }
  }

  /** The argument count of a rendered definition. */
  lemma RenderSpecAt(cmd: string, braced: bool, name: string, arity: Option<char>, body: string)
    ensures var s := Render(cmd, braced, name, arity, body);
      var c := RenderCut(cmd, braced, name, arity, body);
      c.e5 < |s| && s[c.e4..c.e5] == SpecText(arity)
  {
    var s := Render(cmd, braced, name, arity, body);
    var r := RenderRest(braced, name, arity, body);
    var a := 1 + |cmd|;
    var ob := if braced then 1 else 0;
    var f := ob + |name| + ob;
    var g := f + |SpecText(arity)|;
    RenderSplit(cmd, braced, name, arity, body);
    RestLaid(braced, name, arity, body);
    SliceShift(s, a, r, f, g);
  }

  /** The braced body of a rendered definition, which ends the text. */
  lemma RenderBodyAt(cmd: string, braced: bool, name: string, arity: Option<char>, body: string)
    ensures var s := Render(cmd, braced, name, arity, body);
      var c := RenderCut(cmd, braced, name, arity, body);
      |s| == c.m + 1 && s[c.e5] == '{' && s[c.e5 + 1..c.m] == body && s[c.m] == '}'
  {
    var s := Render(cmd, braced, name, arity, body);
    var r := RenderRest(braced, name, arity, body);
    var a := 1 + |cmd|;
    var ob := if braced then 1 else 0;
    var f := ob + |name| + ob;
    var g := f + |SpecText(arity)|;
    RenderSplit(cmd, braced, name, arity, body);
    RestLaid(braced, name, arity, body);
    SliceShift(s, a, r, g + 1, g + 1 + |body|);
    assert s[a + g] == r[g] && s[a + g + 1 + |body|] == r[g + 1 + |body|];
  }

  /** Group 1 of a rendered definition: the command word. */
  lemma RenderCommandOk(cmd: string, braced: bool, name: string, arity: Option<char>, body: string)
    requires Renderable(cmd, name, arity, body)
    ensures CommandOk(Render(cmd, braced, name, arity, body), 0, 1 + |cmd|)
  {
    var s := Render(cmd, braced, name, arity, body);
    var a := 1 + |cmd|;
    RenderLaid(cmd, braced, name, arity, body);
    assert s[1..a] == cmd;
    if cmd !in Keywords {
      assert s[a - 7..a] == cmd[|cmd| - 7..];
      forall k | 1 <= k < a ensures s[k] != '\n' {
        assert s[k] == cmd[k - 1];
      }
    }
  }

  /** Group 3 of a rendered definition: the name. */
  lemma RenderNameOk(cmd: string, braced: bool, name: string, arity: Option<char>, body: string)
    requires Renderable(cmd, name, arity, body)
    ensures var c := RenderCut(cmd, braced, name, arity, body);
      NameOk(Render(cmd, braced, name, arity, body), c.e2, c.e3)
  {
    var s := Render(cmd, braced, name, arity, body);
    var c := RenderCut(cmd, braced, name, arity, body);
    RenderLaid(cmd, braced, name, arity, body);
    assert s[c.e2..c.e3] == name;
    assert s[c.e2] == name[0];
    forall k | c.e2 + 1 <= k < c.e3 ensures IsLetter(s[k]) {
      assert s[k] == name[k - c.e2];
    }
  }

  /** Group 5 of a rendered definition: the argument count or nothing. */
  lemma RenderSpecOk(cmd: string, braced: bool, name: string, arity: Option<char>, body: string)
    requires Renderable(cmd, name, arity, body)
    ensures var c := RenderCut(cmd, braced, name, arity, body);
      SpecOk(Render(cmd, braced, name, arity, body), c.e4, c.e5)
  {
    var s := Render(cmd, braced, name, arity, body);
    var c := RenderCut(cmd, braced, name, arity, body);
    RenderLaid(cmd, braced, name, arity, body);
    assert s[c.e4..c.e5] == SpecText(arity);
    if arity.Some? {
      assert s[c.e4] == '[' && s[c.e4 + 1] == arity.value && s[c.e4 + 2] == ']';
    }
  }

  /** The body of a rendered definition and what follows it. */
  lemma RenderTailOk(d: Dialect, cmd: string, braced: bool, name: string, arity: Option<char>, body: string)
    requires Renderable(cmd, name, arity, body)
    ensures var c := RenderCut(cmd, braced, name, arity, body);
      TailOk(Render(cmd, braced, name, arity, body), d, c.e5, c.m)
  {
    var s := Render(cmd, braced, name, arity, body);
    var c := RenderCut(cmd, braced, name, arity, body);
    RenderLaid(cmd, braced, name, arity, body);
    assert s[c.e5 + 1..c.m] == body;
    forall k | c.e5 + 1 <= k < c.m ensures s[k] != '\n' {
      assert s[k] == body[k - c.e5 - 1];
    }
    assert LineEnd(s, c.m + 1) == |s|;
  }

  /** A rendered definition is in the language of both patterns. */
  lemma RenderValid(d: Dialect, cmd: string, braced: bool, name: string, arity: Option<char>, body: string)
    requires Renderable(cmd, name, arity, body)
    ensures ValidCut(Render(cmd, braced, name, arity, body), d, RenderCut(cmd, braced, name, arity, body))
  {
    RenderLaid(cmd, braced, name, arity, body);
    RenderCommandOk(cmd, braced, name, arity, body);
    RenderNameOk(cmd, braced, name, arity, body);
    RenderSpecOk(cmd, braced, name, arity, body);
    RenderTailOk(d, cmd, braced, name, arity, body);
  }

  lemma KeywordLetters(kw: string, i: nat)
    requires kw in Keywords && i < |kw|
    ensures IsLetter(kw[i])
  {
  }

  lemma ShortNoCommand(x: string)
    requires |x| < 7
    ensures !Contains(x, "command")
  {
  }

  /** Position `q` of `x + y` holding "command" would mean x and y hold parts of it. */
  lemma NoCommandAt(x: string, y: string, q: nat)
    requires q <= |x + y|
    requires q + 7 <= |x| ==> !OccursAt(x, "command", q)
    requires q >= |x| ==> !OccursAt(y, "command", q - |x|)
    requires q < |x| < q + 7 <= |x + y| ==> (y != [] && !InCommandWord(y[0])) || !InCommandWord(x[|x| - 1])
    ensures !OccursAt(x + y, "command", q)
  {
    var t := "command";
    var z := x + y;
    if q + 7 <= |z| {
      if q + 7 <= |x| {
        assert z[q..][..7] == x[q..][..7];
      } else if q >= |x| {
        assert z[q..][..7] == y[q - |x|..][..7];
      } else if y != [] && !InCommandWord(y[0]) {
        assert z[q..][|x| - q] == y[0];
        assert InCommandWord(t[|x| - q]);
      } else {
        assert z[q..][|x| - 1 - q] == x[|x| - 1];
        assert InCommandWord(t[|x| - 1 - q]);
      }
    }
  }

  /** "command" does not appear across a character that is not one of its letters. */
  lemma NoCommandJoin(x: string, y: string)
    requires !Contains(x, "command") && !Contains(y, "command")
    requires y == [] || !InCommandWord(y[0]) || (x != [] && !InCommandWord(x[|x| - 1]))
    ensures !Contains(x + y, "command")
  {
    forall q | 0 <= q <= |x + y| ensures !OccursAt(x + y, "command", q) {
      NoCommandAt(x, y, q);
    }
  }

  /** With no "command" after a barrier, every occurrence lies in the part before it. */
  lemma CommandOnlyLeft(x: string, y: string)
    requires !Contains(y, "command") && y != [] && !InCommandWord(y[0])
    ensures forall q: nat :: OccursAt(x + y, "command", q) ==> q + 7 <= |x|
  {
    forall q: nat | q + 7 > |x| && q <= |x + y| ensures !OccursAt(x + y, "command", q) {
      NoCommandAt(x, y, q);
    }
  }

  /** After the command word a rendered definition has no "command" and starts with a barrier. */
  lemma RenderRestNoCommand(braced: bool, name: string, arity: Option<char>, body: string)
    requires |name| >= 1 && name[0] == '\\' && !Contains(name, "command") && !Contains(body, "command")
    ensures var r := RenderRest(braced, name, arity, body);
      !Contains(r, "command") && r != [] && (r[0] == '{' || r[0] == '\\')
  {
    var ob: string := if braced then "{" else "";
    var cb: string := if braced then "}" else "";
    var sp := SpecText(arity);
    ShortNoCommand("}");
    ShortNoCommand("{");
    ShortNoCommand(ob);
    ShortNoCommand(cb);
    ShortNoCommand(sp);
    var q6 := body + "}";
    NoCommandJoin(body, "}");
    var q5 := "{" + q6;
    NoCommandJoin("{", q6);
    var q4 := sp + q5;
    NoCommandJoin(sp, q5);
    var q3 := cb + q4;
    NoCommandJoin(cb, q4);
    var q2 := name + q3;
    NoCommandJoin(name, q3);
    var q1 := ob + q2;
    NoCommandJoin(ob, q2);
    assert RenderRest(braced, name, arity, body) == q1;
  }

  /** In a rendered definition "command" occurs only within the command word. */
  lemma RenderCommandOnly(cmd: string, braced: bool, name: string, arity: Option<char>, body: string)
    requires Renderable(cmd, name, arity, body)
    ensures forall q: nat :: OccursAt(Render(cmd, braced, name, arity, body), "command", q) ==> q + 7 <= 1 + |cmd|
  {
    RenderRestNoCommand(braced, name, arity, body);
    CommandOnlyLeft("\\" + cmd, RenderRest(braced, name, arity, body));
  }

  /** Group 1 of any match at position 0 ends right after the command word. */
  lemma RenderCommandEnd(s: string, cmd: string, braced: bool, name: string, arity: Option<char>, body: string, c: Cut)
    requires s == Render(cmd, braced, name, arity, body) && Renderable(cmd, name, arity, body)
    requires CommandOk(s, 0, c.e1) && OptionalOk(s, c.e1, c.e2, '{') && NameOk(s, c.e2, c.e3)
    ensures c.e1 == 1 + |cmd|
  {
    var a := 1 + |cmd|;
    RenderLaid(cmd, braced, name, arity, body);
    assert s[a] == '{' || s[a] == '\\' by {
      if !braced { assert s[a] == name[0]; }
    }
    if c.e1 > a {
      if s[1..c.e1] in Keywords {
        assert s[a] == s[1..c.e1][a - 1];
        KeywordLetters(s[1..c.e1], a - 1);
      } else {
        RenderCommandOnly(cmd, braced, name, arity, body);
        assert s[c.e1 - 7..][..7] == s[c.e1 - 7..c.e1];
        assert OccursAt(s, "command", c.e1 - 7);
      }
    }
  }

  /**
   * The separating characters of a definition laid out as `r` says: what the
   * uniqueness argument needs to know about the text, and nothing else.
   */
  predicate Shape(s: string, r: Cut, braced: bool, arity: Option<char>) {
    r.p == 0 && r.e1 < r.e2 + 1 && r.e2 + 2 <= r.e3 && r.e3 <= r.e4 <= r.e5 < r.m &&
    |s| == r.m + 1 &&
    s[r.e1] == (if braced then '{' else '\\') && s[r.e2] == '\\' &&
    r.e2 == r.e1 + (if braced then 1 else 0) && r.e4 == r.e3 + (if braced then 1 else 0) &&
    (forall k :: r.e2 < k < r.e3 ==> IsLetter(s[k])) &&
    s[r.e4] == (if arity.Some? then '[' else '{') &&
    s[r.e3] == (if braced then '}' else s[r.e4]) &&
    r.e5 == r.e4 + (if arity.Some? then 3 else 0) &&
    (arity.Some? ==> IsDigit(s[r.e4 + 1]) && s[r.e4 + 2] == ']') &&
    s[r.e5] == '{' && s[r.m] == '}' && NoNewline(s, r.e5 + 1, |s|)
  }

  lemma LaidNameChars(s: string, cmd: string, braced: bool, name: string, arity: Option<char>, body: string)
    requires Laid(s, cmd, braced, name, arity, body) && Renderable(cmd, name, arity, body)
    ensures var r := RenderCut(cmd, braced, name, arity, body);
      s[r.e1] == (if braced then '{' else '\\') && s[r.e2] == '\\' &&
      forall k :: r.e2 < k < r.e3 ==> IsLetter(s[k])
  {
    var r := RenderCut(cmd, braced, name, arity, body);
    assert s[r.e2] == name[0];
    forall k | r.e2 < k < r.e3 ensures IsLetter(s[k]) {
      assert s[k] == name[k - r.e2];
    }
  }

  lemma LaidSpecChars(s: string, cmd: string, braced: bool, name: string, arity: Option<char>, body: string)
    requires Laid(s, cmd, braced, name, arity, body) && Renderable(cmd, name, arity, body)
    ensures var r := RenderCut(cmd, braced, name, arity, body);
      s[r.e4] == (if arity.Some? then '[' else '{') &&
      (arity.Some? ==> IsDigit(s[r.e4 + 1]) && s[r.e4 + 2] == ']')
  {
    var r := RenderCut(cmd, braced, name, arity, body);
    if arity.Some? {
      assert s[r.e4] == SpecText(arity)[0];
      assert s[r.e4 + 1] == SpecText(arity)[1];
      assert s[r.e4 + 2] == SpecText(arity)[2];
    }
  }

  lemma LaidBodyChars(s: string, cmd: string, braced: bool, name: string, arity: Option<char>, body: string)
    requires Laid(s, cmd, braced, name, arity, body) && Renderable(cmd, name, arity, body)
    ensures var r := RenderCut(cmd, braced, name, arity, body);
      NoNewline(s, r.e5 + 1, |s|)
  {
    var r := RenderCut(cmd, braced, name, arity, body);
    forall k | r.e5 + 1 <= k < |s| ensures s[k] != '\n' {
      if k < r.m {
        assert s[k] == body[k - r.e5 - 1];
      }
    }
  }

  lemma RenderShape(s: string, cmd: string, braced: bool, name: string, arity: Option<char>, body: string)
    requires s == Render(cmd, braced, name, arity, body) && Renderable(cmd, name, arity, body)
    ensures Shape(s, RenderCut(cmd, braced, name, arity, body), braced, arity)
  {
    RenderLaid(cmd, braced, name, arity, body);
    LaidNameChars(s, cmd, braced, name, arity, body);
    LaidSpecChars(s, cmd, braced, name, arity, body);
    LaidBodyChars(s, cmd, braced, name, arity, body);
  }

  /** With group 1 fixed, groups 2 and 3 of any match are the rendered ones. */
  lemma ShapeName(s: string, d: Dialect, r: Cut, braced: bool, arity: Option<char>, c: Cut)
    requires Shape(s, r, braced, arity) && c.e1 == r.e1
    requires OptionalOk(s, c.e1, c.e2, '{') && NameOk(s, c.e2, c.e3) && OptionalOk(s, c.e3, c.e4, '}')
    requires SpecOk(s, c.e4, c.e5) && c.e5 < |s| && IsOpener(d, s[c.e5])
    ensures c.e2 == r.e2 && c.e3 == r.e3
  {
    assert !IsLetter(s[c.e3]);
    assert !IsLetter(s[r.e3]);
  }

  /** With groups 1 to 3 fixed, the rest of any greedy match is the rendered one. */
  lemma ShapeTail(s: string, d: Dialect, r: Cut, braced: bool, arity: Option<char>, c: Cut)
    requires Shape(s, r, braced, arity) && c.e3 == r.e3
    requires OptionalOk(s, c.e3, c.e4, '}') && SpecOk(s, c.e4, c.e5) && TailOk(s, d, c.e5, c.m)
    requires Greedy(s, d, c)
    ensures c.e4 == r.e4 && c.e5 == r.e5 && c.m == r.m
  {
    assert c.e4 == r.e4;
    assert c.e5 == r.e5;
    LineEndFrom(s, r.e5 + 1, |s|);
  }

  /** Any greedy match at position 0 of a rendered definition is the rendered cut. */
  lemma RenderUnique(s: string, d: Dialect, cmd: string, braced: bool, name: string, arity: Option<char>, body: string, c: Cut)
    requires s == Render(cmd, braced, name, arity, body) && Renderable(cmd, name, arity, body)
    requires ValidCut(s, d, c) && Greedy(s, d, c) && c.p == 0
    ensures c == RenderCut(cmd, braced, name, arity, body)
  {
    var r := RenderCut(cmd, braced, name, arity, body);
    RenderCommandEnd(s, cmd, braced, name, arity, body, c);
    RenderShape(s, cmd, braced, name, arity, body);
    ShapeName(s, d, r, braced, arity, c);
    ShapeTail(s, d, r, braced, arity, c);
  }

  /** A definition in the usual shape is matched at its start, group by group as written. */
  lemma RenderSearch(d: Dialect, cmd: string, braced: bool, name: string, arity: Option<char>, body: string)
    requires Renderable(cmd, name, arity, body)
    ensures Search(Render(cmd, braced, name, arity, body), d) == Some(RenderCut(cmd, braced, name, arity, body))
  {
    var s := Render(cmd, braced, name, arity, body);
    RenderValid(d, cmd, braced, name, arity, body);
    SearchIsRegexSearch(s, d);
    RenderUnique(s, d, cmd, braced, name, arity, body, Search(s, d).value);
  }
}

=== FILE: document.dfy ===
/**
 * remove_macro of src/Py/modules.py: the comment-free document is cut into
 * the preamble, the body between the lines that open and close the document,
 * and the closing line; definition lines are dropped from the preamble, the
 * body has its macros expanded and its dollars rewritten, and the three parts
 * are joined with newlines again.
 */
module Document {
  import opened Wrappers
  import opened Strings
  import opened Definitions
  import opened Macros
  import opened Expansion
  import opened DollarScan
  import opened InlineDollars
  import CommentStripper

  // ---------------------------------------------------------------------
  // Cutting the document into its parts
  // ---------------------------------------------------------------------

  /** The definition pattern remove_macro uses (the legacy one, without `#` separators) finds a match. */
  predicate Defines(line: string) {
    Search(line, Legacy).Some?
  }

  /** `Defines` is `re.search` of the pattern: some substring of the line matches it. */
  lemma DefinesIsRegex(line: string)
    ensures Defines(line) <==> exists c :: ValidCut(line, Legacy, c)
  {
    SearchIsRegexSearch(line, Legacy);
  }

  /**
   * What a preamble line contributes to the output: nothing if it is a
   * definition. The test is a parameter so that the cutting of the document
   * can be stated for any recogniser; remove_macro uses `Defines`.
   */
  function Keep(isDef: string -> bool, line: string): (r: seq<string>)
    ensures r == [] <==> isDef(line)
    ensures r != [] ==> r == [line]
  {
    if isDef(line) then [] else [line]
  }

  /** The preamble lines that are not definitions, in order. */
  function Kept(isDef: string -> bool, lines: seq<string>): (r: seq<string>)
    ensures |r| <= |lines|
    ensures forall k :: 0 <= k < |r| ==> !isDef(r[k])
  {
    if lines == [] then [] else Keep(isDef, lines[0]) + Kept(isDef, lines[1..])
  }

  /** Every line that is not a definition is kept, and only those. */
  lemma {:induction false} KeptMembers(isDef: string -> bool, lines: seq<string>, l: string)
    ensures l in Kept(isDef, lines) <==> l in lines && !isDef(l)
    decreases |lines|
  {
    if lines != [] {
      KeptMembers(isDef, lines[1..], l);
      assert lines == [lines[0]] + lines[1..];
    }
  }

  /** A preamble without definitions is kept whole. */
  lemma {:induction false} KeptAll(isDef: string -> bool, lines: seq<string>)
    requires forall k :: 0 <= k < |lines| ==> !isDef(lines[k])
    ensures Kept(isDef, lines) == lines
    decreases |lines|
  {
    if lines != [] {
      KeptAll(isDef, lines[1..]);
      assert lines == [lines[0]] + lines[1..];
    }
  }

  /** No line of the list opens the document. */
  predicate NoStart(lines: seq<string>) {
    forall k :: 0 <= k < |lines| ==> !IsStart(lines[k])
  }

  /** No line of the list closes the document. */
  predicate NoEnd(lines: seq<string>) {
    forall k :: 0 <= k < |lines| ==> !IsEnd(lines[k])
  }

  lemma NoStartTail(lines: seq<string>)
    requires lines != [] && NoStart(lines)
    ensures !IsStart(lines[0]) && NoStart(lines[1..])
  {
    assert forall k :: 0 <= k < |lines[1..]| ==> lines[1..][k] == lines[k + 1];
  }

  lemma NoEndTail(lines: seq<string>)
    requires lines != [] && NoEnd(lines)
    ensures !IsEnd(lines[0]) && NoEnd(lines[1..])
  {
    assert forall k :: 0 <= k < |lines[1..]| ==> lines[1..][k] == lines[k + 1];
  }

  /** Taking the first line off a list of lines with one more line and a tail behind it. */
  lemma Uncons(a: seq<string>, x: string, b: seq<string>)
    requires a != []
    ensures (a + [x] + b)[0] == a[0] && (a + [x] + b)[1..] == a[1..] + [x] + b
  {
    assert (a + [x] + b)[1..] == a[1..] + [x] + b;
  }

  lemma LinesAssoc(a: seq<string>, b: seq<string>, c: seq<string>)
    ensures a + b + c == a + (b + c)
  {
  }

  /** Appending the first line and then the others appends them all. */
  lemma LinesCons(acc: seq<string>, lines: seq<string>)
    requires lines != []
    ensures acc + [lines[0]] + lines[1..] == acc + lines
  {
    assert [lines[0]] + lines[1..] == lines;
    LinesAssoc(acc, [lines[0]], lines[1..]);
  }

  /**
   * The lists remove_macro fills: `final_doc` before the body is appended,
   * `list_to_parse`, `end_of_doc`, and the package flag as it stands after
   * the loop.
   */
  datatype Parts = Parts(preamble: seq<string>, body: seq<string>, closing: seq<string>, found: bool)

  /** The line that opens the body, with the package inserted when it is due. */
  function Opening(line: string, found: bool, addPackage: bool): (r: string)
    ensures found || !addPackage ==> r == line
    ensures !found && addPackage && Contains(line, BeginDocument) ==> FindAxessibility(r)
    ensures !Contains(line, BeginDocument) ==> r == line
  {
    if !found && addPackage then
      if Contains(line, BeginDocument) then AddThenFind(line); AddAxessibility(line)
      else AddAxessibilityAbsent(line); AddAxessibility(line)
    else line
  }

  /**
   * The loop of remove_macro inside the body: each line is collected until
   * one closes the document; that one is the closing part and the loop stops.
   */
  function BodyScan(lines: seq<string>, p: Parts): (r: Parts)
    ensures r.preamble == p.preamble && r.found == p.found
    ensures |r.closing| <= |p.closing| + 1
    decreases |lines|
  {
    if lines == [] then p
    else if IsEnd(lines[0]) then p.(closing := p.closing + [lines[0]])
    else BodyScan(lines[1..], p.(body := p.body + [lines[0]]))
  }

  /**
   * The loop of remove_macro before the body: each line goes to the preamble
   * unless it is a definition. The first line that opens the document (with
   * the package inserted when it is due) is treated the same way, sets the
   * package flag when the package is requested, and switches to the body.
   * The flag ends up set exactly when it was set before, or the package is
   * requested and some line opens the document.
   */
  function PreambleScan(isDef: string -> bool, lines: seq<string>, p: Parts, addPackage: bool): (r: Parts)
    ensures r.found <==> p.found || (addPackage && PreambleLength(lines) < |lines|)
    ensures PreambleLength(lines) == |lines| ==> r.body == p.body && r.closing == p.closing
    decreases |lines|
  {
    if lines == [] then p
    else if IsStart(lines[0]) then
      BodyScan(lines[1..], p.(preamble := p.preamble + Keep(isDef, Opening(lines[0], p.found, addPackage)),
                              found := p.found || addPackage))
    else PreambleScan(isDef, lines[1..], p.(preamble := p.preamble + Keep(isDef, lines[0])), addPackage)
  }

  /** A body that is never closed is collected whole. */
  lemma {:induction false} BodyUnclosed(body: seq<string>, p: Parts)
    requires NoEnd(body)
    ensures BodyScan(body, p) == p.(body := p.body + body)
    decreases |body|
  {
    if body == [] {
      assert p.body + [] == p.body;
    } else {
      NoEndTail(body);
      BodyUnclosed(body[1..], p.(body := p.body + [body[0]]));
      LinesCons(p.body, body);
    }
  }

  /** The body ends at its first closing line, and nothing after that line is read. */
  lemma {:induction false} BodyClosed(body: seq<string>, close: string, after: seq<string>, p: Parts)
    requires NoEnd(body) && IsEnd(close)
    ensures BodyScan(body + [close] + after, p) == p.(body := p.body + body, closing := p.closing + [close])
    decreases |body|
  {
    var all := body + [close] + after;
    if body == [] {
      assert all[0] == close;
      assert p.body + [] == p.body;
    } else {
      Uncons(body, close, after);
      NoEndTail(body);
      BodyClosed(body[1..], close, after, p.(body := p.body + [body[0]]));
      LinesCons(p.body, body);
    }
  }

  /** Without an opening line every line is a preamble line. */
  lemma {:induction false} PreambleOnly(isDef: string -> bool, lines: seq<string>, p: Parts, addPackage: bool)
    requires NoStart(lines)
    ensures PreambleScan(isDef, lines, p, addPackage) == p.(preamble := p.preamble + Kept(isDef, lines))
    decreases |lines|
  {
    if lines == [] {
      assert p.preamble + [] == p.preamble;
    } else {
      NoStartTail(lines);
      var p' := p.(preamble := p.preamble + Keep(isDef, lines[0]));
      PreambleOnly(isDef, lines[1..], p', addPackage);
      LinesAssoc(p.preamble, Keep(isDef, lines[0]), Kept(isDef, lines[1..]));
    }
  }

  /** The preamble lines, then the opening line, then the body phase on what follows it. */
  lemma {:induction false} PreambleOpened(isDef: string -> bool, pre: seq<string>, open: string, rest: seq<string>,
                                          p: Parts, addPackage: bool)
    requires NoStart(pre) && IsStart(open)
    ensures PreambleScan(isDef, pre + [open] + rest, p, addPackage) ==
            BodyScan(rest, p.(preamble := p.preamble + Kept(isDef, pre) + Keep(isDef, Opening(open, p.found, addPackage)),
                              found := p.found || addPackage))
    decreases |pre|
  {
    var all := pre + [open] + rest;
    if pre == [] {
      assert all[0] == open && all[1..] == rest;
      assert p.preamble + Kept(isDef, pre) == p.preamble;
    } else {
      Uncons(pre, open, rest);
      NoStartTail(pre);
      var p' := p.(preamble := p.preamble + Keep(isDef, pre[0]));
      PreambleOpened(isDef, pre[1..], open, rest, p', addPackage);
      LinesAssoc(p.preamble, Keep(isDef, pre[0]), Kept(isDef, pre[1..]));
    }
  }

  /** A text that never opens the document is all preamble. */
  lemma SeparateWithoutBody(isDef: string -> bool, lines: seq<string>, found: bool, addPackage: bool)
    requires NoStart(lines)
    ensures PreambleScan(isDef, lines, Parts([], [], [], found), addPackage) == Parts(Kept(isDef, lines), [], [], found)
  {
    PreambleOnly(isDef, lines, Parts([], [], [], found), addPackage);
    assert [] + Kept(isDef, lines) == Kept(isDef, lines);
  }

  /**
   * A text that opens the document and never closes it: the preamble, then
   * the opening line, and everything after it is body.
   */
  lemma SeparateUnclosed(isDef: string -> bool, pre: seq<string>, open: string, body: seq<string>,
                         found: bool, addPackage: bool)
    requires NoStart(pre) && IsStart(open) && NoEnd(body)
    ensures PreambleScan(isDef, pre + [open] + body, Parts([], [], [], found), addPackage) ==
            Parts(Kept(isDef, pre) + Keep(isDef, Opening(open, found, addPackage)), body, [], found || addPackage)
  {
    var p := Parts([], [], [], found);
    PreambleOpened(isDef, pre, open, body, p, addPackage);
    var q := p.(preamble := p.preamble + Kept(isDef, pre) + Keep(isDef, Opening(open, found, addPackage)),
                found := found || addPackage);
    var o := Keep(isDef, Opening(open, found, addPackage));
    assert q.preamble == [] + Kept(isDef, pre) + o;
    assert [] + Kept(isDef, pre) + o == Kept(isDef, pre) + o;
    BodyUnclosed(body, q);
    assert [] + body == body;
  }

  /**
   * A text that opens the document and closes it: the preamble, the opening
   * line, the body, and the closing line; the lines after the closing one
   * are dropped.
   */
  lemma SeparateClosed(isDef: string -> bool, pre: seq<string>, open: string, body: seq<string>,
                       close: string, after: seq<string>, found: bool, addPackage: bool)
    requires NoStart(pre) && IsStart(open) && NoEnd(body) && IsEnd(close)
    ensures PreambleScan(isDef, pre + [open] + (body + [close] + after), Parts([], [], [], found), addPackage) ==
            Parts(Kept(isDef, pre) + Keep(isDef, Opening(open, found, addPackage)), body, [close], found || addPackage)
  {
    var p := Parts([], [], [], found);
    PreambleOpened(isDef, pre, open, body + [close] + after, p, addPackage);
    var q := p.(preamble := p.preamble + Kept(isDef, pre) + Keep(isDef, Opening(open, found, addPackage)),
                found := found || addPackage);
    var o := Keep(isDef, Opening(open, found, addPackage));
    assert q.preamble == [] + Kept(isDef, pre) + o;
    assert [] + Kept(isDef, pre) + o == Kept(isDef, pre) + o;
    BodyClosed(body, close, after, q);
    assert [] + body == body && [] + [close] == [close];
  }


  // ---------------------------------------------------------------------
  // remove_macro
  // ---------------------------------------------------------------------

  /**
   * `map(do_inline_sub, list_to_parse)`. A line whose expansion fails becomes
   * `None`, on which remove_multiline_macros raises: the whole list fails.
   */
  function InlineAll(fuel: nat, macros: seq<Macro>, lines: seq<string>): (r: Option<seq<string>>)
    requires ValidRegistry(macros)
    ensures r.Some? ==> |r.value| == |lines| &&
                        forall k :: 0 <= k < |lines| ==> InlineSub(fuel, macros, lines[k]) == Some(r.value[k])
    ensures r.None? ==> exists k :: 0 <= k < |lines| && InlineSub(fuel, macros, lines[k]).None?
    decreases |lines|
  {
    if lines == [] then Some([])
    else match InlineSub(fuel, macros, lines[0])
      case None => None
      case Some(l) =>
        match InlineAll(fuel, macros, lines[1..])
        case None => None
        case Some(rest) => Some([l] + rest)
  }

  /** The outcome of remove_macro: the object state after the call and the returned text. */
  datatype Cleaned = Cleaned(registry: Registry, dollars: Dollars, text: string)

  /** The lines remove_macro works on: the comment-free text split at newlines. */
  function SourceLines(stz: string): seq<string> {
    Split(CommentStripper.StripComments(stz), '\n')
  }

  /** The text contains a line that opens the document. */
  predicate HasBody(stz: string) {
    PreambleLength(SourceLines(stz)) < |SourceLines(stz)|
  }

  /**
   * The body pipeline of remove_macro: do_inline_sub on every line, then
   * remove_multiline_macros, then remove_dls with the dollar state.
   */
  function ProcessBody(fuel: nat, macros: seq<Macro>, d: Dollars, body: seq<string>): (r: Result<(Dollars, seq<string>)>)
    requires ValidRegistry(macros)
    ensures InlineAll(fuel, macros, body).None? ==> r == Err(NotConverged)
    ensures r.Ok? && Good(d) ==> Good(r.value.0)
  {
    match InlineAll(fuel, macros, body)
    case None => Err(NotConverged)
    case Some(inlined) =>
      match MultiLine(fuel, macros, inlined)
      case Err(x) => Err(x)
      case Ok(joined) => RemoveDls(d, joined)
  }

  /**
   * The work of remove_macro on the comment-free lines, for any recogniser of
   * definition lines: the cleaned document as one string. `fuel` bounds every
   * expansion loop; the error of any step is the error of the whole call.
   */
  function CleanLines(isDef: string -> bool, fuel: nat, reg: Registry, d: Dollars, lines: seq<string>, addPackage: bool): (r: Result<Cleaned>)
    requires ValidRegistry(reg.macros)
    ensures r.Ok? ==> r.value.registry.macros == reg.macros
    ensures r.Ok? ==> (r.value.registry.axessibilityFound <==>
                       reg.axessibilityFound || (addPackage && PreambleLength(lines) < |lines|))
    ensures r.Ok? && Good(d) ==> Good(r.value.dollars)
  {
    var p := PreambleScan(isDef, lines, Parts([], [], [], reg.axessibilityFound), addPackage);
    match ProcessBody(fuel, reg.macros, d, p.body)
    case Err(x) => Err(x)
    case Ok((d', out)) =>
      Ok(Cleaned(reg.(axessibilityFound := p.found), d', Join(p.preamble + out + p.closing, '\n')))
  }

  /** remove_macro with no output file, for any recogniser of definition lines. */
  function RemoveMacroWith(isDef: string -> bool, fuel: nat, reg: Registry, d: Dollars, stz: string, addPackage: bool): (r: Result<Cleaned>)
    requires ValidRegistry(reg.macros)
    ensures r.Ok? ==> r.value.registry.macros == reg.macros
    ensures r.Ok? ==> (r.value.registry.axessibilityFound <==>
                       reg.axessibilityFound || (addPackage && HasBody(stz)))
    ensures r.Ok? && Good(d) ==> Good(r.value.dollars)
  {
    CleanLines(isDef, fuel, reg, d, SourceLines(stz), addPackage)
  }

  /** remove_macro itself, whose recogniser is the legacy definition pattern. */
  function RemoveMacro(fuel: nat, reg: Registry, d: Dollars, stz: string, addPackage: bool): (r: Result<Cleaned>)
    requires ValidRegistry(reg.macros)
    ensures r.Ok? ==> r.value.registry.macros == reg.macros
    ensures r.Ok? ==> (r.value.registry.axessibilityFound <==>
                       reg.axessibilityFound || (addPackage && HasBody(stz)))
    ensures r.Ok? && Good(d) ==> Good(r.value.dollars)
  {
    RemoveMacroWith(Defines, fuel, reg, d, stz, addPackage)
  }

  /**
   * A text that never opens the document keeps its non-definition lines,
   * and the empty body still adds one empty line at the end.
   */
  lemma CleanWithoutBody(isDef: string -> bool, fuel: nat, reg: Registry, d: Dollars, lines: seq<string>, addPackage: bool)
    requires ValidRegistry(reg.macros) && NoStart(lines)
    ensures CleanLines(isDef, fuel, reg, d, lines, addPackage) ==
            Ok(Cleaned(reg, d, Join(Kept(isDef, lines) + [""], '\n')))
  {
    SeparateWithoutBody(isDef, lines, reg.axessibilityFound, addPackage);
    MultiLineIdentity(fuel, reg.macros, []);
    RemoveDlsEmpty(d);
    assert Kept(isDef, lines) + [""] + [] == Kept(isDef, lines) + [""];
  }

  /** The same for a whole text. */
  lemma RemoveMacroWithoutBody(isDef: string -> bool, fuel: nat, reg: Registry, d: Dollars, stz: string, addPackage: bool)
    requires ValidRegistry(reg.macros) && !HasBody(stz)
    ensures RemoveMacroWith(isDef, fuel, reg, d, stz, addPackage) ==
            Ok(Cleaned(reg, d, Join(Kept(isDef, SourceLines(stz)) + [""], '\n')))
  {
    var lines := SourceLines(stz);
    assert NoStart(lines);
    CleanWithoutBody(isDef, fuel, reg, d, lines, addPackage);
  }

  /** A line that macro expansion and dollar handling leave alone. */
  predicate PlainLine(l: string) {
    '\\' !in l && '$' !in l && forall i :: 0 <= i < |l| ==> !IsControl(l[i])
  }

  lemma InlineAllPlain(fuel: nat, macros: seq<Macro>, lines: seq<string>)
    requires ValidRegistry(macros) && fuel > 0
    requires forall k :: 0 <= k < |lines| ==> PlainLine(lines[k])
    ensures InlineAll(fuel, macros, lines) == Some(lines)
  {
    if lines != [] {
      assert PlainLine(lines[0]);
      forall k | 0 <= k < |macros| ensures !Contains(lines[0], macros[k].name) {
        assert WellFormed(macros[k]);
        NoBackslashNoName(lines[0], macros[k].name);
      }
      InlineSubPlain(fuel, macros, lines[0]);
      InlineAllPlain(fuel, macros, lines[1..]);
      assert lines == [lines[0]] + lines[1..];
    }
  }

  /** A body of plain lines passes the pipeline unchanged; an empty one becomes one empty line. */
  lemma ProcessPlainBody(fuel: nat, macros: seq<Macro>, d: Dollars, body: seq<string>)
    requires ValidRegistry(macros) && fuel > 0
    requires forall k :: 0 <= k < |body| ==> PlainLine(body[k]) && '\n' !in body[k]
    ensures ProcessBody(fuel, macros, d, body) == Ok((d, if |body| == 0 then [""] else body))
  {
    InlineAllPlain(fuel, macros, body);
    forall k | 0 <= k < |body| ensures !Contains(body[k], Sentinel) {
      AbsentHead(body[k], Sentinel);
    }
    MultiLineIdentity(fuel, macros, body);
    if body == [] {
      RemoveDlsEmpty(d);
    } else {
      RemoveDlsPlain(d, body);
    }
  }

  /**
   * Lines whose body has no backslash, no dollar, no control character and
   * no newline: the output is the non-definition preamble lines, the opening
   * line (with the package when it is due, unless that makes it a
   * definition), the body lines unchanged and the closing line; lines after
   * the closing one are gone and the dollar state is untouched.
   */
  lemma CleanPlainBody(isDef: string -> bool, fuel: nat, reg: Registry, d: Dollars, addPackage: bool,
                       pre: seq<string>, open: string, body: seq<string>, close: string, after: seq<string>)
    requires ValidRegistry(reg.macros) && fuel > 0
    requires NoStart(pre) && IsStart(open) && NoEnd(body) && IsEnd(close)
    requires forall k :: 0 <= k < |body| ==> PlainLine(body[k]) && '\n' !in body[k]
    ensures CleanLines(isDef, fuel, reg, d, pre + [open] + (body + [close] + after), addPackage) ==
            Ok(Cleaned(reg.(axessibilityFound := reg.axessibilityFound || addPackage), d,
                       Join(Kept(isDef, pre) + Keep(isDef, Opening(open, reg.axessibilityFound, addPackage))
                            + (if body == [] then [""] else body) + [close], '\n')))
  {
    SeparateClosed(isDef, pre, open, body, close, after, reg.axessibilityFound, addPackage);
    ProcessPlainBody(fuel, reg.macros, d, body);
  }

  /** The same for a whole text, whose lines never hold a newline. */
  lemma RemoveMacroPlainBody(isDef: string -> bool, fuel: nat, reg: Registry, d: Dollars, stz: string, addPackage: bool,
                             pre: seq<string>, open: string, body: seq<string>, close: string, after: seq<string>)
    requires ValidRegistry(reg.macros) && fuel > 0
    requires SourceLines(stz) == pre + [open] + (body + [close] + after)
    requires NoStart(pre) && IsStart(open) && NoEnd(body) && IsEnd(close)
    requires forall k :: 0 <= k < |body| ==> PlainLine(body[k])
    ensures RemoveMacroWith(isDef, fuel, reg, d, stz, addPackage) ==
            Ok(Cleaned(reg.(axessibilityFound := reg.axessibilityFound || addPackage), d,
                       Join(Kept(isDef, pre) + Keep(isDef, Opening(open, reg.axessibilityFound, addPackage))
                            + (if body == [] then [""] else body) + [close], '\n')))
  {
    LinesNoNewline(SourceLines(stz), pre, open, body, close, after);
    CleanPlainBody(isDef, fuel, reg, d, addPackage, pre, open, body, close, after);
  }

  /** The body lines of a split text hold no newline. */
  lemma LinesNoNewline(lines: seq<string>, pre: seq<string>, open: string, body: seq<string>, close: string, after: seq<string>)
    requires forall k :: 0 <= k < |lines| ==> '\n' !in lines[k]
    requires lines == pre + [open] + (body + [close] + after)
    ensures forall k :: 0 <= k < |body| ==> '\n' !in body[k]
  {
    forall k | 0 <= k < |body| ensures '\n' !in body[k] {
      assert body[k] == lines[|pre| + 1 + k];
    }
  }
}

=== FILE: dollar_scan.dfy ===
/**
 * The frame stack of the `Dollars` class of src/Py/modules.py and the
 * left-to-right scan `remove_dls_new` that rewrites `$` and `$$` into
 * `\(`/`\)` and `\[`/`\]`.
 *
 * The class keeps two lists of counters, one entry per open `table` or
 * `tabular` environment, and an index `newEnv` of the current entry. Python
 * reads `xs[newEnv]`, so a negative index counts from the end and an index
 * out of range raises; both are modelled, the raise as `NoCurrentFrame`.
 */
module DollarScan {
  import opened Wrappers
  import opened Strings

  datatype Dollars = Dollars(dl: seq<int>, dd: seq<int>, newEnv: int)

  /** The state `__init__` builds: one frame, both counters zero. */
  const Fresh := Dollars([0], [0], 0)

  /** Both lists hold one counter per open environment plus the outermost one. */
  predicate Valid(d: Dollars) {
    |d.dl| == |d.dd| == d.newEnv + 1
  }

  /** Every counter is 0 or 1. */
  predicate Bits(d: Dollars) {
    (forall k :: 0 <= k < |d.dl| ==> 0 <= d.dl[k] <= 1) &&
    (forall k :: 0 <= k < |d.dd| ==> 0 <= d.dd[k] <= 1)
  }

  /** The invariant every reachable state keeps. */
  predicate Good(d: Dollars) {
    Valid(d) && Bits(d)
  }

  /** The position Python's `xs[i]` reads in a list of length `n`. */
  function PyIndex(n: nat, i: int): (r: Option<nat>)
    ensures r.Some? ==> r.value < n
    ensures 0 <= i < n ==> r == Some(i)
    ensures i >= n || n + i < 0 ==> r.None?
  {
    if 0 <= i < n then Some(i)
    else if 0 <= n + i && i < 0 then Some(n + i)
    else None
  }

  /** A valid state has a current frame exactly when the index is not -1. */
  lemma ValidIndex(d: Dollars)
    requires Valid(d)
    ensures PyIndex(|d.dl|, d.newEnv).Some? <==> d.newEnv >= 0
    ensures d.newEnv >= 0 ==> PyIndex(|d.dl|, d.newEnv) == Some(d.newEnv)
  {
  }

  /** `xs.pop(i)` */
  function Pop(xs: seq<int>, i: int): (r: Option<seq<int>>)
    ensures r.Some? ==> |r.value| + 1 == |xs|
  {
    match PyIndex(|xs|, i)
    case None => None
    case Some(k) => Some(xs[..k] + xs[k + 1..])
  }

  /** env_management('open'): a new frame with both counters at zero. */
  function Open(d: Dollars): (r: Dollars)
    ensures Valid(d) ==> Valid(r)
    ensures Bits(d) ==> Bits(r)
  {
    Dollars(d.dl + [0], d.dd + [0], d.newEnv + 1)
  }

  /** env_management('close'): the current frame is dropped from both lists. */
  function Close(d: Dollars): (r: Result<Dollars>)
    ensures Valid(d) ==> (r.Ok? <==> d.newEnv >= 0)
    ensures Valid(d) && r.Ok? ==> Valid(r.value) && r.value.dl == d.dl[..d.newEnv] && r.value.dd == d.dd[..d.newEnv]
  {
    match (Pop(d.dl, d.newEnv), Pop(d.dd, d.newEnv))
    case (Some(dl), Some(dd)) => Ok(Dollars(dl, dd, d.newEnv - 1))
    case _ => Err(NoCurrentFrame)
  }

  /** Closing an environment just opened restores the enclosing frame's counters. */
  lemma CloseOpen(d: Dollars)
    requires Valid(d)
    ensures Close(Open(d)) == Ok(d)
  {
    assert (d.dl + [0])[..d.newEnv + 1] == d.dl;
    assert (d.dd + [0])[..d.newEnv + 1] == d.dd;
  }

  lemma CloseKeepsBits(d: Dollars)
    requires Valid(d) && Bits(d) && Close(d).Ok?
    ensures Bits(Close(d).value)
  {
    var r := Close(d).value;
    forall k | 0 <= k < |r.dl| ensures 0 <= r.dl[k] <= 1 {
      assert r.dl[k] == d.dl[k];
    }
    forall k | 0 <= k < |r.dd| ensures 0 <= r.dd[k] <= 1 {
      assert r.dd[k] == d.dd[k];
    }
  }

  // ---------------------------------------------------------------------
  // search_for_environments
  // ---------------------------------------------------------------------

  /**
   * Where `\<cmd>({|)(table|tabular)(}|)` ends when it matches at the start
   * of `s`. A brace is taken when present; "table" is tried before
   * "tabular", and neither is a prefix of the other.
   */
  function TokenEnd(s: string, cmd: string): (r: Option<nat>)
    ensures r.Some? ==> |cmd| + 6 <= r.value <= |s|
  {
    var head := "\\" + cmd;
    if !(head <= s) then None
    else
      var k := if |head| < |s| && s[|head|] == '{' then |head| + 1 else |head|;
      var word := if "table" <= s[k..] then 5 else if "tabular" <= s[k..] then 7 else 0;
      if word == 0 then None
      else
        var e := k + word;
        Some(if e < |s| && s[e] == '}' then e + 1 else e)
  }

  /**
   * search_for_environments: an opening token at the start of the text opens
   * a frame, otherwise a closing one closes the current frame; the result is
   * how far the token reaches (0 when there is none).
   */
  function SearchEnv(d: Dollars, s: string): (r: Result<(Dollars, nat)>)
    ensures r.Ok? && r.value.1 == 0 ==> r.value.0 == d
    ensures r.Ok? ==> r.value.1 <= |s|
  {
    match TokenEnd(s, "begin")
    case Some(e) => Ok((Open(d), e))
    case None =>
      match TokenEnd(s, "end")
      case None => Ok((d, 0))
      case Some(e) =>
        match Close(d)
        case Err(x) => Err(x)
        case Ok(c) => Ok((c, e))
  }

  /** The environments a text opens or closes keep the state valid and the counters bits. */
  lemma SearchEnvKeeps(d: Dollars, s: string)
    requires Good(d) && SearchEnv(d, s).Ok?
    ensures Good(SearchEnv(d, s).value.0)
  {
    if TokenEnd(s, "begin").None? && TokenEnd(s, "end").Some? {
      CloseKeepsBits(d);
    }
  }

  /** Two strings that differ at a position both have are not prefixes of each other. */
  lemma Differ(a: string, b: string, k: nat)
    requires k < |a| && k < |b| && a[k] != b[k]
    ensures !(a <= b)
  {
  }

  /** A braced token `\<cmd>{table}` or `\<cmd>{tabular}` reaches past its closing brace. */
  lemma BracedToken(cmd: string, word: string, rest: string)
    requires word == "table" || word == "tabular"
    ensures TokenEnd("\\" + cmd + "{" + word + "}" + rest, cmd) == Some(|cmd| + |word| + 3)
  {
    var s := "\\" + cmd + "{" + word + "}" + rest;
    var head := "\\" + cmd;
    assert s == head + ("{" + word + "}" + rest);
    assert s[|head|] == '{';
    assert s[|head| + 1..] == word + "}" + rest;
    if word == "tabular" {
      Differ("table", word + "}" + rest, 3);
    }
    assert s[|head| + 1 + |word|] == '}';
  }

  /** A token that starts `\e` is no opening token. */
  lemma NotBegin(s: string)
    requires |s| >= 2 && s[..2] == "\\e"
    ensures TokenEnd(s, "begin").None?
  {
    Differ("\\begin", s, 1);
  }

  lemma EndTokens()
    ensures TokenEnd("\\end{tabular}", "begin").None? && TokenEnd("\\end{tabular}", "end") == Some(13)
    ensures TokenEnd("\\end{table}", "begin").None? && TokenEnd("\\end{table}", "end") == Some(11)
  {
    assert "\\end{tabular}" == "\\" + "end" + "{" + "tabular" + "}" + "";
    assert "\\end{table}" == "\\" + "end" + "{" + "table" + "}" + "";
    NotBegin("\\end{tabular}");
    NotBegin("\\end{table}");
    BracedToken("end", "tabular", "");
    BracedToken("end", "table", "");
  }

  /** `\end{tabular}` with no frame open beyond the outermost: the outermost is dropped. */
  lemma CloseOutermost()
    ensures SearchEnv(Fresh, "\\end{tabular}") == Ok((Dollars([], [], -1), 13))
  {
    EndTokens();
    assert Pop([0], 0) == Some([]);
  }

  /** After that, a further closing token is an error: there is no frame to pop. */
  lemma CloseTwice()
    ensures SearchEnv(Dollars([], [], -1), "\\end{table}") == Err(NoCurrentFrame)
  {
    EndTokens();
  }

  // ---------------------------------------------------------------------
  // replace_dls_with_symbol
  // ---------------------------------------------------------------------

  /**
   * The text starts with `$`. A second `$` makes it a `$$`, rewritten to `\[`
   * when the current `dd` counter is 0 and to `\]` otherwise; a single `$`
   * becomes `\(` or `\)` by the `dl` counter. The counter used flips between
   * 0 and 1 and the other is left alone.
   */
  function ReplaceSymbol(d: Dollars, s: string): (r: Result<(Dollars, string)>)
    requires |s| >= 2 && s[0] == '$'
    ensures r.Ok? ==> |r.value.1| == |s| + (if s[1] == '$' then 0 else 1)
  {
    if s[1] == '$' then
      match PyIndex(|d.dd|, d.newEnv)
      case None => Err(NoCurrentFrame)
      case Some(k) =>
        if d.dd[k] == 0 then Ok((d.(dd := d.dd[k := 1]), "\\[" + s[2..]))
        else Ok((d.(dd := d.dd[k := 0]), "\\]" + s[2..]))
    else
      match PyIndex(|d.dl|, d.newEnv)
      case None => Err(NoCurrentFrame)
      case Some(k) =>
        if d.dl[k] == 0 then Ok((d.(dl := d.dl[k := 1]), "\\(" + s[1..]))
        else Ok((d.(dl := d.dl[k := 0]), "\\)" + s[1..]))
  }

  /** Open and close brackets for a counter: the opener when it is 0. */
  function Single(b: int): string {
    if b == 0 then "\\(" else "\\)"
  }

  function Double(b: int): string {
    if b == 0 then "\\[" else "\\]"
  }

  function Flip(b: int): int {
    if b == 0 then 1 else 0
  }

  /** `b` flipped `n` times. */
  function FlipTimes(b: int, n: nat): int {
    if n % 2 == 0 then b else Flip(b)
  }

  // ---------------------------------------------------------------------
  // count_symbols_in_string
  // ---------------------------------------------------------------------

  /**
   * How many `$` are not preceded by another `$`, i.e. how many runs of `$`
   * there are; `afterDollar` says whether the character before `s` was one.
   */
  function DollarRuns(s: string, afterDollar: bool): (n: nat)
    ensures n <= Count(s, '$')
    ensures !afterDollar ==> (n == 0 <==> Count(s, '$') == 0)
  {
    if s == [] then 0
    else (if s[0] == '$' && !afterDollar then 1 else 0) + DollarRuns(s[1..], s[0] == '$')
  }

  /** How many non-overlapping `$$` a left-to-right search finds. */
  function DoublePairs(s: string): (n: nat)
    ensures 2 * n <= Count(s, '$')
    ensures n == 0 <==> forall k :: 0 <= k < |s| - 1 ==> !(s[k] == '$' && s[k + 1] == '$')
  {
    if |s| < 2 then 0
    else if s[0] == '$' && s[1] == '$' then
      assert Count(s, '$') == 2 + Count(s[2..], '$') by { assert s[1..][1..] == s[2..]; }
      1 + DoublePairs(s[2..])
    else
      var n := DoublePairs(s[1..]);
      assert n == 0 ==> forall k :: 0 <= k < |s| - 1 ==> !(s[k] == '$' && s[k + 1] == '$') by {
        if n == 0 {
          forall k | 0 <= k < |s| - 1 ensures !(s[k] == '$' && s[k + 1] == '$') {
            if k > 0 { assert s[k] == s[1..][k - 1] && s[k + 1] == s[1..][k]; }
          }
        }
      }
      n
  }

  /**
   * count_symbols_in_string: the runs of `$` for "$", the `$$` pairs for
   * "$$", and an error for any other symbol.
   */
  function CountSymbols(s: string, sym: string): (r: Result<nat>)
    ensures r.Ok? <==> sym == "$" || sym == "$$"
    ensures sym == "$" ==> r == Ok(DollarRuns(s, false))
    ensures sym == "$$" ==> r == Ok(DoublePairs(s))
  {
    if sym == "$" then Ok(DollarRuns(s, false))
    else if sym == "$$" then Ok(DoublePairs(s))
    else Err(UnsupportedSymbol)
  }

  /** A single `$` in a frame: the bracket its counter selects, and only that counter flips. */
  lemma ReplaceSingle(d: Dollars, s: string)
    requires Valid(d) && d.newEnv >= 0 && |s| >= 2 && s[0] == '$' && s[1] != '$'
    ensures ReplaceSymbol(d, s) ==
            Ok((d.(dl := d.dl[d.newEnv := Flip(d.dl[d.newEnv])]), Single(d.dl[d.newEnv]) + s[1..]))
  {
  }

  /** A `$$` in a frame: the bracket its counter selects, and only that counter flips. */
  lemma ReplaceDouble(d: Dollars, s: string)
    requires Valid(d) && d.newEnv >= 0 && |s| >= 2 && s[0] == '$' && s[1] == '$'
    ensures ReplaceSymbol(d, s) ==
            Ok((d.(dd := d.dd[d.newEnv := Flip(d.dd[d.newEnv])]), Double(d.dd[d.newEnv]) + s[2..]))
  {
  }

  /** The rewrite keeps the state valid and the counters bits. */
  lemma ReplaceKeeps(d: Dollars, s: string)
    requires Good(d) && |s| >= 2 && s[0] == '$' && ReplaceSymbol(d, s).Ok?
    ensures Good(ReplaceSymbol(d, s).value.0)
  {
  }

  // ---------------------------------------------------------------------
  // remove_dls_new
  // ---------------------------------------------------------------------

  /**
   * The scan from position `cnt`. `chLen` is the length of the text before
   * the scan and is not updated when a `$` grows the text; the loop runs
   * while `cnt < chLen - 1`, so the last character is never looked at. After
   * an environment token the position moves past it and one more character.
   */
  function ScanFrom(d: Dollars, s: string, cnt: nat, chLen: nat): Result<(Dollars, string)>
    requires chLen <= |s|
    decreases chLen - cnt
  {
    if cnt + 1 >= chLen then Ok((d, s))
    else if s[cnt] == '\\' then
      match SearchEnv(d, s[cnt..])
      case Err(x) => Err(x)
      case Ok((d', e)) => if cnt + e + 1 >= chLen then Ok((d', s)) else ScanFrom(d', s, cnt + e + 1, chLen)
    else if s[cnt] == '$' then
      match ReplaceSymbol(d, s[cnt..])
      case Err(x) => Err(x)
      case Ok((d', t)) => ScanFrom(d', s[..cnt] + t, cnt + 1, chLen)
    else ScanFrom(d, s, cnt + 1, chLen)
  }

  /** A backslash: the scan moves past whatever environment token starts there. */
  lemma ScanEnvStep(d: Dollars, s: string, cnt: nat, chLen: nat, r: Result<(Dollars, nat)>)
    requires cnt + 1 < chLen <= |s| && s[cnt] == '\\' && r == SearchEnv(d, s[cnt..])
    ensures r.Err? ==> ScanFrom(d, s, cnt, chLen) == Err(r.error)
    ensures r.Ok? ==>
              ScanFrom(d, s, cnt, chLen) ==
              (if cnt + r.value.1 + 1 >= chLen then Ok((r.value.0, s)) else ScanFrom(r.value.0, s, cnt + r.value.1 + 1, chLen))
  {
  }

  /** A dollar: the scan goes on over the text with the bracket in place of the dollars. */
  lemma ScanReplaceStep(d: Dollars, s: string, cnt: nat, chLen: nat, r: Result<(Dollars, string)>)
    requires cnt + 1 < chLen <= |s| && s[cnt] == '$' && r == ReplaceSymbol(d, s[cnt..])
    ensures r.Err? ==> ScanFrom(d, s, cnt, chLen) == Err(r.error)
    ensures r.Ok? ==> ScanFrom(d, s, cnt, chLen) == ScanFrom(r.value.0, s[..cnt] + r.value.1, cnt + 1, chLen)
  {
  }

  /** However the scan ends, every frame it leaves holds counters that are bits. */
  lemma {:induction false} ScanKeeps(d: Dollars, s: string, cnt: nat, chLen: nat)
    requires chLen <= |s| && Good(d) && ScanFrom(d, s, cnt, chLen).Ok?
    ensures Good(ScanFrom(d, s, cnt, chLen).value.0)
    decreases chLen - cnt
  {
    if cnt + 1 >= chLen {
    } else if s[cnt] == '\\' {
      var r := SearchEnv(d, s[cnt..]);
      ScanEnvStep(d, s, cnt, chLen, r);
      SearchEnvKeeps(d, s[cnt..]);
      if cnt + r.value.1 + 1 < chLen {
        ScanKeeps(r.value.0, s, cnt + r.value.1 + 1, chLen);
      }
    } else if s[cnt] == '$' {
      var r := ReplaceSymbol(d, s[cnt..]);
      ScanReplaceStep(d, s, cnt, chLen, r);
      ReplaceKeeps(d, s[cnt..]);
      ScanKeeps(r.value.0, s[..cnt] + r.value.1, cnt + 1, chLen);
    } else {
      ScanKeeps(d, s, cnt + 1, chLen);
    }
  }

  /** The bracket that replaces a `$` or `$$` is no newline. */
  lemma ReplaceNewlines(d: Dollars, s: string)
    requires |s| >= 2 && s[0] == '$' && ReplaceSymbol(d, s).Ok?
    ensures Count(ReplaceSymbol(d, s).value.1, '\n') == Count(s, '\n')
  {
    var t := ReplaceSymbol(d, s).value.1;
    if s[1] == '$' {
      assert t == t[..2] + s[2..];
      CountConcat(t[..2], s[2..], '\n');
      assert s[1..][1..] == s[2..];
    } else {
      assert t == t[..2] + s[1..];
      CountConcat(t[..2], s[1..], '\n');
    }
  }

  /** The scan inserts and removes no newline. */
  lemma {:induction false} ScanNewlines(d: Dollars, s: string, cnt: nat, chLen: nat)
    requires chLen <= |s| && ScanFrom(d, s, cnt, chLen).Ok?
    ensures Count(ScanFrom(d, s, cnt, chLen).value.1, '\n') == Count(s, '\n')
    decreases chLen - cnt
  {
    if cnt + 1 >= chLen {
    } else if s[cnt] == '\\' {
      var r := SearchEnv(d, s[cnt..]);
      ScanEnvStep(d, s, cnt, chLen, r);
      var d', e := r.value.0, r.value.1;
      if cnt + e + 1 < chLen {
        ScanNewlines(d', s, cnt + e + 1, chLen);
      }
    } else if s[cnt] == '$' {
      var r := ReplaceSymbol(d, s[cnt..]);
      var d', t := r.value.0, r.value.1;
      assert ScanFrom(d, s, cnt, chLen) == ScanFrom(d', s[..cnt] + t, cnt + 1, chLen);
      ScanNewlines(d', s[..cnt] + t, cnt + 1, chLen);
      ReplaceNewlines(d, s[cnt..]);
      CountConcat(s[..cnt], t, '\n');
      assert s == s[..cnt] + s[cnt..];
      CountConcat(s[..cnt], s[cnt..], '\n');
    } else {
      ScanNewlines(d, s, cnt + 1, chLen);
    }
  }

  /** remove_dls_new */
  function RemoveDlsNew(d: Dollars, s: string): Result<(Dollars, string)> {
    ScanFrom(d, s, 0, |s|)
  }

  // ---------------------------------------------------------------------
  // What the scan computes
  // ---------------------------------------------------------------------

  /**
   * The rewrite a reader expects of a stretch of text: every `$$` becomes
   * `\[` and `\]` in turn, every other `$` becomes `\(` and `\)` in turn,
   * starting from the counters `b` (single) and `c` (double); everything else
   * is copied.
   */
  datatype Rewritten = Rewritten(text: string, dl: int, dd: int)

  function Rewrite(t: string, b: int, c: int): (r: Rewritten)
    ensures |r.text| >= |t|
    decreases |t|
  {
    if |t| == 0 then Rewritten("", b, c)
    else if t[0] == '$' && |t| >= 2 && t[1] == '$' then
      var r := Rewrite(t[2..], b, Flip(c));
      Rewritten(Double(c) + r.text, r.dl, r.dd)
    else if t[0] == '$' then
      var r := Rewrite(t[1..], Flip(b), c);
      Rewritten(Single(b) + r.text, r.dl, r.dd)
    else
      var r := Rewrite(t[1..], b, c);
      Rewritten([t[0]] + r.text, r.dl, r.dd)
  }

  /** The state with the current frame's counters set to `b` and `c`. */
  function SetCounters(d: Dollars, b: int, c: int): (r: Dollars)
    requires Valid(d) && d.newEnv >= 0
    ensures r.newEnv == d.newEnv && Valid(r) && r.dl[d.newEnv] == b && r.dd[d.newEnv] == c
    ensures forall k :: 0 <= k < d.newEnv ==> r.dl[k] == d.dl[k] && r.dd[k] == d.dd[k]
  {
    d.(dl := d.dl[d.newEnv := b], dd := d.dd[d.newEnv := c])
  }

  /** No `$` and no backslash from position `i` on. */
  predicate Inert(s: string, i: nat) {
    forall k :: i <= k < |s| ==> s[k] != '$' && s[k] != '\\'
  }

  /**
   * Every backslash is followed, inside the text, by a character that cannot
   * start `\begin` or `\end`.
   */
  predicate NoEnvironment(t: string) {
    forall k :: 0 <= k < |t| && t[k] == '\\' ==> k + 1 < |t| && t[k + 1] != 'b' && t[k + 1] != 'e'
  }

  lemma ScanPlainStep(d: Dollars, s: string, cnt: nat, chLen: nat)
    requires cnt + 1 < chLen <= |s| && s[cnt] != '\\' && s[cnt] != '$'
    ensures ScanFrom(d, s, cnt, chLen) == ScanFrom(d, s, cnt + 1, chLen)
  {
  }

  lemma ScanDollarStep(d: Dollars, s: string, cnt: nat, chLen: nat)
    requires cnt + 1 < chLen <= |s| && s[cnt] == '$' && ReplaceSymbol(d, s[cnt..]).Ok?
    ensures var (d', t) := ReplaceSymbol(d, s[cnt..]).value;
            ScanFrom(d, s, cnt, chLen) == ScanFrom(d', s[..cnt] + t, cnt + 1, chLen)
  {
  }

  lemma ScanBackslashStep(d: Dollars, s: string, cnt: nat, chLen: nat)
    requires cnt + 1 < chLen <= |s| && s[cnt] == '\\' && s[cnt + 1] != 'b' && s[cnt + 1] != 'e'
    ensures ScanFrom(d, s, cnt, chLen) == ScanFrom(d, s, cnt + 1, chLen)
  {
    Differ("\\begin", s[cnt..], 1);
    Differ("\\end", s[cnt..], 1);
  }

  /** The tail of a text with no `$` and no backslash leaves the scan with nothing to do. */
  lemma {:induction false} ScanInert(d: Dollars, s: string, cnt: nat, chLen: nat)
    requires chLen <= |s| && Inert(s, cnt)
    ensures ScanFrom(d, s, cnt, chLen) == Ok((d, s))
    decreases chLen - cnt
  {
    if cnt + 1 < chLen {
      ScanPlainStep(d, s, cnt, chLen);
      ScanInert(d, s, cnt + 1, chLen);
    }
  }

  lemma Assoc3(a: string, b: string, c: string, d: string)
    ensures a + b + c + d == (a + b) + c + d == a + (b + c + d)
  {
  }

  /** A `$$` at the scan position: the bracket replaces it and the scan resumes after the bracket. */
  lemma ScanDoubleStep(d: Dollars, done: string, t: string, pad: string, chLen: nat)
    requires Valid(d) && d.newEnv >= 0
    requires |t| >= 2 && t[0] == '$' && t[1] == '$'
    requires |done| + 2 <= chLen <= |done| + |t| + |pad|
    ensures var c := d.dd[d.newEnv];
            ScanFrom(d, done + t + pad, |done|, chLen) ==
            ScanFrom(d.(dd := d.dd[d.newEnv := Flip(c)]), (done + Double(c)) + t[2..] + pad, |done| + 2, chLen)
  {
    var e, c := d.newEnv, d.dd[d.newEnv];
    var s := done + t + pad;
    var cnt := |done|;
    assert s[cnt..] == t + pad;
    ReplaceDouble(d, s[cnt..]);
    ScanDollarStep(d, s, cnt, chLen);
    var d1 := d.(dd := d.dd[e := Flip(c)]);
    var s1 := s[..cnt] + (Double(c) + (t + pad)[2..]);
    assert s[..cnt] == done;
    assert (t + pad)[2..] == t[2..] + pad;
    Assoc3(done, Double(c), t[2..], pad);
    assert s1 == (done + Double(c)) + t[2..] + pad;
    assert s1[cnt + 1] == Double(c)[1];
    if cnt + 2 < chLen {
      ScanPlainStep(d1, s1, cnt + 1, chLen);
    }
  }

  /** A single `$` at the scan position, likewise; the text grows by one. */
  lemma ScanSingleStep(d: Dollars, done: string, t: string, pad: string, chLen: nat)
    requires Valid(d) && d.newEnv >= 0
    requires |done| + 2 <= chLen <= |done| + |t| + |pad|
    requires |t| >= 1 && t[0] == '$' && (t + pad)[1] != '$'
    ensures var b := d.dl[d.newEnv];
            ScanFrom(d, done + t + pad, |done|, chLen) ==
            ScanFrom(d.(dl := d.dl[d.newEnv := Flip(b)]), (done + Single(b)) + t[1..] + pad, |done| + 2, chLen)
  {
    var e, b := d.newEnv, d.dl[d.newEnv];
    var s := done + t + pad;
    var cnt := |done|;
    var u := t + pad;
    assert s[cnt..] == u;
    ReplaceSingle(d, u);
    ScanDollarStep(d, s, cnt, chLen);
    var d1 := d.(dl := d.dl[e := Flip(b)]);
    var s1 := s[..cnt] + (Single(b) + u[1..]);
    assert s[..cnt] == done;
    assert u[1..] == t[1..] + pad;
    Assoc3(done, Single(b), t[1..], pad);
    assert s1 == (done + Single(b)) + t[1..] + pad;
    assert s1[cnt + 1] == Single(b)[1];
    if cnt + 2 < chLen {
      ScanPlainStep(d1, s1, cnt + 1, chLen);
    }
  }

  /** Any other character, a backslash included when no environment can start there, is passed over. */
  lemma ScanOtherStep(d: Dollars, done: string, t: string, pad: string, chLen: nat)
    requires |t| >= 1 && t[0] != '$' && (t[0] == '\\' ==> |t| >= 2 && t[1] != 'b' && t[1] != 'e')
    requires |done| + 1 <= chLen <= |done| + |t| + |pad|
    ensures ScanFrom(d, done + t + pad, |done|, chLen) ==
            ScanFrom(d, (done + [t[0]]) + t[1..] + pad, |done| + 1, chLen)
  {
    var s := done + t + pad;
    var cnt := |done|;
    assert s[cnt] == t[0];
    Assoc3(done, [t[0]], t[1..], pad);
    assert [t[0]] + t[1..] == t;
    assert s == (done + [t[0]]) + t[1..] + pad;
    if cnt + 1 == chLen {
    } else if t[0] == '\\' {
      assert s[cnt + 1] == t[1];
      ScanBackslashStep(d, s, cnt, chLen);
    } else {
      ScanPlainStep(d, s, cnt, chLen);
    }
  }

  /** With nothing left to rewrite the scan only passes over the inert tail. */
  lemma ScanRewritesEmpty(d: Dollars, done: string, pad: string, chLen: nat)
    requires Valid(d) && d.newEnv >= 0 && Inert(pad, 0)
    requires chLen <= |done| + |pad|
    ensures ScanFrom(d, done + "" + pad, |done|, chLen) ==
            Ok((SetCounters(d, d.dl[d.newEnv], d.dd[d.newEnv]), done + "" + pad))
  {
    var s := done + "" + pad;
    forall k | |done| <= k < |s| ensures s[k] != '$' && s[k] != '\\' {
      assert s[k] == pad[k - |done|];
    }
    ScanInert(d, s, |done|, chLen);
    assert d.dl[d.newEnv := d.dl[d.newEnv]] == d.dl;
    assert d.dd[d.newEnv := d.dd[d.newEnv]] == d.dd;
  }

  lemma NoEnvironmentTail(t: string, n: nat)
    requires NoEnvironment(t) && n <= |t|
    ensures NoEnvironment(t[n..])
  {
    forall k | 0 <= k < |t[n..]| && t[n..][k] == '\\'
      ensures k + 1 < |t[n..]| && t[n..][k + 1] != 'b' && t[n..][k + 1] != 'e'
    {
      assert t[k + n] == '\\';
    }
  }

  /** The scan of `done + t + pad` from the end of `done` rewrites `t` as `Rewrite` does. */
  predicate Agrees(d: Dollars, done: string, t: string, pad: string, chLen: nat)
    requires Valid(d) && d.newEnv >= 0 && chLen <= |done| + |t| + |pad|
  {
    var r := Rewrite(t, d.dl[d.newEnv], d.dd[d.newEnv]);
    ScanFrom(d, done + t + pad, |done|, chLen) == Ok((SetCounters(d, r.dl, r.dd), done + r.text + pad))
  }

  lemma DoubleAgrees(d: Dollars, done: string, t: string, pad: string, chLen: nat)
    requires Valid(d) && d.newEnv >= 0
    requires |t| >= 2 && t[0] == '$' && t[1] == '$'
    requires |done| + 2 <= chLen <= |done| + |t| + |pad|
    requires var c := d.dd[d.newEnv];
             Agrees(d.(dd := d.dd[d.newEnv := Flip(c)]), done + Double(c), t[2..], pad, chLen)
    ensures Agrees(d, done, t, pad, chLen)
  {
    var e, b, c := d.newEnv, d.dl[d.newEnv], d.dd[d.newEnv];
    var r := Rewrite(t, b, c);
    var r' := Rewrite(t[2..], b, Flip(c));
    var d1 := d.(dd := d.dd[e := Flip(c)]);
    assert r.text == Double(c) + r'.text && r.dl == r'.dl && r.dd == r'.dd;
    ScanDoubleStep(d, done, t, pad, chLen);
    assert SetCounters(d1, r'.dl, r'.dd) == SetCounters(d, r.dl, r.dd);
    Assoc3(done, Double(c), r'.text, pad);
    assert done + r.text + pad == (done + Double(c)) + r'.text + pad;
  }

  lemma SingleAgrees(d: Dollars, done: string, t: string, pad: string, chLen: nat)
    requires Valid(d) && d.newEnv >= 0
    requires |done| + 2 <= chLen <= |done| + |t| + |pad|
    requires |t| >= 1 && t[0] == '$' && (t + pad)[1] != '$'
    requires var b := d.dl[d.newEnv];
             Agrees(d.(dl := d.dl[d.newEnv := Flip(b)]), done + Single(b), t[1..], pad, chLen)
    ensures Agrees(d, done, t, pad, chLen)
  {
    var e, b, c := d.newEnv, d.dl[d.newEnv], d.dd[d.newEnv];
    var r := Rewrite(t, b, c);
    var r' := Rewrite(t[1..], Flip(b), c);
    var d1 := d.(dl := d.dl[e := Flip(b)]);
    assert |t| >= 2 ==> t[1] == (t + pad)[1];
    assert r.text == Single(b) + r'.text && r.dl == r'.dl && r.dd == r'.dd;
    ScanSingleStep(d, done, t, pad, chLen);
    assert SetCounters(d1, r'.dl, r'.dd) == SetCounters(d, r.dl, r.dd);
    Assoc3(done, Single(b), r'.text, pad);
    assert done + r.text + pad == (done + Single(b)) + r'.text + pad;
  }

  lemma OtherAgrees(d: Dollars, done: string, t: string, pad: string, chLen: nat)
    requires Valid(d) && d.newEnv >= 0
    requires |t| >= 1 && t[0] != '$' && (t[0] == '\\' ==> |t| >= 2 && t[1] != 'b' && t[1] != 'e')
    requires |done| + 1 <= chLen <= |done| + |t| + |pad|
    requires Agrees(d, done + [t[0]], t[1..], pad, chLen)
    ensures Agrees(d, done, t, pad, chLen)
  {
    var b, c := d.dl[d.newEnv], d.dd[d.newEnv];
    var r := Rewrite(t, b, c);
    var r' := Rewrite(t[1..], b, c);
    assert r.text == [t[0]] + r'.text && r.dl == r'.dl && r.dd == r'.dd;
    ScanOtherStep(d, done, t, pad, chLen);
    Assoc3(done, [t[0]], r'.text, pad);
    assert done + r.text + pad == (done + [t[0]]) + r'.text + pad;
  }

  /**
   * The scan rewrites a stretch `t` the way `Rewrite` does, provided it ends
   * early enough: the scan stops at the original length of the text, and each
   * single `$` it rewrites pushes the rest one place further, so the text
   * after `t` must be long enough to absorb that shift.
   */
  lemma {:induction false} ScanRewrites(d: Dollars, done: string, t: string, pad: string, chLen: nat)
    requires Valid(d) && d.newEnv >= 0
    requires NoEnvironment(t) && Inert(pad, 0)
    requires |done| + |Rewrite(t, d.dl[d.newEnv], d.dd[d.newEnv]).text| <= chLen <= |done| + |t| + |pad|
    ensures Agrees(d, done, t, pad, chLen)
    decreases |t|
  {
    var e := d.newEnv;
    var b, c := d.dl[e], d.dd[e];
    var r := Rewrite(t, b, c);
    if |t| == 0 {
      assert t == "";
      ScanRewritesEmpty(d, done, pad, chLen);
    } else if t[0] == '$' && |t| >= 2 && t[1] == '$' {
      var d1 := d.(dd := d.dd[e := Flip(c)]);
      assert |r.text| == 2 + |Rewrite(t[2..], b, Flip(c)).text|;
      assert Valid(d1) && d1.dl[e] == b && d1.dd[e] == Flip(c);
      NoEnvironmentTail(t, 2);
      ScanRewrites(d1, done + Double(c), t[2..], pad, chLen);
      DoubleAgrees(d, done, t, pad, chLen);
    } else if t[0] == '$' {
      var d1 := d.(dl := d.dl[e := Flip(b)]);
      assert |r.text| == 2 + |Rewrite(t[1..], Flip(b), c).text|;
      assert Valid(d1) && d1.dl[e] == Flip(b) && d1.dd[e] == c;
      assert (t + pad)[1] != '$' by {
        if |t| >= 2 { assert (t + pad)[1] == t[1]; } else { assert (t + pad)[1] == pad[0]; }
      }
      NoEnvironmentTail(t, 1);
      ScanRewrites(d1, done + Single(b), t[1..], pad, chLen);
      SingleAgrees(d, done, t, pad, chLen);
    } else {
      assert |r.text| == 1 + |Rewrite(t[1..], b, c).text|;
      NoEnvironmentTail(t, 1);
      ScanRewrites(d, done + [t[0]], t[1..], pad, chLen);
      OtherAgrees(d, done, t, pad, chLen);
    }
  }

  /** `Rewrite` leaves no `$` behind. */
  lemma {:induction false} RewriteNoDollar(t: string, b: int, c: int)
    ensures Count(Rewrite(t, b, c).text, '$') == 0
    decreases |t|
  {
    if |t| == 0 {
    } else if t[0] == '$' && |t| >= 2 && t[1] == '$' {
      RewriteNoDollar(t[2..], b, Flip(c));
      CountConcat(Double(c), Rewrite(t[2..], b, Flip(c)).text, '$');
    } else if t[0] == '$' {
      RewriteNoDollar(t[1..], Flip(b), c);
      CountConcat(Single(b), Rewrite(t[1..], Flip(b), c).text, '$');
    } else {
      RewriteNoDollar(t[1..], b, c);
      CountConcat([t[0]], Rewrite(t[1..], b, c).text, '$');
    }
  }

  /**
   * Each `$$` pair is replaced by two characters and each remaining `$` by
   * two, so the text grows by the number of single `$`.
   */
  lemma {:induction false} RewriteLength(t: string, b: int, c: int)
    ensures |Rewrite(t, b, c).text| == |t| + Singles(t)
    decreases |t|
  {
    if |t| == 0 {
    } else if t[0] == '$' && |t| >= 2 && t[1] == '$' {
      RewriteLength(t[2..], b, Flip(c));
      assert Count(t, '$') == 2 + Count(t[2..], '$') by { assert t[1..][1..] == t[2..]; }
      assert Singles(t) == Singles(t[2..]);
    } else if t[0] == '$' {
      RewriteLength(t[1..], Flip(b), c);
      assert DoublePairs(t) == DoublePairs(t[1..]);
      assert Singles(t) == Singles(t[1..]) + 1;
    } else {
      RewriteLength(t[1..], b, c);
      assert DoublePairs(t) == DoublePairs(t[1..]);
      assert Singles(t) == Singles(t[1..]);
    }
  }

  /** The `$` that are not part of a `$$` pair. */
  function Singles(t: string): nat {
    Count(t, '$') - 2 * DoublePairs(t)
  }

  lemma FlipShift(b: int, n: nat)
    requires 0 <= b <= 1
    ensures FlipTimes(Flip(b), n) == FlipTimes(b, n + 1)
  {
  }

  /** The double counter flips once per `$$` pair. */
  lemma {:induction false} RewriteDoubleCounter(t: string, b: int, c: int)
    requires 0 <= c <= 1
    ensures Rewrite(t, b, c).dd == FlipTimes(c, DoublePairs(t))
    decreases |t|
  {
    if |t| == 0 {
    } else if t[0] == '$' && |t| >= 2 && t[1] == '$' {
      RewriteDoubleCounter(t[2..], b, Flip(c));
      FlipShift(c, DoublePairs(t[2..]));
    } else if t[0] == '$' {
      RewriteDoubleCounter(t[1..], Flip(b), c);
    } else {
      RewriteDoubleCounter(t[1..], b, c);
    }
  }

  /** The single counter flips once per `$` outside a pair. */
  lemma {:induction false} RewriteSingleCounter(t: string, b: int, c: int)
    requires 0 <= b <= 1
    ensures Rewrite(t, b, c).dl == FlipTimes(b, Singles(t))
    decreases |t|
  {
    if |t| == 0 {
    } else if t[0] == '$' && |t| >= 2 && t[1] == '$' {
      RewriteSingleCounter(t[2..], b, Flip(c));
      assert Count(t, '$') == 2 + Count(t[2..], '$') by { assert t[1..][1..] == t[2..]; }
      assert Singles(t) == Singles(t[2..]);
    } else if t[0] == '$' {
      RewriteSingleCounter(t[1..], Flip(b), c);
      assert DoublePairs(t) == DoublePairs(t[1..]);
      assert Singles(t) == Singles(t[1..]) + 1;
      FlipShift(b, Singles(t[1..]));
    } else {
      RewriteSingleCounter(t[1..], b, c);
      assert DoublePairs(t) == DoublePairs(t[1..]);
      assert Singles(t) == Singles(t[1..]);
    }
  }

  /**
   * remove_dls_new on a text whose environments it cannot see: when the text
   * is followed by a tail without `$` or backslash, at least as long as the
   * number of single `$` in it, the scan is `Rewrite` and the current frame's
   * counters end where `Rewrite` leaves them.
   */
  lemma RemoveDlsNewRewrites(d: Dollars, t: string, pad: string)
    requires Valid(d) && d.newEnv >= 0
    requires NoEnvironment(t) && Inert(pad, 0)
    requires |Rewrite(t, d.dl[d.newEnv], d.dd[d.newEnv]).text| <= |t| + |pad|
    ensures var r := Rewrite(t, d.dl[d.newEnv], d.dd[d.newEnv]);
            RemoveDlsNew(d, t + pad) == Ok((SetCounters(d, r.dl, r.dd), r.text + pad))
  {
    var r := Rewrite(t, d.dl[d.newEnv], d.dd[d.newEnv]);
    ScanRewrites(d, "", t, pad, |t| + |pad|);
    assert "" + t + pad == t + pad;
    assert "" + r.text + pad == r.text + pad;
  }

  /** A closed pair of dollars followed by enough text is rewritten completely. */
  lemma InlinePair()
    ensures RemoveDlsNew(Fresh, "$a$ b") == Ok((Fresh, "\\(a\\) b"))
  {
    var t, pad := "$a$", " b";
    assert t + pad == "$a$ b";
    assert t[0] == '$' && t[1] == 'a' && t[2] == '$';
    assert pad[0] == ' ' && pad[1] == 'b';
    assert t[1..] == "a$" && t[1..][1..] == "$" && t[1..][1..][1..] == "";
    var r := Rewrite(t, 0, 0);
    assert Rewrite("$", 1, 0) == Rewritten("\\)", 0, 0);
    assert Rewrite("a$", 1, 0) == Rewritten("a\\)", 0, 0);
    assert r == Rewritten("\\(a\\)", 0, 0);
    RemoveDlsNewRewrites(Fresh, t, pad);
    assert SetCounters(Fresh, 0, 0) == Fresh;
    assert r.text + pad == "\\(a\\) b";
  }

  /**
   * Without that tail the scan stops too early: the closing `$` of a formula
   * that ends the text is left as it is, while the counter stays open.
   */
  lemma ClosingDollarMissed()
    ensures RemoveDlsNew(Fresh, "$a$") == Ok((Dollars([1], [0], 0), "\\(a$"))
  {
    var s := "$a$";
    assert s[0..] == s;
    ReplaceSingle(Fresh, s);
    ScanDollarStep(Fresh, s, 0, 3);
    var s1 := [] + ("\\(" + s[1..]);
    assert s[..0] == [];
    assert s1 == "\\(a$";
    var d1 := Fresh.(dl := [0][0 := 1]);
    assert d1 == Dollars([1], [0], 0);
    assert ScanFrom(Fresh, s, 0, 3) == ScanFrom(d1, s1, 1, 3);
    ScanPlainStep(d1, s1, 1, 3);
  }
}

=== FILE: expansion.dfy ===
/**
 * The expansion engine of src/Py/modules.py: multi_substitution_regexp,
 * recursive_expansion, do_inline_sub and remove_multiline_macros.
 *
 * A registry entry is looked for by its name as a plain substring (the
 * `escape_name` pattern has no metacharacters once its backslash is
 * escaped). An entry without arguments replaces every occurrence of its
 * name that no letter follows; an entry with arguments rewrites the line
 * from the first occurrence of its name to the end of the line. The
 * replacement text is inserted as it is.
 */
module Expansion {
  import opened Wrappers
  import opened Strings
  import opened Macros
  import opened Arguments

  /** What a failed argument scan writes after the backslash of the name. */
  const Marker := "@@$$@@!!"

  /** The marker with its backslash: a line holding it waits for its continuation. */
  const Sentinel := "\\@@$$@@!!"

  /** Where remove_multiline_macros joined two lines. */
  const LineMark := "@@newl@@"

  /** Every entry came out of the definition parser. */
  predicate ValidRegistry(macros: seq<Macro>) {
    forall k :: 0 <= k < |macros| ==> WellFormed(macros[k])
  }

  function SepsOf(m: Macro): Seps {
    Seps(Some(m.open), Some(m.close))
  }

  /** `macro_name.replace('\\', '\\@@$$@@!!')`: a name has one backslash, in front. */
  function Unresolved(name: string): (r: string)
    requires IsName(name)
    ensures Sentinel <= r
  {
    "\\" + Marker + name[1..]
  }

  // ---------------------------------------------------------------------
  // multi_substitution_regexp
  // ---------------------------------------------------------------------

  function Identity(s: string): string {
    s
  }

  /**
   * The text after an entry with arguments: when the scan closes every group
   * and finds all the arguments, the body with `#j` replaced by argument j and
   * then the unread text; otherwise the marked name and the whole text.
   */
  function MultiSub(m: Macro, t: string): string
    requires WellFormed(m) && Multi(m)
  {
    var n := ArgCount(m);
    var st := ScanArgs(SepsOf(m), n, t);
    if Complete(n, st) then Fill(m.replacement, st.args, Identity) + Rest(t, st)
    else Unresolved(m.name) + t
  }

  /** Arguments written between the entry's separators are found and substituted. */
  lemma MultiSubRoundTrip(m: Macro, args: seq<string>, rest: string)
    requires WellFormed(m) && Multi(m)
    requires |args| == ArgCount(m) && AllBalanced(m.open, m.close, args)
    ensures MultiSub(m, Encode(m.open, m.close, args) + rest) == Fill(m.replacement, args, Identity) + rest
  {
    ScanRoundTrip(m.open, m.close, args, rest);
  }

  /** With no text left to read, an entry that needs arguments stays unresolved. */
  lemma MultiSubAtEnd(m: Macro)
    requires WellFormed(m) && Multi(m) && ArgCount(m) > 0
    ensures MultiSub(m, []) == Unresolved(m.name)
  {
    assert ScanArgs(SepsOf(m), ArgCount(m), []) == Start;
  }

  /** An entry declared with zero arguments keeps the body and the whole text. */
  lemma MultiSubNoArguments(m: Macro, t: string)
    requires WellFormed(m) && Multi(m) && ArgCount(m) == 0
    ensures MultiSub(m, t) == m.replacement + t
  {
    assert ScanArgs(SepsOf(m), 0, t) == Start;
  }

  // ---------------------------------------------------------------------
  // One pass of recursive_expansion
  // ---------------------------------------------------------------------

  /** An occurrence of `name` at `i` that no letter follows: `\name(?![a-zA-Z])`. */
  predicate Guarded(s: string, name: string, i: nat) {
    OccursAt(s, name, i) && (i + |name| == |s| || (i + |name| < |s| && !IsLetter(s[i + |name|])))
  }

  /** `re.sub` of the guarded pattern: every guarded occurrence, left to right. */
  function GuardedReplace(s: string, name: string, rep: string): string
    requires |name| > 0
    decreases |s|
  {
    if s == [] then []
    else if Guarded(s, name, 0) then rep + GuardedReplace(s[|name|..], name, rep)
    else [s[0]] + GuardedReplace(s[1..], name, rep)
  }

  /** One entry applied to the line, if its name occurs in it. */
  function Apply(m: Macro, lin: string): string
    requires WellFormed(m)
  {
    match IndexOf(lin, m.name)
    case None => lin
    case Some(i) =>
      if Multi(m) then
        var after := lin[i + |m.name|..];
        lin[..i] + MultiSub(m, after[SpaceRun(after)..])
      else GuardedReplace(lin, m.name, m.replacement)
  }

  /** The entries applied one after the other, in registry order. */
  function Pass(macros: seq<Macro>, lin: string): string
    requires ValidRegistry(macros)
  {
    if macros == [] then lin else Pass(macros[1..], Apply(macros[0], lin))
  }

  /** Some registered name occurs in the line. */
  predicate Mentions(macros: seq<Macro>, lin: string) {
    exists k :: 0 <= k < |macros| && Contains(lin, macros[k].name)
  }

  /**
   * The loop of recursive_expansion for any pass and stopping test: one pass
   * per unit of `fuel`, until the test holds. Running out of fuel is `None`.
   */
  function Fix(fuel: nat, pass: string -> string, done: string -> bool, lin: string): (r: Option<string>)
    ensures r.Some? ==> done(r.value)
    decreases fuel
  {
    if fuel == 0 then None
    else
      var next := pass(lin);
      if done(next) then Some(next) else Fix(fuel - 1, pass, done, next)
  }

  /**
   * recursive_expansion: passes until no registered name occurs. `fuel`
   * stands for the interpreter's recursion limit; running out of it is
   * `None`, the error do_inline_sub reports.
   */
  function Expand(fuel: nat, macros: seq<Macro>, lin: string): (r: Option<string>)
    requires ValidRegistry(macros)
    ensures r.Some? ==> !Mentions(macros, r.value)
  {
    Fix(fuel, s => Pass(macros, s), s => !Mentions(macros, s), lin)
  }

  // ---------------------------------------------------------------------
  // Properties of the fixpoint
  // ---------------------------------------------------------------------

  /** An entry whose name does not occur leaves the line alone. */
  lemma ApplyAbsent(m: Macro, lin: string)
    requires WellFormed(m) && !Contains(lin, m.name)
    ensures Apply(m, lin) == lin
  {
    IndexOfContains(lin, m.name);
  }

  /** A pass over a line that mentions no entry changes nothing. */
  lemma {:induction false} PassUnmentioned(macros: seq<Macro>, lin: string)
    requires ValidRegistry(macros) && !Mentions(macros, lin)
    ensures Pass(macros, lin) == lin
  {
    if macros != [] {
      assert !Contains(lin, macros[0].name);
      ApplyAbsent(macros[0], lin);
      assert !Mentions(macros[1..], lin) by {
        forall k | 0 <= k < |macros[1..]| ensures !Contains(lin, macros[1..][k].name) {
          assert macros[1..][k] == macros[k + 1];
        }
      }
      PassUnmentioned(macros[1..], lin);
    }
  }

  /** A line in which no registered name occurs comes back unchanged. */
  lemma ExpandUnmentioned(fuel: nat, macros: seq<Macro>, lin: string)
    requires ValidRegistry(macros) && !Mentions(macros, lin) && fuel > 0
    ensures Expand(fuel, macros, lin) == Some(lin)
  {
    PassUnmentioned(macros, lin);
    FixFixed(fuel, s => Pass(macros, s), s => !Mentions(macros, s), lin);
  }

  /** A line the pass leaves unchanged and the test accepts is the answer. */
  lemma FixFixed(fuel: nat, pass: string -> string, done: string -> bool, lin: string)
    requires fuel > 0 && pass(lin) == lin && done(lin)
    ensures Fix(fuel, pass, done, lin) == Some(lin)
  {
  }

  /** A result found with some fuel is found with more. */
  lemma {:induction false} FixMoreFuel(fuel: nat, more: nat, pass: string -> string, done: string -> bool, lin: string)
    requires fuel <= more && Fix(fuel, pass, done, lin).Some?
    ensures Fix(more, pass, done, lin) == Fix(fuel, pass, done, lin)
    decreases fuel
  {
    if !done(pass(lin)) {
      FixMoreFuel(fuel - 1, more - 1, pass, done, pass(lin));
    }
  }

  /** A line that the pass leaves as it is and the test rejects never converges. */
  lemma {:induction false} FixStuck(fuel: nat, pass: string -> string, done: string -> bool, lin: string)
    requires pass(lin) == lin && !done(lin)
    ensures Fix(fuel, pass, done, lin) == None
    decreases fuel
  {
    if fuel > 0 {
      FixStuck(fuel - 1, pass, done, lin);
    }
  }

  /** An expansion found with some fuel is found with more. */
  lemma ExpandMoreFuel(fuel: nat, more: nat, macros: seq<Macro>, lin: string)
    requires ValidRegistry(macros) && fuel <= more && Expand(fuel, macros, lin).Some?
    ensures Expand(more, macros, lin) == Expand(fuel, macros, lin)
  {
    FixMoreFuel(fuel, more, s => Pass(macros, s), s => !Mentions(macros, s), lin);
  }

  /**
   * A line that a pass leaves as it is while a name still occurs in it never
   * converges, whatever the fuel.
   */
  lemma ExpandStuck(fuel: nat, macros: seq<Macro>, lin: string)
    requires ValidRegistry(macros) && Pass(macros, lin) == lin && Mentions(macros, lin)
    ensures Expand(fuel, macros, lin) == None
  {
    FixStuck(fuel, s => Pass(macros, s), s => !Mentions(macros, s), lin);
  }

  /** Without a guarded occurrence the guarded replacement is the identity. */
  lemma {:induction false} GuardedReplaceNone(s: string, name: string, rep: string)
    requires |name| > 0
    requires forall i :: 0 <= i < |s| ==> !Guarded(s, name, i)
    ensures GuardedReplace(s, name, rep) == s
    decreases |s|
  {
    if s != [] {
      assert !Guarded(s, name, 0);
      forall i | 0 <= i < |s[1..]| ensures !Guarded(s[1..], name, i) {
        assert !Guarded(s, name, i + 1);
        assert s[1..][i..] == s[i + 1..];
      }
      GuardedReplaceNone(s[1..], name, rep);
    }
  }

  /** No occurrence of `\F` in `\Fourier` is followed by a non-letter. */
  lemma FourierUnguarded()
    ensures forall i :: 0 <= i < |"\\Fourier"| ==> !Guarded("\\Fourier", "\\F", i)
  {
    var s := "\\Fourier";
    forall i | 0 <= i < |s| ensures !Guarded(s, "\\F", i) {
      if i > 0 {
        assert s[i..][0] != '\\';
      } else {
        assert IsLetter(s[2]);
      }
    }
  }

  const FourierMacro := Macro("newcommand", "\\F", '{', '}', None, "x")

  /**
   * `\F` defined and `\Fourier` in the text: the name occurs but is always
   * followed by a letter, so no pass removes it and the expansion never ends.
   */
  lemma FourierNeverConverges(fuel: nat)
    ensures ValidRegistry([FourierMacro])
    ensures Expand(fuel, [FourierMacro], "\\Fourier") == None
  {
    FourierStuck(FourierMacro, "\\Fourier");
    ExpandStuck(fuel, [FourierMacro], "\\Fourier");
  }

  /** The single pass over `\F` leaves `\Fourier` as it is, and the name still occurs. */
  lemma FourierStuck(m: Macro, s: string)
    requires m == FourierMacro && s == "\\Fourier"
    ensures ValidRegistry([m]) && Pass([m], s) == Pass([], s) && Contains(s, [m][0].name)
  {
    assert WellFormed(m);
    assert Apply(m, s) == s by {
      FourierUnguarded();
      GuardedReplaceNone(s, "\\F", "x");
      assert OccursAt(s, "\\F", 0);
      assert IndexOf(s, "\\F") == Some(0);
    }
    assert OccursAt(s, m.name, 0);
  }

  // ---------------------------------------------------------------------
  // Duplicate names: the earlier entry wins
  // ---------------------------------------------------------------------

  /** A text without backslashes holds no name. */
  lemma NoBackslashNoName(s: string, name: string)
    requires IsName(name) && '\\' !in s
    ensures !Contains(s, name)
  {
    forall i | 0 <= i <= |s| ensures !OccursAt(s, name, i) {
      if i < |s| {
        assert s[i] in s;
        assert s[i..][0] == s[i];
      }
    }
  }

  /** Text without backslashes before the name is copied through the replacement. */
  lemma {:induction false} GuardedReplacePrefix(pre: string, s: string, name: string, rep: string)
    requires IsName(name) && '\\' !in pre
    ensures GuardedReplace(pre + s, name, rep) == pre + GuardedReplace(s, name, rep)
    decreases |pre|
  {
    if pre != [] {
      assert (pre + s)[0] == pre[0];
      assert !Guarded(pre + s, name, 0);
      assert (pre + s)[1..] == pre[1..] + s;
      assert pre[0] in pre;
      GuardedReplacePrefix(pre[1..], s, name, rep);
    } else {
      assert pre + s == s;
    }
  }

  /** The guarded replacement of `pre + name + post`, with no other name around. */
  lemma GuardedReplaceOnce(pre: string, name: string, post: string, rep: string)
    requires IsName(name) && '\\' !in pre && '\\' !in post
    requires post == [] || !IsLetter(post[0])
    ensures GuardedReplace(pre + name + post, name, rep) == pre + rep + post
  {
    var s := name + post;
    assert GuardedReplace(post, name, rep) == post by { PlainNoGuarded(post, name, rep); }
    assert GuardedReplace(s, name, rep) == rep + GuardedReplace(post, name, rep) by {
      assert OccursAt(s, name, 0);
      assert Guarded(s, name, 0);
      assert s[|name|..] == post;
    }
    GuardedReplacePrefix(pre, s, name, rep);
    assert pre + name + post == pre + s;
  }

  /** A text without backslashes is left alone by the guarded replacement. */
  lemma PlainNoGuarded(post: string, name: string, rep: string)
    requires IsName(name) && '\\' !in post
    ensures GuardedReplace(post, name, rep) == post
  {
    NoBackslashNoName(post, name);
    forall i | 0 <= i < |post| ensures !Guarded(post, name, i) {
      assert !OccursAt(post, name, i);
    }
    GuardedReplaceNone(post, name, rep);
  }

  /** No occurrence of `name` in `s` is one the guarded pattern matches. */
  predicate NoGuarded(s: string, name: string) {
    forall i :: 0 <= i < |s| ==> !Guarded(s, name, i)
  }

  /** A text that is empty or does not start with a letter. */
  predicate FrontNotLetter(s: string) {
    s == [] || !IsLetter(s[0])
  }

  /** An occurrence in the second part of a text is one in that part. */
  lemma GuardedShift(a: string, b: string, name: string, i: nat)
    ensures Guarded(a + b, name, |a| + i) <==> Guarded(b, name, i)
  {
    if |a| + i <= |a + b| {
      assert (a + b)[|a| + i..] == b[i..];
    }
    if |a| + i + |name| < |a + b| {
      assert (a + b)[|a| + i + |name|] == b[i + |name|];
    }
  }

  /** An occurrence followed by a character of the first part is one in that part. */
  lemma GuardedInside(a: string, b: string, name: string, i: nat)
    requires i + |name| < |a|
    ensures Guarded(a + b, name, i) <==> Guarded(a, name, i)
  {
    assert (a + b)[i..][..|name|] == a[i..][..|name|];
    assert (a + b)[i + |name|] == a[i + |name|];
  }

  /** The guarded replacement does not put a letter in front of a text that had none. */
  lemma {:induction false} GuardedReplaceFront(s: string, name: string, rep: string)
    requires IsName(name) && FrontNotLetter(rep) && FrontNotLetter(s)
    ensures FrontNotLetter(GuardedReplace(s, name, rep))
    decreases |s|
  {
    if s != [] && Guarded(s, name, 0) {
      var post := s[|name|..];
      GuardedReplaceFront(post, name, rep);
      if rep == [] {
        assert rep + GuardedReplace(post, name, rep) == GuardedReplace(post, name, rep);
      }
    }
  }

  /** The guarded replacement keeps the letters at the front of a text, and no more of them. */
  lemma {:induction false} GuardedReplaceLetters(s: string, name: string, rep: string)
    requires IsName(name) && FrontNotLetter(rep)
    ensures LetterRun(GuardedReplace(s, name, rep)) == LetterRun(s)
    ensures LetterRun(s) <= |GuardedReplace(s, name, rep)|
    ensures GuardedReplace(s, name, rep)[..LetterRun(s)] == s[..LetterRun(s)]
    decreases |s|
  {
    var r := GuardedReplace(s, name, rep);
    if s != [] && IsLetter(s[0]) {
      assert !Guarded(s, name, 0) by {
        if OccursAt(s, name, 0) { assert name[0] == s[0..][0]; }
      }
      GuardedReplaceLetters(s[1..], name, rep);
      assert r == [s[0]] + GuardedReplace(s[1..], name, rep);
      assert r[1..] == GuardedReplace(s[1..], name, rep);
    } else {
      GuardedReplaceFront(s, name, rep);
    }
  }

  /** A run of exactly `k` letters at the front. */
  lemma {:induction false} LetterRunIs(x: string, k: nat)
    requires k <= |x| && (forall j :: 0 <= j < k ==> IsLetter(x[j]))
    requires k == |x| || !IsLetter(x[k])
    ensures LetterRun(x) == k
    decreases k
  {
    if k > 0 {
      LetterRunIs(x[1..], k - 1);
    }
  }

  /**
   * An occurrence that ends the first part is an occurrence there, and one
   * that crosses into the second part finds a letter at its start.
   */
  lemma SeamOccurrences(a: string, b: string, name: string)
    requires IsName(name)
    ensures forall i :: 0 <= i && i + |name| == |a| && OccursAt(a + b, name, i) ==> OccursAt(a, name, i)
    ensures forall i :: 0 <= i < |a| < i + |name| && OccursAt(a + b, name, i) ==> IsLetter(b[0])
  {
    forall i | 0 <= i && i + |name| == |a| && OccursAt(a + b, name, i) ensures OccursAt(a, name, i) {
      assert (a + b)[i..][..|name|] == a[i..];
    }
    forall i | 0 <= i < |a| < i + |name| && OccursAt(a + b, name, i) ensures IsLetter(b[0]) {
      assert (a + b)[|a|] == (a + b)[i..][|a| - i] == name[|a| - i];
    }
  }

  /** No guarded occurrence forms where a replacement meets a text that does not start with a letter. */
  lemma CleanSeam(rep: string, r2: string, name: string)
    requires IsName(name) && NoGuarded(rep, name) && NoGuarded(r2, name) && FrontNotLetter(r2)
    ensures NoGuarded(rep + r2, name)
  {
    var r := rep + r2;
    SeamOccurrences(rep, r2, name);
    forall i | 0 <= i < |r| ensures !Guarded(r, name, i) {
      if i >= |rep| {
        GuardedShift(rep, r2, name, i - |rep|);
      } else if i + |name| < |rep| {
        GuardedInside(rep, r2, name, i);
      } else if i + |name| == |rep| {
        assert !Guarded(rep, name, i);
      } else {
        assert r2 == [] || !IsLetter(r2[0]);
      }
    }
  }

  /**
   * A guarded occurrence at the front of a copied character and the
   * replacement of the rest was a guarded occurrence of the text already.
   */
  lemma CopyGuarded(s: string, name: string, rep: string)
    requires IsName(name) && FrontNotLetter(rep) && s != []
    ensures Guarded([s[0]] + GuardedReplace(s[1..], name, rep), name, 0) ==> Guarded(s, name, 0)
  {
    var t := s[1..];
    var r1 := GuardedReplace(t, name, rep);
    var r := [s[0]] + r1;
    if Guarded(r, name, 0) {
      var n := |name|;
      assert s[0] == '\\' by { assert r[0..][0] == name[0]; }
      forall j | 0 <= j < n - 1 ensures IsLetter(r1[j]) {
        assert r1[j] == r[0..][j + 1] == name[j + 1];
      }
      assert n - 1 == |r1| || !IsLetter(r1[n - 1]) by {
        if n < |r| { assert r[n] == r1[n - 1]; }
      }
      LetterRunIs(r1, n - 1);
      GuardedReplaceLetters(t, name, rep);
      LetterRunMaximal(t);
      assert LetterRun(t) == n - 1 && n - 1 <= |t| && t[..n - 1] == r1[..n - 1];
      assert n == |s| || !IsLetter(s[n]) by {
        if n < |s| { assert s[n] == t[n - 1]; }
      }
      assert s[..n] == name by {
        forall j | 0 <= j < n ensures s[j] == name[j] {
          if j > 0 {
            assert s[j] == t[..n - 1][j - 1];
            assert r1[..n - 1][j - 1] == r[j];
          }
        }
      }
      assert OccursAt(s, name, 0);
    }
  }

  /** A character copied in front of a clean replacement makes no guarded occurrence. */
  lemma CleanCopy(s: string, name: string, rep: string)
    requires IsName(name) && FrontNotLetter(rep) && s != [] && !Guarded(s, name, 0)
    requires NoGuarded(GuardedReplace(s[1..], name, rep), name)
    ensures NoGuarded([s[0]] + GuardedReplace(s[1..], name, rep), name)
  {
    var r1 := GuardedReplace(s[1..], name, rep);
    CopyGuarded(s, name, rep);
    forall i | 1 <= i < |[s[0]] + r1| ensures !Guarded([s[0]] + r1, name, i) {
      GuardedShift([s[0]], r1, name, i - 1);
    }
  }

  /**
   * With a replacement that holds no guarded occurrence of the name and does
   * not start with a letter, the guarded replacement leaves no guarded
   * occurrence behind: the old ones are gone and none forms at a seam.
   */
  lemma {:induction false} GuardedReplaceClean(s: string, name: string, rep: string)
    requires IsName(name) && FrontNotLetter(rep) && NoGuarded(rep, name)
    ensures NoGuarded(GuardedReplace(s, name, rep), name)
    decreases |s|
  {
    if s == [] {
    } else if Guarded(s, name, 0) {
      var post := s[|name|..];
      GuardedReplaceClean(post, name, rep);
      GuardedReplaceFront(post, name, rep);
      CleanSeam(rep, GuardedReplace(post, name, rep), name);
    } else {
      GuardedReplaceClean(s[1..], name, rep);
      CleanCopy(s, name, rep);
    }
  }

  /**
   * Two entries without arguments under the same name: once the first has
   * replaced its guarded occurrences, the second finds nothing to do, as
   * long as the first one's replacement holds no guarded occurrence of the
   * name and does not start with a letter (which could complete a name
   * ending the text before it).
   */
  lemma EarlierEntryWins(m1: Macro, m2: Macro, lin: string)
    requires WellFormed(m1) && WellFormed(m2) && !Multi(m1) && !Multi(m2) && m1.name == m2.name
    requires NoGuarded(m1.replacement, m1.name) && FrontNotLetter(m1.replacement)
    ensures Apply(m2, Apply(m1, lin)) == Apply(m1, lin)
  {
    var out := Apply(m1, lin);
    if IndexOf(lin, m1.name).Some? {
      GuardedReplaceClean(lin, m1.name, m1.replacement);
      GuardedReplaceNone(out, m2.name, m2.replacement);
    }
  }

  /** In a pass, a later entry under the same name adds nothing to the earlier one. */
  lemma EarlierEntryPass(m1: Macro, m2: Macro, lin: string)
    requires WellFormed(m1) && WellFormed(m2) && !Multi(m1) && !Multi(m2) && m1.name == m2.name
    requires NoGuarded(m1.replacement, m1.name) && FrontNotLetter(m1.replacement)
    ensures Pass([m1, m2], lin) == Pass([m1], lin)
  {
    EarlierEntryWins(m1, m2, lin);
    assert [m1, m2][1..] == [m2] && [m2][1..] == [] && [m1][1..] == [];
  }

  /**
   * The condition on the front of the replacement is needed: with `\F`
   * replaced by `F`, the text `x\` before a use completes a new `\F`,
   * which the second entry then replaces.
   */
  lemma LetterFrontCompletesName()
    ensures var m1, m2 := Macro("newcommand", "\\F", '{', '}', None, "F"), Macro("newcommand", "\\F", '{', '}', None, "y");
      WellFormed(m1) && WellFormed(m2) && Apply(m2, Apply(m1, "x\\\\F ")) != Apply(m1, "x\\\\F ")
  {
    var m1, m2 := Macro("newcommand", "\\F", '{', '}', None, "F"), Macro("newcommand", "\\F", '{', '}', None, "y");
    var lin := "x\\\\F ";
    assert WellFormed(m1) && WellFormed(m2);
    assert OccursAt(lin, "\\F", 2);
    assert IndexOf(lin, "\\F").Some? by { IndexOfContains(lin, "\\F"); }
    assert !Guarded(lin, "\\F", 0) && !Guarded(lin, "\\F", 1) && Guarded(lin, "\\F", 2);
    assert lin[1..] == "\\\\F " && lin[2..] == "\\F " && lin[4..] == " ";
    assert !Guarded(" ", "\\F", 0) && " "[1..] == "";
    assert Apply(m1, lin) == "x\\F ";
    var out := "x\\F ";
    assert OccursAt(out, "\\F", 1);
    assert IndexOf(out, "\\F").Some? by { IndexOfContains(out, "\\F"); }
    assert !Guarded(out, "\\F", 0) && Guarded(out, "\\F", 1);
    assert out[1..] == "\\F " && out[3..] == " ";
    assert Apply(m2, out) == "xy ";
  }

  /**
   * With arguments the earlier entry does not win: an entry with arguments
   * rewrites only the first use of its name, so a later entry under the
   * same name expands a second use in the same pass. `\F{x} \F{y}`
   * comes out as the first body filled with `x`, then the second body
   * filled with `y`.
   */
  lemma LaterEntryTakesSecondUse(m1: Macro, m2: Macro, x: string, y: string)
    requires WellFormed(m1) && WellFormed(m2) && Multi(m1) && Multi(m2) && m1.name == m2.name
    requires ArgCount(m1) == 1 && ArgCount(m2) == 1 && m1.open == m2.open && m1.close == m2.close
    requires AllBalanced(m1.open, m1.close, [x]) && AllBalanced(m1.open, m1.close, [y])
    requires '\\' !in Fill(m1.replacement, [x], Identity)
    ensures Pass([m1], m1.name + Encode(m1.open, m1.close, [x]) + " " + m1.name + Encode(m1.open, m1.close, [y])) ==
            Fill(m1.replacement, [x], Identity) + " " + m1.name + Encode(m1.open, m1.close, [y])
    ensures Pass([m1, m2], m1.name + Encode(m1.open, m1.close, [x]) + " " + m1.name + Encode(m1.open, m1.close, [y])) ==
            Fill(m1.replacement, [x], Identity) + " " + Fill(m2.replacement, [y], Identity)
  {
    var e1, e2 := Encode(m1.open, m1.close, [x]), Encode(m1.open, m1.close, [y]);
    var f1, f2 := Fill(m1.replacement, [x], Identity), Fill(m2.replacement, [y], Identity);
    var lin := m1.name + e1 + " " + m1.name + e2;
    var mid := f1 + " " + m1.name + e2;
    assert Apply(m1, lin) == mid by { FirstUseOnly(m1, x, " " + m1.name + e2, lin, mid); }
    assert Apply(m2, mid) == f1 + " " + f2 by { SecondUseAfter(m2, f1 + " ", y, mid, f1 + " " + f2); }
    PassSingle(m1, lin);
    PassSingle(m2, mid);
    assert [m1, m2][1..] == [m2];
  }

  /** Bodies `a#1` and `b#1` under the name `\F`: one pass turns `\F{x} \F{y}` into `ax by`. */
  lemma LaterEntryExample(m1: Macro, m2: Macro, line: string)
    requires m1 == Macro("newcommand", "\\F", '{', '}', Some('1'), "a#1")
    requires m2 == Macro("newcommand", "\\F", '{', '}', Some('1'), "b#1")
    requires line == "\\F{x} \\F{y}"
    ensures ValidRegistry([m1, m2]) && Pass([m1, m2], line) == "ax by"
  {
    var lin := m1.name + Encode('{', '}', ["x"]) + " " + m1.name + Encode('{', '}', ["y"]);
    var out := Fill(m1.replacement, ["x"], Identity) + " " + Fill(m2.replacement, ["y"], Identity);
    ExampleEntries(m1, m2);
    ExamplePieces();
    assert Fill(m1.replacement, ["x"], Identity) == "ax";
    LaterEntryTakesSecondUse(m1, m2, "x", "y");
    ExampleLine(m1.name);
  }

  /** The two entries of the example are well formed, take one argument and share name and braces. */
  lemma ExampleEntries(m1: Macro, m2: Macro)
    requires m1 == Macro("newcommand", "\\F", '{', '}', Some('1'), "a#1")
    requires m2 == Macro("newcommand", "\\F", '{', '}', Some('1'), "b#1")
    ensures WellFormed(m1) && WellFormed(m2) && Multi(m1) && Multi(m2) && m1.name == m2.name == "\\F"
    ensures ArgCount(m1) == 1 && ArgCount(m2) == 1 && m1.open == m2.open == '{' && m1.close == m2.close == '}'
    ensures m1.replacement == "a#1" && m2.replacement == "b#1"
  {
  }

  /** The arguments of the example are balanced, and their encodings and fillings are as written. */
  lemma ExamplePieces()
    ensures AllBalanced('{', '}', ["x"]) && AllBalanced('{', '}', ["y"])
    ensures Encode('{', '}', ["x"]) == "{x}" && Encode('{', '}', ["y"]) == "{y}"
    ensures Fill("a#1", ["x"], Identity) == "ax" && Fill("b#1", ["y"], Identity) == "by"
  {
    assert Balanced('{', '}', "x") && Balanced('{', '}', "y");
    FillOneMark('a', "x");
    FillOneMark('b', "y");
  }

  /** The pieces of the example line, and of its expansion, put together. */
  lemma ExampleLine(name: string)
    requires name == "\\F"
    ensures name + "{x}" + " " + name + "{y}" == "\\F{x} \\F{y}"
    ensures "ax" + " " + "by" == "ax by"
  {
    var l := name + "{x}" + " " + name + "{y}";
    assert |l| == 11;
    forall k | 0 <= k < 11 ensures l[k] == "\\F{x} \\F{y}"[k] {
    }
  }

  /** A body of one character and the mark `#1`: the argument takes the mark's place. */
  lemma FillOneMark(c: char, x: string)
    requires c != '#' && c != '1'
    ensures Fill([c, '#', '1'], [x], Identity) == [c] + x
  {
    var body := [c, '#', '1'];
    assert Mark(1) == "#1";
    assert OccursAt(body, "#1", 1);
    forall k | 0 <= k <= |body| && k != 1 ensures !OccursAt(body, "#1", k) {
      if k == 0 { assert body[0] != '#'; }
      if k == 2 { assert body[2] != '#'; }
    }
    ReplaceAllOnce(body, "#1", x, 1);
    assert body[..1] == [c] && body[3..] == "";
    var r := ReplaceAll(body, Mark(1), Identity(x));
    assert r == [c] + x;
    assert FillFrom(r, [x], 2, Identity) == r;
  }

  /** An entry with one argument rewrites its first use and leaves the rest of the line as it is. */
  lemma FirstUseOnly(m: Macro, x: string, rest: string, lin: string, out: string)
    requires WellFormed(m) && Multi(m) && ArgCount(m) == 1 && AllBalanced(m.open, m.close, [x])
    requires lin == m.name + Encode(m.open, m.close, [x]) + rest
    requires out == Fill(m.replacement, [x], Identity) + rest
    ensures Apply(m, lin) == out
  {
    var e, f := Encode(m.open, m.close, [x]), Fill(m.replacement, [x], Identity);
    assert "" + m.name == m.name && "" + f == f;
    assert Apply(m, "" + m.name + e + rest) == "" + f + rest by { ApplyWithArguments(m, "", [x], rest); }
  }

  /** An entry with one argument, used at the end of a line after text without backslashes. */
  lemma SecondUseAfter(m: Macro, pre: string, y: string, lin: string, out: string)
    requires WellFormed(m) && Multi(m) && ArgCount(m) == 1 && AllBalanced(m.open, m.close, [y])
    requires '\\' !in pre
    requires lin == pre + m.name + Encode(m.open, m.close, [y])
    requires out == pre + Fill(m.replacement, [y], Identity)
    ensures Apply(m, lin) == out
  {
    ApplyWithArguments(m, pre, [y], "");
    assert pre + m.name + Encode(m.open, m.close, [y]) + "" == lin;
    assert pre + Fill(m.replacement, [y], Identity) + "" == out;
  }

  /**
   * One use of a name shared by two entries without arguments, in a line
   * and with a replacement free of backslashes: one pass expands it with the
   * first entry's replacement, and the expansion ends there.
   */
  lemma DuplicateExpandsOnce(fuel: nat, m1: Macro, m2: Macro, pre: string, post: string)
    requires WellFormed(m1) && WellFormed(m2) && !Multi(m1) && !Multi(m2) && m1.name == m2.name
    requires '\\' !in pre && '\\' !in post && '\\' !in m1.replacement
    requires post == [] || !IsLetter(post[0])
    requires fuel > 0
    ensures Expand(fuel, [m1, m2], pre + m1.name + post) == Some(pre + m1.replacement + post)
  {
    var lin := pre + m1.name + post;
    var out := pre + m1.replacement + post;
    assert OccursAt(lin, m1.name, |pre|) by {
      assert lin[|pre|..] == m1.name + post;
    }
    IndexOfContains(lin, m1.name);
    GuardedReplaceOnce(pre, m1.name, post, m1.replacement);
    assert Apply(m1, lin) == out;
    assert '\\' !in out;
    NoBackslashNoName(out, m1.name);
    ApplyAbsent(m2, out);
    assert [m1, m2][1..] == [m2] && [m2][1..] == [];
    assert Pass([m1, m2], lin) == Pass([m2], out);
    assert Pass([m2], out) == Pass([], out);
    assert !Mentions([m1, m2], out);
    ExpandOnePass(fuel, [m1, m2], lin, out);
  }

  /** A pass that leaves no name behind ends the expansion. */
  lemma ExpandOnePass(fuel: nat, macros: seq<Macro>, lin: string, out: string)
    requires ValidRegistry(macros) && fuel > 0
    requires Pass(macros, lin) == out && !Mentions(macros, out)
    ensures Expand(fuel, macros, lin) == Some(out)
  {
  }

  // ---------------------------------------------------------------------
  // An entry with arguments inside a line
  // ---------------------------------------------------------------------

  /** The first occurrence of a name after text without backslashes is right after that text. */
  lemma FirstAfterPlain(pre: string, name: string, post: string)
    requires IsName(name) && '\\' !in pre
    ensures IndexOf(pre + name + post, name) == Some(|pre|)
  {
    var s := pre + name + post;
    assert OccursAt(s, name, |pre|) by {
      assert s[|pre|..] == name + post;
    }
    forall j | 0 <= j < |pre| ensures !OccursAt(s, name, j) {
      assert s[j..][0] == s[j] == pre[j];
      assert pre[j] in pre;
    }
    IndexOfContains(s, name);
  }

  /**
   * An entry with arguments rewrites the line from its name on: the blanks
   * after the name are skipped and the rest goes to the argument scanner.
   */
  lemma ApplyMulti(m: Macro, pre: string, blanks: string, t: string)
    requires WellFormed(m) && Multi(m) && '\\' !in pre
    requires forall k :: 0 <= k < |blanks| ==> IsSpace(blanks[k])
    requires t == [] || !IsSpace(t[0])
    ensures Apply(m, pre + m.name + blanks + t) == pre + MultiSub(m, t)
  {
    var lin := pre + m.name + blanks + t;
    FirstAfterPlain(pre, m.name, blanks + t);
    assert lin == pre + m.name + (blanks + t);
    assert lin[..|pre|] == pre;
    assert lin[|pre| + |m.name|..] == blanks + t;
    SpaceRunPrefix(blanks, t);
    assert (blanks + t)[|blanks|..] == t;
  }

  /** An entry with arguments in braces, right after text without backslashes. */
  lemma ApplyWithArguments(m: Macro, pre: string, args: seq<string>, rest: string)
    requires WellFormed(m) && Multi(m)
    requires |args| == ArgCount(m) > 0 && AllBalanced(m.open, m.close, args)
    requires '\\' !in pre
    ensures Apply(m, pre + m.name + Encode(m.open, m.close, args) + rest) ==
            pre + Fill(m.replacement, args, Identity) + rest
  {
    var e := Encode(m.open, m.close, args);
    MultiSubRoundTrip(m, args, rest);
    assert (e + rest)[0] == m.open;
    ApplyOpened(m, pre, e + rest, Fill(m.replacement, args, Identity) + rest);
    AppendAssoc(pre + m.name, e, rest);
    AppendAssoc(pre, Fill(m.replacement, args, Identity), rest);
  }

  /** A name right before its opening separator is replaced by the argument scan's result. */
  lemma ApplyOpened(m: Macro, pre: string, t: string, out: string)
    requires WellFormed(m) && Multi(m) && '\\' !in pre
    requires t != [] && t[0] == m.open && MultiSub(m, t) == out
    ensures Apply(m, pre + m.name + t) == pre + out
  {
    ApplyMulti(m, pre, [], t);
    assert pre + m.name + [] == pre + m.name;
  }

  /**
   * A line using a single entry with arguments, its arguments in braces:
   * the expansion is the filled body followed by the rest of the line.
   */
  lemma ExpandWithArguments(fuel: nat, m: Macro, pre: string, args: seq<string>, rest: string)
    requires WellFormed(m) && Multi(m) && fuel > 0
    requires |args| == ArgCount(m) > 0 && AllBalanced(m.open, m.close, args)
    requires '\\' !in pre
    requires !Contains(pre + Fill(m.replacement, args, Identity) + rest, m.name)
    ensures Expand(fuel, [m], pre + m.name + Encode(m.open, m.close, args) + rest) ==
            Some(pre + Fill(m.replacement, args, Identity) + rest)
  {
    ApplyWithArguments(m, pre, args, rest);
    ExpandSingle(fuel, m, pre + m.name + Encode(m.open, m.close, args) + rest,
                 pre + Fill(m.replacement, args, Identity) + rest);
  }

  /** With one entry, a line the entry rewrites to text without its name expands in one pass. */
  lemma ExpandSingle(fuel: nat, m: Macro, lin: string, out: string)
    requires WellFormed(m) && fuel > 0 && Apply(m, lin) == out && !Contains(out, m.name)
    ensures Expand(fuel, [m], lin) == Some(out)
  {
    PassSingle(m, lin);
    assert !Mentions([m], out);
    ExpandOnePass(fuel, [m], lin, out);
  }

  /** A registry of one entry: the pass is that entry. */
  lemma PassSingle(m: Macro, lin: string)
    requires WellFormed(m)
    ensures Pass([m], lin) == Apply(m, lin)
  {
    assert [m][1..] == [];
  }

  // ---------------------------------------------------------------------
  // do_inline_sub
  // ---------------------------------------------------------------------

  /**
   * do_inline_sub: the expanded line without the characters of `IsControl`;
   * `None` when the expansion does not end.
   */
  function InlineSub(fuel: nat, macros: seq<Macro>, ln: string): (r: Option<string>)
    requires ValidRegistry(macros)
    ensures r.Some? <==> Expand(fuel, macros, ln).Some?
    ensures r.Some? ==> IsSubsequence(r.value, Expand(fuel, macros, ln).value)
    ensures r.Some? ==> forall i :: 0 <= i < |r.value| ==> !IsControl(r.value[i])
  {
    match Expand(fuel, macros, ln)
    case None => None
    case Some(e) => Some(DropControl(e))
  }

  /** A line with no registered name and no control character passes through unchanged. */
  lemma InlineSubPlain(fuel: nat, macros: seq<Macro>, ln: string)
    requires ValidRegistry(macros) && fuel > 0 && !Mentions(macros, ln)
    requires forall i :: 0 <= i < |ln| ==> !IsControl(ln[i])
    ensures InlineSub(fuel, macros, ln) == Some(ln)
  {
    ExpandUnmentioned(fuel, macros, ln);
  }

  // ---------------------------------------------------------------------
  // remove_multiline_macros
  // ---------------------------------------------------------------------

  /** `line.replace('@@$$@@!!', '')`: the marked names become names again. */
  function Unmark(s: string): string {
    ReplaceAll(s, Marker, [])
  }

  /**
   * `re.sub(r"(?<!\\)\\ ", ' ', s)`: a backslash-space that no backslash
   * precedes becomes a space.
   */
  function Collapse(s: string): (r: string)
    ensures |r| <= |s|
  {
    CollapseFrom(s, 0)
  }

  function CollapseFrom(s: string, i: nat): (r: string)
    requires i <= |s|
    ensures |r| <= |s| - i
    decreases |s| - i
  {
    if i == |s| then []
    else if EscapedSpace(s, i) then [' '] + CollapseFrom(s, i + 2)
    else [s[i]] + CollapseFrom(s, i + 1)
  }

  /** A backslash-space at `i` with no backslash right before it. */
  predicate EscapedSpace(s: string, i: nat) {
    i + 1 < |s| && s[i] == '\\' && s[i + 1] == ' ' && (i == 0 || s[i - 1] != '\\')
  }

  /** Text without backslashes is left as it is. */
  lemma {:induction false} CollapseFromPlain(s: string, i: nat)
    requires i <= |s| && forall k :: i <= k < |s| ==> s[k] != '\\'
    ensures CollapseFrom(s, i) == s[i..]
    decreases |s| - i
  {
    if i < |s| {
      CollapseFromPlain(s, i + 1);
      assert s[i..] == [s[i]] + s[i + 1..];
    }
  }

  /** A single escaped space collapses; one escaped by a second backslash does not. */
  lemma CollapseExamples()
    ensures Collapse("a\\ b") == "a b"
    ensures Collapse("\\\\ b") == "\\\\ b"
  {
    assert EscapedSpace("a\\ b", 1);
    CollapseFromPlain("a\\ b", 3);
    assert !EscapedSpace("\\\\ b", 0) && !EscapedSpace("\\\\ b", 1);
    CollapseFromPlain("\\\\ b", 2);
  }

  /** Python's `s.split(sep)` for a non-empty separator. */
  function SplitOn(s: string, sep: string): (parts: seq<string>)
    requires |sep| > 0
    ensures |parts| >= 1
    decreases |s|
  {
    match IndexOf(s, sep)
    case None => [s]
    case Some(i) => [s[..i]] + SplitOn(s[i + |sep|..], sep)
  }

  /** Python's `sep.join(parts)`. */
  function JoinOn(parts: seq<string>, sep: string): string {
    if parts == [] then []
    else if |parts| == 1 then parts[0]
    else parts[0] + sep + JoinOn(parts[1..], sep)
  }

  /** Joining the pieces of a split restores the text. */
  lemma {:induction false} JoinOnSplitOn(s: string, sep: string)
    requires |sep| > 0
    ensures JoinOn(SplitOn(s, sep), sep) == s
    decreases |s|
  {
    match IndexOf(s, sep)
    case None =>
    case Some(i) =>
      var tail := s[i + |sep|..];
      var parts := SplitOn(tail, sep);
      assert SplitOn(s, sep) == [s[..i]] + parts;
      JoinOnSplitOn(tail, sep);
      assert ([s[..i]] + parts)[1..] == parts;
      assert JoinOn([s[..i]] + parts, sep) == s[..i] + sep + tail;
      AroundOccurrence(s, sep, i);
  }

  /** A text is what comes before an occurrence, the occurrence, and what follows. */
  lemma AroundOccurrence(s: string, t: string, i: nat)
    requires OccursAt(s, t, i)
    ensures s == s[..i] + t + s[i + |t|..]
  {
    assert s[i..i + |t|] == t;
    assert s == s[..i] + s[i..i + |t|] + s[i + |t|..];
  }

  /** A text without the separator is one piece. */
  lemma SplitOnAbsent(s: string, sep: string)
    requires |sep| > 0 && !Contains(s, sep)
    ensures SplitOn(s, sep) == [s]
  {
    IndexOfContains(s, sep);
  }

  /**
   * The state of remove_multiline_macros: whether a marked line has been
   * seen (it is never cleared), the lines joined so far while waiting for a
   * resolution, and the lines emitted.
   */
  datatype Joiner = Joiner(parsing: bool, buffer: Option<string>, out: seq<string>)

  const Idle := Joiner(false, None, [])

  /**
   * Once a line holds the sentinel, every line is added to the buffer and the
   * buffer is expanded again with its markers removed. While the result still
   * holds the sentinel the buffer waits, with a line mark after it; otherwise
   * the result, escaped spaces collapsed, is emitted split at the line marks.
   * The buffer left at the end is not emitted.
   */
  function MultiFrom(fuel: nat, macros: seq<Macro>, lines: seq<string>, j: Joiner): Result<seq<string>>
    requires ValidRegistry(macros)
    decreases |lines|
  {
    if lines == [] then Ok(j.out)
    else
      var l := lines[0];
      if !j.parsing && !Contains(l, Sentinel) then MultiFrom(fuel, macros, lines[1..], j.(out := j.out + [l]))
      else
        var buf := if j.buffer.Some? then j.buffer.value + l else l;
        match Expand(fuel, macros, Unmark(buf))
        case None => Err(NotConverged)
        case Some(e) =>
          if Contains(e, Sentinel) then MultiFrom(fuel, macros, lines[1..], Joiner(true, Some(buf + LineMark), j.out))
          else MultiFrom(fuel, macros, lines[1..], Joiner(true, None, j.out + SplitOn(Collapse(e), LineMark)))
  }

  /** remove_multiline_macros */
  function MultiLine(fuel: nat, macros: seq<Macro>, lines: seq<string>): Result<seq<string>>
    requires ValidRegistry(macros)
  {
    MultiFrom(fuel, macros, lines, Idle)
  }

  /** Lines without the sentinel are emitted as they are. */
  lemma {:induction false} MultiFromIdle(fuel: nat, macros: seq<Macro>, lines: seq<string>, acc: seq<string>)
    requires ValidRegistry(macros)
    requires forall k :: 0 <= k < |lines| ==> !Contains(lines[k], Sentinel)
    ensures MultiFrom(fuel, macros, lines, Joiner(false, None, acc)) == Ok(acc + lines)
    decreases |lines|
  {
    if lines != [] {
      assert !Contains(lines[0], Sentinel);
      MultiFromIdle(fuel, macros, lines[1..], acc + [lines[0]]);
      assert acc + [lines[0]] + lines[1..] == acc + lines;
    } else {
      assert acc + lines == acc;
    }
  }

  /** Without the sentinel anywhere, remove_multiline_macros changes nothing. */
  lemma MultiLineIdentity(fuel: nat, macros: seq<Macro>, lines: seq<string>)
    requires ValidRegistry(macros)
    requires forall k :: 0 <= k < |lines| ==> !Contains(lines[k], Sentinel)
    ensures MultiLine(fuel, macros, lines) == Ok(lines)
  {
    MultiFromIdle(fuel, macros, lines, []);
    assert [] + lines == lines;
  }

  /** A last line whose expansion still waits for a continuation is not emitted. */
  lemma UnresolvedDropped(fuel: nat, macros: seq<Macro>, l: string, j: Joiner, e: string)
    requires ValidRegistry(macros)
    requires j.parsing || Contains(l, Sentinel)
    requires Expand(fuel, macros, Unmark(if j.buffer.Some? then j.buffer.value + l else l)) == Some(e)
    requires Contains(e, Sentinel)
    ensures MultiFrom(fuel, macros, [l], j) == Ok(j.out)
  {
  }

  /** A character of `t` that `s` lacks keeps `t` out of `s`. */
  lemma MissingChar(s: string, t: string, k: nat)
    requires k < |t| && t[k] !in s
    ensures !Contains(s, t)
  {
    forall i | 0 <= i <= |s| ensures !OccursAt(s, t, i) {
      if i + |t| <= |s| {
        assert s[i..][k] == s[i + k];
        assert s[i + k] in s;
      }
    }
  }

  /** A text in which no backslash is followed by a letter holds no name. */
  lemma NoLetterAfterBackslash(s: string, name: string)
    requires IsName(name)
    requires forall k :: 0 <= k < |s| - 1 ==> s[k] == '\\' ==> !IsLetter(s[k + 1])
    ensures !Contains(s, name)
  {
    forall i | 0 <= i <= |s| ensures !OccursAt(s, name, i) {
      if i + |name| <= |s| {
        assert s[i..][0] == s[i] && s[i..][1] == s[i + 1];
      }
    }
  }

  /**
   * The state is never reset: the same line with an escaped space is emitted
   * as it is before any sentinel, and with the space unescaped after one.
   */
  lemma ParsingNeverResets(fuel: nat, macros: seq<Macro>, acc: seq<string>)
    requires ValidRegistry(macros) && fuel > 0
    ensures MultiFrom(fuel, macros, ["a\\ b"], Joiner(false, None, acc)) == Ok(acc + ["a\\ b"])
    ensures MultiFrom(fuel, macros, ["a\\ b"], Joiner(true, None, acc)) == Ok(acc + ["a b"])
  {
    var l := "a\\ b";
    MissingChar(l, Sentinel, 1);
    MissingChar(l, Marker, 0);
    ReplaceAllAbsent(l, Marker, []);
    forall k | 0 <= k < |macros| ensures !Contains(l, macros[k].name) {
      NoLetterAfterBackslash(l, macros[k].name);
    }
    ExpandUnmentioned(fuel, macros, l);
    CollapseExamples();
    MissingChar("a b", LineMark, 0);
    SplitOnAbsent("a b", LineMark);
  }
}

=== FILE: inline_dollars.dfy ===
/**
 * The line-level half of the `Dollars` class of src/Py/modules.py:
 * `count_symbols_in_string` (in DollarScan), `remove_inline_dls`,
 * `remove_dollars_from_text_env` and `remove_dls`, which joins the body
 * lines, rewrites the text-like groups, runs the scan of DollarScan and
 * splits the result again.
 *
 * The regular expressions are modelled by the position where they match:
 * `.` does not cross a newline, a lazy group ends at the first place the
 * rest of the pattern matches, and a search reports its leftmost match.
 */
module InlineDollars {
  import opened Wrappers
  import opened Strings
  import opened DollarScan

  // ---------------------------------------------------------------------
  // The two formula patterns of remove_inline_dls
  // ---------------------------------------------------------------------

  /** A match: the whole text matched and the group between the delimiters. */
  datatype Found = Found(whole: string, inner: string)

  function Delim(double: bool): string {
    if double then "$$" else "$"
  }

  function Opener(double: bool): string {
    if double then "\\[" else "\\("
  }

  function Closer(double: bool): string {
    if double then "\\]" else "\\)"
  }

  /** The first `$` from `from` on, unless a newline comes first. */
  function CloseDollar(s: string, from: nat): (r: Option<nat>)
    ensures r.Some? ==> from <= r.value < |s| && s[r.value] == '$'
    ensures r.Some? ==> forall k :: from <= k < r.value ==> s[k] != '$' && s[k] != '\n'
    decreases |s| - from
  {
    if from >= |s| then None
    else if s[from] == '$' then Some(from)
    else if s[from] == '\n' then None
    else CloseDollar(s, from + 1)
  }

  /** The first `$$` from `from` on, unless a newline comes first. */
  function CloseDoubleDollar(s: string, from: nat): (r: Option<nat>)
    ensures r.Some? ==> from <= r.value && r.value + 1 < |s| && s[r.value] == '$' && s[r.value + 1] == '$'
    ensures r.Some? ==> forall k :: from <= k < r.value ==> s[k] != '\n'
    decreases |s| - from
  {
    if from + 1 >= |s| then None
    else if s[from] == '$' && s[from + 1] == '$' then Some(from)
    else if s[from] == '\n' then None
    else CloseDoubleDollar(s, from + 1)
  }

  /**
   * A single formula at `i`: a `$` not preceded by one, a first character
   * that is not `$`, and the shortest run up to a `$` that crosses no
   * newline.
   */
  function SingleAt(s: string, i: nat): (r: Option<Found>)
    ensures r.Some? ==> OccursAt(s, r.value.whole, i)
    ensures r.Some? ==> r.value.whole == "$" + r.value.inner + "$"
    ensures r.Some? ==> |r.value.inner| >= 1 && '$' !in r.value.inner
  {
    if i + 1 < |s| && s[i] == '$' && (i == 0 || s[i - 1] != '$') && s[i + 1] != '$' then
      match CloseDollar(s, i + 2)
      case None => None
      case Some(j) =>
        assert s[i..j + 1] == "$" + s[i + 1..j] + "$";
        assert forall k | i + 1 <= k < j :: s[k] != '$';
        assert '$' !in s[i + 1..j];
        assert s[i..] == s[i..j + 1] + s[j + 1..];
        Some(Found(s[i..j + 1], s[i + 1..j]))
    else None
  }

  /** A double formula at `i`: `$$`, the shortest run up to the next `$$` that crosses no newline, and `$$`. */
  function DoubleAt(s: string, i: nat): (r: Option<Found>)
    ensures r.Some? ==> OccursAt(s, r.value.whole, i)
    ensures r.Some? ==> r.value.whole == "$$" + r.value.inner + "$$"
  {
    if i + 1 < |s| && s[i] == '$' && s[i + 1] == '$' then
      match CloseDoubleDollar(s, i + 2)
      case None => None
      case Some(j) =>
        assert s[i..j + 2] == "$$" + s[i + 2..j] + "$$";
        assert s[i..] == s[i..j + 2] + s[j + 2..];
        Some(Found(s[i..j + 2], s[i + 2..j]))
    else None
  }

  /** A match of the pattern for one of the two symbols at `i`. */
  function MatchAt(s: string, i: nat, double: bool): (r: Option<Found>)
    ensures r.Some? ==> OccursAt(s, r.value.whole, i)
    ensures r.Some? ==> r.value.whole == Delim(double) + r.value.inner + Delim(double)
    ensures r.Some? ==> i < |s| && s[i] == '$'
  {
    if double then DoubleAt(s, i) else SingleAt(s, i)
  }

  /** `re.search`: the leftmost match from `from` on. */
  function FirstMatch(s: string, double: bool, from: nat): (r: Option<Found>)
    ensures r.Some? ==> Contains(s, r.value.whole) && r.value.whole == Delim(double) + r.value.inner + Delim(double)
    ensures r.None? <==> forall i :: from <= i < |s| ==> MatchAt(s, i, double).None?
    decreases |s| - from
  {
    if from >= |s| then None
    else match MatchAt(s, from, double)
      case Some(f) => Some(f)
      case None =>
        var r := FirstMatch(s, double, from + 1);
        assert r.None? ==> forall i :: from <= i < |s| ==> MatchAt(s, i, double).None? by {
          if r.None? {
            forall i | from <= i < |s| ensures MatchAt(s, i, double).None? {
              if i > from {
                assert from + 1 <= i;
              }
            }
          }
        }
        r
  }

  /** Every match starts with a `$`, so a text without one has none. */
  lemma NoDollarNoMatch(s: string, double: bool)
    requires '$' !in s
    ensures FirstMatch(s, double, 0).None?
  {
    forall i | 0 <= i < |s| ensures MatchAt(s, i, double).None? {
      assert s[i] != '$';
    }
  }

  /** The count remove_inline_dls takes the parity of. */
  function Occurrences(s: string, double: bool): nat {
    if double then DoublePairs(s) else DollarRuns(s, false)
  }

  /** The replacement of a match: the group between the bracket pair. */
  function Bracketed(f: Found, double: bool): string {
    Opener(double) + f.inner + Closer(double)
  }

  /** The bracketed group holds fewer `$` than the match and as many newlines. */
  lemma BracketedCounts(f: Found, double: bool)
    requires f.whole == Delim(double) + f.inner + Delim(double)
    ensures Count(Bracketed(f, double), '$') < Count(f.whole, '$')
    ensures Count(Bracketed(f, double), '\n') == Count(f.whole, '\n')
  {
    assert Count("$", '$') == 1 by { assert "$"[1..] == ""; }
    assert Count("$$", '$') == 2 by { assert "$$"[1..] == "$"; }
    CountAbsent(Opener(double), '$');
    CountAbsent(Closer(double), '$');
    CountAbsent(Opener(double), '\n');
    CountAbsent(Closer(double), '\n');
    CountAbsent(Delim(double), '\n');
    CountConcat(Opener(double), f.inner, '$');
    CountConcat(Opener(double) + f.inner, Closer(double), '$');
    CountConcat(Delim(double), f.inner, '$');
    CountConcat(Delim(double) + f.inner, Delim(double), '$');
    CountConcat(Opener(double), f.inner, '\n');
    CountConcat(Opener(double) + f.inner, Closer(double), '\n');
    CountConcat(Delim(double), f.inner, '\n');
    CountConcat(Delim(double) + f.inner, Delim(double), '\n');
  }

  /**
   * remove_inline_dls for one of the two symbols: when the text holds a match
   * and an even count of the symbol, every copy of the first match is
   * replaced by its bracketed group, and the text is treated again while a
   * match remains.
   */
  function Inline(line: string, double: bool): (r: string)
    ensures Count(r, '\n') == Count(line, '\n')
    ensures Count(r, '$') <= Count(line, '$')
    ensures FirstMatch(r, double, 0).None? || Occurrences(r, double) % 2 == 1
    ensures FirstMatch(line, double, 0).None? || Occurrences(line, double) % 2 == 1 ==> r == line
    ensures FirstMatch(line, double, 0).Some? && Occurrences(line, double) % 2 == 0 ==> Count(r, '$') < Count(line, '$')
    decreases Count(line, '$')
  {
    match FirstMatch(line, double, 0)
    case None => line
    case Some(f) =>
      if Occurrences(line, double) % 2 != 0 then line
      else
        var temp := Round(line, f, double);
        BracketedCounts(f, double);
        ReplaceAllCount(line, f.whole, Bracketed(f, double), '$');
        ReplaceAllCount(line, f.whole, Bracketed(f, double), '\n');
        if FirstMatch(temp, double, 0).Some? then Inline(temp, double) else temp
  }

  /** remove_inline_dls: "$" and "$$" are the only symbols it accepts. */
  function RemoveInlineDls(line: string, sym: string): (r: Result<string>)
    ensures r.Ok? <==> sym == "$" || sym == "$$"
    ensures r.Ok? ==> r.value == Inline(line, sym == "$$")
  {
    if sym == "$" then Ok(Inline(line, false))
    else if sym == "$$" then Ok(Inline(line, true))
    else Err(UnsupportedSymbol)
  }

  /** Replacing a whole text replaces it once. */
  lemma ReplaceWhole(s: string, rep: string)
    requires |s| > 0
    ensures ReplaceAll(s, s, rep) == rep
  {
    assert s[|s|..] == "";
    assert ReplaceAll(s, s, rep) == rep + ReplaceAll("", s, rep);
  }

  lemma FormulaMatch()
    ensures FirstMatch("$x$", false, 0) == Some(Found("$x$", "x"))
    ensures Occurrences("$x$", false) == 2
  {
    var s := "$x$";
    assert s[0] == '$' && s[1] == 'x' && s[2] == '$';
    assert CloseDollar(s, 2) == Some(2);
    assert s[0..3] == s && s[1..2] == "x";
    assert MatchAt(s, 0, false) == Some(Found("$x$", "x"));
    assert s[1..] == "x$" && s[1..][1..] == "$" && s[1..][1..][1..] == "";
  }

  /** A single formula on its own becomes an inline-math group. */
  lemma InlineFormula()
    ensures Inline("$x$", false) == "\\(x\\)"
  {
    FormulaMatch();
    var rep := "\\(x\\)";
    assert Bracketed(Found("$x$", "x"), false) == rep;
    ReplaceWhole("$x$", rep);
    assert '$' !in rep by {
      assert rep[0] != '$' && rep[1] != '$' && rep[2] != '$' && rep[3] != '$' && rep[4] != '$';
    }
    NoDollarNoMatch(rep, false);
  }

  /** An odd number of `$` leaves the line as it is, matches or not. */
  lemma InlineOddUnchanged()
    ensures Inline("$x$ $", false) == "$x$ $"
  {
    assert DollarRuns("", true) == 0;
    assert DollarRuns("$", false) == 1 by { assert "$"[1..] == ""; }
    assert DollarRuns(" $", true) == 1 by { assert " $"[1..] == "$"; }
    assert DollarRuns("$ $", false) == 2 by { assert "$ $"[1..] == " $"; }
    assert DollarRuns("x$ $", true) == 2 by { assert "x$ $"[1..] == "$ $"; }
    assert DollarRuns("$x$ $", false) == 3 by { assert "$x$ $"[1..] == "x$ $"; }
    assert Occurrences("$x$ $", false) == 3;
  }

  // ---------------------------------------------------------------------
  // The inverse of the rewrite
  // ---------------------------------------------------------------------

  /** The bracket characters after the backslash of `\(`/`\)` or `\[`/`\]`. */
  predicate Mark(c: char, double: bool) {
    if double then c == '[' || c == ']' else c == '(' || c == ')'
  }

  /**
   * Reads the brackets back as delimiters: every `\(` and `\)` (every `\[`
   * and `\]` for the double symbol) becomes `$` (`$$`), left to right.
   */
  function Undo(s: string, double: bool): string
    decreases |s|
  {
    if |s| == 0 then ""
    else if |s| >= 2 && s[0] == '\\' && Mark(s[1], double) then Delim(double) + Undo(s[2..], double)
    else [s[0]] + Undo(s[1..], double)
  }

  /** A text in which no backslash is followed by a bracket of the symbol. */
  predicate NoBrackets(s: string, double: bool) {
    forall i :: 0 <= i < |s| - 1 ==> !(s[i] == '\\' && Mark(s[i + 1], double))
  }

  /** A text without brackets reads back as it is. */
  lemma {:induction false} UndoNoBrackets(s: string, double: bool)
    requires NoBrackets(s, double)
    ensures Undo(s, double) == s
    decreases |s|
  {
    if |s| > 0 {
      if |s| >= 2 {
        assert !(s[0] == '\\' && Mark(s[1], double));
      }
      assert NoBrackets(s[1..], double) by {
        forall i | 0 <= i < |s[1..]| - 1 ensures !(s[1..][i] == '\\' && Mark(s[1..][i + 1], double)) {
          assert s[1..][i] == s[i + 1] && s[1..][i + 1] == s[i + 2];
        }
      }
      UndoNoBrackets(s[1..], double);
    }
  }

  /** Reading back splits at a seam that does not cut a bracket in two. */
  lemma {:induction false} UndoConcat(a: string, b: string, double: bool)
    requires a == [] || b == [] || a[|a| - 1] != '\\' || !Mark(b[0], double)
    ensures Undo(a + b, double) == Undo(a, double) + Undo(b, double)
    decreases |a|, 1
  {
    if a == [] {
      assert a + b == b;
    } else if |a| >= 2 && a[0] == '\\' && Mark(a[1], double) {
      UndoConcatBracket(a, b, double);
    } else {
      UndoConcatChar(a, b, double);
    }
  }

  /** The seam lemma when `a` starts with a bracket. */
  lemma {:induction false} UndoConcatBracket(a: string, b: string, double: bool)
    requires |a| >= 2 && a[0] == '\\' && Mark(a[1], double)
    requires b == [] || a[|a| - 1] != '\\' || !Mark(b[0], double)
    ensures Undo(a + b, double) == Undo(a, double) + Undo(b, double)
    decreases |a|, 0
  {
    var ab := a + b;
    assert ab[0] == '\\' && ab[1] == a[1];
    assert ab[2..] == a[2..] + b;
    assert a[2..] == [] || a[2..][|a[2..]| - 1] == a[|a| - 1];
    calc {
      Undo(ab, double);
      == { UndoBracket(ab, double); }
      Delim(double) + Undo(a[2..] + b, double);
      == { UndoConcat(a[2..], b, double); }
      Delim(double) + (Undo(a[2..], double) + Undo(b, double));
      == { UndoBracket(a, double); }
      Undo(a, double) + Undo(b, double);
    }
  }

  /** The seam lemma when `a` starts with a character read as itself. */
  lemma {:induction false} UndoConcatChar(a: string, b: string, double: bool)
    requires |a| > 0 && !(|a| >= 2 && a[0] == '\\' && Mark(a[1], double))
    requires b == [] || a[|a| - 1] != '\\' || !Mark(b[0], double)
    ensures Undo(a + b, double) == Undo(a, double) + Undo(b, double)
    decreases |a|, 0
  {
    var ab := a + b;
    assert ab[0] == a[0];
    assert !(|ab| >= 2 && ab[0] == '\\' && Mark(ab[1], double)) by {
      if |a| >= 2 { assert ab[1] == a[1]; } else if b != [] { assert ab[1] == b[0]; }
    }
    assert ab[1..] == a[1..] + b;
    assert a[1..] == [] || a[1..][|a[1..]| - 1] == a[|a| - 1];
    calc {
      Undo(ab, double);
      == { UndoStep(ab, double); }
      [a[0]] + Undo(a[1..] + b, double);
      == { UndoConcat(a[1..], b, double); }
      [a[0]] + (Undo(a[1..], double) + Undo(b, double));
      == { UndoStep(a, double); }
      Undo(a, double) + Undo(b, double);
    }
  }

  /** A backslash and a bracket read back as a delimiter. */
  lemma UndoBracket(x: string, double: bool)
    requires |x| >= 2 && x[0] == '\\' && Mark(x[1], double)
    ensures Undo(x, double) == Delim(double) + Undo(x[2..], double)
  {
  }

  /** A text that does not start with a bracket reads back one character at a time. */
  lemma UndoStep(x: string, double: bool)
    requires |x| > 0 && !(|x| >= 2 && x[0] == '\\' && Mark(x[1], double))
    ensures Undo(x, double) == [x[0]] + Undo(x[1..], double)
  {
  }

  /** A delimiter reads back as itself, a bracket as a delimiter. */
  lemma UndoPieces(double: bool)
    ensures Undo(Delim(double), double) == Delim(double)
    ensures Undo(Closer(double), double) == Delim(double)
    ensures Delim(double)[|Delim(double)| - 1] == '$' && !Mark('$', double)
    ensures Closer(double)[0] == '\\' && Opener(double)[0] == '\\' && Mark(Opener(double)[1], double)
  {
    var d, c := Delim(double), Closer(double);
    assert c[2..] == "";
    if double {
      assert d[1..] == "$" && d[1..][1..] == "";
      assert Undo(d[1..], double) == "$" + Undo("", double);
      assert Undo(d, double) == "$" + Undo(d[1..], double);
    } else {
      assert d[1..] == "";
    }
  }

  /** The delimiters and the brackets of a match read back the same. */
  lemma UndoBracketed(f: Found, double: bool)
    requires f.whole == Delim(double) + f.inner + Delim(double)
    ensures Undo(Bracketed(f, double), double) == Undo(f.whole, double)
  {
    var d, o, c := Delim(double), Opener(double), Closer(double);
    UndoPieces(double);
    UndoConcat(d, f.inner, double);
    UndoConcat(d + f.inner, d, double);
    assert Undo(f.whole, double) == d + Undo(f.inner, double) + d;
    UndoConcat(f.inner, c, double);
    var ic := f.inner + c;
    assert (o + ic)[2..] == ic;
    assert |o| == 2;
    assert Undo(o + ic, double) == d + Undo(ic, double);
    assert Bracketed(f, double) == o + ic;
  }

  /**
   * Two texts that start alike as far as reading back goes: both empty, or
   * with the same first character, or with first characters that are not
   * brackets of the symbol.
   */
  predicate SameFront(x: string, y: string, double: bool) {
    (x == [] <==> y == []) && (x != [] ==> x[0] == y[0] || (!Mark(x[0], double) && !Mark(y[0], double)))
  }

  /** A text that does not end in a backslash. */
  predicate OpenEnd(x: string) {
    x == [] || x[|x| - 1] != '\\'
  }

  lemma SameFrontTrans(x: string, y: string, z: string, double: bool)
    requires SameFront(x, y, double) && SameFront(y, z, double)
    ensures SameFront(x, z, double)
  {
  }

  /** A replacement starts like the text when the replacement text starts like the pattern. */
  lemma ReplaceAllHead(s: string, pat: string, rep: string, double: bool)
    requires |pat| > 0 && |rep| > 0 && SameFront(pat, rep, double)
    ensures SameFront(s, ReplaceAll(s, pat, rep), double)
  {
  }

  /**
   * Replacing every copy of `pat` by `rep` reads back the same when the two
   * read back the same, start alike and do not end in a backslash.
   */
  lemma {:induction false} UndoReplaceAll(s: string, pat: string, rep: string, double: bool)
    requires |pat| > 0 && |rep| > 0 && Undo(pat, double) == Undo(rep, double)
    requires SameFront(pat, rep, double) && OpenEnd(pat) && OpenEnd(rep)
    ensures Undo(ReplaceAll(s, pat, rep), double) == Undo(s, double)
    decreases |s|
  {
    if |s| < |pat| {
    } else if pat <= s {
      var rest := s[|pat|..];
      assert s == pat + rest;
      UndoConcat(pat, rest, double);
      UndoConcat(rep, ReplaceAll(rest, pat, rep), double);
      UndoReplaceAll(rest, pat, rep, double);
    } else {
      var t := s[1..];
      var rt := ReplaceAll(t, pat, rep);
      assert ReplaceAll(s, pat, rep) == [s[0]] + rt;
      assert s == [s[0]] + t;
      UndoReplaceAll(t, pat, rep, double);
      if s[0] == '\\' && |t| > 0 && Mark(t[0], double) {
        if |t| < |pat| {
          assert rt == t;
        } else if pat <= t {
          UndoReplaceAll(t[|pat|..], pat, rep, double);
          BracketFront(t, pat, rep, double);
        } else {
          assert rt == [t[0]] + ReplaceAll(t[1..], pat, rep);
          UndoReplaceAll(t[1..], pat, rep, double);
          assert ([s[0]] + rt)[2..] == ReplaceAll(t[1..], pat, rep);
          assert s[2..] == t[1..];
        }
      } else {
        ReplaceAllHead(t, pat, rep, double);
        UndoConcat([s[0]], t, double);
        UndoConcat([s[0]], rt, double);
      }
    }
  }

  /**
   * After a backslash, a copy of `pat` that starts with a bracket reads back
   * like `rep`, which starts with the same bracket.
   */
  lemma {:induction false} BracketFront(t: string, pat: string, rep: string, double: bool)
    requires |pat| > 0 && |rep| > 0 && Undo(pat, double) == Undo(rep, double)
    requires SameFront(pat, rep, double) && OpenEnd(pat) && OpenEnd(rep)
    requires pat <= t && Mark(t[0], double)
    requires Undo(ReplaceAll(t[|pat|..], pat, rep), double) == Undo(t[|pat|..], double)
    ensures Undo(['\\'] + ReplaceAll(t, pat, rep), double) == Undo(['\\'] + t, double)
  {
    var rest := t[|pat|..];
    var rr := ReplaceAll(rest, pat, rep);
    assert rep[0] == pat[0] == t[0];
    assert ReplaceAll(t, pat, rep) == rep + rr;
    assert Undo(pat[1..], double) == Undo(rep[1..], double) by {
      UndoStep(pat, double);
      UndoStep(rep, double);
      assert Undo(pat, double)[1..] == Undo(pat[1..], double);
      assert Undo(rep, double)[1..] == Undo(rep[1..], double);
    }
    assert t == pat + rest;
    BackslashUndo(pat, rest, double);
    BackslashUndo(rep, rr, double);
  }

  /** A backslash in front of a text starting with a bracket reads back as a dollar. */
  lemma BackslashUndo(x: string, y: string, double: bool)
    requires |x| > 0 && Mark(x[0], double) && OpenEnd(x)
    ensures Undo(['\\'] + (x + y), double) == Delim(double) + Undo(x[1..], double) + Undo(y, double)
  {
    var z := ['\\'] + (x + y);
    assert z[1] == x[0];
    assert z[2..] == x[1..] + y;
    UndoConcat(x[1..], y, double);
  }

  /** One round of remove_inline_dls: the first match replaced everywhere. */
  function Round(line: string, f: Found, double: bool): string
    requires f.whole == Delim(double) + f.inner + Delim(double)
  {
    ReplaceAll(line, f.whole, Bracketed(f, double))
  }

  /** A line with a match and an even count is treated again after one round, with fewer `$`. */
  lemma InlineUnfold(line: string, double: bool)
    requires FirstMatch(line, double, 0).Some? && Occurrences(line, double) % 2 == 0
    ensures var f := FirstMatch(line, double, 0).value;
      var temp := Round(line, f, double);
      Count(temp, '$') < Count(line, '$')
      && Inline(line, double) == (if FirstMatch(temp, double, 0).Some? then Inline(temp, double) else temp)
  {
    var f := FirstMatch(line, double, 0).value;
    BracketedCounts(f, double);
    ReplaceAllCount(line, f.whole, Bracketed(f, double), '$');
  }

  /** One round keeps the front of a line and never makes it end in a backslash. */
  lemma RoundEnds(line: string, f: Found, double: bool)
    requires f.whole == Delim(double) + f.inner + Delim(double)
    ensures SameFront(line, Round(line, f, double), double)
    ensures OpenEnd(line) ==> OpenEnd(Round(line, f, double))
  {
    var b := Bracketed(f, double);
    UndoPieces(double);
    assert f.whole[0] == '$' && b[0] == '\\';
    assert f.whole[|f.whole| - 1] == '$';
    assert b[|b| - 1] == Closer(double)[1];
    ReplaceAllHead(line, f.whole, b, double);
    if OpenEnd(line) {
      ReplaceAllLast(line, f.whole, b, '\\');
    }
  }

  /** The backslash and the brackets, which a rewrite brings in. */
  predicate BracketChar(c: char) {
    c == '\\' || c == '(' || c == ')' || c == '[' || c == ']'
  }

  /** One round brings in no character outside the line but the backslash and the brackets. */
  lemma RoundAvoids(line: string, f: Found, double: bool, p: char -> bool)
    requires f.whole == Delim(double) + f.inner + Delim(double) && Contains(line, f.whole)
    requires Avoids(line, p) && forall c | BracketChar(c) :: !p(c)
    ensures Avoids(Round(line, f, double), p)
  {
    var i :| 0 <= i <= |line| && OccursAt(line, f.whole, i);
    AvoidsOccurs(line, f.whole, i, p);
    var d := Delim(double);
    assert f.whole[|d|..] == f.inner + d;
    AvoidsOccurs(f.whole, f.inner, |d|, p);
    var o, c := Opener(double), Closer(double);
    assert BracketChar(o[0]) && BracketChar(o[1]) && BracketChar(c[0]) && BracketChar(c[1]);
    assert Avoids(o, p) && Avoids(c, p);
    AvoidsConcat(o, f.inner, p);
    AvoidsConcat(o + f.inner, c, p);
    ReplaceAllAvoids(line, f.whole, Bracketed(f, double), p);
  }

  /** remove_inline_dls keeps the front of a line and never makes it end in a backslash. */
  lemma {:induction false} InlineEnds(line: string, double: bool)
    ensures SameFront(line, Inline(line, double), double)
    ensures OpenEnd(line) ==> OpenEnd(Inline(line, double))
    decreases Count(line, '$')
  {
    if FirstMatch(line, double, 0).Some? && Occurrences(line, double) % 2 == 0 {
      var f := FirstMatch(line, double, 0).value;
      var temp := Round(line, f, double);
      InlineUnfold(line, double);
      RoundEnds(line, f, double);
      if FirstMatch(temp, double, 0).Some? {
        InlineEnds(temp, double);
        SameFrontTrans(line, temp, Inline(temp, double), double);
      }
    }
  }

  /** remove_inline_dls brings in no character but the backslash and the brackets. */
  lemma {:induction false} InlineAvoids(line: string, double: bool, p: char -> bool)
    requires Avoids(line, p) && forall c | BracketChar(c) :: !p(c)
    ensures Avoids(Inline(line, double), p)
    decreases Count(line, '$')
  {
    if FirstMatch(line, double, 0).Some? && Occurrences(line, double) % 2 == 0 {
      var f := FirstMatch(line, double, 0).value;
      var temp := Round(line, f, double);
      InlineUnfold(line, double);
      RoundAvoids(line, f, double, p);
      if FirstMatch(temp, double, 0).Some? {
        InlineAvoids(temp, double, p);
      }
    }
  }

  /**
   * remove_inline_dls changes a line only by turning delimiters into
   * brackets: read back, its result is the line read back.
   */
  lemma {:induction false} InlineUndo(line: string, double: bool)
    ensures Undo(Inline(line, double), double) == Undo(line, double)
    decreases Count(line, '$')
  {
    match FirstMatch(line, double, 0)
    case None =>
    case Some(f) =>
      if Occurrences(line, double) % 2 == 0 {
        var b := Bracketed(f, double);
        var temp := ReplaceAll(line, f.whole, b);
        UndoBracketed(f, double);
        UndoReplaceAll(line, f.whole, b, double);
        if FirstMatch(temp, double, 0).Some? {
          BracketedCounts(f, double);
          ReplaceAllCount(line, f.whole, b, '$');
          InlineUndo(temp, double);
        }
      }
  }

  /**
   * A line holding no brackets of the symbol is what its rewrite reads back
   * to: every bracket in the result stands for a delimiter of the line.
   */
  lemma InlineRoundTrip(line: string, double: bool)
    requires NoBrackets(line, double)
    ensures Undo(Inline(line, double), double) == line
  {
    InlineUndo(line, double);
    UndoNoBrackets(line, double);
  }

  /**
   * The entry point with its symbol: a supported symbol's rewrite of a line
   * without its brackets reads back as the line, and removes a `$` when
   * there is a formula and an even count.
   */
  lemma RemoveInlineDlsRoundTrip(line: string, sym: string)
    requires sym == "$" || sym == "$$"
    requires NoBrackets(line, sym == "$$")
    ensures var r := RemoveInlineDls(line, sym);
      r.Ok? && Undo(r.value, sym == "$$") == line &&
      (FirstMatch(line, sym == "$$", 0).Some? && Occurrences(line, sym == "$$") % 2 == 0
       ==> Count(r.value, '$') < Count(line, '$'))
  {
    InlineRoundTrip(line, sym == "$$");
  }

  // ---------------------------------------------------------------------
  // remove_dollars_from_text_env
  // ---------------------------------------------------------------------

  /** `\mbox`, `\textrm` or `\mathrm` at `i`: where the command name ends. */
  function CommandEnd(s: string, i: nat): (r: Option<nat>)
    requires i <= |s|
    ensures r.Some? ==> i < r.value <= |s|
  {
    if "\\mbox" <= s[i..] then Some(i + 5)
    else if "\\textrm" <= s[i..] then Some(i + 7)
    else if "\\mathrm" <= s[i..] then Some(i + 7)
    else None
  }

  /**
   * The shortest group from `from` on that ends before a `}` not preceded by
   * a backslash, unless a newline comes first.
   */
  function BraceClose(s: string, from: nat): (r: Option<nat>)
    requires from >= 1
    ensures r.Some? ==> from <= r.value < |s| && s[r.value] == '}' && s[r.value - 1] != '\\'
    ensures r.Some? ==> forall k :: from <= k < r.value ==> s[k] != '\n'
    decreases |s| - from
  {
    if from >= |s| then None
    else if s[from] == '}' && s[from - 1] != '\\' then Some(from)
    else if s[from] == '\n' then None
    else BraceClose(s, from + 1)
  }

  /** A text-like group at `i`: the bounds of its braced contents. */
  function GroupAt(s: string, i: nat): (r: Option<(nat, nat)>)
    requires i <= |s|
    ensures r.Some? ==> i < r.value.0 <= r.value.1 < |s|
    ensures r.Some? ==> forall k :: r.value.0 <= k < r.value.1 ==> s[k] != '\n'
    ensures r.Some? ==> s[r.value.1 - 1] != '\\'
  {
    match CommandEnd(s, i)
    case None => None
    case Some(a) =>
      var k := a + SpaceRun(s[a..]);
      if k < |s| && s[k] == '{' then
        match BraceClose(s, k + 1)
        case None => None
        case Some(j) => Some((k + 1, j))
      else None
  }

  /** The contents of a group occur in the text, on one line, and do not end in a backslash. */
  lemma GroupContents(s: string, a: nat, j: nat)
    requires 0 < a <= j < |s| && s[j - 1] != '\\'
    requires forall k :: a <= k < j ==> s[k] != '\n'
    ensures '\n' !in s[a..j] && Contains(s, s[a..j]) && OpenEnd(s[a..j])
  {
    assert forall k :: 0 <= k < |s[a..j]| ==> s[a..j][k] != '\n';
    assert OccursAt(s, s[a..j], a);
    if a < j { assert s[a..j][j - a - 1] == s[j - 1]; }
  }

  /** `re.findall`: the contents of every group, searching on after each match. */
  function FindAll(s: string, from: nat): (r: seq<string>)
    ensures forall k :: 0 <= k < |r| ==> '\n' !in r[k]
    ensures forall k :: 0 <= k < |r| ==> Contains(s, r[k]) && OpenEnd(r[k])
    decreases |s| - from
  {
    if from >= |s| then []
    else match GroupAt(s, from)
      case Some((a, j)) =>
        GroupContents(s, a, j);
        var rest := FindAll(s, j + 1);
        assert forall k :: 0 < k <= |rest| ==> ([s[a..j]] + rest)[k] == rest[k - 1];
        [s[a..j]] + rest
      case None => FindAll(s, from + 1)
  }

  /** One element: every copy of it is replaced by its inline rewrite; an empty one changes nothing. */
  function SubstituteOne(s: string, elm: string): (r: string)
    ensures Count(r, '\n') == Count(s, '\n')
    ensures Count(r, '$') <= Count(s, '$')
    ensures Contains(s, elm) && FirstMatch(elm, false, 0).Some? && Occurrences(elm, false) % 2 == 0
      ==> Count(r, '$') < Count(s, '$')
  {
    if |elm| == 0 then s
    else
      ReplaceAllCount(s, elm, Inline(elm, false), '\n');
      ReplaceAllCount(s, elm, Inline(elm, false), '$');
      ReplaceAll(s, elm, Inline(elm, false))
  }

  function SubstituteAll(s: string, elms: seq<string>): (r: string)
    ensures Count(r, '\n') == Count(s, '\n')
    ensures Count(r, '$') <= Count(s, '$')
    ensures elms != [] && Contains(s, elms[0]) && FirstMatch(elms[0], false, 0).Some? && Occurrences(elms[0], false) % 2 == 0
      ==> Count(r, '$') < Count(s, '$')
    decreases |elms|
  {
    if elms == [] then s
    else
      var t := SubstituteOne(s, elms[0]);
      SubstituteAll(t, elms[1..])
  }

  /**
   * remove_dollars_from_text_env: the formulas inside `\mbox{..}`,
   * `\textrm{..}` and `\mathrm{..}` are rewritten in place and control
   * characters are then dropped from the whole text; a text without such a
   * group is returned as it is. The `$` count never grows, and drops when
   * the first group holds a formula and an even count.
   */
  function TextEnv(line: string): (r: string)
    ensures FindAll(line, 0) == [] ==> r == line
    ensures FindAll(line, 0) != [] ==> forall i :: 0 <= i < |r| ==> !IsControl(r[i])
    ensures Count(r, '\n') == Count(line, '\n')
    ensures Count(r, '$') <= Count(line, '$')
    ensures var g := FindAll(line, 0);
      g != [] && FirstMatch(g[0], false, 0).Some? && Occurrences(g[0], false) % 2 == 0
      ==> Count(r, '$') < Count(line, '$')
  {
    var outer := FindAll(line, 0);
    if |outer| == 0 then line
    else
      DropControlCount(SubstituteAll(line, outer), '\n');
      DropControlCount(SubstituteAll(line, outer), '$');
      DropControl(SubstituteAll(line, outer))
  }

  /** Replacing a group's contents by their rewrite leaves the text reading back the same. */
  lemma SubstituteOneUndo(s: string, elm: string)
    requires OpenEnd(elm)
    ensures Undo(SubstituteOne(s, elm), false) == Undo(s, false)
  {
    if |elm| > 0 {
      InlineUndo(elm, false);
      InlineEnds(elm, false);
      UndoReplaceAll(s, elm, Inline(elm, false), false);
    }
  }

  lemma {:induction false} SubstituteAllUndo(s: string, elms: seq<string>)
    requires forall k :: 0 <= k < |elms| ==> OpenEnd(elms[k])
    ensures Undo(SubstituteAll(s, elms), false) == Undo(s, false)
    decreases |elms|
  {
    if elms != [] {
      SubstituteOneUndo(s, elms[0]);
      SubstituteAllUndo(SubstituteOne(s, elms[0]), elms[1..]);
    }
  }

  lemma {:induction false} SubstituteAllPrintable(s: string, elms: seq<string>)
    requires Printable(s) && forall k :: 0 <= k < |elms| ==> Printable(elms[k])
    ensures Printable(SubstituteAll(s, elms))
    decreases |elms|
  {
    if elms != [] {
      var elm := elms[0];
      if |elm| > 0 {
        InlineAvoids(elm, false, IsControl);
        ReplaceAllAvoids(s, elm, Inline(elm, false), IsControl);
      }
      SubstituteAllPrintable(SubstituteOne(s, elm), elms[1..]);
    }
  }

  lemma {:induction false} SubstituteAllSame(s: string, elms: seq<string>)
    requires forall k :: 0 <= k < |elms| ==> Inline(elms[k], false) == elms[k]
    ensures SubstituteAll(s, elms) == s
    decreases |elms|
  {
    if elms != [] {
      if |elms[0]| > 0 {
        ReplaceAllSame(s, elms[0]);
      }
      SubstituteAllSame(s, elms[1..]);
    }
  }

  /**
   * The pass changes a printable line only by turning the delimiters of
   * formulas into brackets: read back, its result is the line read back.
   */
  lemma TextEnvReadsBack(line: string)
    requires Printable(line)
    ensures Undo(TextEnv(line), false) == Undo(line, false)
  {
    var outer := FindAll(line, 0);
    if outer != [] {
      SubstituteAllUndo(line, outer);
      forall k | 0 <= k < |outer| ensures Printable(outer[k]) {
        var i :| 0 <= i <= |line| && OccursAt(line, outer[k], i);
        AvoidsOccurs(line, outer[k], i, IsControl);
      }
      SubstituteAllPrintable(line, outer);
    }
  }

  /** A printable line holding no brackets reads back from the pass to itself. */
  lemma TextEnvRoundTrip(line: string)
    requires Printable(line) && NoBrackets(line, false)
    ensures Undo(TextEnv(line), false) == line
  {
    TextEnvReadsBack(line);
    UndoNoBrackets(line, false);
  }

  /** When no group holds a formula to rewrite, only control characters are dropped. */
  lemma TextEnvUnchanged(line: string)
    requires FindAll(line, 0) != []
    requires forall k :: 0 <= k < |FindAll(line, 0)| ==> Inline(FindAll(line, 0)[k], false) == FindAll(line, 0)[k]
    ensures TextEnv(line) == DropControl(line)
  {
    SubstituteAllSame(line, FindAll(line, 0));
  }

  /**
   * Every group is rewritten by remove_inline_dls: its rewrite reads back to
   * the group, and holds no further match unless its `$` count is odd.
   */
  lemma TextEnvGroups(line: string)
    ensures forall k :: 0 <= k < |FindAll(line, 0)| ==>
      var g := FindAll(line, 0)[k];
      Undo(Inline(g, false), false) == Undo(g, false)
      && (FirstMatch(Inline(g, false), false, 0).None? || Occurrences(Inline(g, false), false) % 2 == 1)
  {
    forall k | 0 <= k < |FindAll(line, 0)| {
      InlineUndo(FindAll(line, 0)[k], false);
    }
  }

  /**
   * Where the line has one group and its text occurs nowhere else in the
   * line, the rewrite stays inside the group: the text before and after it
   * is kept, up to the control characters dropped from the whole line.
   */
  lemma TextEnvLocal(line: string, g: string, a: nat)
    requires FindAll(line, 0) == [g] && |g| > 0
    requires OccursAt(line, g, a) && forall k :: 0 <= k <= |line| && k != a ==> !OccursAt(line, g, k)
    ensures a + |g| <= |line|
    ensures TextEnv(line) == DropControl(line[..a] + Inline(g, false) + line[a + |g|..])
  {
    SubstituteOneOnce(line, g, a);
    SubstituteAllSingle(line, [g]);
  }

  /** A group text that occurs once is rewritten at that place only. */
  lemma SubstituteOneOnce(s: string, g: string, a: nat)
    requires |g| > 0 && OccursAt(s, g, a)
    requires forall k :: 0 <= k <= |s| && k != a ==> !OccursAt(s, g, k)
    ensures a + |g| <= |s| && SubstituteOne(s, g) == s[..a] + Inline(g, false) + s[a + |g|..]
  {
    ReplaceAllOnce(s, g, Inline(g, false), a);
  }

  lemma SubstituteAllSingle(s: string, elms: seq<string>)
    requires |elms| == 1
    ensures SubstituteAll(s, elms) == SubstituteOne(s, elms[0])
  {
    assert elms[1..] == [];
  }

  /** The one group of `\mbox{ $f$ }` holds ` $f$ `. */
  lemma MboxGroups()
    ensures FindAll("\\mbox{ $f$ }", 0) == [" $f$ "]
  {
    var s := "\\mbox{ $f$ }";
    assert "\\mbox" <= s;
    assert s[5..][0] == '{';
    assert SpaceRun(s[5..]) == 0;
    assert s[5] == '{' && s[6] == ' ' && s[7] == '$' && s[8] == 'f' && s[9] == '$' && s[10] == ' ' && s[11] == '}';
    assert BraceClose(s, 6) == Some(11);
    assert GroupAt(s, 0) == Some((6, 11));
    assert s[6..11] == " $f$ ";
  }

  lemma MboxFormulaMatch()
    ensures FirstMatch(" $f$ ", false, 0) == Some(Found("$f$", "f"))
    ensures Occurrences(" $f$ ", false) == 2
  {
    var e := " $f$ ";
    assert e[0] == ' ' && e[1] == '$' && e[2] == 'f' && e[3] == '$' && e[4] == ' ';
    assert MatchAt(e, 0, false).None?;
    assert CloseDollar(e, 3) == Some(3);
    assert e[1..4] == "$f$" && e[2..3] == "f";
    assert MatchAt(e, 1, false) == Some(Found("$f$", "f"));
    assert e[1..] == "$f$ " && e[1..][1..] == "f$ " && e[1..][1..][1..] == "$ ";
    assert e[1..][1..][1..][1..] == " " && e[1..][1..][1..][1..][1..] == "";
  }

  lemma MboxFormulaReplace()
    ensures ReplaceAll(" $f$ ", "$f$", "\\(f\\)") == " \\(f\\) "
  {
    var rep := "\\(f\\)";
    ReplaceAllPrefix(" ", "$f$", " ", rep);
    assert " " + "$f$" + " " == " $f$ ";
    assert ReplaceAll(" ", "$f$", rep) == " ";
    assert " " + rep + " " == " \\(f\\) ";
  }

  /** One round is all remove_inline_dls takes when its first replacement leaves no match. */
  lemma InlineOnce(line: string, f: Found, double: bool)
    requires FirstMatch(line, double, 0) == Some(f) && Occurrences(line, double) % 2 == 0
    requires FirstMatch(ReplaceAll(line, f.whole, Bracketed(f, double)), double, 0).None?
    ensures Inline(line, double) == ReplaceAll(line, f.whole, Bracketed(f, double))
  {
  }

  /** The formula inside the group becomes an inline-math group. */
  lemma MboxInline()
    ensures Inline(" $f$ ", false) == " \\(f\\) "
  {
    var f, out := Found("$f$", "f"), " \\(f\\) ";
    assert Bracketed(f, false) == "\\(f\\)" by {
      assert "\\(" + "f" + "\\)" == "\\(f\\)";
    }
    assert '$' !in out by {
      assert out[0] != '$' && out[1] != '$' && out[2] != '$' && out[3] != '$' && out[4] != '$' && out[5] != '$' && out[6] != '$';
    }
    NoDollarNoMatch(out, false);
    MboxFormulaMatch();
    MboxFormulaReplace();
    InlineOnce(" $f$ ", f, false);
  }

  /** A text with one text-like group, not empty: its copies are rewritten, then control characters dropped. */
  lemma TextEnvOne(line: string, elm: string)
    requires FindAll(line, 0) == [elm] && |elm| > 0
    ensures TextEnv(line) == DropControl(ReplaceAll(line, elm, Inline(elm, false)))
  {
    assert SubstituteAll(line, [elm]) == SubstituteAll(SubstituteOne(line, elm), []);
  }

  lemma MboxReplace()
    ensures ReplaceAll("\\mbox{ $f$ }", " $f$ ", " \\(f\\) ") == "\\mbox{ \\(f\\) }"
  {
    var pre, pat, rep := "\\mbox{", " $f$ ", " \\(f\\) ";
    assert ' ' !in pre by {
      assert pre[0] != ' ' && pre[1] != ' ' && pre[2] != ' ' && pre[3] != ' ' && pre[4] != ' ' && pre[5] != ' ';
    }
    ReplaceAllPrefix(pre, pat, "}", rep);
    assert pre + pat + "}" == "\\mbox{ $f$ }";
    assert ReplaceAll("}", pat, rep) == "}";
    assert pre + rep + "}" == "\\mbox{ \\(f\\) }";
  }

  lemma MboxPrintable()
    ensures DropControl("\\mbox{ \\(f\\) }") == "\\mbox{ \\(f\\) }"
  {
    var out := "\\mbox{ \\(f\\) }";
    assert forall i | 0 <= i < |out| :: !IsControl(out[i]);
  }

  /**
   * The example of the source's documentation, in small: a formula inside
   * `\mbox` is rewritten, the text around it is kept.
   */
  lemma MboxExample()
    ensures TextEnv("\\mbox{ $f$ }") == "\\mbox{ \\(f\\) }"
  {
    MboxGroups();
    MboxInline();
    MboxReplace();
    MboxPrintable();
    TextEnvOne("\\mbox{ $f$ }", " $f$ ");
  }

  // ---------------------------------------------------------------------
  // remove_dls
  // ---------------------------------------------------------------------

  /**
   * remove_dls: the lines are joined with newlines, the text-like groups and
   * then the whole text are rewritten, and the result is split into lines
   * again. The state of the frames carries over to the next call.
   */
  function RemoveDls(d: Dollars, lines: seq<string>): (r: Result<(Dollars, seq<string>)>)
    ensures r.Ok? && Good(d) ==> Good(r.value.0)
  {
    var t := TextEnv(Join(lines, '\n'));
    match RemoveDlsNew(d, t)
    case Err(x) => Err(x)
    case Ok((d', u)) =>
      assert Good(d) ==> Good(d') by {
        if Good(d) { ScanKeeps(d, t, 0, |t|); }
      }
      Ok((d', Split(u, '\n')))
  }

  /** The rewrite inserts and removes no newline, so every line stays a line. */
  lemma RemoveDlsKeepsLines(d: Dollars, lines: seq<string>)
    requires |lines| >= 1 && forall k :: 0 <= k < |lines| ==> '\n' !in lines[k]
    requires RemoveDls(d, lines).Ok?
    ensures |RemoveDls(d, lines).value.1| == |lines|
  {
    var t := TextEnv(Join(lines, '\n'));
    var u := RemoveDlsNew(d, t).value.1;
    ScanNewlines(d, t, 0, |t|);
    CountJoin(lines, '\n');
    SplitCount(u, '\n');
  }

  /** Without a backslash no text-like command starts anywhere. */
  lemma {:induction false} FindAllPlain(s: string, from: nat)
    requires '\\' !in s
    ensures FindAll(s, from) == []
    decreases |s| - from
  {
    if from < |s| {
      assert s[from] in s && s[from..][0] == s[from];
      assert CommandEnd(s, from).None?;
      FindAllPlain(s, from + 1);
    }
  }

  /** A line without a backslash is not touched by the text-environment pass. */
  lemma TextEnvPlain(line: string)
    requires '\\' !in line
    ensures TextEnv(line) == line
  {
    FindAllPlain(line, 0);
  }

  /** An empty body still yields one (empty) line and leaves the state alone. */
  lemma RemoveDlsEmpty(d: Dollars)
    ensures RemoveDls(d, []) == Ok((d, [""]))
  {
    TextEnvPlain("");
  }

  /** Lines without dollars and backslashes come back as they are, state unchanged. */
  lemma RemoveDlsPlain(d: Dollars, lines: seq<string>)
    requires |lines| >= 1
    requires forall k :: 0 <= k < |lines| ==> '\n' !in lines[k] && '$' !in lines[k] && '\\' !in lines[k]
    ensures RemoveDls(d, lines) == Ok((d, lines))
  {
    var t := Join(lines, '\n');
    JoinAvoids(lines, '\n', '$');
    JoinAvoids(lines, '\n', '\\');
    TextEnvPlain(t);
    assert Inert(t, 0) by {
      forall k | 0 <= k < |t| ensures t[k] != '$' && t[k] != '\\' {
        assert t[k] in t;
      }
    }
    ScanInert(d, t, 0, |t|);
    SplitJoin(lines, '\n');
  }
}

=== FILE: legacy_macro.dfy ===
/**
 * The static `Macro` class of src/Py/Axesscleaner/Macro.py, the older
 * generation the command-line entry point calls: the dictionary
 * parse_macro_structure returns, gather_macro, enrich_regexp and
 * get_expanded_macro, the argument substitution, recursive_expansion and the
 * string path of remove_macro. Its strip_comments is the lexer of
 * CommentStripper, and its argument scanner the one of Arguments.
 *
 * The records enrich_regexp builds are dictionaries the expansion writes
 * into: each use of an entry with arguments overwrites its replacement text,
 * and the overwritten text is what later uses see. The model threads the
 * records through every function for that reason.
 */
module LegacyMacro {
  import opened Wrappers
  import opened Strings
  import opened Definitions
  import opened Macros
  import opened Arguments
  import opened Expansion
  import Document

  // ---------------------------------------------------------------------
  // parse_macro_structure
  // ---------------------------------------------------------------------

  /**
   * The dictionary of a matching line: the command word (group 1), the name
   * (group 3), the optional braces around the name, which serve as the
   * separators (groups 2 and 4, "{" / "}" or empty), the argument digit
   * (group 6, absent unless `[d]` was written) and the body with its
   * backslashes cleaned. The empty dictionary of a non-matching line is
   * `None`.
   */
  datatype Entry = Entry(commandType: string, name: string, open: string, close: string,
                         inputs: Option<char>, replacement: string)

  /** What every parsed entry satisfies. */
  predicate WellFormedEntry(e: Entry) {
    IsName(e.name) && (e.open == "{" || e.open == "") && (e.close == "}" || e.close == "") &&
    (e.inputs.Some? ==> IsDigit(e.inputs.value))
  }

  /** The entry a match of the older definition pattern describes. */
  function EntryOf(s: string, c: Cut): Entry
    requires Ordered(s, c)
  {
    Entry(s[c.p + 1..c.e1], s[c.e2..c.e3], s[c.e1..c.e2], s[c.e3..c.e4],
          if c.e4 < c.e5 && s[c.e4] == '[' then Some(s[c.e4 + 1]) else None,
          CleanBody(Legacy, s[c.e5 + 1..c.m]))
  }

  /** parse_macro_structure: the first definition on the line, or nothing. */
  function Parse(line: string): (r: Option<Entry>)
    ensures r.Some? <==> exists c :: ValidCut(line, Legacy, c)
    ensures r.Some? ==> WellFormedEntry(r.value) && Contains(line, r.value.name)
  {
    SearchIsRegexSearch(line, Legacy);
    match Search(line, Legacy)
    case None => None
    case Some(c) =>
      EntryFacts(line, c);
      Some(EntryOf(line, c))
  }

  lemma EntryFacts(s: string, c: Cut)
    requires ValidCut(s, Legacy, c)
    ensures Ordered(s, c) && WellFormedEntry(EntryOf(s, c)) && Contains(s, EntryOf(s, c).name)
  {
    var name := s[c.e2..c.e3];
    assert OccursAt(s, name, c.e2);
    forall k | 1 <= k < |name| ensures IsLetter(name[k]) {
      assert name[k] == s[c.e2 + k];
    }
    if c.e2 == c.e1 + 1 {
      assert s[c.e1..c.e2] == [s[c.e1]];
    }
    if c.e4 == c.e3 + 1 {
      assert s[c.e3..c.e4] == [s[c.e3]];
    }
  }

  /**
   * A definition written as `\cmd{\name}[d]{body}` (or without the braces
   * around the name) parses to its pieces: the braces become the separators,
   * and an unbraced name leaves both separators empty.
   */
  lemma ParseRenderedEntry(cmd: string, braced: bool, name: string, arity: Option<char>, body: string)
    requires Renderable(cmd, name, arity, body)
    ensures Parse(Render(cmd, braced, name, arity, body)) ==
            Some(Entry(cmd, name, if braced then "{" else "", if braced then "}" else "", arity, CleanBody(Legacy, body)))
  {
    var s := Render(cmd, braced, name, arity, body);
    RenderSearch(Legacy, cmd, braced, name, arity, body);
    RenderLaid(cmd, braced, name, arity, body);
    EntryLaid(s, cmd, braced, name, arity, body);
  }

  /** The entry read off a rendered definition's own cut. */
  lemma EntryLaid(s: string, cmd: string, braced: bool, name: string, arity: Option<char>, body: string)
    requires Laid(s, cmd, braced, name, arity, body)
    ensures Ordered(s, RenderCut(cmd, braced, name, arity, body))
    ensures EntryOf(s, RenderCut(cmd, braced, name, arity, body)) ==
            Entry(cmd, name, if braced then "{" else "", if braced then "}" else "", arity, CleanBody(Legacy, body))
  {
    var c := RenderCut(cmd, braced, name, arity, body);
    var open, close := if braced then "{" else "", if braced then "}" else "";
    assert Ordered(s, c) && s[c.e1..c.e2] == open && s[c.e3..c.e4] == close by {
      LaidSeparators(s, cmd, braced, name, arity, body);
    }
    assert (if c.e4 < c.e5 && s[c.e4] == '[' then Some(s[c.e4 + 1]) else None) == arity by {
      SpecArity(s, c.e4, c.e5, arity);
    }
    assert s[c.p + 1..c.e1] == cmd && s[c.e2..c.e3] == name && s[c.e5 + 1..c.m] == body;
    EntryOfPieces(s, c, Entry(cmd, name, open, close, arity, CleanBody(Legacy, body)));
  }

  lemma EntryOfPieces(s: string, c: Cut, e: Entry)
    requires Ordered(s, c)
    requires s[c.p + 1..c.e1] == e.commandType && s[c.e2..c.e3] == e.name
    requires s[c.e1..c.e2] == e.open && s[c.e3..c.e4] == e.close
    requires (if c.e4 < c.e5 && s[c.e4] == '[' then Some(s[c.e4 + 1]) else None) == e.inputs
    requires CleanBody(Legacy, s[c.e5 + 1..c.m]) == e.replacement
    ensures EntryOf(s, c) == e
  {
  }

  /** The braces around a rendered name, or nothing, are what the separator groups capture. */
  lemma LaidSeparators(s: string, cmd: string, braced: bool, name: string, arity: Option<char>, body: string)
    requires Laid(s, cmd, braced, name, arity, body)
    ensures var c := RenderCut(cmd, braced, name, arity, body);
      c.e1 <= c.e2 <= c.e3 <= c.e4 <= |s| &&
      s[c.e1..c.e2] == (if braced then "{" else "") && s[c.e3..c.e4] == (if braced then "}" else "")
  {
    var c := RenderCut(cmd, braced, name, arity, body);
    if braced {
      assert s[c.e1..c.e2] == [s[c.e1]];
      assert s[c.e3..c.e4] == [s[c.e3]];
    }
  }

  /** `\newcommand{\F}{x}`: the braces around the name are the separators. */
  lemma ParseBracedName()
    ensures Parse("\\newcommand{\\F}{x}") == Some(Entry("newcommand", "\\F", "{", "}", None, "x"))
  {
    assert Render("newcommand", true, "\\F", None, "x") == "\\newcommand{\\F}{x}" by { RenderedBraced(); }
    ParsePlain("newcommand", true, "\\newcommand{\\F}{x}", Entry("newcommand", "\\F", "{", "}", None, "x"));
  }

  /** `\def\F{x}`: no braces around the name, so both separators are empty. */
  lemma ParseDef()
    ensures Parse("\\def\\F{x}") == Some(Entry("def", "\\F", "", "", None, "x"))
  {
    assert Render("def", false, "\\F", None, "x") == "\\def\\F{x}" by { RenderedDef(); }
    ParsePlain("def", false, "\\def\\F{x}", Entry("def", "\\F", "", "", None, "x"));
  }

  lemma ParsePlain(cmd: string, braced: bool, line: string, e: Entry)
    requires cmd == "newcommand" || cmd == "def"
    requires Render(cmd, braced, "\\F", None, "x") == line
    requires e == Entry(cmd, "\\F", if braced then "{" else "", if braced then "}" else "", None, "x")
    ensures Parse(line) == Some(e)
  {
    assert Renderable(cmd, "\\F", None, "x") by { PlainRenderable(cmd); }
    assert CleanBody(Legacy, "x") == "x" by { CleanBodyPlain(Legacy, "x"); }
    ParseRenderedEntry(cmd, braced, "\\F", None, "x");
  }

  lemma PlainRenderable(cmd: string)
    requires cmd == "newcommand" || cmd == "def"
    ensures Renderable(cmd, "\\F", None, "x")
  {
    ShortNoCommand("\\F");
    NoCommandIn("x");
    if cmd == "def" {
      assert cmd == Keywords[1];
    } else {
      assert cmd[3..] == "command";
    }
  }

  lemma RenderedBraced()
    ensures Render("newcommand", true, "\\F", None, "x") == "\\newcommand{\\F}{x}"
  {
  }

  lemma RenderedDef()
    ensures Render("def", false, "\\F", None, "x") == "\\def\\F{x}"
  {
  }

  // ---------------------------------------------------------------------
  // gather_macro
  // ---------------------------------------------------------------------

  /** The entries parsed from `lines`, in line order, non-matching lines skipped. */
  function ParsedEntries(lines: seq<string>): seq<Entry> {
    Collect(lines, Parse)
  }

  /** Every gathered entry came out of the parser whole. */
  lemma {:induction false} ParsedEntriesWellFormed(lines: seq<string>)
    ensures forall k :: 0 <= k < |ParsedEntries(lines)| ==> WellFormedEntry(ParsedEntries(lines)[k])
  {
    if lines != [] {
      ParsedEntriesWellFormed(lines[1..]);
      assert ParsedEntries(lines) ==
             (if Parse(lines[0]).Some? then [Parse(lines[0]).value] else []) + ParsedEntries(lines[1..]);
    }
  }

  lemma GatherEntryStep(lines: seq<string>, i: nat)
    requires i < |lines|
    ensures ParsedEntries(lines[..i + 1]) ==
            ParsedEntries(lines[..i]) + (if Parse(lines[i]).Some? then [Parse(lines[i]).value] else [])
  {
    assert lines[..i + 1] == lines[..i] + [lines[i]];
    CollectSnoc(lines[..i], lines[i], Parse);
  }

  /**
   * gather_macro: the lines before the first one that opens the document are
   * parsed, and a result with a name and a replacement (every match has both)
   * is kept; once the document is open the loop only looks for its end.
   */
  method GatherEntries(text: string) returns (r: seq<Entry>)
    ensures var lines := Split(text, '\n'); r == ParsedEntries(lines[..PreambleLength(lines)])
  {
    var lines := Split(text, '\n');
    var n := PreambleLength(lines);
    var dict: seq<Entry> := [];
    var shouldParse := true;
    ghost var upto := 0;
    var i := 0;
    while i < |lines|
      invariant i <= |lines|
      invariant shouldParse ==> upto == i && i <= n
      invariant !shouldParse ==> upto == n < i
      invariant dict == ParsedEntries(lines[..upto])
    {
      if shouldParse {
        if IsStart(lines[i]) {
          PreambleStop(lines, i);
          shouldParse := false;
        } else {
          var e := Parse(lines[i]);
          if e.Some? {
            dict := dict + [e.value];
          }
          GatherEntryStep(lines, i);
          upto := i + 1;
        }
      } else {
        if IsEnd(lines[i]) {
          break;
        }
      }
      i := i + 1;
    }
    if shouldParse {
      PreambleStop(lines, i);
    }
    r := dict;
  }

  // ---------------------------------------------------------------------
  // enrich_regexp and get_expanded_macro
  // ---------------------------------------------------------------------

  /**
   * The record enrich_regexp builds: the replacement text to insert (first
   * the entry's body), the entry itself, and whether it takes arguments. Its
   * pattern `\\` + name matches the name literally.
   */
  datatype Sub = Sub(sub: string, entry: Entry, multi: bool)

  /** What every record get_expanded_macro builds from parsed entries satisfies. */
  predicate ValidSub(x: Sub) {
    WellFormedEntry(x.entry) && (x.multi <==> x.entry.inputs.Some?)
  }

  predicate ValidSubs(xs: seq<Sub>) {
    forall k :: 0 <= k < |xs| ==> ValidSub(xs[k])
  }

  /**
   * enrich_regexp: no record for a command type holding "declare" (in lower
   * case); otherwise the body to insert, and arguments exactly when an
   * argument count was written (any digit string is true, "0" included).
   */
  function Enrich(e: Entry): (r: Option<Sub>)
    ensures WellFormedEntry(e) && r.Some? ==> ValidSub(r.value)
  {
    if Contains(e.commandType, "declare") then None
    else Some(Sub(e.replacement, e, e.inputs.Some?))
  }

  /** get_expanded_macro: the records of the entries that have one, in order. */
  function GetExpanded(entries: seq<Entry>): (r: seq<Sub>)
    ensures |r| <= |entries|
    ensures forall k :: 0 <= k < |r| ==> r[k].entry in entries && !Contains(r[k].entry.commandType, "declare")
  {
    if entries == [] then []
    else
      var rest := GetExpanded(entries[1..]);
      (if Enrich(entries[0]).Some? then [Enrich(entries[0]).value] else []) + rest
  }

  /** An entry whose command type lacks "declare" gets its record. */
  lemma {:induction false} GetExpandedKeeps(entries: seq<Entry>, i: nat)
    requires i < |entries| && !Contains(entries[i].commandType, "declare")
    ensures Enrich(entries[i]).Some? && Enrich(entries[i]).value in GetExpanded(entries)
  {
    if i > 0 {
      GetExpandedKeeps(entries[1..], i - 1);
    }
  }

  /** The records of two lists of entries are the records of each, in order. */
  lemma {:induction false} GetExpandedAppend(a: seq<Entry>, b: seq<Entry>)
    ensures GetExpanded(a + b) == GetExpanded(a) + GetExpanded(b)
  {
    if a != [] {
      assert (a + b)[0] == a[0] && (a + b)[1..] == a[1..] + b;
      GetExpandedAppend(a[1..], b);
    } else {
      assert a + b == b;
    }
  }

  /** Every record of well-formed entries is valid. */
  lemma {:induction false} GetExpandedValid(entries: seq<Entry>)
    requires forall k :: 0 <= k < |entries| ==> WellFormedEntry(entries[k])
    ensures ValidSubs(GetExpanded(entries))
  {
    if entries != [] {
      GetExpandedValid(entries[1..]);
    }
  }

  /**
   * `\DeclareMathOperator` holds a capital D, so its entry is kept, and its
   * body is inserted as written, without an `\operatorname` wrapper.
   */
  lemma OperatorKept(name: string, body: string)
    ensures Enrich(Entry("DeclareMathOperator", name, "{", "}", None, body)) ==
            Some(Sub(body, Entry("DeclareMathOperator", name, "{", "}", None, body), false))
  {
    AbsentHead("DeclareMathOperator", "declare");
  }

  /** A command word with "declare" in it, such as `\declarecommand`, is parsed and then dropped. */
  lemma DeclareDropped(name: string, body: string)
    ensures Enrich(Entry("declarecommand", name, "{", "}", None, body)) == None
  {
    assert OccursAt("declarecommand", "declare", 0);
  }

  // ---------------------------------------------------------------------
  // multi_substitution_regexp (older)
  // ---------------------------------------------------------------------

  /** A separator string is compared with single characters: an empty one never matches. */
  function SepOf(s: string): Option<char> {
    if |s| == 1 then Some(s[0]) else None
  }

  function SepsOfEntry(e: Entry): Seps {
    Seps(SepOf(e.open), SepOf(e.close))
  }

  function InputCount(e: Entry): nat
    requires WellFormedEntry(e) && e.inputs.Some?
    ensures InputCount(e) <= 9
  {
    (e.inputs.value as int) - ('0' as int)
  }

  /** A character the older escaping protects: space, `"` and `'`. */
  predicate Quotable(c: char) {
    c == ' ' || c == '"' || c == '\''
  }

  /**
   * The escaping of src/Py/Axesscleaner/Macro.py:371 and :474 followed by the
   * reading of the result as a substitution template: a backslash comes out as
   * it went in, and space, `"` and `'` keep the backslash put before them.
   */
  function Quote(s: string): (r: string)
    ensures Unescape(r, Quotable) == s
    ensures |r| >= |s|
  {
    UnescapeEscape(s, Quotable);
    Escape(s, Quotable)
  }

  /**
   * multi_substitution_regexp: the scan of the text after the name, then `#j`
   * replaced by the escaped j-th argument in the record's replacement, which
   * is overwritten with the result. The answer is always that text followed
   * by the part the scan did not read; there is no failure branch.
   */
  function Substitute(x: Sub, t: string): (r: (Sub, string))
    requires ValidSub(x) && x.multi
    ensures r.0 == x.(sub := r.0.sub)
    ensures |r.0.sub| <= |r.1| && r.1[..|r.0.sub|] == r.0.sub
    ensures |r.1| - |r.0.sub| <= |t| && r.1[|r.0.sub|..] == t[|t| - (|r.1| - |r.0.sub|)..]
  {
    var st := ScanArgs(SepsOfEntry(x.entry), InputCount(x.entry), t);
    var filled := Fill(x.sub, st.args, Quote);
    var rest := Rest(t, st);
    assert (filled + rest)[|filled|..] == rest;
    (x.(sub := filled), filled + rest)
  }

  /** Arguments written in braces are found and substituted, and the rest follows. */
  lemma SubstituteRoundTrip(x: Sub, args: seq<string>, rest: string)
    requires ValidSub(x) && x.multi && x.entry.open == "{" && x.entry.close == "}"
    requires |args| == InputCount(x.entry) && AllBalanced('{', '}', args)
    ensures Substitute(x, Encode('{', '}', args) + rest) ==
            (x.(sub := Fill(x.sub, args, Quote)), Fill(x.sub, args, Quote) + rest)
  {
    ScanRoundTrip('{', '}', args, rest);
  }

  /**
   * A record whose replacement holds no `#` ignores the arguments it is
   * shown: the record stays as it is, so the placeholders a use filled in
   * are not filled again from a later use's arguments.
   */
  lemma SubstituteFilledIgnoresArguments(x: Sub, t: string)
    requires ValidSub(x) && x.multi && '#' !in x.sub
    ensures Substitute(x, t).0 == x
  {
    var st := ScanArgs(SepsOfEntry(x.entry), InputCount(x.entry), t);
    FillNoMarks(x.sub, st.args, 1, Quote);
  }

  /** Without separators each character is an argument of its own. */
  lemma SubstituteUnbraced()
    ensures var x := Sub("#2#1", Entry("def", "\\F", "", "", Some('2'), "#2#1"), true);
      Substitute(x, "ab!") == (x.(sub := "ba"), "ba!")
  {
    var e := Entry("def", "\\F", "", "", Some('2'), "#2#1");
    assert SepsOfEntry(e) == Seps(None, None) && InputCount(e) == 2;
    UnbracedScan();
    UnbracedFill();
    assert Rest("ab!", Scan(2, 0, 0, ["a", "b"], "")) == "!";
    assert "ba" + "!" == "ba!";
    var x := Sub("#2#1", e, true);
    assert Substitute(x, "ab!").1 == "ba!";
  }

  lemma UnbracedScan()
    ensures ScanArgs(Seps(None, None), 2, "ab!") == Scan(2, 0, 0, ["a", "b"], "")
  {
    var seps := Seps(None, None);
    var t := "ab!";
    RunStep(seps, 2, t, Start);
    SingleToken(seps, t, Start);
    assert "" + [t[0]] == "a" && [] + ["a"] == ["a"];
    assert Step(seps, t, Start) == Scan(1, 0, 0, ["a"], "");
    RunStep(seps, 2, t, Scan(1, 0, 0, ["a"], ""));
    SingleToken(seps, t, Scan(1, 0, 0, ["a"], ""));
    assert "" + [t[1]] == "b" && ["a"] + ["b"] == ["a", "b"];
    assert Step(seps, t, Scan(1, 0, 0, ["a"], "")) == Scan(2, 0, 0, ["a", "b"], "");
    RunFull(seps, 2, t, Scan(2, 0, 0, ["a", "b"], ""));
  }

  lemma UnbracedFill()
    ensures Fill("#2#1", ["a", "b"], Quote) == "ba"
  {
    assert Quote("a") == "a" && Quote("b") == "b";
    var s := "#2#1";
    assert Mark(1) == "#1" by { assert (('0' as int) + 1) as char == '1'; }
    assert Mark(2) == "#2" by { assert (('0' as int) + 2) as char == '2'; }
    assert !(Mark(1) <= s) by { assert Mark(1)[1] != s[1]; }
    assert s[1..] == "2#1";
    assert !(Mark(1) <= "2#1") by { assert Mark(1)[0] != "2#1"[0]; }
    assert "2#1"[1..] == "#1";
    assert Mark(1) <= "#1" && "#1"[2..] == [];
    assert ReplaceAll("#1", Mark(1), "a") == "a" + ReplaceAll([], Mark(1), "a") == "a";
    assert ReplaceAll("2#1", Mark(1), "a") == "2a";
    assert ReplaceAll(s, Mark(1), "a") == "#2a";
    assert Mark(2) <= "#2a" && "#2a"[2..] == "a";
    assert ReplaceAll("a", Mark(2), "b") == "a";
    assert ReplaceAll("#2a", Mark(2), "b") == "ba";
    assert Fill("#2#1", ["a", "b"], Quote) == FillFrom("#2a", ["a", "b"], 2, Quote) == FillFrom("ba", ["a", "b"], 3, Quote);
  }

  // ---------------------------------------------------------------------
  // recursive_expansion (older)
  // ---------------------------------------------------------------------

  /** One record applied to the line: the record as it is afterwards and the new line. */
  function ApplyEntry(x: Sub, lin: string): (r: (Sub, string))
    requires ValidSub(x)
    ensures r.0 == x.(sub := r.0.sub)
    ensures !Contains(lin, x.entry.name) ==> r == (x, lin)
  {
    match IndexOf(lin, x.entry.name)
    case None =>
      IndexOfContains(lin, x.entry.name);
      (x, lin)
    case Some(i) =>
      if x.multi then
        var after := lin[i + |x.entry.name|..];
        var full := Substitute(x, after[SpaceRun(after)..]).1;
        (x.(sub := full), lin[..i] + Quote(full))
      else (x, GuardedReplace(lin, x.entry.name, Quote(x.sub)))
  }

  /** The records list the same entries, possibly with other replacement texts. */
  predicate SameEntries(xs: seq<Sub>, ys: seq<Sub>) {
    |xs| == |ys| && forall k :: 0 <= k < |xs| ==> ys[k] == xs[k].(sub := ys[k].sub)
  }

  /** The first loop of recursive_expansion: every record once, in order. */
  function Sweep(xs: seq<Sub>, lin: string): (r: (seq<Sub>, string))
    requires ValidSubs(xs)
    ensures SameEntries(xs, r.0) && ValidSubs(r.0)
  {
    if xs == [] then ([], lin)
    else
      var (y, next) := ApplyEntry(xs[0], lin);
      var (ys, out) := Sweep(xs[1..], next);
      SweepCons(xs, y, ys);
      ([y] + ys, out)
  }

  lemma SweepCons(xs: seq<Sub>, y: Sub, ys: seq<Sub>)
    requires xs != [] && ValidSubs(xs) && y == xs[0].(sub := y.sub)
    requires SameEntries(xs[1..], ys) && ValidSubs(ys)
    ensures SameEntries(xs, [y] + ys) && ValidSubs([y] + ys)
  {
    assert ValidSub(xs[0]);
    assert forall k :: 1 <= k < |[y] + ys| ==> ([y] + ys)[k] == ys[k - 1];
  }

  /** Some record's name occurs in the line: the test of the second loop. */
  predicate Mentioned(xs: seq<Sub>, lin: string) {
    exists k :: 0 <= k < |xs| && Contains(lin, xs[k].entry.name)
  }

  lemma SameEntriesMentioned(xs: seq<Sub>, ys: seq<Sub>, lin: string)
    requires SameEntries(xs, ys)
    ensures Mentioned(xs, lin) <==> Mentioned(ys, lin)
  {
    if Mentioned(ys, lin) {
      var k :| 0 <= k < |ys| && Contains(lin, ys[k].entry.name);
      assert ys[k].entry == xs[k].entry;
    }
  }

  /** What a later sweep guarantees about its records holds of the earlier ones too. */
  lemma CarryOver(xs: seq<Sub>, ys: seq<Sub>, r: Option<(seq<Sub>, string)>)
    requires SameEntries(xs, ys)
    requires r.Some? ==> SameEntries(ys, r.value.0) && !Mentioned(ys, r.value.1)
    ensures r.Some? ==> SameEntries(xs, r.value.0) && !Mentioned(xs, r.value.1)
  {
    if r.Some? {
      SameEntriesMentioned(xs, ys, r.value.1);
    }
  }

  /**
   * recursive_expansion: sweeps until no name occurs in the line, the
   * records carried from sweep to sweep. `fuel` stands for the interpreter's
   * recursion limit; running out of it is `None`.
   */
  function ExpandLine(fuel: nat, xs: seq<Sub>, lin: string): (r: Option<(seq<Sub>, string)>)
    requires ValidSubs(xs)
    ensures r.Some? ==> SameEntries(xs, r.value.0) && ValidSubs(r.value.0)
    ensures r.Some? ==> !Mentioned(xs, r.value.1)
    decreases fuel
  {
    if fuel == 0 then None
    else
      var (ys, next) := Sweep(xs, lin);
      SameEntriesMentioned(xs, ys, next);
      if Mentioned(ys, next) then
        var r := ExpandLine(fuel - 1, ys, next);
        CarryOver(xs, ys, r);
        r
      else Some((ys, next))
  }

  /** A sweep over a line in which no name occurs changes neither the line nor the records. */
  lemma {:induction false} SweepUnmentioned(xs: seq<Sub>, lin: string)
    requires ValidSubs(xs) && !Mentioned(xs, lin)
    ensures Sweep(xs, lin) == (xs, lin)
  {
    if xs != [] {
      assert !Contains(lin, xs[0].entry.name);
      assert !Mentioned(xs[1..], lin) by {
        forall k | 0 <= k < |xs[1..]| ensures !Contains(lin, xs[1..][k].entry.name) {
          assert xs[1..][k] == xs[k + 1];
        }
      }
      SweepUnmentioned(xs[1..], lin);
      assert [xs[0]] + xs[1..] == xs;
    }
  }

  /** A line in which no name occurs comes back unchanged, the records too. */
  lemma ExpandLineUnmentioned(fuel: nat, xs: seq<Sub>, lin: string)
    requires ValidSubs(xs) && !Mentioned(xs, lin) && fuel > 0
    ensures ExpandLine(fuel, xs, lin) == Some((xs, lin))
  {
    SweepUnmentioned(xs, lin);
  }

  // ---------------------------------------------------------------------
  // remove_macro (older), the string path
  // ---------------------------------------------------------------------

  /** No line of `doc` consists of blanks only. */
  predicate NoBlank(doc: seq<string>) {
    forall k :: 0 <= k < |doc| ==> !IsBlank(doc[k])
  }

  lemma NoBlankConcat(a: seq<string>, b: seq<string>)
    requires NoBlank(a) && NoBlank(b)
    ensures NoBlank(a + b)
  {
    assert forall k :: |a| <= k < |a + b| ==> (a + b)[k] == b[k - |a|];
  }

  /** `if not line.isspace()`: a line of blanks only is not added. */
  function KeepLine(l: string): (r: seq<string>)
    ensures NoBlank(r) && |r| <= 1
    ensures r == [] <==> IsBlank(l)
  {
    if IsBlank(l) then [] else [l]
  }

  /** The lines without the blank-only ones. */
  function NonBlank(lines: seq<string>): (r: seq<string>)
    ensures NoBlank(r)
  {
    if lines == [] then []
    else
      var keep := KeepLine(lines[0]);
      var rest := NonBlank(lines[1..]);
      NoBlankConcat(keep, rest);
      keep + rest
  }

  /** The lines added inside the document, and whether the loop broke off. */
  datatype Emitted = Emitted(doc: seq<string>, stopped: bool)

  /** The closing line names the document, so it is not blank. */
  lemma EndNotBlank(l: string)
    requires IsEnd(l)
    ensures !IsBlank(l)
  {
    var i :| 0 <= i <= |l| && OccursAt(l, "nd{document}", i);
    assert l[i..][0] == 'n';
  }

  /**
   * The loop inside the document: the closing line is added as it is and
   * ends the loop; any other line is expanded and stripped of control
   * characters, and an expansion that does not end breaks the loop.
   */
  function Body(fuel: nat, xs: seq<Sub>, lines: seq<string>): (r: Emitted)
    requires ValidSubs(xs)
    ensures NoBlank(r.doc)
    ensures |r.doc| <= |lines|
    decreases |lines|
  {
    if lines == [] then Emitted([], false)
    else if IsEnd(lines[0]) then
      EndNotBlank(lines[0]);
      Emitted([lines[0]], true)
    else match ExpandLine(fuel, xs, lines[0])
      case None => Emitted([], true)
      case Some((ys, e)) =>
        var rest := Body(fuel, ys, lines[1..]);
        var keep := KeepLine(DropControl(e));
        NoBlankConcat(keep, rest.doc);
        Emitted(keep + rest.doc, rest.stopped)
  }

  /** The whole loop: lines before the opening one pass unless blank, then the body. */
  function FinalDoc(fuel: nat, xs: seq<Sub>, lines: seq<string>): (r: seq<string>)
    requires ValidSubs(xs)
    ensures NoBlank(r)
  {
    if lines == [] then []
    else
      var rest := if IsStart(lines[0]) then Body(fuel, xs, lines[1..]).doc else FinalDoc(fuel, xs, lines[1..]);
      var keep := KeepLine(lines[0]);
      NoBlankConcat(keep, rest);
      keep + rest
  }

  /** The lines holding a character other than whitespace (`line.rstrip()` is not empty). */
  function Contentful(doc: seq<string>): (r: seq<string>)
    ensures forall k :: 0 <= k < |r| ==> HasContent(r[k])
  {
    if doc == [] then []
    else
      var rest := Contentful(doc[1..]);
      var keep := if HasContent(doc[0]) then [doc[0]] else [];
      assert forall k :: |keep| <= k < |keep + rest| ==> (keep + rest)[k] == rest[k - |keep|];
      keep + rest
  }

  /** The final string: each line with content, followed by a newline. */
  function Emit(doc: seq<string>): (r: string)
    ensures r == [] || r[|r| - 1] == '\n'
  {
    if doc == [] then []
    else (if HasContent(doc[0]) then doc[0] + "\n" else []) + Emit(doc[1..])
  }

  /** remove_macro with no output file: the records are built from the entries once, then used line by line. */
  function RemoveMacroLegacy(fuel: nat, entries: seq<Entry>, st: string): (r: string)
    requires forall k :: 0 <= k < |entries| ==> WellFormedEntry(entries[k])
    ensures r == [] || r[|r| - 1] == '\n'
  {
    GetExpandedValid(entries);
    Emit(FinalDoc(fuel, GetExpanded(entries), Split(st, '\n')))
  }

  /** The final string is the lines with content joined by newlines, with a last newline. */
  lemma {:induction false} EmitJoin(doc: seq<string>)
    ensures Emit(doc) == Join(Contentful(doc) + [""], '\n')
  {
    if doc != [] {
      EmitJoin(doc[1..]);
      var rest := Contentful(doc[1..]) + [""];
      if HasContent(doc[0]) {
        assert Contentful(doc) + [""] == [doc[0]] + rest;
        assert ([doc[0]] + rest)[1..] == rest;
        assert Join([doc[0]] + rest, '\n') == doc[0] + ['\n'] + Join(rest, '\n');
      } else {
        assert Contentful(doc) + [""] == rest;
      }
    }
  }

  /** Splitting the final string gives the lines with content and one empty piece after the last newline. */
  lemma EmitLines(doc: seq<string>)
    requires forall k :: 0 <= k < |doc| ==> '\n' !in doc[k]
    ensures Split(Emit(doc), '\n') == Contentful(doc) + [""]
  {
    EmitJoin(doc);
    ContentfulAvoids(doc);
    SplitJoin(Contentful(doc) + [""], '\n');
  }

  lemma {:induction false} ContentfulAvoids(doc: seq<string>)
    requires forall k :: 0 <= k < |doc| ==> '\n' !in doc[k]
    ensures forall k :: 0 <= k < |Contentful(doc) + [""]| ==> '\n' !in (Contentful(doc) + [""])[k]
  {
    if doc != [] {
      ContentfulAvoids(doc[1..]);
      var keep := if HasContent(doc[0]) then [doc[0]] else [];
      assert Contentful(doc) + [""] == keep + (Contentful(doc[1..]) + [""]);
    }
  }

  /** Without an opening line every line passes unless blank. */
  lemma {:induction false} FinalDocWithoutBody(fuel: nat, xs: seq<Sub>, lines: seq<string>)
    requires ValidSubs(xs) && Document.NoStart(lines)
    ensures FinalDoc(fuel, xs, lines) == NonBlank(lines)
  {
    if lines != [] {
      Document.NoStartTail(lines);
      FinalDocWithoutBody(fuel, xs, lines[1..]);
    }
  }

  /**
   * The lines before the one opening the document and that line itself pass
   * unless blank; what follows is the body.
   */
  lemma {:induction false} FinalDocPreamble(fuel: nat, xs: seq<Sub>, pre: seq<string>, open: string, rest: seq<string>)
    requires ValidSubs(xs) && Document.NoStart(pre) && IsStart(open)
    ensures FinalDoc(fuel, xs, pre + [open] + rest) == NonBlank(pre) + KeepLine(open) + Body(fuel, xs, rest).doc
  {
    var tail := KeepLine(open) + Body(fuel, xs, rest).doc;
    if pre == [] {
      assert pre + [open] + rest == [open] + rest;
      assert ([open] + rest)[1..] == rest;
    } else {
      Document.NoStartTail(pre);
      Document.Uncons(pre, open, rest);
      FinalDocStep(fuel, xs, pre + [open] + rest);
      FinalDocPreamble(fuel, xs, pre[1..], open, rest);
      Document.LinesAssoc(NonBlank(pre[1..]), KeepLine(open), Body(fuel, xs, rest).doc);
      Document.LinesAssoc(KeepLine(pre[0]), NonBlank(pre[1..]), tail);
      Document.LinesAssoc(NonBlank(pre), KeepLine(open), Body(fuel, xs, rest).doc);
    }
  }

  lemma FinalDocStep(fuel: nat, xs: seq<Sub>, lines: seq<string>)
    requires ValidSubs(xs) && lines != [] && !IsStart(lines[0])
    ensures FinalDoc(fuel, xs, lines) == KeepLine(lines[0]) + FinalDoc(fuel, xs, lines[1..])
  {
  }

  /**
   * Nothing after the closing line is emitted: the body ends with that line,
   * unless the loop broke off before it.
   */
  lemma {:induction false} BodyClosed(fuel: nat, xs: seq<Sub>, body: seq<string>, close: string, after: seq<string>)
    requires ValidSubs(xs) && Document.NoEnd(body) && IsEnd(close)
    ensures Body(fuel, xs, body + [close] + after).doc ==
            Body(fuel, xs, body).doc + (if Body(fuel, xs, body).stopped then [] else [close])
    decreases |body|
  {
    if body == [] {
      assert body + [close] + after == [close] + after;
    } else {
      Document.NoEndTail(body);
      Document.Uncons(body, close, after);
      match ExpandLine(fuel, xs, body[0])
      case None =>
      case Some((ys, e)) =>
        BodyClosed(fuel, ys, body[1..], close, after);
        var keep := KeepLine(DropControl(e));
        var b := Body(fuel, ys, body[1..]);
        assert keep + (b.doc + (if b.stopped then [] else [close])) ==
               keep + b.doc + (if b.stopped then [] else [close]);
    }
  }

  /** Body lines that name no macro and hold no control character pass unless blank. */
  lemma {:induction false} BodyPlain(fuel: nat, xs: seq<Sub>, lines: seq<string>)
    requires ValidSubs(xs) && fuel > 0 && Document.NoEnd(lines)
    requires forall k :: 0 <= k < |lines| ==> !Mentioned(xs, lines[k])
    requires forall k, i :: 0 <= k < |lines| && 0 <= i < |lines[k]| ==> !IsControl(lines[k][i])
    ensures Body(fuel, xs, lines) == Emitted(NonBlank(lines), false)
  {
    if lines != [] {
      Document.NoEndTail(lines);
      ExpandLineUnmentioned(fuel, xs, lines[0]);
      assert forall i :: 0 <= i < |lines[0]| ==> !IsControl(lines[0][i]);
      assert forall k :: 0 <= k < |lines[1..]| ==> lines[1..][k] == lines[k + 1];
      BodyPlain(fuel, xs, lines[1..]);
    }
  }
}

=== FILE: legacy_text.dfy ===
/**
 * The `Methods` class of src/Py/Axesscleaner/Text.py, the older dollar
 * rewriter: it works line by line, counts the `$` and `$$` of each line into
 * the counter of the current `array`/`tabular` frame, rewrites a line whose
 * formulas close on it as inline math, and otherwise rewrites the dollars of
 * the line one by one by the parity of the frame's counter.
 *
 * count_symbols_in_string and remove_inline_dls are the same code as in
 * src/Py/modules.py and are `DollarScan.CountSymbols` and
 * `InlineDollars.RemoveInlineDls`; the frames are `DollarScan.Dollars`.
 */
module LegacyText {
  import opened Wrappers
  import opened Strings
  import opened Definitions
  import opened DollarScan
  import opened InlineDollars

  // ---------------------------------------------------------------------
  // remove_dollars_from_text_env (older)
  // ---------------------------------------------------------------------

  /** A character the older escaping of a rewritten group protects. */
  predicate Piped(c: char) {
    c == '|' || c == '"'
  }

  /**
   * The escaping at src/Py/Axesscleaner/Text.py:49 followed by the reading of
   * the result as a substitution template: a backslash comes out as it went
   * in, while `|` and `"` keep the backslash put before them.
   */
  function PipeQuote(s: string): (r: string)
    ensures Unescape(r, Piped) == s
    ensures Count(r, '\n') == Count(s, '\n')
  {
    UnescapeEscape(s, Piped);
    EscapeCount(s, Piped, '\n');
    Escape(s, Piped)
  }

  /**
   * remove_dollars_from_text_env: only the first `\mbox`, `\textrm` or
   * `\mathrm` group found is rewritten (every copy of its contents in the
   * line), then control characters are dropped; a line without such a group
   * is returned as it is. An empty group changes nothing but the dropping.
   * The `$` count never grows, and drops when the first group holds a
   * formula and an even count.
   */
  function TextEnvFirst(line: string): (r: string)
    ensures FindAll(line, 0) == [] ==> r == line
    ensures FindAll(line, 0) != [] ==> forall i :: 0 <= i < |r| ==> !IsControl(r[i])
    ensures Count(r, '\n') == Count(line, '\n')
    ensures Count(r, '$') <= Count(line, '$')
    ensures var g := FindAll(line, 0);
      g != [] && FirstMatch(g[0], false, 0).Some? && Occurrences(g[0], false) % 2 == 0
      ==> Count(r, '$') < Count(line, '$')
  {
    var outer := FindAll(line, 0);
    if |outer| == 0 then line
    else
      var elm := outer[0];
      var rep := PipeQuote(Inline(elm, false));
      CountAbsent(elm, '\n');
      var subbed := if |elm| == 0 then line else ReplaceAll(line, elm, rep);
      assert Count(subbed, '\n') == Count(line, '\n') by {
        if |elm| > 0 {
          ReplaceAllCount(line, elm, rep, '\n');
        }
      }
      assert Count(subbed, '$') <= Count(line, '$')
        && (FirstMatch(elm, false, 0).Some? && Occurrences(elm, false) % 2 == 0 ==> Count(subbed, '$') < Count(line, '$')) by {
        if |elm| > 0 {
          EscapeCount(Inline(elm, false), Piped, '$');
          ReplaceAllCount(line, elm, rep, '$');
        }
      }
      DropControlCount(subbed, '\n');
      DropControlCount(subbed, '$');
      DropControl(subbed)
  }

  /**
   * Where the text of the first group occurs nowhere else in the line, the
   * rewrite stays inside that group: the text before and after it is kept,
   * up to the control characters dropped from the whole line.
   */
  lemma TextEnvFirstLocal(line: string, g: string, a: nat)
    requires FindAll(line, 0) != [] && g == FindAll(line, 0)[0] && |g| > 0
    requires OccursAt(line, g, a) && forall k :: 0 <= k <= |line| && k != a ==> !OccursAt(line, g, k)
    ensures a + |g| <= |line|
    ensures TextEnvFirst(line) == DropControl(line[..a] + PipeQuote(Inline(g, false)) + line[a + |g|..])
  {
    var outer := FindAll(line, 0);
    var more := outer[1..];
    assert outer == [g] + more;
    var rep := PipeQuote(Inline(g, false));
    ReplaceAllOnce(line, g, rep, a);
    TextEnvFirstGroup(line, g, more, rep, DropControl(line[..a] + rep + line[a + |g|..]));
  }

  /**
   * With one group whose rewrite holds no `|` or `"`, the older pass and the
   * one of src/Py/modules.py agree.
   */
  lemma TextEnvFirstAgrees(line: string, elm: string)
    requires FindAll(line, 0) == [elm] && |elm| > 0
    requires forall i :: 0 <= i < |Inline(elm, false)| ==> !Piped(Inline(elm, false)[i])
    ensures TextEnvFirst(line) == TextEnv(line)
  {
    EscapePlain(Inline(elm, false), Piped);
    TextEnvOne(line, elm);
  }

  /**
   * A printable line whose first group holds no `|` or `"` is changed only
   * by turning the delimiters of formulas into brackets: read back, its
   * result is the line read back.
   */
  lemma TextEnvFirstReadsBack(line: string)
    requires Printable(line)
    requires FindAll(line, 0) != [] ==> Avoids(FindAll(line, 0)[0], Piped)
    ensures Undo(TextEnvFirst(line), false) == Undo(line, false)
  {
    var outer := FindAll(line, 0);
    if outer != [] && |outer[0]| > 0 {
      var elm := outer[0];
      var rep := Inline(elm, false);
      InlineAvoids(elm, false, Piped);
      EscapePlain(rep, Piped);
      assert PipeQuote(rep) == rep;
      InlineUndo(elm, false);
      InlineEnds(elm, false);
      UndoReplaceAll(line, elm, rep, false);
      var i :| 0 <= i <= |line| && OccursAt(line, elm, i);
      AvoidsOccurs(line, elm, i, IsControl);
      InlineAvoids(elm, false, IsControl);
      ReplaceAllAvoids(line, elm, rep, IsControl);
    }
  }

  /** When the first group holds no formula to rewrite and no `|` or `"`, only control characters are dropped. */
  lemma TextEnvFirstUnchanged(line: string)
    requires FindAll(line, 0) != []
    requires Inline(FindAll(line, 0)[0], false) == FindAll(line, 0)[0] && Avoids(FindAll(line, 0)[0], Piped)
    ensures TextEnvFirst(line) == DropControl(line)
  {
    var elm := FindAll(line, 0)[0];
    if |elm| > 0 {
      EscapePlain(elm, Piped);
      ReplaceAllSame(line, elm);
    }
  }

  /** A line without a backslash is not touched. */
  lemma TextEnvFirstPlain(line: string)
    requires '\\' !in line
    ensures TextEnvFirst(line) == line
  {
    FindAllPlain(line, 0);
  }

  /** The first group's contents, when not empty, are what gets rewritten. */
  lemma TextEnvFirstGroup(line: string, elm: string, more: seq<string>, rep: string, out: string)
    requires FindAll(line, 0) == [elm] + more && |elm| > 0
    requires PipeQuote(Inline(elm, false)) == rep && DropControl(ReplaceAll(line, elm, rep)) == out
    ensures TextEnvFirst(line) == out
  {
  }

  /** Only the first group is rewritten: the dollars of the second stay. */
  lemma FirstGroupOnly()
    ensures TextEnvFirst("\\mbox{$a$}\\mbox{$b$}") == "\\mbox{\\(a\\)}\\mbox{$b$}"
  {
    var line, out := "\\mbox{$a$}\\mbox{$b$}", "\\mbox{\\(a\\)}\\mbox{$b$}";
    assert FindAll(line, 0) == ["$a$"] + ["$b$"] by { TwoGroups(); }
    assert PipeQuote(Inline("$a$", false)) == "\\(a\\)" by { InlineA(); QuoteA(); }
    assert DropControl(ReplaceAll(line, "$a$", "\\(a\\)")) == out by { ReplaceFirstGroup(); PrintableResult(); }
    TextEnvFirstGroup("\\mbox{$a$}\\mbox{$b$}", "$a$", ["$b$"], "\\(a\\)", "\\mbox{\\(a\\)}\\mbox{$b$}");
  }

  /**
   * Every copy of the group's text is rewritten, also one outside every
   * group, in both versions of the pass.
   */
  lemma CopiesRewritten()
    ensures TextEnvFirst("$a$\\mbox{$a$}") == "\\(a\\)\\mbox{\\(a\\)}"
    ensures TextEnv("$a$\\mbox{$a$}") == "\\(a\\)\\mbox{\\(a\\)}"
  {
    var line, out := "$a$\\mbox{$a$}", "\\(a\\)\\mbox{\\(a\\)}";
    assert TextEnvFirst(line) == out by { CopiesRewrittenFirst(); }
    assert FindAll(line, 0) == ["$a$"] by { CopyGroup(); }
    assert Avoids(Inline("$a$", false), Piped) by { InlineAPlain(); }
    AgreeingResult(line, "$a$", out);
  }

  lemma AgreeingResult(line: string, elm: string, out: string)
    requires FindAll(line, 0) == [elm] && |elm| > 0 && Avoids(Inline(elm, false), Piped)
    requires TextEnvFirst(line) == out
    ensures TextEnv(line) == out
  {
    TextEnvFirstAgrees(line, elm);
  }

  lemma InlineAPlain()
    ensures Avoids(Inline("$a$", false), Piped)
  {
    InlineA();
    var r := "\\(a\\)";
    assert !Piped(r[0]) && !Piped(r[1]) && !Piped(r[2]) && !Piped(r[3]) && !Piped(r[4]);
  }

  lemma CopiesRewrittenFirst()
    ensures TextEnvFirst("$a$\\mbox{$a$}") == "\\(a\\)\\mbox{\\(a\\)}"
  {
    var line, out := "$a$\\mbox{$a$}", "\\(a\\)\\mbox{\\(a\\)}";
    assert FindAll(line, 0) == ["$a$"] + [] by { CopyGroup(); }
    assert PipeQuote(Inline("$a$", false)) == "\\(a\\)" by { InlineA(); QuoteA(); }
    assert DropControl(ReplaceAll(line, "$a$", "\\(a\\)")) == out by { ReplaceCopies(); PrintableCopies(); }
    TextEnvFirstGroup(line, "$a$", [], "\\(a\\)", out);
  }

  lemma CopyGroup()
    ensures FindAll("$a$\\mbox{$a$}", 0) == ["$a$"]
  {
    var s := "$a$\\mbox{$a$}";
    NoGroupBeforeCopy();
    CopyGroupAt();
    assert FindAll(s, 13) == [];
    assert FindAll(s, 3) == ["$a$"];
  }

  lemma NoGroupBeforeCopy()
    ensures var s := "$a$\\mbox{$a$}"; GroupAt(s, 0).None? && GroupAt(s, 1).None? && GroupAt(s, 2).None?
  {
    var s := "$a$\\mbox{$a$}";
    assert s[0] == '$' && s[1] == 'a' && s[2] == '$';
    NoGroupAt(s, 0);
    NoGroupAt(s, 1);
    NoGroupAt(s, 2);
  }

  /** No group starts at a character other than a backslash. */
  lemma NoGroupAt(s: string, i: nat)
    requires i < |s| && s[i] != '\\'
    ensures GroupAt(s, i).None?
  {
    assert s[i..][0] == s[i];
  }

  lemma CopyGroupAt()
    ensures var s := "$a$\\mbox{$a$}"; GroupAt(s, 3) == Some((9, 12)) && s[9..12] == "$a$"
  {
    var s := "$a$\\mbox{$a$}";
    assert CommandEnd(s, 3) == Some(8) by { assert "\\mbox" <= s[3..]; }
    assert SpaceRun(s[8..]) == 0 by { assert s[8..][0] == '{'; }
    assert s[8] == '{';
    assert BraceClose(s, 9) == Some(12) by {
      assert s[9] == '$' && s[10] == 'a' && s[11] == '$' && s[12] == '}';
    }
    assert s[9..12] == "$a$";
  }

  lemma ReplaceCopies()
    ensures ReplaceAll("$a$\\mbox{$a$}", "$a$", "\\(a\\)") == "\\(a\\)\\mbox{\\(a\\)}"
  {
    var pre, pat, rep, post := "\\mbox{", "$a$", "\\(a\\)", "}";
    assert pat + pre + pat + post == "$a$\\mbox{$a$}";
    assert rep + (pre + rep + post) == "\\(a\\)\\mbox{\\(a\\)}";
    assert (pat + pre + pat + post)[..3] == pat && (pat + pre + pat + post)[3..] == pre + pat + post;
    NoDollarBeforeGroup();
    ReplaceAllPrefix(pre, pat, post, rep);
  }

  lemma PrintableCopies()
    ensures DropControl("\\(a\\)\\mbox{\\(a\\)}") == "\\(a\\)\\mbox{\\(a\\)}"
  {
    var out := "\\(a\\)\\mbox{\\(a\\)}";
    assert forall i | 0 <= i < |out| :: !IsControl(out[i]);
  }

  lemma QuoteA()
    ensures PipeQuote("\\(a\\)") == "\\(a\\)"
  {
    var s := "\\(a\\)";
    assert !Piped(s[0]) && !Piped(s[1]) && !Piped(s[2]) && !Piped(s[3]) && !Piped(s[4]);
    EscapePlain(s, Piped);
  }

  lemma TwoGroups()
    ensures FindAll("\\mbox{$a$}\\mbox{$b$}", 0) == ["$a$"] + ["$b$"]
  {
    var s := "\\mbox{$a$}\\mbox{$b$}";
    FirstGroupAt();
    SecondGroupAt();
    assert FindAll(s, 20) == [];
    assert FindAll(s, 10) == ["$b$"];
  }

  lemma FirstGroupAt()
    ensures var s := "\\mbox{$a$}\\mbox{$b$}"; GroupAt(s, 0) == Some((6, 9)) && s[6..9] == "$a$"
  {
    var s := "\\mbox{$a$}\\mbox{$b$}";
    assert CommandEnd(s, 0) == Some(5) by { assert "\\mbox" <= s; }
    assert SpaceRun(s[5..]) == 0 by { assert s[5..][0] == '{'; }
    assert s[5] == '{';
    assert BraceClose(s, 6) == Some(9) by {
      assert s[6] == '$' && s[7] == 'a' && s[8] == '$' && s[9] == '}';
    }
    assert s[6..9] == "$a$";
  }

  lemma SecondGroupAt()
    ensures var s := "\\mbox{$a$}\\mbox{$b$}"; GroupAt(s, 10) == Some((16, 19)) && s[16..19] == "$b$"
  {
    var s := "\\mbox{$a$}\\mbox{$b$}";
    assert CommandEnd(s, 10) == Some(15) by { assert "\\mbox" <= s[10..]; }
    assert SpaceRun(s[15..]) == 0 by { assert s[15..][0] == '{'; }
    assert s[15] == '{';
    assert BraceClose(s, 16) == Some(19) by {
      assert s[16] == '$' && s[17] == 'b' && s[18] == '$' && s[19] == '}';
    }
    assert s[16..19] == "$b$";
  }

  lemma InlineA()
    ensures Inline("$a$", false) == "\\(a\\)"
  {
    var e, f, out := "$a$", Found("$a$", "a"), "\\(a\\)";
    assert e[0] == '$' && e[1] == 'a' && e[2] == '$';
    assert CloseDollar(e, 2) == Some(2);
    assert e[0..3] == "$a$" && e[1..2] == "a";
    assert InlineDollars.MatchAt(e, 0, false) == Some(f);
    assert e[1..] == "a$" && e[1..][1..] == "$" && e[1..][1..][1..] == "";
    assert Occurrences(e, false) == 2;
    assert ReplaceAll(e, e, Bracketed(f, false)) == Bracketed(f, false) by {
      ReplaceWhole(e, Bracketed(f, false));
    }
    assert Bracketed(f, false) == out;
    assert '$' !in out by {
      assert out[0] != '$' && out[1] != '$' && out[2] != '$' && out[3] != '$' && out[4] != '$';
    }
    NoDollarNoMatch(out, false);
    InlineOnce(e, f, false);
  }

  lemma ReplaceFirstGroup()
    ensures ReplaceAll("\\mbox{$a$}\\mbox{$b$}", "$a$", "\\(a\\)") == "\\mbox{\\(a\\)}\\mbox{$b$}"
  {
    var pre, pat, rep, post := "\\mbox{", "$a$", "\\(a\\)", "}\\mbox{$b$}";
    GroupPieces();
    NoDollarBeforeGroup();
    ReplaceAllPrefix(pre, pat, post, rep);
    NoAAfterGroup();
    AbsentChar(post, pat, 1);
    ReplaceAllAbsent(post, pat, rep);
  }

  lemma GroupPieces()
    ensures "\\mbox{" + "$a$" + "}\\mbox{$b$}" == "\\mbox{$a$}\\mbox{$b$}"
    ensures "\\mbox{" + "\\(a\\)" + "}\\mbox{$b$}" == "\\mbox{\\(a\\)}\\mbox{$b$}"
  {
  }

  lemma NoDollarBeforeGroup()
    ensures '$' !in "\\mbox{"
  {
    var pre := "\\mbox{";
    assert pre[0] != '$' && pre[1] != '$' && pre[2] != '$' && pre[3] != '$' && pre[4] != '$' && pre[5] != '$';
  }

  lemma NoAAfterGroup()
    ensures 'a' !in "}\\mbox{$b$}"
  {
    var post := "}\\mbox{$b$}";
    assert post[0] != 'a' && post[1] != 'a' && post[2] != 'a' && post[3] != 'a' && post[4] != 'a' && post[5] != 'a';
    assert post[6] != 'a' && post[7] != 'a' && post[8] != 'a' && post[9] != 'a' && post[10] != 'a';
  }

  lemma PrintableResult()
    ensures DropControl("\\mbox{\\(a\\)}\\mbox{$b$}") == "\\mbox{\\(a\\)}\\mbox{$b$}"
  {
    var out := "\\mbox{\\(a\\)}\\mbox{$b$}";
    assert forall i | 0 <= i < |out| :: !IsControl(out[i]);
  }

  /** A text holding no `c` holds no pattern with a `c` in it. */
  lemma AbsentChar(s: string, t: string, j: nat)
    requires j < |t| && t[j] !in s
    ensures !Contains(s, t)
  {
    forall i | 0 <= i <= |s| ensures !OccursAt(s, t, i) {
      if i + |t| <= |s| {
        assert s[i + j] in s && s[i..][j] == s[i + j];
      }
    }
  }

  /** A `|` in the rewritten group comes out with a backslash before it. */
  lemma PipeEscaped()
    ensures PipeQuote("\\(|x|\\)") == "\\(\\|x\\|\\)"
  {
    var s := "\\(|x|\\)";
    assert s[1..] == "(|x|\\)" && s[1..][1..] == "|x|\\)";
    assert s[1..][1..][1..] == "x|\\)" && s[1..][1..][1..][1..] == "|\\)";
    assert s[1..][1..][1..][1..][1..] == "\\)";
    EscapePlain("\\)", Piped);
  }

  // ---------------------------------------------------------------------
  // find_open_dls
  // ---------------------------------------------------------------------

  /** The counters `sym` selects: the single-dollar ones for "$", the double ones otherwise. */
  function Counters(d: Dollars, sym: string): seq<int> {
    if sym == "$" then d.dl else d.dd
  }

  /**
   * find_open_dls: whether the current frame's counter is even and positive,
   * so that the formulas counted so far are all closed; an unsupported
   * symbol and a missing frame are errors.
   */
  function FindOpenDls(d: Dollars, sym: string): (r: Result<bool>)
    ensures r.Ok? <==> (sym == "$" || sym == "$$") && PyIndex(|Counters(d, sym)|, d.newEnv).Some?
    ensures r.Err? && (sym == "$" || sym == "$$") ==> r.error == NoCurrentFrame
    ensures sym != "$" && sym != "$$" ==> r == Err(UnsupportedSymbol)
  {
    if sym != "$" && sym != "$$" then Err(UnsupportedSymbol)
    else
      match PyIndex(|Counters(d, sym)|, d.newEnv)
      case None => Err(NoCurrentFrame)
      case Some(k) => Ok(Counters(d, sym)[k] % 2 == 0 && Counters(d, sym)[k] > 0)
  }

  /** In a valid state with a frame, the answer is about the last frame's counter. */
  lemma FindOpenValid(d: Dollars, sym: string)
    requires Valid(d) && d.newEnv >= 0 && (sym == "$" || sym == "$$")
    ensures FindOpenDls(d, sym) == Ok(Counters(d, sym)[|Counters(d, sym)| - 1] % 2 == 0 &&
                                     Counters(d, sym)[|Counters(d, sym)| - 1] > 0)
  {
  }

  /** A fresh frame is not open: nothing has been counted in it. */
  lemma FreshNotOpen(d: Dollars, sym: string)
    requires Valid(d) && (sym == "$" || sym == "$$")
    ensures FindOpenDls(Open(d), sym) == Ok(false)
  {
  }

  // ---------------------------------------------------------------------
  // search_for_environments
  // ---------------------------------------------------------------------

  /**
   * Where `\<cmd>`, an optional `{` and the word `array` or `tabular` end when
   * they start at `i`. Neither word is a prefix of the other, so at most one
   * fits.
   */
  function EnvWordEnd(s: string, cmd: string, i: nat): (r: Option<nat>)
    requires i <= |s|
    ensures r.Some? ==> i + |cmd| + 6 <= r.value <= |s|
  {
    var head := "\\" + cmd;
    if !(head <= s[i..]) then None
    else
      var k := i + |head| + (if i + |head| < |s| && s[i + |head|] == '{' then 1 else 0);
      if "array" <= s[k..] then Some(k + 5)
      else if "tabular" <= s[k..] then Some(k + 7)
      else None
  }

  /**
   * The pattern `\\<cmd>({|)(array|tabular)(}|).*$` matches at `i`: the token
   * is there and the rest of the text is one line (a final newline allowed),
   * since `.` stops at a newline and `$` needs the end of the text.
   */
  predicate EnvAt(s: string, cmd: string, i: nat) {
    i <= |s| && match EnvWordEnd(s, cmd, i)
      case None => false
      case Some(e) => TrailOk(s, e)
  }

  /** `re.findall` finds at least one match. */
  predicate HasEnv(s: string, cmd: string) {
    exists i :: 0 <= i <= |s| && EnvAt(s, cmd, i)
  }

  /**
   * search_for_environments: a closing token drops the current frame first,
   * then an opening token pushes a fresh one; dropping a frame when there is
   * none is an error.
   */
  function SearchForEnvironments(d: Dollars, line: string): (r: Result<Dollars>)
    ensures Valid(d) ==> (r.Ok? <==> !HasEnv(line, "end") || d.newEnv >= 0)
    ensures Valid(d) && r.Ok? ==>
      Valid(r.value) &&
      r.value.newEnv == d.newEnv - (if HasEnv(line, "end") then 1 else 0) + (if HasEnv(line, "begin") then 1 else 0)
    ensures !HasEnv(line, "end") && !HasEnv(line, "begin") ==> r == Ok(d)
  {
    var closed := if HasEnv(line, "end") then Close(d) else Ok(d);
    match closed
    case Err(x) => Err(x)
    case Ok(c) => Ok(if HasEnv(line, "begin") then Open(c) else c)
  }

  /**
   * A line that closes and opens an environment replaces the current frame by
   * a fresh one; the enclosing frames keep their counters.
   */
  lemma CloseThenOpen(d: Dollars, line: string)
    requires Valid(d) && d.newEnv >= 0 && HasEnv(line, "end") && HasEnv(line, "begin")
    ensures SearchForEnvironments(d, line) ==
            Ok(Dollars(d.dl[..d.newEnv] + [0], d.dd[..d.newEnv] + [0], d.newEnv))
  {
  }

  /** An opening line keeps every existing counter and adds a zero one on top. */
  lemma OpenKeeps(d: Dollars, line: string)
    requires Valid(d) && !HasEnv(line, "end") && HasEnv(line, "begin")
    ensures SearchForEnvironments(d, line) == Ok(Dollars(d.dl + [0], d.dd + [0], d.newEnv + 1))
  {
  }

  /** On a line of its own the token always matches: nothing follows it on another line. */
  lemma EnvOnOneLine(s: string, cmd: string, i: nat)
    requires i <= |s| && EnvWordEnd(s, cmd, i).Some? && '\n' !in s
    ensures HasEnv(s, cmd)
  {
    var e := EnvWordEnd(s, cmd, i).value;
    NoNewlineLineEnd(s, e);
    assert EnvAt(s, cmd, i);
  }

  /** Text after a newline defeats `.*$`: the match needs the last line. */
  lemma EnvNotLastLine(s: string, cmd: string, i: nat)
    requires i <= |s| && EnvWordEnd(s, cmd, i).Some?
    requires var e := EnvWordEnd(s, cmd, i).value; e + 1 < |s| && s[e] == '\n'
    ensures !EnvAt(s, cmd, i)
  {
  }

  lemma {:induction false} NoNewlineLineEnd(s: string, i: nat)
    requires i <= |s| && '\n' !in s
    ensures LineEnd(s, i) == |s|
    decreases |s| - i
  {
    if i < |s| {
      assert s[i] in s;
      NoNewlineLineEnd(s, i + 1);
    }
  }

  /** Without a backslash there is no token at all. */
  lemma NoEnvPlain(s: string, cmd: string)
    requires '\\' !in s
    ensures !HasEnv(s, cmd)
  {
    forall i | 0 <= i <= |s| ensures EnvWordEnd(s, cmd, i).None? {
      if i < |s| {
        assert s[i] in s && s[i..][0] == s[i];
      }
    }
  }

  /** `\end{array}` on a line matches the closing pattern. */
  lemma EndArray()
    ensures HasEnv("\\end{array}", "end")
  {
    var s := "\\end{array}";
    assert "\\end" <= s;
    assert s[4] == '{';
    assert s[5..] == "array}";
    assert EnvWordEnd(s, "end", 0) == Some(10);
    EnvOnOneLine(s, "end", 0);
  }

  // ---------------------------------------------------------------------
  // remove_sparse_dl
  // ---------------------------------------------------------------------

  /**
   * The text with its first `left` dollars rewritten one by one: the bracket
   * for a dollar is `\(` when `base` plus the number of dollars rewritten
   * before it is even, `\)` otherwise. Everything else is copied.
   */
  function Sparse(s: string, base: int, left: nat): string {
    if s == [] || left == 0 then s
    else
      var rest := Sparse(s[1..], if s[0] == '$' then base + 1 else base, if s[0] == '$' then left - 1 else left);
      if s[0] == '$' then Single(base % 2) + rest else [s[0]] + rest
  }

  /** A text without dollars is copied. */
  lemma {:induction false} SparsePlain(s: string, base: int, left: nat)
    requires '$' !in s
    ensures Sparse(s, base, left) == s
  {
    if s != [] && left > 0 {
      assert s[0] in s && '$' !in s[1..];
      SparsePlain(s[1..], base, left);
    }
  }

  /**
   * A dollar preceded by none: its bracket is chosen by `base` alone, and the
   * dollars after it continue from the next parity.
   */
  lemma {:induction false} SparseNext(a: string, b: string, base: int, left: nat)
    requires '$' !in a && left > 0
    ensures Sparse(a + "$" + b, base, left) == a + Single(base % 2) + Sparse(b, base + 1, left - 1)
  {
    if a == [] {
      assert a + "$" + b == "$" + b;
      assert ("$" + b)[1..] == b;
    } else {
      assert (a + "$" + b)[0] == a[0] && (a + "$" + b)[1..] == a[1..] + "$" + b;
      assert '$' !in a[1..];
      SparseNext(a[1..], b, base, left);
      assert [a[0]] + (a[1..] + Single(base % 2) + Sparse(b, base + 1, left - 1)) ==
             a + Single(base % 2) + Sparse(b, base + 1, left - 1);
    }
  }

  /** Each rewritten dollar is gone: `left` of them when the text has that many. */
  lemma {:induction false} SparseCount(s: string, base: int, left: nat)
    requires left <= Count(s, '$')
    ensures Count(Sparse(s, base, left), '$') == Count(s, '$') - left
  {
    if s != [] && left > 0 {
      var b := if s[0] == '$' then base + 1 else base;
      var l := if s[0] == '$' then left - 1 else left;
      SparseCount(s[1..], b, l);
      var head: string := if s[0] == '$' then Single(base % 2) else [s[0]];
      CountConcat(head, Sparse(s[1..], b, l), '$');
    }
  }

  /** A formula split over two lines: opened on the first in a closed frame, closed on the second. */
  lemma SparseAlternates()
    ensures Sparse("a $x", 0, 1) == "a \\(x"
    ensures Sparse("y$ b", 1, 1) == "y\\) b"
  {
    SparseNext("a ", "x", 0, 1);
    assert "a " + "$" + "x" == "a $x";
    SparseNext("y", " b", 1, 1);
    assert "y" + "$" + " b" == "y$ b";
  }

  /** One turn of the loop of remove_sparse_dl keeps what is still to be produced in step. */
  lemma SparseLoopStep(line: string, cursor: nat, temp: string, base: int, left: nat, whole: string)
    requires cursor < |line| && left > 0 && temp + Sparse(line[cursor..], base, left) == whole
    ensures line[cursor] == '$' ==> (temp + Single(base % 2)) + Sparse(line[cursor + 1..], base + 1, left - 1) == whole
    ensures line[cursor] != '$' ==> (temp + [line[cursor]]) + Sparse(line[cursor + 1..], base, left) == whole
  {
    var s := line[cursor..];
    assert s[0] == line[cursor] && s[1..] == line[cursor + 1..];
    if line[cursor] == '$' {
      AppendAssoc(temp, Single(base % 2), Sparse(line[cursor + 1..], base + 1, left - 1));
    } else {
      AppendAssoc(temp, [line[cursor]], Sparse(line[cursor + 1..], base, left));
    }
  }

  /** The rewrite remove_sparse_dl makes, as a function of the state. */
  function SparseDl(d: Dollars, line: string): (r: Result<string>)
    ensures r.Ok? <==> PyIndex(|d.dl|, d.newEnv).Some?
  {
    match PyIndex(|d.dl|, d.newEnv)
    case None => Err(NoCurrentFrame)
    case Some(k) =>
      var count := DollarRuns(line, false);
      Ok(Sparse(line, d.dl[k] - count, count))
  }

  /**
   * remove_sparse_dl: as many dollars as the line has runs of them are
   * rewritten, the first by the parity of the frame's counter before the
   * line's own dollars were added to it.
   */
  method RemoveSparseDl(d: Dollars, line: string) returns (r: Result<string>)
    ensures r == SparseDl(d, line)
  {
    var index := PyIndex(|d.dl|, d.newEnv);
    if index.None? {
      return Err(NoCurrentFrame);
    }
    var count := DollarRuns(line, false);
    var overall := d.dl[index.value] - count;
    var cursor: nat := 0;
    var progress: nat := 0;
    var temp := "";
    while cursor < |line| && count > progress
      invariant cursor <= |line| && progress <= count
      invariant temp + Sparse(line[cursor..], overall + progress, count - progress) == Sparse(line, overall, count)
    {
      SparseLoopStep(line, cursor, temp, overall + progress, count - progress, Sparse(line, overall, count));
      if line[cursor] == '$' {
        temp := temp + Single((overall + progress) % 2);
        progress := progress + 1;
      } else {
        temp := temp + [line[cursor]];
      }
      cursor := cursor + 1;
    }
    r := Ok(temp + line[cursor..]);
  }

  // ---------------------------------------------------------------------
  // remove_sparse_ddl
  // ---------------------------------------------------------------------

  /**
   * The text with its first `left` pairs `$$`, found left to right without
   * overlap, each replaced by the same `rep`.
   */
  function Pairs(s: string, rep: string, left: nat): string {
    if |s| < 2 || left == 0 then s
    else if s[0] == '$' && s[1] == '$' then rep + Pairs(s[2..], rep, left - 1)
    else [s[0]] + Pairs(s[1..], rep, left)
  }

  /** Every pair a left-to-right search finds is replaced: each takes two dollars with it. */
  lemma {:induction false} PairsCount(s: string, rep: string)
    requires '$' !in rep
    ensures Count(Pairs(s, rep, DoublePairs(s)), '$') == Count(s, '$') - 2 * DoublePairs(s)
  {
    if |s| >= 2 && DoublePairs(s) > 0 {
      if s[0] == '$' && s[1] == '$' {
        PairsCount(s[2..], rep);
        CountAbsent(rep, '$');
        CountConcat(rep, Pairs(s[2..], rep, DoublePairs(s[2..])), '$');
        assert Count(s, '$') == 2 + Count(s[2..], '$') by { assert s[1..][1..] == s[2..]; }
      } else {
        PairsCount(s[1..], rep);
        CountConcat([s[0]], Pairs(s[1..], rep, DoublePairs(s[1..])), '$');
      }
    }
  }

  /** Unlike single dollars, the pairs of one line all get the same bracket. */
  lemma PairsSame()
    ensures Pairs("$$a$$", "\\[", 2) == "\\[a\\["
  {
    var s := "$$a$$";
    assert s[2..] == "a$$" && "a$$"[1..] == "$$" && "$$"[2..] == "";
  }

  lemma PairsStep(line: string, cursor: nat, rep: string, left: nat)
    requires cursor + 1 < |line| && left > 0
    ensures Pairs(line[cursor..], rep, left) ==
            (if line[cursor] == '$' && line[cursor + 1] == '$' then rep + Pairs(line[cursor + 2..], rep, left - 1)
             else [line[cursor]] + Pairs(line[cursor + 1..], rep, left))
  {
    assert line[cursor..][0] == line[cursor] && line[cursor..][1] == line[cursor + 1];
    assert line[cursor..][1..] == line[cursor + 1..] && line[cursor..][2..] == line[cursor + 2..];
  }

  /** One turn of the remove_sparse_ddl loop keeps what is left to rewrite in step with what is done. */
  lemma PairsLoopStep(line: string, cursor: nat, temp: string, rep: string, left: nat, whole: string)
    requires cursor + 1 < |line| && left > 0
    requires temp + Pairs(line[cursor..], rep, left) == whole
    ensures line[cursor] == '$' && line[cursor + 1] == '$' ==>
              (temp + rep) + Pairs(line[cursor + 2..], rep, left - 1) == whole
    ensures !(line[cursor] == '$' && line[cursor + 1] == '$') ==>
              (temp + [line[cursor]]) + Pairs(line[cursor + 1..], rep, left) == whole
  {
    PairsStep(line, cursor, rep, left);
    if line[cursor] == '$' && line[cursor + 1] == '$' {
      AppendAssoc(temp, rep, Pairs(line[cursor + 2..], rep, left - 1));
    } else {
      AppendAssoc(temp, [line[cursor]], Pairs(line[cursor + 1..], rep, left));
    }
  }

  /** The rewrite remove_sparse_ddl makes, as a function of the state. */
  function SparseDdl(d: Dollars, line: string): (r: Result<string>)
    ensures r.Ok? <==> PyIndex(|d.dd|, d.newEnv).Some?
  {
    match PyIndex(|d.dd|, d.newEnv)
    case None => Err(NoCurrentFrame)
    case Some(k) =>
      var count := DoublePairs(line);
      Ok(Pairs(line, Double((d.dd[k] - count) % 2), count))
  }

  /**
   * remove_sparse_ddl: the loop counts the pairs down instead of counting
   * progress up, so the bracket is chosen once, by the parity of the frame's
   * counter before the line's pairs were added, and used for every pair.
   */
  method RemoveSparseDdl(d: Dollars, line: string) returns (r: Result<string>)
    ensures r == SparseDdl(d, line)
  {
    var index := PyIndex(|d.dd|, d.newEnv);
    if index.None? {
      return Err(NoCurrentFrame);
    }
    var count := DoublePairs(line);
    var overall := d.dd[index.value] - count;
    var progress: nat := 0;
    var rep := Double((overall + progress) % 2);
    var cursor: nat := 0;
    var left: nat := count;
    var temp := "";
    while cursor < |line| - 1 && left > progress
      invariant cursor <= |line| && progress == 0
      invariant temp + Pairs(line[cursor..], rep, left) == Pairs(line, rep, count)
    {
      PairsLoopStep(line, cursor, temp, rep, left, Pairs(line, rep, count));
      if line[cursor] == '$' && line[cursor + 1] == '$' {
        left := left - 1;
        temp := temp + Double((overall + progress) % 2);
        cursor := cursor + 2;
      } else {
        temp := temp + [line[cursor]];
        cursor := cursor + 1;
      }
    }
    r := Ok(temp + line[cursor..]);
  }

  // ---------------------------------------------------------------------
  // remove_dls (older)
  // ---------------------------------------------------------------------

  /**
   * One line of remove_dls: the text groups are rewritten, the line's `$`
   * runs and `$$` pairs counted, the environments searched, the counts added
   * to the current frame; then `$$` and after it `$` are rewritten inline when
   * the frame's counter is even and positive and the line's own count even,
   * and one by one otherwise. Any error stops the whole pass.
   */
  function LineStep(d: Dollars, line: string): (r: Result<(Dollars, string)>)
    ensures Valid(d) && r.Ok? ==> Valid(r.value.0)
  {
    var m := TextEnvFirst(line);
    match SearchForEnvironments(d, m)
    case Err(x) => Err(x)
    case Ok(e) =>
      match AddCounts(e, DollarRuns(m, false), DoublePairs(m))
      case Err(x) => Err(x)
      case Ok(f) =>
        match Rewrite(f, m, DollarRuns(m, false), DoublePairs(m))
        case Err(x) => Err(x)
        case Ok(out) => Ok((f, out))
  }

  /** The line's counts added to the current frame's counters. */
  function AddCounts(e: Dollars, lineDl: nat, lineDdl: nat): (r: Result<Dollars>)
    ensures Valid(e) ==> (r.Ok? <==> e.newEnv >= 0)
    ensures Valid(e) && r.Ok? ==>
      r.value == e.(dl := e.dl[e.newEnv := e.dl[e.newEnv] + lineDl], dd := e.dd[e.newEnv := e.dd[e.newEnv] + lineDdl])
    ensures Valid(e) && r.Ok? ==> Valid(r.value)
  {
    match PyIndex(|e.dl|, e.newEnv)
    case None => Err(NoCurrentFrame)
    case Some(k) =>
      match PyIndex(|e.dd|, e.newEnv)
      case None => Err(NoCurrentFrame)
      case Some(k2) => Ok(e.(dl := e.dl[k := e.dl[k] + lineDl], dd := e.dd[k2 := e.dd[k2] + lineDdl]))
  }

  /**
   * The two rewrites of a line after its counts were added: `$$` first, then
   * `$`, each inline when the frame is open and the line's own count even.
   */
  function Rewrite(f: Dollars, m: string, lineDl: nat, lineDdl: nat): (r: Result<string>)
    ensures Valid(f) ==> (r.Ok? <==> f.newEnv >= 0)
  {
    match FindOpenDls(f, "$$")
    case Err(x) => Err(x)
    case Ok(openDdl) =>
      match (if openDdl && lineDdl % 2 == 0 then Ok(Inline(m, true)) else SparseDdl(f, m))
      case Err(x) => Err(x)
      case Ok(t) =>
        match FindOpenDls(f, "$")
        case Err(x) => Err(x)
        case Ok(openDl) => if openDl && lineDl % 2 == 0 then Ok(Inline(t, false)) else SparseDl(f, t)
  }

  /** remove_dls: the lines in order, the state carried from line to line. */
  function RemoveDlsLegacy(d: Dollars, lines: seq<string>): (r: Result<(Dollars, seq<string>)>)
    ensures r.Ok? ==> |r.value.1| == |lines|
    ensures Valid(d) && r.Ok? ==> Valid(r.value.0)
    decreases |lines|
  {
    if lines == [] then Ok((d, []))
    else
      match LineStep(d, lines[0])
      case Err(x) => Err(x)
      case Ok((e, out)) =>
        match RemoveDlsLegacy(e, lines[1..])
        case Err(x) => Err(x)
        case Ok((f, outs)) => Ok((f, [out] + outs))
  }

  /** A line without a backslash or a dollar comes back as it is, the state too. */
  lemma LineStepPlain(d: Dollars, line: string)
    requires Valid(d) && d.newEnv >= 0 && '\\' !in line && '$' !in line
    ensures LineStep(d, line) == Ok((d, line))
  {
    TextEnvFirstPlain(line);
    NoEnvPlain(line, "end");
    NoEnvPlain(line, "begin");
    CountAbsent(line, '$');
    assert SearchForEnvironments(d, line) == Ok(d);
    AddNothing(d);
    RewritePlain(d, line);
  }

  lemma AddNothing(d: Dollars)
    requires Valid(d) && d.newEnv >= 0
    ensures AddCounts(d, 0, 0) == Ok(d)
  {
    var k := d.newEnv;
    assert d.dl[k := d.dl[k] + 0] == d.dl && d.dd[k := d.dd[k] + 0] == d.dd;
  }

  /** Neither rewrite touches a line without dollars. */
  lemma RewritePlain(d: Dollars, line: string)
    requires Valid(d) && d.newEnv >= 0 && '$' !in line
    ensures Rewrite(d, line, 0, 0) == Ok(line)
  {
    NoDollarNoMatch(line, true);
    NoDollarNoMatch(line, false);
    assert Inline(line, true) == line && Inline(line, false) == line;
    CountAbsent(line, '$');
    assert SparseDdl(d, line) == Ok(line);
    SparsePlain(line, d.dl[d.newEnv], 0);
    assert SparseDl(d, line) == Ok(line);
  }

  /** A line without a backslash or a dollar. */
  predicate PlainLine(line: string) {
    '\\' !in line && '$' !in line
  }

  /** Lines without backslashes and dollars come back as they are, the state unchanged. */
  lemma {:induction false} RemoveDlsLegacyPlain(d: Dollars, lines: seq<string>)
    requires Valid(d) && d.newEnv >= 0
    requires forall k :: 0 <= k < |lines| ==> PlainLine(lines[k])
    ensures RemoveDlsLegacy(d, lines) == Ok((d, lines))
  {
    if lines != [] {
      var rest := lines[1..];
      assert LineStep(d, lines[0]) == Ok((d, lines[0])) by {
        assert PlainLine(lines[0]);
        LineStepPlain(d, lines[0]);
      }
      assert RemoveDlsLegacy(d, rest) == Ok((d, rest)) by {
        assert forall k :: 0 <= k < |rest| ==> PlainLine(rest[k]) by {
          forall k | 0 <= k < |rest| ensures PlainLine(rest[k]) {
            assert rest[k] == lines[k + 1];
          }
        }
        RemoveDlsLegacyPlain(d, rest);
      }
      RemoveDlsCons(d, lines[0], rest, d, lines[0], d, rest);
      assert [lines[0]] + rest == lines;
    }
  }

  /** remove_dls on a first line and the rest: the first line's step, then the rest from its state. */
  lemma RemoveDlsCons(d: Dollars, line: string, rest: seq<string>, e: Dollars, out: string, f: Dollars, outs: seq<string>)
    requires LineStep(d, line) == Ok((e, out))
    requires RemoveDlsLegacy(e, rest) == Ok((f, outs))
    ensures RemoveDlsLegacy(d, [line] + rest) == Ok((f, [out] + outs))
  {
    assert ([line] + rest)[0] == line && ([line] + rest)[1..] == rest;
  }

  /** Earlier output lines put in front of the lines of a run. */
  function Then(outs: seq<string>, r: Result<(Dollars, seq<string>)>): Result<(Dollars, seq<string>)> {
    match r
    case Err(x) => Err(x)
    case Ok((f, more)) => Ok((f, outs + more))
  }

  /** The result of going on over `lines` from the state a first run left. */
  function Continue(r: Result<(Dollars, seq<string>)>, lines: seq<string>): Result<(Dollars, seq<string>)> {
    match r
    case Err(x) => Err(x)
    case Ok((e, outs)) => Then(outs, RemoveDlsLegacy(e, lines))
  }

  /** An output line put in front of the lines of a run. */
  function Cons(out: string, r: Result<(Dollars, seq<string>)>): Result<(Dollars, seq<string>)> {
    match r
    case Err(x) => Err(x)
    case Ok((f, outs)) => Ok((f, [out] + outs))
  }

  /** The result of one line's step followed by the run over the rest. */
  function Prepend(step: Result<(Dollars, string)>, rest: seq<string>): Result<(Dollars, seq<string>)> {
    match step
    case Err(x) => Err(x)
    case Ok((e, out)) => Cons(out, RemoveDlsLegacy(e, rest))
  }

  lemma RemoveDlsUnfold(d: Dollars, lines: seq<string>)
    requires lines != []
    ensures RemoveDlsLegacy(d, lines) == Prepend(LineStep(d, lines[0]), lines[1..])
  {
  }

  /** Going on after an output line is putting it in front of going on. */
  lemma ConsContinue(out: string, r: Result<(Dollars, seq<string>)>, b: seq<string>)
    ensures Cons(out, Continue(r, b)) == Continue(Cons(out, r), b)
  {
    match r
    case Err(x) =>
    case Ok((f, outs)) =>
      ConsOk(out, outs, RemoveDlsLegacy(f, b));
  }

  lemma ConsOk(out: string, outs: seq<string>, rb: Result<(Dollars, seq<string>)>)
    ensures Cons(out, Then(outs, rb)) == Then([out] + outs, rb)
  {
    match rb
    case Err(x) =>
    case Ok((g, more)) =>
      assert [out] + outs + more == [out] + (outs + more);
  }

  /**
   * The state carries over from line to line and nothing else does:
   * treating `a + b` is treating `a`, then `b` from the state `a` left,
   * with the outputs concatenated; an error in `a` is the error of the whole.
   */
  lemma {:induction false} RemoveDlsAppend(d: Dollars, a: seq<string>, b: seq<string>)
    ensures RemoveDlsLegacy(d, a + b) == Continue(RemoveDlsLegacy(d, a), b)
    decreases |a|
  {
    if a == [] {
      assert a + b == b;
      match RemoveDlsLegacy(d, b)
      case Err(x) =>
      case Ok((f, more)) => assert [] + more == more;
    } else {
      assert (a + b)[0] == a[0] && (a + b)[1..] == a[1..] + b;
      var step := LineStep(d, a[0]);
      RemoveDlsUnfold(d, a);
      RemoveDlsUnfold(d, a + b);
      if step.Ok? {
        RemoveDlsAppend(step.value.0, a[1..], b);
        ConsContinue(step.value.1, RemoveDlsLegacy(step.value.0, a[1..]), b);
      }
    }
  }

}

=== FILE: macros.dfy ===
/**
 * The `Macro` record of src/Py/modules.py, the definition parser that builds
 * one from a preamble line, and the registry `gather_macro` fills.
 */
module Macros {
  import opened Wrappers
  import opened Strings
  import opened Definitions

  /**
   * One definition: the command word (group 1), the name with its backslash
   * (group 3), the opening and closing separators (groups 7 and 9), the
   * argument count as written (group 6, absent when there is none) and the
   * replacement text. A line that does not match gives no `Macro` at all:
   * the empty record of the source is `None` here.
   */
  datatype Macro = Macro(commandType: string, name: string, open: char, close: char,
                         arity: Option<char>, replacement: string)

  /** `multi`: the argument count is a non-empty string, so even "0" counts. */
  predicate Multi(m: Macro) {
    m.arity.Some?
  }

  /** The argument count as a number (`int(number_of_inputs)`). */
  function ArgCount(m: Macro): nat
    requires Multi(m) && IsDigit(m.arity.value)
  {
    (m.arity.value as int) - ('0' as int)
  }

  /** A backslash followed by at least one letter. */
  predicate IsName(name: string) {
    |name| >= 2 && name[0] == '\\' && forall k :: 1 <= k < |name| ==> IsLetter(name[k])
  }

  /** What every parsed macro satisfies. */
  predicate WellFormed(m: Macro) {
    IsName(m.name) && (m.open == '{' || m.open == '#') && (m.close == '}' || m.close == '#') &&
    (Multi(m) ==> IsDigit(m.arity.value))
  }

  const OperatorName := "DeclareMathOperator"

  /** A math-operator body is wrapped so that it still reads as an operator. */
  function Enhance(commandType: string, raw: string): (r: string)
    ensures commandType != OperatorName ==> r == raw
    ensures commandType == OperatorName ==> |r| == |raw| + 15 && r[14..|r| - 1] == raw
  {
    if commandType == OperatorName then "\\operatorname{" + raw + "}" else raw
  }

  /** The group boundaries are in order inside the line. */
  predicate Ordered(s: string, c: Cut) {
    c.p < c.e1 <= c.e2 <= c.e3 <= c.e4 <= c.e5 < c.m < |s|
  }

  /** The macro a match describes. */
  function FromCut(s: string, c: Cut): Macro
    requires Ordered(s, c)
  {
    var cmd := s[c.p + 1..c.e1];
    Macro(cmd, s[c.e2..c.e3], s[c.e5], s[c.m],
          if c.e4 < c.e5 && s[c.e4] == '[' then Some(s[c.e4 + 1]) else None,
          Enhance(cmd, CleanBody(Current, s[c.e5 + 1..c.m])))
  }

  /** Some substring of the line matches the definition pattern. */
  ghost predicate IsDefinition(line: string) {
    exists c :: ValidCut(line, Current, c)
  }

  /**
   * parse_macro_structure: the first definition on the line, if the
   * definition pattern matches anywhere in it.
   */
  function ParseMacro(line: string): (r: Option<Macro>)
    ensures r.Some? <==> IsDefinition(line)
    ensures r.Some? ==> WellFormed(r.value) && Contains(line, r.value.name)
  {
    SearchIsRegexSearch(line, Current);
    var found := Search(line, Current);
    if found.None? then None
    else
      FromCutFacts(line, found.value);
      Some(FromCut(line, found.value))
  }

  /** The macro of a match is well formed and its name is part of the line. */
  lemma FromCutFacts(s: string, c: Cut)
    requires ValidCut(s, Current, c)
    ensures WellFormed(FromCut(s, c)) && Contains(s, FromCut(s, c).name)
  {
    var name := s[c.e2..c.e3];
    assert OccursAt(s, name, c.e2);
    forall k | 1 <= k < |name| ensures IsLetter(name[k]) {
      assert name[k] == s[c.e2 + k];
    }
  }

  /**
   * A definition written as `\cmd{\name}[d]{body}` (or without the braces
   * around the name) parses to exactly its pieces, with the body cleaned and,
   * for a math operator, wrapped.
   */
  lemma ParseRendered(cmd: string, braced: bool, name: string, arity: Option<char>, body: string)
    requires Renderable(cmd, name, arity, body)
    ensures ParseMacro(Render(cmd, braced, name, arity, body)) ==
            Some(Macro(cmd, name, '{', '}', arity, Enhance(cmd, CleanBody(Current, body))))
  {
    var s := Render(cmd, braced, name, arity, body);
    var c := RenderCut(cmd, braced, name, arity, body);
    RenderSearch(Current, cmd, braced, name, arity, body);
    ParseFound(s, c);
    RenderLaid(cmd, braced, name, arity, body);
    FromLaid(s, cmd, braced, name, arity, body);
  }

  /** What the search finds is what the parser returns. */
  lemma ParseFound(line: string, c: Cut)
    requires Search(line, Current) == Some(c)
    ensures ValidCut(line, Current, c) && ParseMacro(line) == Some(FromCut(line, c))
  {
    SearchIsRegexSearch(line, Current);
  }

  /** The macro read off a rendered definition's own cut. */
  lemma FromLaid(s: string, cmd: string, braced: bool, name: string, arity: Option<char>, body: string)
    requires Laid(s, cmd, braced, name, arity, body)
    ensures Ordered(s, RenderCut(cmd, braced, name, arity, body))
    ensures FromCut(s, RenderCut(cmd, braced, name, arity, body)) ==
            Macro(cmd, name, '{', '}', arity, Enhance(cmd, CleanBody(Current, body)))
  {
    var c := RenderCut(cmd, braced, name, arity, body);
    assert s[c.p + 1..c.e1] == cmd && s[c.e2..c.e3] == name && s[c.e5 + 1..c.m] == body;
    SpecArity(s, c.e4, c.e5, arity);
  }

  /** The argument count read back from its rendered text. */
  lemma SpecArity(s: string, e4: nat, e5: nat, arity: Option<char>)
    requires e4 <= e5 <= |s| && s[e4..e5] == SpecText(arity)
    ensures e4 < e5 ==> e4 + 1 < |s|
    ensures (if e4 < e5 && s[e4] == '[' then Some(s[e4 + 1]) else None) == arity
  {
    if arity.Some? {
      assert s[e4] == SpecText(arity)[0];
      assert s[e4 + 1] == SpecText(arity)[1];
    }
  }

  /** The example `\newcommand{\weird}[3]{#1 and #2 and #3}`, built by `Render`. */
  lemma ParseWeird()
    ensures ParseMacro(Render("newcommand", true, "\\weird", Some('3'), "#1 and #2 and #3")) ==
            Some(Macro("newcommand", "\\weird", '{', '}', Some('3'), "#1 and #2 and #3"))
  {
    WeirdRenderable();
    ParseRendered("newcommand", true, "\\weird", Some('3'), "#1 and #2 and #3");
    WeirdBodyClean();
  }

  lemma WeirdRenderable()
    ensures Renderable("newcommand", "\\weird", Some('3'), "#1 and #2 and #3")
  {
    ShortNoCommand("\\weird");
    NoCommandIn("#1 and #2 and #3");
    assert "newcommand"[3..] == "command";
  }

  lemma WeirdBodyClean()
    ensures Enhance("newcommand", CleanBody(Current, "#1 and #2 and #3")) == "#1 and #2 and #3"
  {
    CleanBodyPlain(Current, "#1 and #2 and #3");
  }

  /** A math operator's body comes back wrapped in `\operatorname{...}`. */
  lemma ParseOperator(name: string, body: string)
    requires Renderable(OperatorName, name, None, body)
    ensures ParseMacro(Render(OperatorName, true, name, None, body)) ==
            Some(Macro(OperatorName, name, '{', '}', None,
                       "\\operatorname{" + CleanBody(Current, body) + "}"))
  {
    ParseRendered(OperatorName, true, name, None, body);
  }

  /** A text without the letter 'c' does not contain "command". */
  lemma NoCommandIn(s: string)
    requires forall k :: 0 <= k < |s| ==> s[k] != 'c'
    ensures !Contains(s, "command")
  {
    forall i | 0 <= i <= |s| ensures !OccursAt(s, "command", i) {
      if i < |s| {
        assert s[i..][0] == s[i];
      }
    }
  }

  // ---------------------------------------------------------------------
  // The package check and insertion of the Text class
  // ---------------------------------------------------------------------

  /** find_axessibility: the line loads the package, with or without a blank. */
  predicate FindAxessibility(line: string) {
    Contains(line, "sepackage {axessibility}") || Contains(line, "sepackage{axessibility}")
  }

  const BeginDocument := "\\begin{document}"
  const UsePackage := "\\usepackage{axessibility}"

  /** add_axessibility: every `\begin{document}` gets the package line before it. */
  function AddAxessibility(line: string): string {
    ReplaceAll(line, BeginDocument, UsePackage + "\n" + BeginDocument)
  }

  /** A line without `\begin{document}` is left alone. */
  lemma AddAxessibilityAbsent(line: string)
    requires !Contains(line, BeginDocument)
    ensures AddAxessibility(line) == line
  {
    ReplaceAllAbsent(line, BeginDocument, UsePackage + "\n" + BeginDocument);
  }

  /** After insertion into a line that starts the document, the package is found. */
  lemma AddThenFind(line: string)
    requires Contains(line, BeginDocument)
    ensures FindAxessibility(AddAxessibility(line))
  {
    var rep := UsePackage + "\n" + BeginDocument;
    ReplaceAllIntroduces(line, BeginDocument, rep);
    PackageLineLoads();
    ContainsWithin(AddAxessibility(line), rep, "sepackage{axessibility}");
  }

  /** The inserted text itself loads the package. */
  lemma PackageLineLoads()
    ensures Contains(UsePackage + "\n" + BeginDocument, "sepackage{axessibility}")
  {
    var rep := UsePackage + "\n" + BeginDocument;
    assert UsePackage == "\\u" + "sepackage{axessibility}";
    assert rep == "\\u" + ("sepackage{axessibility}" + ("\n" + BeginDocument));
    assert OccursAt(rep, "sepackage{axessibility}", 2);
  }

  /** If the pattern occurs, the replacement text appears in the result. */
  lemma {:induction false} ReplaceAllIntroduces(s: string, pat: string, rep: string)
    requires |pat| > 0 && Contains(s, pat)
    ensures Contains(ReplaceAll(s, pat, rep), rep)
    decreases |s|
  {
    var r := ReplaceAll(s, pat, rep);
    if pat <= s {
      assert OccursAt(r, rep, 0);
    } else {
      var i :| 0 <= i <= |s| && OccursAt(s, pat, i);
      assert i != 0;
      assert pat <= s[1..][i - 1..];
      assert OccursAt(s[1..], pat, i - 1);
      ReplaceAllIntroduces(s[1..], pat, rep);
      ContainsConcat([s[0]], ReplaceAll(s[1..], pat, rep), rep);
    }
  }

  /** Containment is transitive. */
  lemma ContainsWithin(s: string, t: string, u: string)
    requires Contains(s, t) && Contains(t, u)
    ensures Contains(s, u)
  {
    var i :| 0 <= i <= |s| && OccursAt(s, t, i);
    var j :| 0 <= j <= |t| && OccursAt(t, u, j);
    assert s[i + j..][..|u|] == t[j..][..|u|];
    assert OccursAt(s, u, i + j);
  }

  // ---------------------------------------------------------------------
  // The registry and gather_macro
  // ---------------------------------------------------------------------

  /** The state `MacroMethods` keeps: the ordered definitions and the package flag. */
  datatype Registry = Registry(macros: seq<Macro>, axessibilityFound: bool)

  const EmptyRegistry := Registry([], false)

  /** `START_PATTERN`: the line opens the document body. */
  predicate IsStart(line: string) {
    Contains(line, "egin{document}")
  }

  /** `END_PATTERN`: the line closes the document body. */
  predicate IsEnd(line: string) {
    Contains(line, "nd{document}")
  }

  /** Number of leading lines before the first one that opens the document. */
  function PreambleLength(lines: seq<string>): (n: nat)
    ensures n <= |lines|
    ensures forall k :: 0 <= k < n ==> !IsStart(lines[k])
    ensures n < |lines| ==> IsStart(lines[n])
  {
    if lines == [] || IsStart(lines[0]) then 0 else 1 + PreambleLength(lines[1..])
  }

  /** The scan stops exactly at the end of the preamble. */
  lemma PreambleStop(lines: seq<string>, i: nat)
    requires i <= PreambleLength(lines) && (i == |lines| || IsStart(lines[i]))
    ensures i == PreambleLength(lines)
  {
  }

  /** The present values of `f` over `xs`, in order. */
  function Collect<T>(xs: seq<string>, f: string -> Option<T>): seq<T> {
    if xs == [] then []
    else (if f(xs[0]).Some? then [f(xs[0]).value] else []) + Collect(xs[1..], f)
  }

  lemma {:induction false} CollectSnoc<T>(xs: seq<string>, x: string, f: string -> Option<T>)
    ensures Collect(xs + [x], f) == Collect(xs, f) + (if f(x).Some? then [f(x).value] else [])
    decreases |xs|
  {
    if xs != [] {
      assert (xs + [x])[1..] == xs[1..] + [x];
      CollectSnoc(xs[1..], x, f);
    } else {
      assert [x][1..] == [];
    }
  }

  /** The definitions parsed from `lines`, in line order, non-matching lines skipped. */
  function ParsedAll(lines: seq<string>): seq<Macro> {
    Collect(lines, ParseMacro)
  }

  /** Some line in `lines` loads the package. */
  predicate AnyAxessibility(lines: seq<string>) {
    exists k :: 0 <= k < |lines| && FindAxessibility(lines[k])
  }

  /** Scanning one more line sets the flag iff it or an earlier line loads the package. */
  lemma AnySnoc(lines: seq<string>, line: string)
    ensures AnyAxessibility(lines + [line]) == (AnyAxessibility(lines) || FindAxessibility(line))
  {
    if FindAxessibility(line) {
      assert (lines + [line])[|lines|] == line;
    }
    if AnyAxessibility(lines) {
      var k :| 0 <= k < |lines| && FindAxessibility(lines[k]);
      assert (lines + [line])[k] == lines[k];
    }
  }

  /** What scanning line `i` adds to the registry. */
  lemma GatherStep(lines: seq<string>, i: nat)
    requires i < |lines|
    ensures ParsedAll(lines[..i + 1]) ==
            ParsedAll(lines[..i]) + (if ParseMacro(lines[i]).Some? then [ParseMacro(lines[i]).value] else [])
    ensures AnyAxessibility(lines[..i + 1]) == (AnyAxessibility(lines[..i]) || FindAxessibility(lines[i]))
  {
    assert lines[..i + 1] == lines[..i] + [lines[i]];
    CollectSnoc(lines[..i], lines[i], ParseMacro);
    AnySnoc(lines[..i], lines[i]);
  }

  /**
   * gather_macro: scan the lines of `text` up to the first one opening the
   * document; append each parsed definition after the existing ones and set
   * the flag when a scanned line loads the package.
   */
  method Gather(reg: Registry, text: string) returns (r: Registry)
    ensures var lines := Split(text, '\n');
      var pre := lines[..PreambleLength(lines)];
      r.macros == reg.macros + ParsedAll(pre) &&
      r.axessibilityFound == (reg.axessibilityFound || AnyAxessibility(pre))
  {
    var lines := Split(text, '\n');
    var found := reg.axessibilityFound;
    var added: seq<Macro> := [];
    var i := 0;
    while i < |lines| && !IsStart(lines[i])
      invariant i <= PreambleLength(lines)
      invariant added == ParsedAll(lines[..i])
      invariant found == (reg.axessibilityFound || AnyAxessibility(lines[..i]))
    {
      var m := ParseMacro(lines[i]);
      if m.Some? {
        added := added + [m.value];
      }
      if FindAxessibility(lines[i]) {
        found := true;
      }
      GatherStep(lines, i);
      i := i + 1;
    }
    PreambleStop(lines, i);
    r := Registry(reg.macros + added, found);
  }

  /** Parsing keeps only well-formed definitions that occur in the scanned lines. */
  lemma {:induction false} ParsedAllWellFormed(lines: seq<string>)
    ensures forall k :: 0 <= k < |ParsedAll(lines)| ==> WellFormed(ParsedAll(lines)[k])
  {
    if lines != [] {
      ParsedAllWellFormed(lines[1..]);
      assert ParsedAll(lines) == (if ParseMacro(lines[0]).Some? then [ParseMacro(lines[0]).value] else []) + ParsedAll(lines[1..]);
    }
  }
}

=== FILE: strings.dfy ===
/**
 * String vocabulary shared by the whole model: Python's character classes,
 * substring search, `str.split` / `str.join`, `str.replace`, and the
 * subsequence relation used to say that a pass only deletes characters.
 */
module Strings {
  import opened Wrappers

  /** `[a-zA-Z]` */
  predicate IsLetter(c: char) {
    ('a' <= c <= 'z') || ('A' <= c <= 'Z')
  }

  /** `[0-9]` */
  predicate IsDigit(c: char) {
    '0' <= c <= '9'
  }

  /** Python's `str.isspace()`, which is also what `\s` matches in a `str` pattern. */
  predicate IsSpace(c: char) {
    c == ' ' || c == '\t' || c == '\n' || c == '\U{b}' || c == '\U{c}' || c == '\r'
    || ('\U{1c}' <= c <= '\U{1f}') || c == '\U{85}' || c == '\U{a0}' || c == '\U{1680}'
    || ('\U{2000}' <= c <= '\U{200a}') || c == '\U{2028}' || c == '\U{2029}'
    || c == '\U{202f}' || c == '\U{205f}' || c == '\U{3000}'
  }

  /** The class `[\x00-\x08\x0b\x0c\x0e-\x1f\x7f-\xff]` deleted by do_inline_sub (modules.py:431). */
  predicate IsControl(c: char) {
    ('\U{0}' <= c <= '\U{8}') || c == '\U{b}' || c == '\U{c}' || ('\U{e}' <= c <= '\U{1f}')
    || ('\U{7f}' <= c <= '\U{ff}')
  }

  /** Every character of `s` is whitespace and there is at least one: `str.isspace()`. */
  predicate IsBlank(s: string) {
    |s| > 0 && forall i :: 0 <= i < |s| ==> IsSpace(s[i])
  }

  /** `s.rstrip()` is non-empty: some character of `s` is not whitespace. */
  predicate HasContent(s: string) {
    exists i :: 0 <= i < |s| && !IsSpace(s[i])
  }

  /** Number of occurrences of `c` in `s`. */
  function Count(s: string, c: char): nat {
    if s == [] then 0 else (if s[0] == c then 1 else 0) + Count(s[1..], c)
  }

  /** Length of the maximal run of letters at the start of `s`. */
  function LetterRun(s: string): (n: nat)
    ensures n <= |s|
  {
    if s != [] && IsLetter(s[0]) then 1 + LetterRun(s[1..]) else 0
  }

  /** `LetterRun` is the maximal run: letters up to it, no letter at it. */
  lemma {:induction false} LetterRunMaximal(s: string)
    ensures forall i :: 0 <= i < LetterRun(s) ==> IsLetter(s[i])
    ensures LetterRun(s) < |s| ==> !IsLetter(s[LetterRun(s)])
    decreases |s|
  {
    if s != [] && IsLetter(s[0]) {
      LetterRunMaximal(s[1..]);
    }
  }

  /** Length of the maximal run of whitespace at the start of `s`. */
  function SpaceRun(s: string): (n: nat)
    ensures n <= |s|
  {
    if s != [] && IsSpace(s[0]) then 1 + SpaceRun(s[1..]) else 0
  }

  /** `SpaceRun` is the maximal run: whitespace up to it, none at it. */
  lemma {:induction false} SpaceRunMaximal(s: string)
    ensures forall i :: 0 <= i < SpaceRun(s) ==> IsSpace(s[i])
    ensures SpaceRun(s) < |s| ==> !IsSpace(s[SpaceRun(s)])
    decreases |s|
  {
    if s != [] && IsSpace(s[0]) {
      SpaceRunMaximal(s[1..]);
    }
  }

  /** A leading stretch of whitespace adds its length to the run. */
  lemma {:induction false} SpaceRunPrefix(sp: string, t: string)
    requires forall i :: 0 <= i < |sp| ==> IsSpace(sp[i])
    ensures SpaceRun(sp + t) == |sp| + SpaceRun(t)
    decreases |sp|
  {
    if sp != [] {
      assert (sp + t)[0] == sp[0];
      assert (sp + t)[1..] == sp[1..] + t;
      SpaceRunPrefix(sp[1..], t);
    } else {
      assert sp + t == t;
    }
  }

  /** `t` occurs in `s` starting at `i`. */
  predicate OccursAt(s: string, t: string, i: nat) {
    i <= |s| && t <= s[i..]
  }

  /** Index of the first occurrence of `t` in `s` at or after `from` (`str.find`). */
  function IndexFrom(s: string, t: string, from: nat): (r: Option<nat>)
    decreases |s| - from
    ensures r.Some? ==> from <= r.value && OccursAt(s, t, r.value)
    ensures r.Some? ==> forall j :: from <= j < r.value ==> !OccursAt(s, t, j)
    ensures r.None? ==> forall j :: from <= j ==> !OccursAt(s, t, j)
  {
    if from > |s| then None
    else if t <= s[from..] then Some(from)
    else IndexFrom(s, t, from + 1)
  }

  /** Index of the first occurrence of `t` in `s`. */
  function IndexOf(s: string, t: string): Option<nat> {
    IndexFrom(s, t, 0)
  }

  /** `t in s`, or `re.search` of a pattern without metacharacters. */
  predicate Contains(s: string, t: string) {
    exists i :: 0 <= i <= |s| && OccursAt(s, t, i)
  }

  lemma IndexOfContains(s: string, t: string)
    ensures IndexOf(s, t).Some? <==> Contains(s, t)
  {
    if IndexOf(s, t).Some? {
      assert OccursAt(s, t, IndexOf(s, t).value);
    }
  }

  lemma ContainsConcat(a: string, b: string, t: string)
    requires Contains(b, t)
    ensures Contains(a + b, t) && Contains(b + a, t)
  {
    var i :| 0 <= i <= |b| && OccursAt(b, t, i);
    assert (a + b)[|a| + i..] == b[i..];
    assert OccursAt(a + b, t, |a| + i);
    assert t <= (b + a)[i..];
    assert OccursAt(b + a, t, i);
  }

  lemma ContainsSlice(s: string, lo: nat, hi: nat, t: string)
    requires lo <= hi <= |s|
    requires Contains(s[lo..hi], t)
    ensures Contains(s, t)
  {
    var i :| 0 <= i <= hi - lo && OccursAt(s[lo..hi], t, i);
    assert t <= s[lo + i..];
    assert OccursAt(s, t, lo + i);
  }

  /** Python's `s.split(c)`: always at least one piece. */
  function Split(s: string, c: char): (parts: seq<string>)
    ensures |parts| >= 1
    ensures forall k :: 0 <= k < |parts| ==> c !in parts[k]
  {
    SplitFrom(s, c, [])
  }

  /** `Split` with `acc` already read into the current piece. */
  function SplitFrom(s: string, c: char, acc: string): (parts: seq<string>)
    requires c !in acc
    ensures |parts| >= 1
    ensures forall k :: 0 <= k < |parts| ==> c !in parts[k]
    decreases |s|
  {
    if s == [] then [acc]
    else if s[0] == c then [acc] + SplitFrom(s[1..], c, [])
    else SplitFrom(s[1..], c, acc + [s[0]])
  }

  /** Python's `c.join(parts)`. */
  function Join(parts: seq<string>, c: char): string {
    if parts == [] then []
    else if |parts| == 1 then parts[0]
    else parts[0] + [c] + Join(parts[1..], c)
  }

  lemma {:induction false} JoinSplitFrom(s: string, c: char, acc: string)
    requires c !in acc
    ensures Join(SplitFrom(s, c, acc), c) == acc + s
    decreases |s|
  {
    if s == [] {
    } else if s[0] == c {
      JoinSplitFrom(s[1..], c, []);
      assert s == [c] + s[1..];
    } else {
      JoinSplitFrom(s[1..], c, acc + [s[0]]);
      assert acc + [s[0]] + s[1..] == acc + s;
    }
  }

  /** Joining the pieces of a split restores the text. */
  lemma JoinSplit(s: string, c: char)
    ensures Join(Split(s, c), c) == s
  {
    JoinSplitFrom(s, c, []);
  }

  lemma {:induction false} CountSplitFrom(s: string, c: char, acc: string)
    requires c !in acc
    ensures |SplitFrom(s, c, acc)| == Count(s, c) + 1
    decreases |s|
  {
    if s == [] {
    } else if s[0] == c {
      CountSplitFrom(s[1..], c, []);
    } else {
      CountSplitFrom(s[1..], c, acc + [s[0]]);
    }
  }

  /** A text with n separators splits into n+1 pieces. */
  lemma SplitCount(s: string, c: char)
    ensures |Split(s, c)| == Count(s, c) + 1
  {
    CountSplitFrom(s, c, []);
  }

  lemma CountConcat(a: string, b: string, c: char)
    ensures Count(a + b, c) == Count(a, c) + Count(b, c)
  {
    if a == [] {
      assert a + b == b;
    } else {
      assert (a + b)[1..] == a[1..] + b;
      CountConcat(a[1..], b, c);
    }
  }

  lemma CountAbsent(s: string, c: char)
    requires c !in s
    ensures Count(s, c) == 0
  {
    if s != [] {
      CountAbsent(s[1..], c);
    }
  }

  lemma {:induction false} CountJoin(parts: seq<string>, c: char)
    requires forall k :: 0 <= k < |parts| ==> c !in parts[k]
    requires |parts| >= 1
    ensures Count(Join(parts, c), c) == |parts| - 1
  {
    if |parts| == 1 {
      CountAbsent(parts[0], c);
    } else {
      CountJoin(parts[1..], c);
      CountAbsent(parts[0], c);
      CountConcat(parts[0] + [c], Join(parts[1..], c), c);
      CountConcat(parts[0], [c], c);
    }
  }

  /** Splitting what was joined gives back as many pieces (at least one). */
  lemma SplitJoinCount(parts: seq<string>, c: char)
    requires forall k :: 0 <= k < |parts| ==> c !in parts[k]
    ensures |Split(Join(parts, c), c)| == if parts == [] then 1 else |parts|
  {
    SplitCount(Join(parts, c), c);
    if parts != [] {
      CountJoin(parts, c);
    }
  }

  /** A stretch without the separator is read into the current piece. */
  lemma {:induction false} SplitFromPlain(x: string, rest: string, c: char, acc: string)
    requires c !in acc && c !in x
    ensures SplitFrom(x + rest, c, acc) == SplitFrom(rest, c, acc + x)
    decreases |x|
  {
    if x == [] {
      assert x + rest == rest && acc + x == acc;
    } else {
      assert (x + rest)[0] == x[0] && (x + rest)[1..] == x[1..] + rest;
      assert x[0] in x;
      SplitFromPlain(x[1..], rest, c, acc + [x[0]]);
      assert acc + [x[0]] + x[1..] == acc + x;
    }
  }

  lemma {:induction false} SplitFromJoin(parts: seq<string>, c: char, acc: string)
    requires |parts| >= 1 && c !in acc
    requires forall k :: 0 <= k < |parts| ==> c !in parts[k]
    ensures SplitFrom(Join(parts, c), c, acc) == [acc + parts[0]] + parts[1..]
    decreases |parts|
  {
    if |parts| == 1 {
      SplitFromPlain(parts[0], [], c, acc);
      assert parts[0] + [] == parts[0];
    } else {
      var tail := Join(parts[1..], c);
      assert Join(parts, c) == parts[0] + ([c] + tail);
      SplitFromPlain(parts[0], [c] + tail, c, acc);
      assert ([c] + tail)[1..] == tail;
      SplitFromJoin(parts[1..], c, []);
      assert [] + parts[1..][0] == parts[1];
      assert parts[1..] == [parts[1]] + parts[2..];
    }
  }

  /** Splitting what was joined gives back the pieces, when none holds the separator. */
  lemma SplitJoin(parts: seq<string>, c: char)
    requires |parts| >= 1
    requires forall k :: 0 <= k < |parts| ==> c !in parts[k]
    ensures Split(Join(parts, c), c) == parts
  {
    SplitFromJoin(parts, c, []);
    assert [] + parts[0] == parts[0];
  }

  /** A character other than the separator is in the joined text only if some piece has it. */
  lemma {:induction false} JoinAvoids(parts: seq<string>, c: char, x: char)
    requires x != c && forall k :: 0 <= k < |parts| ==> x !in parts[k]
    ensures x !in Join(parts, c)
    decreases |parts|
  {
    if |parts| > 1 {
      JoinAvoids(parts[1..], c, x);
    }
  }

  /** A text without the first character of `t` does not contain `t`. */
  lemma AbsentHead(s: string, t: string)
    requires |t| > 0 && t[0] !in s
    ensures !Contains(s, t)
  {
    forall i | 0 <= i <= |s| ensures !OccursAt(s, t, i) {
      if i < |s| {
        assert s[i] in s && s[i..][0] == s[i];
      }
    }
  }

  /** Python's `s.replace(pat, rep)`: every non-overlapping occurrence, left to right. */
  function ReplaceAll(s: string, pat: string, rep: string): string
    requires |pat| > 0
    decreases |s|
  {
    if |s| < |pat| then s
    else if pat <= s then rep + ReplaceAll(s[|pat|..], pat, rep)
    else [s[0]] + ReplaceAll(s[1..], pat, rep)
  }

  lemma ReplaceAllAbsent(s: string, pat: string, rep: string)
    requires |pat| > 0
    requires !Contains(s, pat)
    ensures ReplaceAll(s, pat, rep) == s
    decreases |s|
  {
    if |s| >= |pat| {
      assert !OccursAt(s, pat, 0);
      assert s[1..|s|] == s[1..];
      if Contains(s[1..], pat) {
        ContainsSlice(s, 1, |s|, pat);
      }
      ReplaceAllAbsent(s[1..], pat, rep);
    }
  }

  /** Text before an occurrence that cannot start one is kept as it is. */
  lemma {:induction false} ReplaceAllPrefix(a: string, pat: string, b: string, rep: string)
    requires |pat| > 0 && pat[0] !in a
    ensures ReplaceAll(a + pat + b, pat, rep) == a + rep + ReplaceAll(b, pat, rep)
    decreases |a|
  {
    if a == [] {
      assert a + pat + b == pat + b;
      assert (pat + b)[|pat|..] == b;
    } else {
      assert (a + pat + b)[0] == a[0] != pat[0];
      assert (a + pat + b)[1..] == a[1..] + pat + b;
      ReplaceAllPrefix(a[1..], pat, b, rep);
      assert a + rep + ReplaceAll(b, pat, rep) == [a[0]] + (a[1..] + rep + ReplaceAll(b, pat, rep));
    }
  }

  /** An occurrence that is not at the front is an occurrence in the tail. */
  lemma ContainsTail(s: string, t: string)
    requires Contains(s, t) && !OccursAt(s, t, 0)
    ensures Contains(s[1..], t)
  {
    var i :| 0 <= i <= |s| && OccursAt(s, t, i);
    assert i >= 1;
    assert s[1..][i - 1..] == s[i..];
    assert OccursAt(s[1..], t, i - 1);
  }

  /** Before the first occurrence, every character is copied. */
  lemma {:induction false} ReplaceAllBefore(s: string, pat: string, rep: string, a: nat)
    requires |pat| > 0 && a <= |s|
    requires forall k :: 0 <= k < a ==> !OccursAt(s, pat, k)
    ensures ReplaceAll(s, pat, rep) == s[..a] + ReplaceAll(s[a..], pat, rep)
    decreases a
  {
    if a > 0 && |s| >= |pat| {
      assert !OccursAt(s, pat, 0);
      forall k | 0 <= k < a - 1 ensures !OccursAt(s[1..], pat, k) {
        assert s[1..][k..] == s[k + 1..];
        assert !OccursAt(s, pat, k + 1);
      }
      ReplaceAllBefore(s[1..], pat, rep, a - 1);
      assert s[1..][a - 1..] == s[a..];
      assert s[..a] == [s[0]] + s[1..][..a - 1];
    } else if a > 0 {
      assert |s[a..]| < |pat|;
      assert s[..a] + s[a..] == s;
    }
  }

  /** A pattern that occurs exactly once, at `a`, is replaced there and nowhere else. */
  lemma ReplaceAllOnce(s: string, pat: string, rep: string, a: nat)
    requires |pat| > 0 && OccursAt(s, pat, a)
    requires forall k :: 0 <= k <= |s| && k != a ==> !OccursAt(s, pat, k)
    ensures a + |pat| <= |s|
    ensures ReplaceAll(s, pat, rep) == s[..a] + rep + s[a + |pat|..]
  {
    var e := a + |pat|;
    ReplaceAllBefore(s, pat, rep, a);
    assert s[a..][|pat|..] == s[e..];
    if Contains(s[e..], pat) {
      var i :| 0 <= i <= |s[e..]| && OccursAt(s[e..], pat, i);
      assert s[e..][i..] == s[e + i..];
      assert OccursAt(s, pat, e + i);
    }
    ReplaceAllAbsent(s[e..], pat, rep);
  }

  /**
   * Replacing `pat` by `rep` changes how often `c` occurs by the difference
   * per occurrence: never more when `rep` has no more `c` than `pat`, not at
   * all when both have as many, and strictly fewer when `rep` has fewer and
   * `pat` occurs.
   */
  lemma {:induction false} ReplaceAllCount(s: string, pat: string, rep: string, c: char)
    requires |pat| > 0 && Count(rep, c) <= Count(pat, c)
    ensures Count(ReplaceAll(s, pat, rep), c) <= Count(s, c)
    ensures Count(rep, c) == Count(pat, c) ==> Count(ReplaceAll(s, pat, rep), c) == Count(s, c)
    ensures Count(rep, c) < Count(pat, c) && Contains(s, pat) ==> Count(ReplaceAll(s, pat, rep), c) < Count(s, c)
    decreases |s|
  {
    if |s| < |pat| {
    } else if pat <= s {
      var rest := s[|pat|..];
      ReplaceAllCount(rest, pat, rep, c);
      assert s == pat + rest;
      CountConcat(pat, rest, c);
      CountConcat(rep, ReplaceAll(rest, pat, rep), c);
    } else {
      ReplaceAllCount(s[1..], pat, rep, c);
      assert ReplaceAll(s, pat, rep) == [s[0]] + ReplaceAll(s[1..], pat, rep);
      CountConcat([s[0]], ReplaceAll(s[1..], pat, rep), c);
      if Contains(s, pat) {
        assert !OccursAt(s, pat, 0);
        ContainsTail(s, pat);
      }
    }
  }

  /** `a` can be obtained from `b` by deleting characters. */
  predicate IsSubsequence(a: string, b: string)
    decreases |b|
  {
    a == [] || (b != [] && ((a[0] == b[0] && IsSubsequence(a[1..], b[1..])) || IsSubsequence(a, b[1..])))
  }

  lemma SubsequenceRefl(a: string)
    ensures IsSubsequence(a, a)
  {
    if a != [] {
      SubsequenceRefl(a[1..]);
    }
  }

  lemma SubsequenceDropFront(a: string, b: string, k: nat)
    requires k <= |b|
    requires IsSubsequence(a, b[k..])
    ensures IsSubsequence(a, b)
    decreases k
  {
    if k > 0 {
      assert b[1..][k - 1..] == b[k..];
      SubsequenceDropFront(a, b[1..], k - 1);
    }
  }

  /** Subsequences compose under concatenation. */
  lemma {:induction false} SubsequenceConcat(a1: string, b1: string, a2: string, b2: string)
    requires IsSubsequence(a1, b1) && IsSubsequence(a2, b2)
    ensures IsSubsequence(a1 + a2, b1 + b2)
    decreases |b1|
  {
    if a1 == [] {
      assert a1 + a2 == a2;
      SubsequenceDropFront(a2, b1 + b2, |b1|);
      assert (b1 + b2)[|b1|..] == b2;
    } else if a1[0] == b1[0] && IsSubsequence(a1[1..], b1[1..]) {
      SubsequenceConcat(a1[1..], b1[1..], a2, b2);
      assert (a1 + a2)[1..] == a1[1..] + a2;
      assert (b1 + b2)[1..] == b1[1..] + b2;
    } else {
      SubsequenceConcat(a1, b1[1..], a2, b2);
      assert (b1 + b2)[1..] == b1[1..] + b2;
    }
  }

  /** A prefix kept or dropped, before a subsequence of the rest. */
  lemma SubsequenceStep(s: string, n: nat, keep: bool, tail: string)
    requires n <= |s| && IsSubsequence(tail, s[n..])
    ensures IsSubsequence((if keep then s[..n] else []) + tail, s)
  {
    var head, rest := s[..n], s[n..];
    assert head + rest == s;
    if keep {
      SubsequenceRefl(head);
      SubsequenceConcat(head, head, tail, rest);
    } else {
      SubsequenceConcat([], head, tail, rest);
      assert [] + tail == tail;
    }
  }

  /** A subsequence is never longer. */
  lemma SubsequenceLength(a: string, b: string)
    requires IsSubsequence(a, b)
    ensures |a| <= |b|
    decreases |b|
  {
    if a != [] {
      if a[0] == b[0] && IsSubsequence(a[1..], b[1..]) {
        SubsequenceLength(a[1..], b[1..]);
      } else {
        SubsequenceLength(a, b[1..]);
      }
    }
  }

  /** The characters of `s` that are not control characters, in order. */
  function DropControl(s: string): (r: string)
    ensures forall i :: 0 <= i < |r| ==> !IsControl(r[i])
    ensures IsSubsequence(r, s)
    ensures (forall i :: 0 <= i < |s| ==> !IsControl(s[i])) ==> r == s
  {
    if s == [] then []
    else
      var rest := DropControl(s[1..]);
      assert IsSubsequence(rest, s[1..]);
      if IsControl(s[0]) then
        SubsequenceDropFront(rest, s, 1);
        rest
      else
        assert ([s[0]] + rest)[1..] == rest;
        [s[0]] + rest
  }

  /** Dropping control characters keeps every other character as often as it occurred. */
  lemma {:induction false} DropControlCount(s: string, c: char)
    requires !IsControl(c)
    ensures Count(DropControl(s), c) == Count(s, c)
    decreases |s|
  {
    if s != [] {
      DropControlCount(s[1..], c);
      if !IsControl(s[0]) {
        CountConcat([s[0]], DropControl(s[1..]), c);
      }
    }
  }

  /** No character of `s` is one `p` selects. */
  predicate Avoids(s: string, p: char -> bool) {
    forall i :: 0 <= i < |s| ==> !p(s[i])
  }

  /** A text without control characters. */
  predicate Printable(s: string) {
    Avoids(s, IsControl)
  }

  /** A text that occurs in a text avoiding `p` avoids it too. */
  lemma AvoidsOccurs(s: string, t: string, i: nat, p: char -> bool)
    requires Avoids(s, p) && OccursAt(s, t, i)
    ensures Avoids(t, p)
  {
    forall k | 0 <= k < |t| ensures !p(t[k]) {
      assert t[k] == s[i..][k] == s[i + k];
    }
  }

  lemma AvoidsConcat(a: string, b: string, p: char -> bool)
    requires Avoids(a, p) && Avoids(b, p)
    ensures Avoids(a + b, p)
  {
    forall k | 0 <= k < |a + b| ensures !p((a + b)[k]) {
      if k >= |a| { assert (a + b)[k] == b[k - |a|]; }
    }
  }

  /** Replacing by a text that avoids `p` keeps a text that avoids `p` clear of it. */
  lemma {:induction false} ReplaceAllAvoids(s: string, pat: string, rep: string, p: char -> bool)
    requires |pat| > 0 && Avoids(s, p) && Avoids(rep, p)
    ensures Avoids(ReplaceAll(s, pat, rep), p)
    decreases |s|
  {
    if |s| < |pat| {
    } else if pat <= s {
      assert Avoids(s[|pat|..], p) by { AvoidsOccurs(s, s[|pat|..], |pat|, p); }
      ReplaceAllAvoids(s[|pat|..], pat, rep, p);
      AvoidsConcat(rep, ReplaceAll(s[|pat|..], pat, rep), p);
    } else {
      assert Avoids(s[1..], p) by { AvoidsOccurs(s, s[1..], 1, p); }
      assert Avoids([s[0]], p);
      ReplaceAllAvoids(s[1..], pat, rep, p);
      AvoidsConcat([s[0]], ReplaceAll(s[1..], pat, rep), p);
    }
  }

  /** Replacing a text by itself changes nothing. */
  lemma {:induction false} ReplaceAllSame(s: string, pat: string)
    requires |pat| > 0
    ensures ReplaceAll(s, pat, pat) == s
    decreases |s|
  {
    if |s| < |pat| {
    } else if pat <= s {
      ReplaceAllSame(s[|pat|..], pat);
      assert s == pat + s[|pat|..];
    } else {
      ReplaceAllSame(s[1..], pat);
      assert s == [s[0]] + s[1..];
    }
  }

  /**
   * The last character of a replacement comes from the text or from the
   * replacement text, so it is not `x` when neither of those ends with `x`.
   */
  lemma {:induction false} ReplaceAllLast(s: string, pat: string, rep: string, x: char)
    requires |pat| > 0 && |rep| > 0 && rep[|rep| - 1] != x
    requires s == [] || s[|s| - 1] != x
    ensures ReplaceAll(s, pat, rep) == [] || ReplaceAll(s, pat, rep)[|ReplaceAll(s, pat, rep)| - 1] != x
    decreases |s|
  {
    if |s| < |pat| {
    } else if pat <= s {
      var rest := s[|pat|..];
      if rest != [] { assert rest[|rest| - 1] == s[|s| - 1]; }
      ReplaceAllLast(rest, pat, rep, x);
      var rr := ReplaceAll(rest, pat, rep);
      if rr != [] { assert (rep + rr)[|rep + rr| - 1] == rr[|rr| - 1]; }
    } else {
      var rest := s[1..];
      if rest != [] { assert rest[|rest| - 1] == s[|s| - 1]; }
      ReplaceAllLast(rest, pat, rep, x);
      var rr := ReplaceAll(rest, pat, rep);
      if rr != [] { assert ([s[0]] + rr)[|[s[0]] + rr| - 1] == rr[|rr| - 1]; }
      else { assert rest == [] || |rest| < |pat|; }
    }
  }

  /** `s` with a backslash put before each character `p` selects. */
  function Escape(s: string, p: char -> bool): (r: string)
    ensures |r| >= |s|
  {
    if s == [] then [] else (if p(s[0]) then ['\\', s[0]] else [s[0]]) + Escape(s[1..], p)
  }

  /** Drops the backslash before each character `p` selects. */
  function Unescape(s: string, p: char -> bool): string
    decreases |s|
  {
    if s == [] then []
    else if |s| >= 2 && s[0] == '\\' && p(s[1]) then [s[1]] + Unescape(s[2..], p)
    else [s[0]] + Unescape(s[1..], p)
  }

  /** An escaped text never starts with a selected character when the backslash itself is not selected. */
  lemma EscapeHead(s: string, p: char -> bool)
    requires s != [] && !p('\\')
    ensures Escape(s, p) != [] && !p(Escape(s, p)[0])
  {
  }

  /** Escaping loses nothing: dropping the added backslashes gives the text back. */
  lemma {:induction false} UnescapeEscape(s: string, p: char -> bool)
    requires !p('\\')
    ensures Unescape(Escape(s, p), p) == s
    decreases |s|
  {
    if s != [] {
      var tail := Escape(s[1..], p);
      UnescapeEscape(s[1..], p);
      if p(s[0]) {
        assert Escape(s, p) == ['\\', s[0]] + tail;
        assert (['\\', s[0]] + tail)[2..] == tail;
      } else {
        assert Escape(s, p) == [s[0]] + tail;
        assert ([s[0]] + tail)[1..] == tail;
        if tail != [] {
          EscapeHead(s[1..], p);
        }
      }
    }
  }

  /** A text without selected characters is its own escape. */
  lemma {:induction false} EscapePlain(s: string, p: char -> bool)
    requires forall i :: 0 <= i < |s| ==> !p(s[i])
    ensures Escape(s, p) == s
  {
    if s != [] {
      EscapePlain(s[1..], p);
    }
  }

  /** A text with a selected character grows. */
  lemma {:induction false} EscapeGrows(s: string, p: char -> bool, i: nat)
    requires i < |s| && p(s[i])
    ensures |Escape(s, p)| > |s|
  {
    if i > 0 {
      EscapeGrows(s[1..], p, i - 1);
    }
  }

  /** Escaping adds backslashes only, so any other character occurs as often as before. */
  lemma {:induction false} EscapeCount(s: string, p: char -> bool, c: char)
    requires c != '\\'
    ensures Count(Escape(s, p), c) == Count(s, c)
  {
    if s != [] {
      EscapeCount(s[1..], p, c);
      var head: string := if p(s[0]) then ['\\', s[0]] else [s[0]];
      CountConcat(head, Escape(s[1..], p), c);
      assert Count(head, c) == Count([s[0]], c) by {
        if p(s[0]) {
          assert head[1..] == [s[0]];
        }
      }
    }
  }

  /** Concatenation regroups freely. */
  lemma AppendAssoc(a: string, b: string, c: string)
    ensures a + (b + c) == (a + b) + c
  {
  }

  /** A slice of a suffix is the shifted slice of the whole. */
  lemma SliceShift(s: string, a: nat, r: string, i: nat, j: nat)
    requires a <= |s| && s[a..] == r && i <= j <= |r|
    ensures s[a + i..a + j] == r[i..j]
  {
    forall k | 0 <= k < j - i ensures s[a + i..a + j][k] == r[i..j][k] {
      assert s[a..][i + k] == s[a + i + k];
    }
  }

  /** A prefix is a shorter prefix followed by the next stretch. */
  lemma TakeSplit(s: string, i: nat, n: nat)
    requires i + n <= |s|
    ensures s[..i] + s[i..][..n] == s[..i + n]
    ensures s[i..][n..] == s[i + n..]
  {
    assert s[..i] + s[i..][..n] == s[..i + n];
  }
}

=== FILE: wrappers.dfy ===
/** Failure-carrying results used throughout the model. */
module Wrappers {

  /** A value that may be absent: Python's `None`. */
  datatype Option<+T> = None | Some(value: T)

  /** Why an operation of the source raises instead of returning. */
  datatype Error =
    | UnsupportedSymbol      // ValueError('Supported symbols:"$" and "$$"')
    | NoCurrentFrame         // IndexError on dl_open[newEnv] / pop(newEnv) with an empty stack
    | NotConverged           // recursive_expansion exceeded its recursion budget

  /** A value or the error the source raises. */
  datatype Result<+T> = Ok(value: T) | Err(error: Error)
}
